=== FILE: README.md ===
# LumiBot core, modelled in Dafny

LumiBot is a Discord bot for the Aliucord and Kettu plugin communities. It
browses plugin and theme catalogs, keeps per-channel sticky messages,
answers with autoresponders, posts scheduled "minky" images, dehoists
member names and collects plugin reviews. Its source holds two generations
of most components: the older tree under `src/` and the newer one under
`src/src/`, plus the monolithic `index.js`. This project models the logic of
both generations as pure Dafny functions over immutable data. The
platform, the store, the clock and the random source become parameters.

The heart of the model is the sticky-message subsystem:

- `StickyCore` holds what both managers share: the registry of configured
  channels loaded from store rows, the cooldown gate, the body with its
  warning, and the delete-old, send-new, remember-id, persist cycle of a
  repost.
- `StickyManager` is the current manager. Its `setSticky` returns
  `{ ok, error }`, and its `disableSticky` drops the entry whatever the
  store says.
- `LegacyStickyManager` is the older one. It keeps a concrete table next
  to the registry, with the upsert that keeps `last_message_id`, and
  proves the two stay in agreement.
- `StickyCommand` is the `sticky` command, in its slash form and its
  `!sticky` form. It is wired to the legacy manager, as the command file
  imports it, and answers as written: an add is reported as failed even
  when the sticky was stored (see Findings, where `SetReply` is the
  corrected reply).

Around that core sit the other modules:

- the interval parser and the minky schedule (`Interval`);
- autoresponders and the table rows that store them (`Responders`), and the order of the message hook
  (`MessageDispatch`);
- the `!` prefix parser (`PrefixParser`);
- the persisted bot status (`BotStatus`);
- the plugin, theme, review, random-plugin and statistics browsers, with
  their shared paging (`Catalog`, `Plugins`, `PluginsLegacy`, `Themes`,
  `Reviews`, `RandomPlugin`, `PluginStats`);
- the Kettu copy buttons (`PluginCopy`) and button routing
  (`ButtonRouting`);
- plugin URL normalisation (`PluginUrls`) and Codeberg links (`Codeberg`);
- the install context menu (`InstallContext`);
- dehoisting (`Dehoist`), the server table (`ServerConfig`) and the
  migration runner (`Migrations`).

`Base64`, `Utf8`, `Text` and `Wrappers` model the JavaScript primitives the
rest rely on.

Notes on the code's behaviour:

- `lastSentMs = 0` stands for never sent, so a message fires when
  `now - lastSentMs >= cooldownMs`. `StickyCore.ShouldFire` is that test.
- The current `disableSticky` drops the registry entry even when the
  store reports that nothing was deleted. The registry does not always
  mirror the store.
- Neither manager checks that the content is non-empty. Nor does either
  check that the guild id is set: the id write falls back to the channel
  alone.
- `parseInterval` in `index.js:119-133` is the same function as the one
  in `src/src/utils/helpers.js`, so `Interval` models it once.
- The `-a` flag of the theme command splits its arguments the same way
  as the plugin command, so `Catalog.ParseSearchArgs` models both.
- The theme browser's `buildPaginationRow` (src/commands/themes.js:323-342)
  builds the same Previous/Next row as the plugin browser under the kind
  `themes`, so `Catalog.NavRow` models both.
- `setstatus` saves through `src/src/utils/database.js`, which is not
  part of this model. `BotStatus` assumes that module stores the status
  with the `activity|message` codec of `src/utils/database.js:127-155`.
- The sticky command imports `src/utils/prefixParser.js`. That file is
  not part of this model, so channel lookup uses the `findChannel` of
  `src/src/utils/prefixParser.js`.

## Model

| member | source | states |
|---|---|---|
| Base64.Encode | src/src/commands/plugins.js:142 | `Buffer.toString('base64')` yields four characters per started group of three bytes |
| Base64.DecodeEncode | src/src/commands/plugins.js:140-149 | strict padded decoding gives back exactly the bytes that were encoded |
| Base64.StripPadding | src/src/commands/plugins.js:142 | `.replace(/=/g, '')` leaves no `=` and never lengthens the text |
| Base64.Repad | src/src/commands/plugins.js:147 | the padded text is a whole number of four-character groups |
| Base64.RepadStripped | src/src/commands/plugins.js:142-147 | restoring the padding of a stripped encoding gives the padded encoding back, and the stripped text is all alphabet characters |
| Base64.UnpaddedRoundTrip | src/src/commands/plugins.js:140-149 | the unpadded encoding decodes back to the bytes once repadded |
| Base64.EncodeFilter | src/src/commands/plugins.js:140-143 | the encoded filter is empty exactly for the empty filter and never holds `=` or the id separator `_` |
| Base64.DecodeFilter | src/src/commands/plugins.js:145-149 | an empty id field is no filter; anything else is decoded after repadding |
| Base64.FilterRoundTrip | src/src/commands/plugins.js:140-149 | every filter survives the trip through a custom id; the empty one comes back as no filter |
| Utf8.EncodeChar | src/src/commands/plugins.js:142 | `Buffer.from(str)` spends one to four bytes on a character |
| Utf8.DecodeChar | src/src/commands/plugins.js:148 | one character's bytes form a well-formed sequence of the announced length whose value is the character, whatever follows |
| Utf8.DecodeEncode | src/src/commands/plugins.js:142-148 | `toString('utf8')` of `Buffer.from(str)` is `str` for every string |
| Utf8.EncodeText | src/src/commands/plugins.js:140-143 | a text filter encodes to the empty string exactly when it is empty, and never to text holding `_` or `=` |
| Utf8.DecodeText | src/src/commands/plugins.js:145-149 | an empty field decodes to no filter |
| Utf8.EncodeSequence | src/src/commands/plugins.js:148 | a well-formed shortest sequence is exactly the encoding of the value it carries |
| Utf8.EncodeDecode | src/src/commands/plugins.js:142-148 | bytes that decode to a string are exactly that string's encoding, so overlong or otherwise non-canonical bytes never decode |
| Utf8.OverlongRefused | src/src/commands/plugins.js:148 | overlong forms of `/` such as `C0 AF` do not decode |
| Utf8.TextRoundTrip | src/src/commands/plugins.js:140-149 | every search or author text comes back from a button id unchanged; the empty one comes back as no filter |
| Text.ParseIntOfNat | src/src/commands/plugins.js:211 | `parseInt` reads back the decimal page number written into a button id |
| Catalog.TotalPages | src/src/commands/plugins.js:215 | `Math.ceil(n / 5)`: the fewest pages of five that hold `n` items |
| Catalog.PageSlice | src/src/commands/plugins.js:220-221 | page `p` is the run of at most five items starting at item `5p`, non-empty exactly for `p` below the page count |
| Catalog.ItemOnItsPage | src/src/commands/plugins.js:220-221 | every item is shown on page `i / 5` at position `i % 5` |
| Catalog.PagesCoverList | src/src/commands/plugins.js:215-221 | the pages, in order, are the whole list: nothing is lost or shown twice |
| Catalog.ViewPage | src/src/commands/plugins.js:215-221 | "Invalid page." exactly for a number below 0 or not below the page count; a shown page holds one to five items; `NaN` passes the check and shows nothing |
| Catalog.ShownFromList | src/src/commands/plugins.js:220-221 | a page shows only items of the list it pages through |
| Catalog.PageOf | src/src/commands/plugins.js:211 | the page is `NaN` exactly when `parseInt` finds no number |
| Catalog.OrEmpty | src/src/commands/plugins.js:153-154 | the filter text defaults to `''`, which is empty exactly when the filter is absent or empty |
| Catalog.Nav | src/src/commands/plugins.js:156-166 | Previous is disabled exactly on the first page, Next exactly on the last |
| Catalog.NavigationStaysInRange | src/src/commands/plugins.js:156-166 | from a shown page an enabled button leads to a page that is shown again; a single page disables both buttons |
| Catalog.Filter | src/src/commands/plugins.js:111-121 | `filter` keeps exactly the elements passing the test, in their order, each as many times as it occurs |
| Catalog.FilterTwice | src/src/commands/plugins.js:106-124 | filtering twice keeps what passes both tests |
| Catalog.FindFirst | src/src/commands/plugins.js:362-365 | `indexOf` / `findIndex`: the first index passing the test, or none when no element does |
| Catalog.JoinedOrNone | src/src/commands/plugins.js:367-374 | joined words trimmed, null exactly when nothing but whitespace is left |
| Catalog.ParseSearchArgs | src/src/commands/plugins.js:359-375 | a line without `-a` is all search and has no author; an author is only ever read after `-a` |
| Catalog.ParseSearchArgsRoundTrip | src/src/commands/plugins.js:362-372 | search words, `-a`, author words and then the end or a word starting with `-` read back as exactly that search and that author, whatever follows |
| Catalog.ParseSearchArgsWords | src/src/commands/plugins.js:362-372 | no word of the search is `-a`; the author words contain no word starting with `-` and stop at the end of the line or at such a word; the parse joins exactly those two runs |
| Catalog.SortedDistinct | src/src/commands/plugins.js:259 | `Array.from(new Set(xs)).sort()` holds each string of `xs` once, in strictly increasing order |
| Catalog.SortedUnique | src/src/commands/plugins.js:259 | a strictly sorted list is determined by its elements |
| Catalog.DistinctIgnoresOrder | src/src/commands/plugins.js:252-260 | the sorted distinct list does not depend on the order of its input |
| Catalog.Escape | src/src/commands/plugins.js:127-129 | a backslash goes before every special character; other characters are kept |
| Catalog.EscapeRoundTrip | src/src/commands/plugins.js:127-129 | reading the escapes back gives the original text |
| Catalog.EscapedSpecials | src/src/commands/plugins.js:127-129 | every special character of the output is preceded by a backslash |
| Plugins.Or | src/src/commands/plugins.js:81-85 | a field with a default is the field when it is a non-empty string, otherwise the default |
| Plugins.ToPlugin | src/src/commands/plugins.js:76-86 | a listed entry keeps its name, gets its URL normalised, a non-empty description, and its authors joined by `, ` or `Unknown` |
| Plugins.FromManifest | src/src/commands/plugins.js:72-89 | the plugin list is the entries with a name and a URL, converted, in manifest order |
| Plugins.ManifestFieldsPresent | src/src/commands/plugins.js:76-86 | every listed plugin has a name, a URL and a description |
| Plugins.FilterPlugins | src/src/commands/plugins.js:106-125 | the kept plugins, in order, are exactly those matching the author and the search case-insensitively, each kept as often as it occurs; without filters the list is unchanged |
| Plugins.FilterPluginsIsKept | src/src/commands/plugins.js:106-125 | the two filter stages equal one filter by the combined test |
| Plugins.EscapeMarkdown | src/src/commands/plugins.js:127-129 | Markdown reads the escaped description back as the original, and every special character in it is escaped |
| Catalog.NavRow | src/src/commands/plugins.js:151-168 | the navigation row carries page and both filters in its ids; Previous is disabled exactly on the first page and Next exactly on the last |
| Text.Utf16Length | src/src/commands/plugins.js:180 | `length` counts UTF-16 code units: never fewer than the characters, and as many when none lies above U+FFFF |
| Text.Utf16Cut | src/src/commands/plugins.js:180 | `substring(0, n)` keeps the longest run of leading characters whose code units fit in `n`, and all of them exactly when the whole string fits |
| Text.Utf16CutOfBmp | src/src/commands/plugins.js:180 | without characters above U+FFFF the cut keeps exactly `n` characters, or all when there are fewer |
| Plugins.CopyLabel | src/src/commands/plugins.js:180 | a name of at most twelve UTF-16 units is shown whole; a longer one is cut to the longest prefix that fits in twelve units and followed by `...` |
| Plugins.CopyLabelOfBmp | src/src/commands/plugins.js:180 | a name without characters above U+FFFF shows its first twelve characters and `...` exactly when it has more than twelve |
| Plugins.CopyButtons | src/src/commands/plugins.js:176-182 | one enabled copy button per plugin whose URL does not end in `.zip`, and no other |
| Plugins.CopyRows | src/src/commands/plugins.js:175-194 | the rows hold all copy buttons in order, five to a row except the last, and no empty row |
| Plugins.PaginationRows | src/src/commands/plugins.js:151-200 | the navigation row comes first; only on Kettu with plugins on the page do copy rows follow, holding exactly the copy buttons |
| Plugins.HandleButton | src/src/commands/plugins.js:202-221 | the page read from the button moves by one for Next and back one for Previous; "Invalid page." exactly when that lands outside the filtered list's pages; otherwise its slice of one to five plugins, each from the list and passing both filters; an unreadable page field shows nothing |
| Plugins.AuthorNames | src/src/commands/plugins.js:254-258 | the names are exactly the trimmed `, `-separated names of the known authors fields |
| Plugins.UniqueAuthors | src/src/commands/plugins.js:252-260 | each author name once, strictly sorted |
| Plugins.UniqueAuthorsIgnoreOrder | src/src/commands/plugins.js:252-260 | reordering the plugins does not change the author list |
| PluginUrls.ReplaceRef | src/src/commands/plugins.js:39 | `replace(/@([^/]+)\//, ...)` leaves a URL without such a match unchanged |
| PluginUrls.RuleOf | src/src/commands/plugins.js:27-53 | the rule applied is the first, in the source's order, whose test the URL passes, and none exactly when it passes none of the four |
| PluginUrls.NormalizeUrl | src/src/commands/plugins.js:27-53 | a URL no rule fits is unchanged, and a non-empty URL stays non-empty |
| PluginUrls.JsDelivrRefsHeads | src/src/commands/plugins.js:29-33 | a jsDelivr `@refs/heads/<branch>` URL is rewritten to the GitHub raw URL of the same file |
| PluginUrls.JsDelivrBranch | src/src/commands/plugins.js:36-40 | a jsDelivr `@<branch>` URL is rewritten to the GitHub raw URL of the same file |
| PluginUrls.JsDelivrFormsAgree | src/src/commands/plugins.js:27-40 | both jsDelivr forms of a file normalise to the same URL |
| PluginUrls.GitHubRefsHeads | src/src/commands/plugins.js:42-45 | a GitHub `/raw/refs/heads/<branch>` URL is rewritten to the GitHub raw URL of the same file |
| PluginUrls.RawRefsHeadsRule | src/src/commands/plugins.js:47-50 | a `raw.githubusercontent.com` URL with `/refs/heads/<branch>` loses the `refs/heads/` part and nothing else |
| PluginUrls.GitHubAndJsDelivrAgree | src/src/commands/plugins.js:27-45 | the GitHub `/raw/refs/heads/` form and the jsDelivr `@<branch>` form of a file normalise to the same URL |
| PluginsLegacy.FilterPlugins | src/commands/plugins.js:103-112 | without a search the list is unchanged; with one, the kept plugins in order are exactly those whose name, description or authors mention it case-insensitively, each kept as often as it occurs |
| PluginsLegacy.NewerSearchIsNarrower | src/commands/plugins.js:103-112 | the newer command's search by name or description finds a subset of what the older search by name, description or authors finds |
| PluginsLegacy.NavId | src/commands/plugins.js:131-137 | the button id ends in `_1` exactly when a search is shown, otherwise in `_0` |
| PluginsLegacy.NavRow | src/commands/plugins.js:127-144 | Previous is disabled exactly on the first page, Next exactly on the last |
| PluginsLegacy.UntilQuote | src/commands/plugins.js:148 | the text up to the first `"`, which holds no `"` |
| PluginsLegacy.SearchFromContent | src/commands/plugins.js:148 | the search read back from the message is non-empty and holds no `"` |
| PluginsLegacy.HeaderRoundTrip | src/commands/plugins.js:148-167 | a search without `"` is read back exactly from the header the page was drawn with |
| PluginsLegacy.HandleButton | src/commands/plugins.js:146-162 | without the search flag the whole list is paged; with it, the list filtered by the search read from the message |
| PluginsLegacy.NextKeepsSearch | src/commands/plugins.js:146-167 | Next on a page of search results shows the next page of the same results |
| Stars.FormatStars | src/src/commands/plugin-reviews.js:16-18 | a rating 0 to 5 gives five stars, the first `rating` of them filled; any other rating makes `repeat` throw, so there is no star string |
| Stars.StarsRoundTrip | src/src/commands/plugin-reviews.js:16-18 | counting the filled stars gives the rating back |
| Stars.Round | src/src/commands/plugin-reviews.js:59 | `Math.round` is the nearest integer, halves rounded up |
| Stars.AverageStars | src/src/commands/plugin-reviews.js:59 | an average is drawn exactly when it rounds into 0 to 5, with as many filled stars as it rounds to |
| Reviews.EncodeIdentifier | src/src/commands/plugin-reviews.js:7-9 | the encoded identifier never holds the id separator `_` or `=`, and is empty exactly for the empty identifier |
| Reviews.DecodeIdentifier | src/src/commands/plugin-reviews.js:11-14 | an empty field decodes to the empty identifier |
| Reviews.IdentifierRoundTrip | src/src/commands/plugin-reviews.js:7-14 | every identifier, the empty one included, survives the button id |
| Reviews.TotalPages | src/src/commands/plugin-reviews.js:65 | at least one page, and the fewest pages of five that hold the reviews |
| Reviews.TotalPagesAgree | src/src/commands/plugin-reviews.js:65 | apart from the empty list the page count is the plugin catalog's; an empty list has one page more |
| Reviews.NavRow | src/src/commands/plugin-reviews.js:25-43 | the ids carry action, page, type, encoded identifier and sort; Previous is disabled exactly on page 0 and Next exactly on the last page |
| Reviews.ShowPage | src/src/commands/plugin-reviews.js:65-93 | "Invalid page." exactly for a number outside the pages; a shown page holds its slice of at most five reviews, and the buttons appear exactly when there is more than one page |
| Reviews.FirstPageExists | src/src/commands/plugin-reviews.js:150-153 | page 0 is always shown, empty when there are no reviews |
| Reviews.HandleButton | src/src/commands/plugin-reviews.js:45-71 | the identifier is decoded and the same list fetched again; the page moves by the action, "Invalid page." exactly outside the list's pages, otherwise its slice of reviews from that list, with buttons carrying the decoded identifier exactly when there is more than one page; an unreadable page field lists nothing |
| Reviews.ButtonMovesOnePage | src/src/commands/plugin-reviews.js:25-71 | the fields a Next or Previous button carries bring back the same list, one page further or back |
| Reviews.FindPlugin | src/src/commands/plugin-reviews.js:129 | the first plugin whose name equals the asked name ignoring case, or none when no name does |
| Reviews.FindPluginIgnoresCase | src/src/commands/plugin-reviews.js:129 | the lookup does not depend on how the name is capitalised |
| Reviews.Execute | src/src/commands/plugin-reviews.js:118-153 | a named plugin that is not found is reported; otherwise page 0 of that plugin's reviews in the chosen order, by date by default, or of the caller's own reviews |
| Reviews.ListFirst | src/src/commands/plugin-reviews.js:209-226 | the first five reviews are listed, and the count of the rest is non-zero exactly when there are more than five |
| Reviews.ExecutePrefix | src/src/commands/plugin-reviews.js:184-226 | the joined words name the plugin; an unknown name is reported, no name lists the caller's reviews, a known one its reviews by date |
| Rating.ReviewWord | src/src/commands/rate-plugin.js:66 | the word is `review` exactly for a count of one, `reviews` otherwise |
| Rating.ParseRateArgs | src/src/commands/rate-plugin.js:75-86 | fewer than two space-separated parts is the usage reply; a second part `parseInt` does not read as 1 to 5 is the rating reply; otherwise name, rating and the rest joined as the review, null when blank |
| Rating.RateLineSplits | src/src/commands/rate-plugin.js:75 | a line typed as name, rating and review words splits back into those words |
| Rating.RateArgsOfParts | src/src/commands/rate-plugin.js:80-86 | a line whose second word reads as a rating 1 to 5 gives its name, rating and review |
| Rating.RateArgsRoundTrip | src/src/commands/rate-plugin.js:75-86 | a name without spaces, a rating 1 to 5 and review words come back from the line they were typed as |
| Rating.Confirm | src/src/commands/rate-plugin.js:95-108 | a failed save is reported as such; a successful one shows the plugin, the rating's stars, the review and the pluralised count |
| Rating.RatePrefix | src/src/commands/rate-plugin.js:74-99 | the usage and rating errors come from the arguments alone; a saved review has a rating 1 to 5; "not found" exactly for valid arguments naming no plugin |
| Rating.ValidationBeforeLookup | src/src/commands/rate-plugin.js:84-89 | a bad rating is refused whatever the plugin list and the store |
| Rating.RateSlash | src/src/commands/rate-plugin.js:34-66 | "not found" exactly when no plugin has the name ignoring case; otherwise the review is saved under the plugin's own name |
| Rating.Remove | src/src/commands/remove-review.js:18-43 | a missing id is "not found"; a review by someone else is refused unless the caller is an admin; otherwise it is deleted when the store succeeds, and only then |
| Rating.RemoveTakesOnlyOwnOrAdmin | src/src/commands/remove-review.js:18-41 | a removal takes away at most the review asked for, changes no other review, and only for its author or an admin |
| Rating.RemovePrefix | src/src/commands/remove-review.js:59-82 | no argument is the usage reply; an id `parseInt` cannot read is refused without touching the store; otherwise as the slash command |
| RandomPlugin.CeilSeconds | src/commands/random-plugin.js:98 | the seconds named are the least whole number of seconds covering the remaining milliseconds |
| RandomPlugin.RemainingInRange | src/commands/random-plugin.js:96-98 | while the cooldown holds, the reply names between 1 and 20 seconds |
| RandomPlugin.NavRow | src/commands/random-plugin.js:31-48 | two buttons; Previous is disabled exactly on page 0 and Next exactly on the last page |
| RandomPlugin.FirstRowDisabled | src/commands/random-plugin.js:127 | the first suggestion, page 0 of 1, has both buttons disabled |
| RandomPlugin.Suggestion0 | src/commands/random-plugin.js:116-125 | the suggestion is one of the fetched plugins, with the install hint exactly in the supported channels |
| RandomPlugin.Request | src/commands/random-plugin.js:91-145 | refused with the remaining seconds and no change exactly during the cooldown; otherwise the time is recorded before fetching, a failed fetch and an empty list get their own replies, and a suggestion is one of the fetched plugins |
| RandomPlugin.FailedFetchConsumesCooldown | src/commands/random-plugin.js:105-111 | a request whose fetch fails still starts the cooldown, so a second one within twenty seconds is refused |
| RandomPlugin.CooldownExpires | src/commands/random-plugin.js:94-105 | twenty seconds after an accepted request the same user may ask again, and no other user's cooldown changes |
| RandomPlugin.PressButton | src/commands/random-plugin.js:50-84 | nothing is shown exactly when no plugins are fetched; otherwise a fetched plugin on the page the button named, with Previous disabled exactly on page 0 |
| PluginCopy.HandleCopy | src/src/commands/plugins.js:456-471 | "not found" exactly for an index outside the whole plugin list; otherwise the URL of the plugin at that index of the whole list |
| PluginCopy.AsWrittenCopiesWrongPlugin | src/src/commands/plugins.js:176-179 | on page 2 of an unfiltered list the first copy button is numbered 0 and copies the first plugin of page 1, not the one shown |
| PluginCopy.TargetsFrom | src/src/commands/plugins.js:176-179 | each target is a plugin of the list together with its own index in it |
| PluginCopy.TargetsAreFiltered | src/src/commands/plugins.js:106-125 | the targets' plugins are the filtered list, in order |
| PluginCopy.Targets | src/src/commands/plugins.js:106-125 | one target per filtered plugin, in order, each carrying its index in the whole list |
| PluginCopy.CorrectedRows | src/src/commands/plugins.js:151-200 | the navigation row first; on Kettu with plugins on the page, copy buttons numbered by the whole-list index in rows of one to five |
| PluginCopy.PageSliceAt | src/src/commands/plugins.js:176 | position k of a page is element 5 times the page plus k of the list |
| PluginCopy.TargetPageAligned | src/src/commands/plugins.js:176-179 | each position of a page of targets stands for the same position of the page of filtered plugins |
| PluginCopy.AlignedAt | src/src/commands/plugins.js:176-179 | the same alignment for any list and its numbered targets |
| PluginCopy.CorrectedCopiesShownPlugin | src/src/commands/plugins.js:467 | with the corrected numbering every shown plugin's copy button copies that plugin's URL, on every page and with any filters |
| Themes.ToTheme | src/commands/themes.js:214-223 | a listed entry keeps its name and URL; its author is its own when present and "Unknown" otherwise, so never empty |
| Themes.FromEntries | src/commands/themes.js:212-226 | entries lacking a name or a URL are dropped and the others become themes in their order |
| Themes.FilterThemes | src/commands/themes.js:244-262 | an order-preserving subsequence holding exactly the themes whose author contains the author filter and whose name contains the search, ignoring case, each as often as it occurs; no filters keep everything |
| Themes.AuthorNarrows | src/commands/themes.js:247-252 | an author filter never adds a theme |
| Themes.EscapeChar | src/commands/themes.js:269 | escaping one character never shortens the text |
| Themes.EscapeCharAppend | src/commands/themes.js:269 | escaping one character works piece by piece |
| Themes.EscapeMarkdownLink | src/commands/themes.js:268-270 | reading the escapes back gives the original name |
| Themes.LinkEscapeIsEscape | src/commands/themes.js:268-270 | the two replace passes escape every `[` and `]` and nothing else |
| Themes.StripScheme | src/commands/themes.js:41 | a leading `https://` or `http://` is removed; other text is kept |
| Themes.StripSlash | src/commands/themes.js:42 | one trailing slash is removed, and nothing else |
| Themes.MatchKey | src/commands/themes.js:40-42 | the key has no upper-case letter |
| Themes.MatchKeyIgnoresCase | src/commands/themes.js:40-42 | upper- and lower-case spellings of a URL get the same key |
| Themes.LowerAppend | src/commands/themes.js:40 | lowering works piece by piece |
| Themes.HttpsStripped | src/commands/themes.js:40-41 | after lowering, `https://` is removed from the front |
| Themes.HttpStripped | src/commands/themes.js:40-41 | after lowering, `http://` is removed from the front |
| Themes.MatchKeyIgnoresScheme | src/commands/themes.js:40-42 | an address behind `http://` and behind `https://` gets the same key |
| Themes.MatchKeyIgnoresTrailingSlash | src/commands/themes.js:40-42 | an address with and without a trailing slash gets the same key |
| Themes.HttpsKey | src/commands/themes.js:40-42 | the key of an `https://` address is the rest, lowered, without a trailing slash |
| Themes.LowerSlash | src/commands/themes.js:40 | lowering keeps a trailing slash and does not make one |
| Themes.SlashStripped | src/commands/themes.js:42 | removing the slash after text that does not end in one gives back that text |
| Themes.HandleButton | src/commands/themes.js:344-362 | the button moves one page through the filtered themes; a shown page holds one to five themes, each from the list and passing both filters |
| Themes.KnownAuthorNames | src/commands/themes.js:392-396 | exactly the trimmed authors of themes whose author is neither empty nor "Unknown" |
| Themes.UniqueAuthors | src/commands/themes.js:390-398 | the trimmed known authors, each once, in strictly increasing order |
| PluginStats.Keys | src/src/commands/plugin-stats.js:44 | the authors of the tally, entry by entry |
| PluginStats.Bump | src/src/commands/plugin-stats.js:40 | counting one more plugin keeps every author's place; an author seen for the first time is appended with a count of 1 |
| PluginStats.BumpSum | src/src/commands/plugin-stats.js:40 | counting one more plugin raises the total by exactly one |
| PluginStats.BumpLookup | src/src/commands/plugin-stats.js:40 | only the counted author's count changes, by one |
| PluginStats.BumpKeys | src/src/commands/plugin-stats.js:40 | the authors afterwards are the authors before plus the counted one |
| PluginStats.BumpKnownKey | src/src/commands/plugin-stats.js:40 | counting an author already present adds no entry |
| PluginStats.BumpNewKey | src/src/commands/plugin-stats.js:40 | counting a new author appends it last |
| PluginStats.BumpDistinct | src/src/commands/plugin-stats.js:40 | no author appears twice in the tally |
| PluginStats.TallyOf | src/src/commands/plugin-stats.js:37-42 | one entry per distinct known author, each holding that author's plugin count; the counts add up to the plugins with a known author |
| PluginStats.LookupEntry | src/src/commands/plugin-stats.js:37-42 | an entry's count is what looking its author up gives |
| PluginStats.TallyCounts | src/src/commands/plugin-stats.js:37-42 | every entry's count is the number of plugins by that author |
| PluginStats.DistinctCard | src/src/commands/plugin-stats.js:27-28 | a list without repeats has as many distinct elements as entries |
| PluginStats.UniqueAuthorsIsTallySize | src/src/commands/plugin-stats.js:27-42 | the number of unique authors shown equals the number of authors counted |
| PluginStats.ConsNonIncreasing | src/src/commands/plugin-stats.js:45 | an entry no smaller than the head of a descending tally may go in front |
| PluginStats.Insert | src/src/commands/plugin-stats.js:45 | inserting into a descending tally keeps it descending and adds one entry |
| PluginStats.InsertPermutes | src/src/commands/plugin-stats.js:45 | inserting adds exactly that entry, losing none |
| PluginStats.WithCount | src/src/commands/plugin-stats.js:45 | the run of entries with one count holds exactly the tally's entries with that count |
| PluginStats.InsertWithCount | src/src/commands/plugin-stats.js:45 | an inserted entry goes in front of every entry that ties with it and leaves other runs alone |
| PluginStats.SortByCount | src/src/commands/plugin-stats.js:44-45 | the sorted tally is a permutation of the tally with counts non-increasing, and authors with equal counts keep their tally order, as the stable `sort` keeps them |
| PluginStats.SortedByRunsUnique | src/src/commands/plugin-stats.js:44-45 | two non-increasing tallies with the same runs of equal counts are the same tally |
| PluginStats.StableSortIsSortByCount | src/src/commands/plugin-stats.js:44-45 | any non-increasing ordering that keeps tied authors in tally order is the sort's result, so ties at fifth place go to the author counted first |
| PluginStats.TopAuthors | src/src/commands/plugin-stats.js:44-46 | the first five entries of the stable sort (all of it when shorter), all from the tally, counts non-increasing |
| PluginStats.TopAuthorsAreTop | src/src/commands/plugin-stats.js:44-46 | no author left out of the top five has more plugins than one in it |
| PluginStats.TopText | src/src/commands/plugin-stats.js:47-48 | "No data" exactly when there are no top authors |
| PluginStats.JoinStartsWithFirst | src/src/commands/plugin-stats.js:47-48 | the joined lines start with the first line, so they are never empty when a line is |
| PluginStats.Compute | src/commands/plugin-stats.js:15-42 | nothing is computed exactly for an empty list; otherwise the total, the distinct known authors, the described plugins and the top five of the tally |
| PluginStats.Latest | src/commands/plugin-stats.js:45 | the names of the first five plugins, in manifest order |
| PluginStats.ReviewedStars | src/src/commands/plugin-stats.js:51-54 | each reviewed plugin keeps its name and count; its stars exist exactly when the rounded average lies in 0 to 5 |
| ButtonRouting.Field | src/src/events/interactionCreate.js:81 | the field at that position, or empty when the id has fewer fields |
| ButtonRouting.FieldOr | src/src/events/interactionCreate.js:82-84 | a missing or empty field takes the default; any other field is kept |
| ButtonRouting.IntOr0 | src/src/events/interactionCreate.js:57-58 | the number `parseInt` reads from the field, 0 when it reads none or the field is missing |
| ButtonRouting.DecodeFilter | src/src/commands/plugins.js:145-149 | no filter exactly for an empty field |
| ButtonRouting.FilterRoundTrip | src/src/commands/plugins.js:140-149 | a filter encoded into an id and decoded again is the same filter, an empty one reading as none |
| ButtonRouting.PrefixesExclusive | src/src/events/interactionCreate.js:53-235 | the routed prefixes exclude each other, except that a copy prefix also has its browser's prefix |
| ButtonRouting.PrefixOfPrefix | src/src/events/interactionCreate.js:53 | a prefix of a prefix of an id is a prefix of the id |
| ButtonRouting.Diverge | src/src/events/interactionCreate.js:53-178 | texts that differ at some position are not both prefixes of one id |
| ButtonRouting.RouteOf | src/src/events/interactionCreate.js:52-235 | the prefixes are tried in source order, so the copy prefixes win over their browsers; reviews get a non-empty kind and sort; install_android picks Aliucord exactly in its guild |
| ButtonRouting.NoUnderscoreInNumber | src/src/commands/plugins.js:157 | a page number written out holds no `_` |
| ButtonRouting.JoinHead | src/src/events/interactionCreate.js:80 | the first two fields of a join, each with its separator, begin it |
| ButtonRouting.Join4 | src/src/commands/plugins.js:157 | a four-field id is its fields with separators between them |
| ButtonRouting.NavIdSplits | src/src/events/interactionCreate.js:80-84 | a Previous or Next id splits on `_` into kind, action, page and the two encoded filters, because base64 has no `_` |
| ButtonRouting.RoutedNav | src/src/events/interactionCreate.js:77-87 | a browser id is routed with its second field as action and the next three, defaulted, as page and filters |
| ButtonRouting.NavHead | src/src/events/interactionCreate.js:53-77 | a Previous or Next id has its browser's prefix and not the copy one |
| ButtonRouting.NavIdShape | src/src/events/interactionCreate.js:77-84 | a browser id takes the browser's route and splits into the fields it was built from |
| ButtonRouting.NavFields | src/src/events/interactionCreate.js:80-84 | once split, a browser id's fields are the route's fields |
| ButtonRouting.PluginsNavRoundTrip | src/src/events/interactionCreate.js:77-87 | a plugins page id is routed to the plugins browser with the action, page and encoded filters it was built from |
| ButtonRouting.ThemesNavRoundTrip | src/src/events/interactionCreate.js:128-138 | a themes page id is routed to the themes browser with the fields it was built from |
| ButtonRouting.CopyRoundTrip | src/src/events/interactionCreate.js:53-61 | a copy id gives back its page and index |
| ButtonRouting.CopyIdSplits | src/src/events/interactionCreate.js:56 | a copy id has the copy prefix and splits into its four fields |
| ButtonRouting.RoutedCopy | src/src/events/interactionCreate.js:53-61 | a copy id is routed with its third and fourth fields read as numbers, 0 by default |
| ButtonRouting.ReviewsNavRoundTrip | src/src/events/interactionCreate.js:178-189 | a review id gives back action, page, kind, encoded identifier and sort when kind and sort are non-empty and free of `_` |
| ButtonRouting.ReviewsIdSplits | src/src/events/interactionCreate.js:181 | a review id has the reviews prefix and splits into its six fields |
| ButtonRouting.RoutedReviews | src/src/events/interactionCreate.js:178-189 | a review id is routed with its fields, kind defaulting to user and sort to date |
| ButtonRouting.JoinStarts | src/src/events/interactionCreate.js:157 | the first field of a join, with its separator, begins it |
| ButtonRouting.RandomNavRoundTrip | src/src/events/interactionCreate.js:154-162 | a random suggestion's button id gives back its action and page |
| ButtonRouting.RoutedRandom | src/src/events/interactionCreate.js:154-162 | a random id is routed with its second and third fields |
| ButtonRouting.PressPlugins | src/src/events/interactionCreate.js:77-87 | the plugins browser answers exactly the plugins page route |
| ButtonRouting.PressThemes | src/src/events/interactionCreate.js:128-138 | the themes browser answers exactly the themes page route |
| ButtonRouting.PressReviews | src/src/events/interactionCreate.js:178-189 | the review browser answers exactly the reviews route |
| ButtonRouting.PluginsFilterNormal | src/src/commands/plugins.js:106-125 | an empty filter and no filter select the same plugins |
| ButtonRouting.ThemesFilterNormal | src/commands/themes.js:244-262 | an empty filter and no filter select the same themes |
| ButtonRouting.PluginsButtonMovesOnePage | src/src/events/interactionCreate.js:77-87 | pressing Previous or Next on a plugins page shows the neighbouring page of the same filtered list |
| ButtonRouting.StepOfPage | src/src/commands/plugins.js:211-213 | the page a button carries, read back and moved, is one page on |
| ButtonRouting.ThemesButtonMovesOnePage | src/src/events/interactionCreate.js:128-138 | pressing Previous or Next on a themes page shows the neighbouring page of the same filtered list |
| ButtonRouting.ReviewsButtonMovesOnePage | src/src/events/interactionCreate.js:178-189 | pressing Previous or Next on a review page shows the neighbouring page of the same reviews |
| ButtonRouting.OnHandlerError | src/src/events/interactionCreate.js:60-200 | a failing copy handler answers privately; a failing page handler replaces the message with an error and no components |
| ButtonRouting.RunCommand | src/src/events/interactionCreate.js:27-48 | an unknown command is only logged; a throwing command gets a follow-up when already answered or deferred and a reply otherwise |
| ButtonRouting.LegacyRouteOf | src/events/interactionCreate.js:52-131 | plugins ids get a non-empty page and search flag; install_android picks Aliucord exactly in its guild |
| ButtonRouting.RoutedLegacyNav | src/events/interactionCreate.js:53-62 | an older plugins id is routed with its action and its page and flag, both defaulting to 0 |
| ButtonRouting.LegacyIdIsJoin | src/commands/plugins.js:131-137 | an older plugins id is its four fields joined by `_` |
| ButtonRouting.LegacyNavRoundTrip | src/events/interactionCreate.js:53-62 | an older plugins id gives back its action, page and search flag |
| ButtonRouting.LegacyFields | src/events/interactionCreate.js:56-59 | once split, an older id's fields are the route's |
| ButtonRouting.LegacyNextKeepsSearch | src/commands/plugins.js:146-162 | Next on an older page of search results shows the next page of the same results, the search being read back from the message |
| Codeberg.MatchFragment | src/utils/codeberg.js:10 | the optional `#L` fragment at the end: empty text matches with no line numbers, and captured line numbers are non-empty runs of digits, an end only after a start |
| Codeberg.SlashFrom | src/utils/codeberg.js:10 | the first `/` at or after a position, or the end of the text |
| Codeberg.Segment | src/utils/codeberg.js:10 | a `[^/]+` group followed by `/`: a non-empty run without `/` and the position after its slash |
| Codeberg.LazyPath | src/utils/codeberg.js:10 | the lazy path group ends at the first position whose remainder is a fragment, with no line terminator before it |
| Codeberg.PathAt | src/utils/codeberg.js:10 | the path group is non-empty and is followed by a matching fragment that ends the text |
| Codeberg.TailAt | src/utils/codeberg.js:10 | `src/branch/` or `src/commit/`, a ref part and a non-empty path with line numbers of digits |
| Codeberg.MatchAt | src/utils/codeberg.js:10 | a match at a position starts with `https://codeberg.org/` and captures well-formed groups |
| Codeberg.FirstMatch | src/utils/codeberg.js:11 | the leftmost position where the pattern matches, with no match before it |
| Codeberg.Match | src/utils/codeberg.js:11 | no match exactly when the pattern matches at no position; otherwise the groups of a match |
| Codeberg.LineOf | src/utils/codeberg.js:20-21 | a captured line number is read as its decimal value |
| Codeberg.ParseAsWritten | src/utils/codeberg.js:9-23 | null exactly when the pattern does not match; otherwise each field takes the next group, so the owner is the repo, the repo the ref, the ref the path, and both line numbers come from the end group |
| Codeberg.Parse | src/utils/codeberg.js:9-23 | null exactly when the pattern does not match; otherwise owner, repo, ref and decoded path are their own groups, and the end line is absent exactly when the start line is |
| Codeberg.Bind | src/utils/codeberg.js:15-22 | the fields of one match, bound by name, the end line absent exactly when the start line is |
| Codeberg.DigitPrefixOf | src/utils/codeberg.js:10 | the digit run of a line number stops at the first non-digit |
| Codeberg.FragmentOneMatches | src/utils/codeberg.js:10 | `#L{a}` is a fragment with start `a` and no end |
| Codeberg.FragmentTwoMatches | src/utils/codeberg.js:10 | `#L{a}-L{b}` is a fragment with start `a` and end `b` |
| Codeberg.FragmentMatches | src/utils/codeberg.js:10 | every fragment built from line numbers matches and gives them back |
| Codeberg.LazyPathOf | src/utils/codeberg.js:10 | a path without `#` is taken whole by the lazy group |
| Codeberg.LazyPathStops | src/utils/codeberg.js:10 | the lazy group stops at the first end whose remainder is a fragment |
| Codeberg.LazyPathStep | src/utils/codeberg.js:10 | the lazy group goes on past an end whose remainder is not a fragment |
| Codeberg.PathAtOf | src/utils/codeberg.js:10 | a path without `#` followed by a fragment is captured exactly |
| Codeberg.FileTailAt | src/utils/codeberg.js:10 | the tail of a link built from a ref, a path and a fragment gives them back |
| Codeberg.MatchAtStart | src/utils/codeberg.js:11 | a match at the start of the text is the one `match` returns |
| Codeberg.MatchFileUrl | src/utils/codeberg.js:10-11 | a link built from owner, repo, ref, path and line numbers matches with exactly those groups |
| Codeberg.ParseRoundTrip | src/utils/codeberg.js:9-23 | parsing a link built from its parts gives back the parts, the path decoded, and a missing end line repeating the start line |
| Codeberg.LineOfNat | src/utils/codeberg.js:20 | a line number written out is read back |
| Codeberg.AsWrittenShiftsFields | src/utils/codeberg.js:14 | as written, the same link comes back shifted by one field |
| Codeberg.Slice | src/utils/codeberg.js:47 | `slice` with non-negative bounds: the lines from begin up to end, clipped to the list, empty when begin is not below both |
| Codeberg.GetLines | src/utils/codeberg.js:44-48 | a start of null or 0 gives back the whole text |
| Codeberg.GetLinesSplits | src/utils/codeberg.js:44-48 | the result splits into exactly lines start to end of the text, counted from 1 |
| Codeberg.GetAllLines | src/utils/codeberg.js:44-48 | asking for every line gives back the text |
| Codeberg.GetLinesPastEnd | src/utils/codeberg.js:44-48 | a start past the last line gives the empty string |
| InstallContext.Until | src/commands/install-plugin-context.js:26 | the first occurrence of the closing bracket at or after a position, or the end |
| InstallContext.LinkAt | src/commands/install-plugin-context.js:26 | a link read at a position is well formed and is written there |
| InstallContext.ReadLink | src/commands/install-plugin-context.js:26 | brackets in the right order enclose a written link |
| InstallContext.UntilOf | src/commands/install-plugin-context.js:26 | the search for a closing bracket stops at the first one |
| InstallContext.LinkPieces | src/commands/install-plugin-context.js:26 | where the brackets and the two groups of a written link lie |
| InstallContext.LinkAtOf | src/commands/install-plugin-context.js:26 | a well-formed link written at a position is what the pattern reads there |
| InstallContext.MatchFrom | src/commands/install-plugin-context.js:26 | the leftmost position where the pattern matches, with no match before it |
| InstallContext.FirstLink | src/commands/install-plugin-context.js:26-31 | no link exactly when the pattern matches nowhere; a link found is well formed |
| InstallContext.FirstLinkOfChunk | src/commands/install-plugin-context.js:26-31 | a chunk that is a link yields that link |
| InstallContext.Links | src/commands/install-plugin-context.js:23-33 | at most one link per chunk, each well formed |
| InstallContext.LinksOneEach | src/commands/install-plugin-context.js:25-33 | one link comes out per chunk exactly when every chunk holds a link |
| InstallContext.Map | src/commands/install-plugin-context.js:45 | each link written as markdown, in order |
| InstallContext.ListMessageRoundTrip | src/commands/install-plugin-context.js:23-33 | reading a plugin list written one link per paragraph gives back its links in order |
| InstallContext.LinksCons | src/commands/install-plugin-context.js:25-33 | a chunk with a link contributes that link first |
| InstallContext.LinksOfMarkdown | src/commands/install-plugin-context.js:25-33 | reading links written one per chunk gives them back |
| InstallContext.LinksOfMarkdownStep | src/commands/install-plugin-context.js:25-33 | one more written link is read back in front |
| InstallContext.MapCons | src/commands/install-plugin-context.js:45 | the first link is written first |
| InstallContext.Numbered | src/commands/install-plugin-context.js:44-46 | line k holds the number k plus the start, a dot and the link |
| InstallContext.LinesSplit | src/commands/install-plugin-context.js:44-46 | the list has one numbered line per link and nothing else |
| InstallContext.Total | src/commands/install-plugin-context.js:48 | "plugin" takes an `s` exactly when the count is not 1 |
| InstallContext.Execute | src/commands/install-plugin-context.js:8-53 | refused exactly when the text lacks `[` or `](`; "No plugins found." exactly when no chunk holds a link; otherwise the links, one per chunk, numbered from 1 with the total |
| InstallContext.ListMessageStarts | src/commands/install-plugin-context.js:14 | a plugin list begins with its first link |
| InstallContext.GuardPasses | src/commands/install-plugin-context.js:14 | text that begins with a link passes the guard |
| InstallContext.ExecuteOnList | src/commands/install-plugin-context.js:8-53 | a plugin list message is listed back link by link, numbered from 1 |
| Dehoist.HoistClass | src/modules/dehoist.js:1 | the character ranges hold exactly the punctuation, digits and whitespace the class lists |
| Dehoist.HoistRun | src/modules/dehoist.js:1 | the maximal leading run of hoist characters |
| Dehoist.Cleaned | src/modules/dehoist.js:25-26 | the new name never starts with a hoist character and is never empty |
| Dehoist.TrimOfUnhoisted | src/modules/dehoist.js:25 | trimming text that does not start with whitespace keeps its first character |
| Dehoist.Dehoisted | src/modules/dehoist.js:22-27 | a name not starting with a hoist character is kept; no result starts with one |
| Dehoist.DehoistIdempotent | src/modules/dehoist.js:24-26 | dehoisting a dehoisted name changes nothing |
| Dehoist.CleanedIsRemainder | src/modules/dehoist.js:25-26 | the new name is the text after the leading run without its trailing whitespace, or the fallback when nothing remains |
| Dehoist.AllHoistFallsBack | src/modules/dehoist.js:26 | a name made only of hoist characters becomes "Unhoisted User" |
| Dehoist.OnJoin | src/modules/dehoist.js:22-35 | a nickname is set exactly for a hoisted name of a manageable member, and it differs from the old name |
| Dehoist.OnUpdate | src/modules/dehoist.js:12-16 | an update is looked at exactly when the display name changed, and then as on joining |
| Dehoist.NoRenameLoop | src/modules/dehoist.js:12-16 | the update raised by the bot's own rename sets no further nickname |
| ServerConfig.ConfigsDistinct | src/src/utils/serverConfig.js:2-27 | no two servers share a guild id or a name |
| ServerConfig.IndexOfGuild | src/src/utils/serverConfig.js:30-35 | the first server with that guild id, or none when no server has it |
| ServerConfig.ByGuildId | src/src/utils/serverConfig.js:29-37 | the server with that guild id, and Aliucord exactly when none has it |
| ServerConfig.ByName | src/src/utils/serverConfig.js:39-41 | the server with that name, and Aliucord when none has it |
| ServerConfig.LookupsFindEachServer | src/src/utils/serverConfig.js:29-41 | every server is found by its own guild id and by its own name |
| ServerConfig.UnknownGuildIsAliucord | src/src/utils/serverConfig.js:29-37 | an unknown guild is served as Aliucord, which has a theme channel |
| Migrations.AppliedAtStart | src/utils/migrations.js:10-16 | the ids read from `_migrations`, and none when the read fails |
| Migrations.Run | src/utils/migrations.js:64-75 | exactly the migrations not applied at start are attempted, and exactly those of them whose run and record both succeed are recorded; a failure does not stop the later ones |
| Migrations.RunMigrations | src/utils/migrations.js:1-76 | the call fails exactly when creating `_migrations` fails; otherwise the loop attempts and records as the reference definition says |
| Migrations.RerunRetriesFailures | src/utils/migrations.js:64-75 | after a run, a second run attempts exactly the migrations that failed |
| Migrations.AppliedNeverRerun | src/utils/migrations.js:65 | a migration already recorded is never attempted |
| Migrations.Missing | src/utils/migrations.js:41-59 | exactly the wanted columns the table lacks, in the order they are checked |
| Migrations.AddColumns | src/utils/migrations.js:39-60 | 0002 adds only missing columns, in order, stopping at the first failing one; it succeeds exactly when every missing column is added |
| Migrations.Alters | src/utils/migrations.js:42-59 | the statements issued are a prefix of the missing columns, all but the last succeeding; on failure the last one failed |
| Migrations.ColumnsAfter | src/utils/migrations.js:39-60 | no column is lost, and after a successful 0002 every sticky column is present |
| Migrations.NoneMissing | src/utils/migrations.js:41-59 | nothing is missing when every wanted column is present |
| Migrations.CompleteTableUntouched | src/utils/migrations.js:41-59 | on a complete table 0002 issues no statement and succeeds |
| Migrations.AddColumnsIdempotent | src/utils/migrations.js:39-60 | after a successful 0002, running it again issues nothing |
| Interval.UnitOf | src/src/utils/helpers.js:4 | a unit exactly for the letters m, h and d in either case |
| Interval.MatchInterval | src/src/utils/helpers.js:4-5 | a match exactly for one or more digits followed by one unit letter and nothing else |
| Interval.ParseInterval | src/src/utils/helpers.js:3-17 | null exactly when the text does not match; otherwise the count as written times 60000, 3600000 or 86400000 for m, h or d |
| Interval.FormatInterval | src/src/utils/helpers.js:34-38 | defined exactly where parsing succeeds: the digits as written, a space and the unit's name |
| Interval.UnitLetter | src/src/utils/helpers.js:4 | the letter written for a unit reads back as that unit |
| Interval.IntervalRoundTrip | src/src/utils/helpers.js:3-38 | a count written with a unit letter parses to the count times the unit and formats as the count and the unit's name |
| Interval.CaseInsensitiveUnit | src/src/utils/helpers.js:4-8 | upper- and lower-case unit letters give the same interval and the same text |
| Interval.ZeroMinutes | src/src/utils/helpers.js:16 | `0m` parses to 0 |
| Interval.Rejections | src/src/utils/helpers.js:4-5 | a unit letter alone and a valid interval followed by more text are rejected |
| Interval.ApplySchedule | src/src/commands/minkyinterval.js:28-65 | an unparsable or zero interval is "invalid format" and one under five minutes "too short", both leaving the schedules alone; otherwise the key's old timer is cleared, the new schedule replaces it, its timer is started with the period Node makes of the milliseconds, and it is saved, announced and posted; no upper bound is checked |
| Interval.ScheduleSlash | src/src/commands/minkyinterval.js:20-26 | non-administrators are refused with nothing changed; otherwise the interval is validated and scheduled |
| Interval.SchedulePrefix | src/src/commands/minkyinterval.js:68-98 | non-administrators, fewer than two arguments, an unknown channel and a non-text channel are refused in that order before the interval is looked at |
| Interval.AtMostOnePerKey | index.js:336-346 | scheduling adds at most the command's key and leaves every other schedule as it was |
| Interval.RescheduleReplaces | src/src/commands/minkyinterval.js:48-58 | re-scheduling a channel clears its old timer before starting the new one, and the entry becomes the new one |
| Interval.MinutesVerdict | src/src/commands/minkyinterval.js:33-46 | `{n}m` is malformed at zero, too short below five and scheduled from five on |
| Interval.MinimumBoundary | src/src/commands/minkyinterval.js:41-46 | `5m` is accepted; `4m` is too short and `0m` malformed, neither touching the schedules |
| Interval.TimerPeriod | src/src/commands/minkyinterval.js:52 | the timer fires at the requested delay exactly when it lies in 1 to 2147483647 ms, and every 1 ms otherwise |
| Interval.AsWrittenLongIntervalFloods | src/src/commands/minkyinterval.js:41-52 | as written, `{n}d` for any n of 25 or more is accepted and stored with its full length, but its timer fires every millisecond |
| Interval.ApplyScheduleBounded | src/src/commands/minkyinterval.js:41-52 | the corrected schedule named in the Findings row: an interval above the timer's limit is refused with nothing changed; anything else is handled as before, and every started timer fires at the requested period, between five minutes and the limit |
| Interval.BoundedDays | src/src/commands/minkyinterval.js:41-52 | with the bound, 25 days or more are refused and 1 to 24 days are scheduled at their own period |
| Responders.AddEntry | src/src/commands/addresponder.js:85-98 | a (trigger, channel) pair already in the guild's list is refused and nothing changes; otherwise exactly that responder is appended |
| Responders.SlashAdd | src/src/commands/addresponder.js:22-50 | non-administrators are refused with nothing changed; otherwise the lower-cased trigger is added |
| Responders.TrailingDigits | src/src/commands/addresponder.js:71 | the longest run of digits ending the text |
| Responders.TrailingMention | src/src/commands/addresponder.js:71 | a channel mention of one or more digits that ends the text, and where it starts |
| Responders.TrailingDigitsOf | src/src/commands/addresponder.js:71 | a run of digits after a non-digit is counted exactly |
| Responders.MentionAtEnd | src/src/commands/addresponder.js:71-76 | text ending in a channel mention yields its id and the position of its `<#` |
| Responders.ParseAddArgs | src/src/commands/addresponder.js:62-79 | a usage error exactly without `|`; the trigger is the text before the first `|`, trimmed and lower-cased; a trailing mention is cut from the response, which is trimmed |
| Responders.AddFromArgs | src/src/commands/addresponder.js:74-98 | an empty trigger or response is refused with nothing changed; a mention sets the channel only when the guild knows it; an added responder has a trigger and a response |
| Responders.PrefixAdd | src/src/commands/addresponder.js:57-103 | non-administrators are refused with nothing changed; otherwise the parsed arguments are added |
| Responders.AddArgsRoundTrip | src/src/commands/addresponder.js:62-79 | `trigger|response` gives back that trigger and response with no channel |
| Responders.FirstWithTrigger | src/src/commands/deleteresponder.js:31 | the first responder with the trigger, whatever its channel, or none when no responder has it |
| Responders.DeleteEntry | src/src/commands/deleteresponder.js:21-43 | a missing or empty list and an unknown trigger are errors that change nothing; otherwise exactly the first responder with the trigger is removed and the rest keep their order |
| Responders.SlashDelete | src/src/commands/deleteresponder.js:13-44 | non-administrators are refused with nothing changed; otherwise the lower-cased trigger is deleted |
| Responders.PrefixDelete | src/src/commands/deleteresponder.js:46-73 | non-administrators are refused; a blank argument is a usage error; otherwise the whole argument, trimmed and lower-cased, is the trigger deleted |
| Responders.DeleteKeepsOthers | src/src/commands/deleteresponder.js:40-42 | a deletion removes one responder and keeps every other one, in every guild |
| Responders.AddThenDelete | src/src/commands/deleteresponder.js:31-42 | adding a responder with a new trigger and then deleting that trigger restores the guild's list |
| Responders.MatchResponder | index.js:466-476 | the first responder in list order whose trigger occurs in the lower-cased content and whose channel is unset or equal; none exactly when no responder fits |
| Responders.RootOnMessage | index.js:458-477 | bot messages are ignored, direct messages get a minky post, and a guild message gets the reply of a fitting responder, none exactly when none fits |
| Responders.RowsFor | src/utils/database.js:52-58 | a guild's responders from the rows, never more than the rows, holding exactly the responders stored under that guild |
| Responders.LoadGroupsByGuild | src/utils/database.js:49-64 | loading appends each guild's rows, in row order, to what it had, and creates lists only for guilds with rows |
| Responders.WithoutKey | src/utils/database.js:77-93 | exactly the rows whose (guild, trigger, channel) key differs |
| Responders.SaveRow | src/utils/database.js:66-75 | the upsert leaves the new row as the only one of its key and keeps every row of another key |
| Responders.SaveRowAsWritten | src/utils/database.js:14-20 | with `channel_id` in the primary key, a row without a channel is refused and the table is unchanged; a row with one is upserted |
| Responders.DeleteRow | src/utils/database.js:77-93 | deleting removes exactly the rows of the key, a missing channel matching only rows without one |
| Responders.AsWrittenGlobalResponderLost | src/utils/database.js:14-20 | a responder for every channel added as written is missing from its guild after the table is loaded again |
| Responders.SavedResponderReloads | src/utils/database.js:49-75 | with a table that takes a missing channel, every saved responder comes back on loading |
| Responders.SaveThenDeleteRow | src/utils/database.js:49-93 | after saving and deleting a responder, loading no longer gives it, and rows of other keys remain |
| MessageDispatch.CommandOf | src/src/events/messageCreate.js:19-22 | a command exactly when the message parses and names a command with a prefix form |
| MessageDispatch.Dispatch | src/src/events/messageCreate.js:9-44 | bots are ignored and direct messages only get a minky post, with nothing changed; a guild message first goes through the sticky step, then runs its prefix command, and only without one gets the reply of the first fitting responder |
| MessageDispatch.ResponderAction | src/src/events/messageCreate.js:33-43 | no reply exactly when no responder fits; otherwise the reply of the first that does |
| MessageDispatch.CommandSuppressesResponders | src/src/events/messageCreate.js:19-31 | a message carrying a prefix command gets no responder reply, even when a trigger occurs in it |
| MessageDispatch.StickyRunsBeforeCommands | src/src/events/messageCreate.js:17 | every guild message, commands included, reposts a sticky whose cooldown has passed |
| MessageDispatch.AgreesWithRootHandler | src/src/events/messageCreate.js:10-43 | without a command, the reply is the one the single-file bot's handler gives |
| BotStatus.DisplayName | src/src/commands/setstatus.js:14-20 | every activity type has a non-empty display phrase |
| BotStatus.ActivityOf | src/src/commands/setstatus.js:6-12 | a key found names the activity type stored under it |
| BotStatus.ActivityKeyRoundTrip | src/src/commands/setstatus.js:6-12 | every activity type is found under its own key |
| BotStatus.ActivityKeyLower | src/src/commands/setstatus.js:92 | lower-casing a typed key keeps it |
| BotStatus.ActivityKeyHasNoPipe | src/utils/database.js:129 | no activity key contains `|` |
| BotStatus.Save | src/utils/database.js:127-138 | after both statements only `activity|message` is stored, the status being dropped; a failed insert leaves the table empty and a failed delete leaves it as it was; at most one row after the delete |
| BotStatus.Load | src/utils/database.js:140-155 | nothing exactly when the read fails or the table is empty; otherwise the status is always online, the activity is the text before the first `|`, and the message is the piece after it, missing exactly when there is no `|` |
| BotStatus.SplitShape | src/utils/database.js:145 | the second piece of a split starts right after the first `|` |
| BotStatus.SplitHasMore | src/utils/database.js:145 | a split has a second piece exactly when the separator occurs |
| BotStatus.LoadAfterSave | src/utils/database.js:127-155 | reading back a successful save gives the activity and the message up to its first `|`, so the message survives exactly when it contains no `|` |
| BotStatus.RoundTripWithoutPipes | src/utils/database.js:127-155 | without `|` in either part a save reads back unchanged, with the status reported as online |
| BotStatus.PipeInActivityIsLost | src/utils/database.js:129-145 | a `|` inside the activity cuts the stored activity short |
| BotStatus.SetStatusPrefix | src/src/commands/setstatus.js:84-120 | refused without change unless the caller is the configured owner; the lower-cased status, then activity, then the joined message are checked in that order; only an accepted update whose presence change succeeds is saved |
| BotStatus.SetStatusSlash | src/src/commands/setstatus.js:51-82 | refused without change unless the caller is the configured owner; a failed presence change saves nothing; otherwise the choices are saved |
| BotStatus.PrefixStatusSurvivesRestart | src/src/commands/setstatus.js:84-115 | a one-word message set by the owner comes back on the next start as given |
| PrefixParser.ParseMessage | src/src/utils/prefixParser.js:3-21 | nothing exactly when the trimmed content is empty, does not start with `!`, or has nothing after it; otherwise the lower-cased first token, the remaining tokens, and the text after the name, trimmed |
| PrefixParser.ParsedShape | src/src/utils/prefixParser.js:10-19 | the command name has no whitespace and is the lower-cased start of the body, followed by whitespace or the end |
| PrefixParser.FirstTokenShape | src/src/utils/prefixParser.js:11-12 | the lower-cased first token of any text is a lower-cased prefix of it, free of whitespace and followed by whitespace or the end |
| PrefixParser.ParseChannelMention | src/src/utils/prefixParser.js:23-26 | digits come back only from an argument that is exactly `<#digits>` |
| PrefixParser.MentionRoundTrip | src/src/utils/prefixParser.js:23-26 | every `<#digits>` mention yields its digits |
| PrefixParser.FirstWithId | src/src/utils/prefixParser.js:33 | the first channel in cache order with that id, or none when no channel has it |
| PrefixParser.FirstWithName | src/src/utils/prefixParser.js:36 | the first channel whose name equals the argument ignoring case, or none |
| PrefixParser.FindChannel | src/src/utils/prefixParser.js:28-37 | nothing for an empty argument; a mention is looked up by id only, with no fallback to names; any other argument finds a channel by name ignoring case; nothing exactly when no channel fits |
| PrefixParser.FindByMention | src/src/utils/prefixParser.js:28-34 | a channel named by its own mention is found, whatever its name |
| StickyCore.Truthy | src/src/utils/stickyManager.js:16 | an id counts as present exactly when it is there and not empty |
| StickyCore.FromRow | src/src/utils/stickyManager.js:9-18 | a row keeps its guild and content; a missing or non-numeric cooldown becomes 120000; the warning is on unless the stored value is the number 0; the last id is kept when non-empty; nothing has been sent yet |
| StickyCore.LastRowFor | src/src/utils/stickyManager.js:8-11 | the last row naming a channel, or none when no row names it |
| StickyCore.LoadRowsEntry | src/src/utils/stickyManager.js:8-19 | after loading, a channel is configured exactly when it was before or a row names it, and its entry comes from the last such row |
| StickyCore.LoadRowsSnoc | src/src/utils/stickyManager.js:8-19 | a later row for a channel overwrites what earlier rows set |
| StickyCore.InitializeEntries | src/src/utils/stickyManager.js:5-24 | a failed read leaves no stickies; otherwise exactly the channels the rows name are configured, each never sent |
| StickyCore.CooldownMsOf | src/src/utils/stickyManager.js:29 | whole seconds in milliseconds, never negative, a multiple of 1000; a non-numeric value or one below a second gives 0 |
| StickyCore.GateWindow | src/src/utils/stickyManager.js:86-88 | inside the cooldown after the last post the gate stays shut; from its end on it opens |
| StickyCore.ZeroCooldownAlwaysFires | src/src/utils/stickyManager.js:86-88 | with a zero cooldown every qualifying message reposts |
| StickyCore.Compose | src/src/utils/stickyManager.js:111 | the content is sent as is without the warning; with it, the current bot appends the automated-message footer and the older one puts the `Stickied message` header in front |
| StickyCore.KeyFor | src/src/utils/stickyManager.js:116-127 | the new id is stored by guild and channel exactly when the config has a guild, otherwise by channel alone |
| StickyCore.HandleMessageSpec | src/src/utils/stickyManager.js:78-96 | messages outside guilds, in unconfigured channels or from bots change and call nothing; otherwise a repost is sent exactly when the gate opens; a failed send leaves the entry alone; a good send records the new id and the time and nothing else; other channels are untouched |
| StickyCore.RepostEffects | src/src/utils/stickyManager.js:98-131 | delete the previous post if there is one, send the body with mentions suppressed, and persist the new id only after a good send; only a failed send throws |
| StickyCore.PersistFailureIsInvisible | src/src/utils/stickyManager.js:116-130 | whether the new id reached the store never changes the in-memory result |
| StickyCore.CooldownScenario | src/src/utils/stickyManager.js:86-92 | with cooldown 120000, a message 60000 after a repost does not repost and one 120000 after does |
| StickyCore.SecondCycleDeletesFirstPost | src/src/utils/stickyManager.js:103-115 | the second repost first deletes the post the first one made and remembers the new one |
| StickyManager.SetSticky | src/src/utils/stickyManager.js:26-50 | a save that reports failure or throws returns a `DB_WRITE_FAILED` error and leaves memory alone; a good save configures the channel with the given content, whole-second cooldown (120 seconds when omitted) and warning, keeps the previous post id, marks it never sent, and touches no other channel |
| StickyManager.DisableSticky | src/src/utils/stickyManager.js:52-75 | unless the store call throws, the entry goes and the last post, if any, is deleted best-effort, even when the store reports nothing deleted; a throw returns false and changes nothing |
| StickyManager.ResetKeepsPreviousPost | src/src/utils/stickyManager.js:36-43 | after re-configuring a channel, the first message past the new cooldown deletes the post made under the old configuration before sending the new body |
| StickyManager.DisableStopsReposts | src/src/utils/stickyManager.js:69 | once a channel is disabled its messages cause no repost |
| LegacyStickyManager.Upsert | src/utils/stickyManager.js:34-42 | the insert-or-update adds a row with no last id for a new channel and for an existing one replaces content, cooldown and warning while keeping its last id; other rows are untouched |
| LegacyStickyManager.SetSticky | src/utils/stickyManager.js:29-58 | a throwing upsert returns false and changes nothing; otherwise the row is upserted, memory is updated as in the current manager, and the result is true |
| LegacyStickyManager.DisableSticky | src/utils/stickyManager.js:60-83 | a throwing delete returns false and keeps both the entry and the post; otherwise the row and the entry go and the last post, if any, is deleted |
| LegacyStickyManager.ApplyPersist | src/utils/stickyManager.js:123-138 | the id update changes only the last id, of the row with the config's guild and channel, or of every row of the channel when the config has no guild |
| LegacyStickyManager.HandleMessage | src/utils/stickyManager.js:86-139 | memory and effects are those of the shared message hook with the older header; the table keeps its keys |
| LegacyStickyManager.SetPreservesConsistent | src/utils/stickyManager.js:29-58 | setting keeps every configured channel backed by a row with the same content, cooldown and warning |
| LegacyStickyManager.DisablePreservesConsistent | src/utils/stickyManager.js:60-83 | disabling keeps memory and table in agreement |
| LegacyStickyManager.HandleMessagePreservesConsistent | src/utils/stickyManager.js:86-139 | a repost keeps memory and table in agreement |
| LegacyStickyManager.SetTwiceSecondWins | src/utils/stickyManager.js:34-51 | setting the same channel twice leaves one row with the second content and the last id the row had before both |
| LegacyStickyManager.RepostPersistsId | src/utils/stickyManager.js:123-130 | a good repost with a working store records the new id both in memory and in the configured channel's row |
| StickyCommand.SetReplyAsWritten | src/commands/sticky.js:59-61 | the reply reads as success only for a manager result that is a record with `ok` set; a plain boolean always reads as failure |
| StickyCommand.SetReply | src/commands/sticky.js:59-61 | the reply confirms the channel and cooldown exactly when the manager reported success, in either return shape, and otherwise shows its error or `unknown error` |
| StickyCommand.AsWrittenReportsFailureOnSuccess | src/commands/sticky.js:59-60 | with the legacy manager a stored and active sticky is answered with a failure saying `unknown error` |
| StickyCommand.SetReplyAgreesOnRecords | src/commands/sticky.js:59-61 | on `{ ok, error }` results the corrected reply is the one the command gives |
| StickyCommand.Slash | src/commands/sticky.js:37-68 | members with none of the four moderator permissions are refused and nothing changes; add stores the message in the chosen or current channel with cooldown 120 and warning on by default when the store write works and changes nothing otherwise, and either way answers `unknown error`, because the reply tests `res?.ok` on the legacy manager's plain boolean; remove confirms and drops the channel exactly when the delete works |
| StickyCommand.FirstToken | src/commands/sticky.js:90 | the token taken from the front of the arguments is a non-empty prefix of them |
| StickyCommand.ResolveChannel | src/commands/sticky.js:91-97 | the channel used is either one of the guild's channels or the fallback |
| StickyCommand.CooldownSetting | src/commands/sticky.js:120-122 | a cooldown value is taken only when it parses as a decimal integer that is not negative |
| StickyCommand.WarningSetting | src/commands/sticky.js:123-125 | a warning value is taken only when it is `true` or `false` in some case, and then means that word |
| StickyCommand.ApplyOption | src/commands/sticky.js:117-126 | an option changes the cooldown only as a valid `cooldown` entry and the warning only as a valid `warning` entry; a non-negative cooldown stays non-negative |
| StickyCommand.ApplyOptions | src/commands/sticky.js:114-127 | folding the options over a non-negative cooldown keeps it non-negative |
| StickyCommand.RemainderParts | src/commands/sticky.js:112 | the pipe-separated pieces are trimmed and none is empty |
| StickyCommand.ParseRemainder | src/commands/sticky.js:112-127 | the parsed cooldown is never negative |
| StickyCommand.PlanPrefix | src/commands/sticky.js:82-127 | a subcommand other than add, set, remove or disable gives the usage reply; add and set without a pipe give the add usage; the plan's cooldown is never negative and its channel is the current one or one of the guild's |
| StickyCommand.RunPlan | src/commands/sticky.js:99-138 | usage and empty-text plans change nothing; a set plan stores the text, cooldown and warning in its channel when the write works and is answered `unknown error` either way, as the slash form is; a remove plan drops the channel and confirms exactly when the delete works; a failed write changes nothing |
| StickyCommand.Prefix | src/commands/sticky.js:71-80 | the permission check comes before any parsing, and refuses without changing anything |
| StickyCommand.KeyValueParts | src/commands/sticky.js:117-119 | `key=value` reads back as its lower-case key and its value |
| StickyCommand.CooldownOptionRoundTrip | src/commands/sticky.js:117-122 | `cooldown=n` sets the cooldown to n and leaves the warning alone |
| StickyCommand.ApplyCooldown | src/commands/sticky.js:120-122 | any option whose key reads as `cooldown` and whose value parses to n sets the cooldown to n |
| StickyCommand.WarningOptionRoundTrip | src/commands/sticky.js:123-125 | `warning=true` and `warning=false` set the warning to that value and leave the cooldown alone |
| StickyCommand.ApplyWarning | src/commands/sticky.js:123-125 | any option whose key reads as `warning` and whose value is `true` or `false` in some case sets the warning accordingly |
| StickyCommand.RemainderRoundTrip | src/commands/sticky.js:109-127 | `text` followed by `|cooldown=n` reads back as that text and cooldown with the warning on |
| StickyCommand.TwoPieces | src/commands/sticky.js:112-127 | a text and one option, joined by a pipe, read back as the text with that option applied to the defaults |

## Left out

- Button filters that are not well-formed base64, or whose bytes are not shortest-form UTF-8, are decoded leniently by Node. That result is the parameter `salvage` of `ButtonRouting.DecodeFilter`, not a model of Node's decoder.
- `decodeURIComponent` is the parameter `decode`. The `URIError` it throws on a malformed escape is not modelled.
- Case folding and whitespace are modelled for ASCII only, because JavaScript's Unicode tables are out of scope. Sorting uses code-point order rather than UTF-16 order.
- All I/O, timers and the Discord and database clients become parameters or are left out: message sending, fetches, embeds, ephemeral flags and the follow-up auto-delete timers.
- Floating-point rounding is left out: average ratings are exact reals rather than IEEE doubles. The `toFixed` display formatting is left out as display text.
- `Math.random` becomes the index parameter `pick` of the random plugin.
- The `stopminky` command is left out; only scheduling is modelled.
- Restarting the saved minky timers when the bot starts (index.js:74-90) is left out; it hands the stored milliseconds to the same timer, so the same limit applies there.
- `src/utils/prefixParser.js` is not part of this model.
- `normalizeUrlForMatching` is modelled only for its case and scheme steps. Its later rewrite rules and `normalizeThemeUrl` are left out, so `Themes.ToTheme` keeps the URL as fetched.
- The theme command's `escapeMarkdown`, `formatUrlForMarkdown` and preview caching are left out; they only shape display text.
- JavaScript objects list integer-like keys (such as an author named `123`) first, in numeric order. The model assumes no author name is an array index and lists `authorCounts` in first-seen order, so for such names the tie order of the top five may differ.
- Commands are assumed to be registered. Autocomplete handlers are left out.
- Review titles, dates and the exact message texts are left out; replies are modelled as tagged values.
- `fetchCodebergContent`, and the caching and HTTP of `fetchPlugins` and `fetchThemes`, are left out as network I/O.
- `ServerConfig.ByName`: an inherited property name such as `constructor` is not modelled as a lookup hit.
- The SQL text of the migrations is left out. A failure to read the table's columns in 0002 counts as the migration failing.
- PluginUrls: rules 3 and 4 are proved only for URLs where the replaced text has no earlier occurrence.
- The texts of the `install_android` and `install_ios` embeds are left out. Only the choice between them is modelled.
- StickyCommand: when the pipe-separated pieces leave no sticky text, `setSticky` receives `undefined`. The model stores the empty string.
- Plugins.CopyLabel: when the twelfth UTF-16 unit is the first half of a surrogate pair, `substring` keeps that lone half. A Dafny string cannot hold a lone surrogate, so the model ends the label before the pair.
- Text.ParseInt: the value is an unbounded integer. JavaScript's `parseInt` returns a double, which loses precision above 2^53.
- BotStatus: `src/src/utils/database.js`, which `setstatus` imports, is not part of this model. It is assumed to save and load the status as `src/utils/database.js:127-155` does, so `BotStatus.SetStatusPrefix`, `BotStatus.SetStatusSlash` and `BotStatus.PrefixStatusSurvivesRestart` hold only under that assumption.
- Responders: the commands under `src/src/commands` save responders through `src/src/utils/database.js`, which is not part of this model. The row model follows the PostgreSQL path of `index.js:46-54` and the table of `src/utils/database.js:14-20`.
- StickyManager.SetSticky: the seconds argument is a number as `Number(...)` returns it. Non-numeric argument types are folded into NaN.

## Findings

| source | as written | input that shows it | evidently intended | confidence | as-written member | corrected member |
|---|---|---|---|---|---|---|
| src/commands/sticky.js:59-60 | the reply tests `res?.ok`, but the manager it imports returns a plain `true` on success | any successful `/sticky add` or `!sticky add #c \| hi` | report success when the manager reports success | not executed | StickyCommand.AsWrittenReportsFailureOnSuccess | StickyCommand.SetReply |
| src/src/commands/plugins.js:176-179, 467 | copy buttons are numbered within the page, but the handler indexes the full unfiltered list | the first copy button on page 2 of the Kettu list copies plugin 0, not plugin 5 | copy the plugin whose button was pressed | not executed | PluginCopy.AsWrittenCopiesWrongPlugin | PluginCopy.CorrectedCopiesShownPlugin |
| src/utils/codeberg.js:14 | the destructuring skips two elements, so every field takes the next capture group | `https://codeberg.org/o/r/src/branch/main/a.js#L3-L5` gives owner `r`, repo `main`, ref `a.js`, path `3` | owner `o`, repo `r`, ref `main`, path `a.js`, lines 3 to 5 | not executed | Codeberg.AsWrittenShiftsFields | Codeberg.ParseRoundTrip |
| src/src/commands/minkyinterval.js:41-52 | only a lower bound of five minutes is checked, and the parsed milliseconds go straight to `setInterval`, which replaces any delay above 2147483647 ms by 1 ms | `/minkyinterval interval:25d` (2160000000 ms) posts a minky every millisecond | refuse an interval the timer cannot hold, or post at the requested period | not executed | Interval.AsWrittenLongIntervalFloods | Interval.ApplyScheduleBounded |
| src/utils/database.js:19 | `channel_id` is part of the primary key of the PostgreSQL table, which makes it NOT NULL; yet the `addresponder` handler of index.js sets a missing channel to null (index.js:400) and saves it (index.js:415) through the `pg` upsert of index.js:46-54 | `/addresponder trigger:hi response:hello` with no channel, handled by index.js: the insert fails and is only logged, so the responder is gone after a restart | keep responders without a channel, for instance with a key that treats a missing channel as a value | not executed | Responders.AsWrittenGlobalResponderLost | Responders.SavedResponderReloads |

=== FILE: base64.dfy ===
/** Base64 as in section 4 of RFC 4648 (alphabet `A–Z a–z 0–9 + /`, `=`
    padding), with the unpadded form the catalog buttons carry in their
    custom ids: padding is stripped on the way out and restored before
    decoding. */
module Base64 {
  import opened Wrappers

  type byte = x: int | 0 <= x < 256
  type sextet = x: int | 0 <= x < 64

  /** The alphabet of section 4 of RFC 4648, by value. */
  function CharOf(k: sextet): char {
    if k < 26 then ('A' as int + k) as char
    else if k < 52 then ('a' as int + (k - 26)) as char
    else if k < 62 then ('0' as int + (k - 52)) as char
    else if k == 62 then '+'
    else '/'
  }

  function ValueOf(c: char): Option<sextet> {
    if 'A' <= c <= 'Z' then Some(c as int - 'A' as int)
    else if 'a' <= c <= 'z' then Some(c as int - 'a' as int + 26)
    else if '0' <= c <= '9' then Some(c as int - '0' as int + 52)
    else if c == '+' then Some(62)
    else if c == '/' then Some(63)
    else None
  }

  /** The alphabet is a bijection between the 64 values and its characters. */
  lemma AlphabetBijection(k: sextet, c: char)
    ensures ValueOf(CharOf(k)) == Some(k)
    ensures ValueOf(c).Some? ==> CharOf(ValueOf(c).value) == c
  {
  }

  /** Neither the padding character nor the custom-id separator `_` is in
      the alphabet. */
  lemma AlphabetExcludes(k: sextet)
    ensures CharOf(k) != '=' && CharOf(k) != '_'
  {
    AlphabetBijection(k, CharOf(k));
  }

  // ---------------------------------------------------------------------------
  // Padded encoding and decoding
  // ---------------------------------------------------------------------------

  /** The four characters of a three-byte group. */
  function Group(b0: byte, b1: byte, b2: byte): seq<char> {
    [CharOf(b0 / 4), CharOf((b0 % 4) * 16 + b1 / 16), CharOf((b1 % 16) * 4 + b2 / 64), CharOf(b2 % 64)]
  }

  /** `Buffer.toString('base64')`: each three bytes become four characters;
      a final one or two bytes become two or three characters and `==` or
      `=`. */
  function Encode(b: seq<byte>): (s: string)
    ensures |s| == 4 * ((|b| + 2) / 3)
  {
    if |b| == 0 then ""
    else if |b| == 1 then [CharOf(b[0] / 4), CharOf((b[0] % 4) * 16), '=', '=']
    else if |b| == 2 then [CharOf(b[0] / 4), CharOf((b[0] % 4) * 16 + b[1] / 16), CharOf((b[1] % 16) * 4), '=']
    else Group(b[0], b[1], b[2]) + Encode(b[3..])
  }

  /** Strict decoding of padded text: whole four-character groups, padding
      only at the very end. `None` marks text that is not such an encoding. */
  function Decode(s: string): (r: Option<seq<byte>>)
    decreases |s|
  {
    if |s| == 0 then Some([])
    else if |s| < 4 then None
    else
      match (ValueOf(s[0]), ValueOf(s[1]))
      case (Some(a), Some(b)) =>
        if |s| == 4 && s[2] == '=' && s[3] == '=' then Some([a * 4 + b / 16])
        else
          (match ValueOf(s[2])
           case None => None
           case Some(c) =>
             if |s| == 4 && s[3] == '=' then Some([a * 4 + b / 16, (b % 16) * 16 + c / 4])
             else
               (match (ValueOf(s[3]), Decode(s[4..]))
                case (Some(d), Some(rest)) => Some([a * 4 + b / 16, (b % 16) * 16 + c / 4, (c % 4) * 64 + d] + rest)
                case _ => None))
      case _ => None
  }

  /** The arithmetic of one group: the four sextets give back the bytes. */
  lemma GroupArithmetic(b0: byte, b1: byte, b2: byte)
    ensures (b0 / 4) * 4 + ((b0 % 4) * 16 + b1 / 16) / 16 == b0
    ensures (((b0 % 4) * 16 + b1 / 16) % 16) * 16 + ((b1 % 16) * 4 + b2 / 64) / 4 == b1
    ensures (((b1 % 16) * 4 + b2 / 64) % 4) * 64 + b2 % 64 == b2
    ensures (b0 % 4) * 16 + b1 / 16 < 64 && (b1 % 16) * 4 + b2 / 64 < 64
  {
    assert b1 / 16 < 16;
    assert ((b0 % 4) * 16 + b1 / 16) / 16 == b0 % 4;
    assert ((b0 % 4) * 16 + b1 / 16) % 16 == b1 / 16;
    assert b2 / 64 < 4;
    assert ((b1 % 16) * 4 + b2 / 64) / 4 == b1 % 16;
    assert ((b1 % 16) * 4 + b2 / 64) % 4 == b2 / 64;
  }

  /** Decoding a full group in front of the encoding of more bytes. */
  lemma DecodeGroup(b0: byte, b1: byte, b2: byte, rest: string, t: seq<byte>)
    requires Decode(rest) == Some(t)
    ensures Decode(Group(b0, b1, b2) + rest) == Some([b0, b1, b2] + t)
  {
    GroupArithmetic(b0, b1, b2);
    var w, x, y, z := b0 / 4, (b0 % 4) * 16 + b1 / 16, (b1 % 16) * 4 + b2 / 64, b2 % 64;
    assert Group(b0, b1, b2) == [CharOf(w), CharOf(x), CharOf(y), CharOf(z)];
    DecodeQuad(w, x, y, z, rest, t, [b0, b1, b2]);
  }

  /** Four alphabet characters in front of the encoding of `t` decode to the
      three bytes `bs` their sextets spell, then `t`. */
  lemma DecodeQuad(w: sextet, x: sextet, y: sextet, z: sextet, rest: string, t: seq<byte>, bs: seq<byte>)
    requires Decode(rest) == Some(t)
    requires bs == [w * 4 + x / 16, (x % 16) * 16 + y / 4, (y % 4) * 64 + z]
    ensures Decode([CharOf(w), CharOf(x), CharOf(y), CharOf(z)] + rest) == Some(bs + t)
  {
    AlphabetBijection(w, 'A');
    AlphabetBijection(x, 'A');
    AlphabetBijection(y, 'A');
    AlphabetBijection(z, 'A');
    AlphabetExcludes(y);
    AlphabetExcludes(z);
    var s := [CharOf(w), CharOf(x), CharOf(y), CharOf(z)] + rest;
    assert s[4..] == rest;
    assert ValueOf(s[0]) == Some(w) && ValueOf(s[1]) == Some(x) && ValueOf(s[2]) == Some(y) && ValueOf(s[3]) == Some(z);
  }

  /** One step of the round trip: a group in front of bytes that already
      round-trip. */
  lemma DecodeEncodeStep(b: seq<byte>)
    requires |b| >= 3 && Decode(Encode(b[3..])) == Some(b[3..])
    ensures Decode(Encode(b)) == Some(b)
  {
    var rest := Encode(b[3..]);
    assert Encode(b) == Group(b[0], b[1], b[2]) + rest;
    DecodeGroup(b[0], b[1], b[2], rest, b[3..]);
    FirstThree(b);
  }

  lemma FirstThree<T>(b: seq<T>)
    requires |b| >= 3
    ensures b == [b[0], b[1], b[2]] + b[3..]
  {
  }

  /** Decoding the last group of one or two bytes. */
  lemma DecodeTail(b: seq<byte>)
    requires 1 <= |b| <= 2
    ensures Decode(Encode(b)) == Some(b)
  {
    if |b| == 1 {
      DecodeOne(b[0]);
      assert [b[0]] == b;
    } else {
      DecodeTwo(b[0], b[1]);
      assert [b[0], b[1]] == b;
    }
  }

  lemma DecodeOne(b0: byte)
    ensures Decode([CharOf(b0 / 4), CharOf((b0 % 4) * 16), '=', '=']) == Some([b0])
  {
    var a, c := b0 / 4, (b0 % 4) * 16;
    assert c / 16 == b0 % 4;
    assert a * 4 + c / 16 == b0;
    AlphabetBijection(a, 'A');
    AlphabetBijection(c, 'A');
    var s := [CharOf(a), CharOf(c), '=', '='];
    assert ValueOf(s[0]) == Some(a) && ValueOf(s[1]) == Some(c);
  }

  lemma DecodeTwo(b0: byte, b1: byte)
    ensures Decode([CharOf(b0 / 4), CharOf((b0 % 4) * 16 + b1 / 16), CharOf((b1 % 16) * 4), '=']) == Some([b0, b1])
  {
    GroupArithmetic(b0, b1, 0);
    var x, y, z := b0 / 4, (b0 % 4) * 16 + b1 / 16, (b1 % 16) * 4;
    assert x * 4 + y / 16 == b0;
    assert (y % 16) * 16 + z / 4 == b1;
    AlphabetBijection(x, 'A');
    AlphabetBijection(y, 'A');
    AlphabetBijection(z, 'A');
    AlphabetExcludes(z);
    var s := [CharOf(x), CharOf(y), CharOf(z), '='];
    assert ValueOf(s[0]) == Some(x) && ValueOf(s[1]) == Some(y) && ValueOf(s[2]) == Some(z);
  }

  /** Decoding inverts encoding: `Buffer.from(x.toString('base64'),
      'base64')` is `x` again. */
  lemma {:induction false} DecodeEncode(b: seq<byte>)
    ensures Decode(Encode(b)) == Some(b)
    decreases |b|
  {
    if 1 <= |b| <= 2 {
      DecodeTail(b);
    } else if |b| >= 3 {
      DecodeEncode(b[3..]);
      DecodeEncodeStep(b);
    }
  }

  // ---------------------------------------------------------------------------
  // Unpadded form
  // ---------------------------------------------------------------------------

  /** `.replace(/=/g, '')`. */
  function StripPadding(s: string): (r: string)
    ensures '=' !in r
    ensures |r| <= |s|
  {
    if |s| == 0 then ""
    else (if s[0] == '=' then "" else [s[0]]) + StripPadding(s[1..])
  }

  lemma {:induction false} StripPaddingAppend(x: string, y: string)
    ensures StripPadding(x + y) == StripPadding(x) + StripPadding(y)
    decreases |x|
  {
    if |x| > 0 {
      StripPaddingAppend(x[1..], y);
      assert (x + y)[1..] == x[1..] + y;
    } else {
      assert x + y == y;
    }
  }

  function Repeat(c: char, n: nat): (r: string)
    ensures |r| == n && forall i :: 0 <= i < n ==> r[i] == c
  {
    if n == 0 then "" else [c] + Repeat(c, n - 1)
  }

  /** `str + '='.repeat((4 - str.length % 4) % 4)`. */
  function Repad(s: string): (r: string)
    ensures |r| % 4 == 0
  {
    s + Repeat('=', (4 - |s| % 4) % 4)
  }

  function Keep(c: char): string {
    if c == '=' then "" else [c]
  }

  /** Stripping a four-character group character by character. */
  lemma StripPaddingUnfold4(s: string)
    requires |s| == 4
    ensures StripPadding(s) == Keep(s[0]) + Keep(s[1]) + Keep(s[2]) + Keep(s[3])
  {
    assert s == [s[0]] + [s[1]] + [s[2]] + [s[3]];
    StripPaddingAppend([s[0]] + [s[1]] + [s[2]], [s[3]]);
    StripPaddingAppend([s[0]] + [s[1]], [s[2]]);
    StripPaddingAppend([s[0]], [s[1]]);
    assert forall c: char :: StripPadding([c]) == Keep(c) by {
      forall c: char ensures StripPadding([c]) == Keep(c) {
        assert [c][1..] == [];
      }
    }
  }

  /** A group of alphabet characters loses nothing when stripped. */
  lemma StripGroup(g: string)
    requires |g| == 4 && AllAlphabet(g)
    ensures StripPadding(g) == g
  {
    StripPaddingUnfold4(g);
  }

  /** The last group: two or three alphabet characters, then padding. */
  lemma {:induction false} RepadTail(b: seq<byte>)
    requires 1 <= |b| <= 2
    ensures Repad(StripPadding(Encode(b))) == Encode(b)
    ensures |StripPadding(Encode(b))| == |b| + 1
    ensures AllAlphabet(StripPadding(Encode(b)))
  {
    var s := Encode(b);
    StripPaddingUnfold4(s);
    if |b| == 1 {
      var a, c := b[0] / 4, (b[0] % 4) * 16;
      AlphabetBijection(a, 'A');
      AlphabetBijection(c, 'A');
      AlphabetExcludes(a);
      AlphabetExcludes(c);
      assert s == [CharOf(a), CharOf(c), '=', '='];
      assert StripPadding(s) == [CharOf(a), CharOf(c)];
      assert Repeat('=', 2) == "==";
    } else {
      GroupArithmetic(b[0], b[1], 0);
      var x, y, z := b[0] / 4, (b[0] % 4) * 16 + b[1] / 16, (b[1] % 16) * 4;
      AlphabetBijection(x, 'A');
      AlphabetBijection(y, 'A');
      AlphabetBijection(z, 'A');
      AlphabetExcludes(x);
      AlphabetExcludes(y);
      AlphabetExcludes(z);
      assert s == [CharOf(x), CharOf(y), CharOf(z), '='];
      assert StripPadding(s) == [CharOf(x), CharOf(y), CharOf(z)];
      assert Repeat('=', 1) == "=";
    }
  }

  /** Restoring padding after a whole group only pads what follows it. */
  lemma RepadAfterGroup(g: string, u: string)
    requires |g| == 4
    ensures Repad(g + u) == g + Repad(u)
  {
    assert |g + u| % 4 == |u| % 4;
  }

  predicate AllAlphabet(s: string) {
    forall i :: 0 <= i < |s| ==> ValueOf(s[i]).Some?
  }

  /** The group of three bytes is four alphabet characters. */
  lemma GroupInAlphabet(b0: byte, b1: byte, b2: byte)
    ensures AllAlphabet(Group(b0, b1, b2))
  {
    GroupArithmetic(b0, b1, b2);
    AlphabetBijection(b0 / 4, 'A');
    AlphabetBijection((b0 % 4) * 16 + b1 / 16, 'A');
    AlphabetBijection((b1 % 16) * 4 + b2 / 64, 'A');
    AlphabetBijection(b2 % 64, 'A');
  }

  /** Padding that is stripped is exactly the padding restored, and the
      stripped text is all alphabet characters. */
  lemma {:induction false} RepadStripped(b: seq<byte>)
    ensures Repad(StripPadding(Encode(b))) == Encode(b)
    ensures AllAlphabet(StripPadding(Encode(b)))
    decreases |b|
  {
    if 1 <= |b| <= 2 {
      RepadTail(b);
    } else if |b| >= 3 {
      var g := Group(b[0], b[1], b[2]);
      GroupInAlphabet(b[0], b[1], b[2]);
      StripGroup(g);
      var rest := Encode(b[3..]);
      assert Encode(b) == g + rest;
      StripPaddingAppend(g, rest);
      RepadStripped(b[3..]);
      var u' := StripPadding(rest);
      RepadAfterGroup(g, u');
      assert AllAlphabet(g + u');
    }
  }

  /** The unpadded encoding decodes back once its padding is restored. */
  lemma UnpaddedRoundTrip(b: seq<byte>)
    ensures Decode(Repad(StripPadding(Encode(b)))) == Some(b)
  {
    RepadStripped(b);
    DecodeEncode(b);
  }

  // ---------------------------------------------------------------------------
  // The catalog filters
  // ---------------------------------------------------------------------------

  /** A decoded filter: no filter (the id field was empty), the bytes, or
      text that is not an unpadded encoding. */
  datatype Decoded = NoFilter | Filter(bytes: seq<byte>) | Undecodable

  /** `encodeFilter`: the empty filter is the empty string; otherwise the
      unpadded encoding, which never contains `=` or `_`. */
  function EncodeFilter(b: seq<byte>): (e: string)
    ensures e == "" <==> |b| == 0
    ensures '=' !in e && '_' !in e
    ensures AllAlphabet(e)
  {
    if |b| == 0 then ""
    else
      RepadStripped(b);
      var e := StripPadding(Encode(b));
      assert '_' !in e by {
        forall i | 0 <= i < |e| ensures e[i] != '_' {
          AlphabetBijection(0, e[i]);
          AlphabetExcludes(ValueOf(e[i]).value);
        }
      }
      assert |Repad(e)| == |Encode(b)|;
      e
  }

  /** `decodeFilter`: an empty field is no filter; otherwise the padding
      is restored and the text decoded. */
  function DecodeFilter(e: string): (d: Decoded)
    ensures d == NoFilter <==> e == ""
  {
    if e == "" then NoFilter
    else match Decode(Repad(e))
      case Some(b) => Filter(b)
      case None => Undecodable
  }

  /** Every filter survives the trip through a custom id; the empty one
      comes back as no filter. */
  lemma FilterRoundTrip(b: seq<byte>)
    ensures DecodeFilter(EncodeFilter(b)) == (if |b| == 0 then NoFilter else Filter(b))
  {
    if |b| > 0 {
      UnpaddedRoundTrip(b);
    }
  }
}

=== FILE: bot_status.dfy ===
/** The persisted bot presence: the one-row `activity|message` codec and
    the owner-only `setstatus` command that writes it. */
module BotStatus {
  import opened Wrappers
  import opened Text

  datatype Activity = Playing | Streaming | Listening | Watching | Competing

  /** The option value of each activity type. */
  function ActivityKey(a: Activity): string {
    match a
    case Playing => "playing"
    case Streaming => "streaming"
    case Listening => "listening"
    case Watching => "watching"
    case Competing => "competing"
  }

  /** The phrase shown before the message in the confirmation. */
  function DisplayName(a: Activity): (n: string)
    ensures n != ""
  {
    match a
    case Playing => "Playing"
    case Streaming => "Streaming"
    case Listening => "Listening to"
    case Watching => "Watching"
    case Competing => "Competing in"
  }

  /** Lookup of an activity by its key; only the five keys are accepted. */
  function ActivityOf(key: string): (a: Option<Activity>)
    ensures a.Some? ==> ActivityKey(a.value) == key
  {
    if key == "playing" then Some(Playing)
    else if key == "streaming" then Some(Streaming)
    else if key == "listening" then Some(Listening)
    else if key == "watching" then Some(Watching)
    else if key == "competing" then Some(Competing)
    else None
  }

  /** Every activity type is found under its own key. */
  lemma ActivityKeyRoundTrip(a: Activity)
    ensures ActivityOf(ActivityKey(a)) == Some(a)
  {
  }

  /** The keys are already lower-case, so lower-casing a typed key keeps it. */
  lemma ActivityKeyLower(a: Activity)
    ensures LowerStr(ActivityKey(a)) == ActivityKey(a)
  {
    var k := ActivityKey(a);
    forall i | 0 <= i < |k| ensures !IsUpper(k[i]) {
    }
    LowerOfLowercase(k);
  }

  lemma ActivityKeyHasNoPipe(a: Activity)
    ensures '|' !in ActivityKey(a)
  {
    var k := ActivityKey(a);
    forall i | 0 <= i < |k| ensures k[i] != '|' {
    }
  }

  predicate ValidStatus(s: string) {
    s == "online" || s == "idle" || s == "dnd"
  }

  // ---------------------------------------------------------------------------
  // The store codec
  // ---------------------------------------------------------------------------

  /** The `bot_status` table: the stored strings, in row order. */
  type Table = seq<string>

  /** How far the two store statements got: the delete failed, the insert
      failed after the delete, or both went through. */
  datatype SaveOutcome = DeleteThrew | InsertThrew | Written

  /** `saveBotStatus`: the status argument is not stored; errors are
      logged and never reach the caller. */
  function Save(t: Table, status: string, activity: string, message: string, o: SaveOutcome): (t': Table)
    ensures o == Written ==> t' == [activity + "|" + message]
    ensures o == InsertThrew ==> t' == []
    ensures o == DeleteThrew ==> t' == t
    ensures o != DeleteThrew ==> |t'| <= 1
  {
    match o
    case DeleteThrew => t
    case InsertThrew => []
    case Written => [activity + "|" + message]
  }

  /** What `loadBotStatus` returns: the status is always `online`; the
      message is missing when the stored string has no `|`. */
  datatype Loaded = Loaded(status: string, activity: string, message: Option<string>)

  /** `loadBotStatus` on the first row; a failed read and an empty table
      both give nothing. */
  function Load(t: Table, readOk: bool): (r: Option<Loaded>)
    ensures r.None? <==> !readOk || |t| == 0
    ensures r.Some? ==> (&& r.value.status == "online"
                         && r.value.activity <= t[0] && '|' !in r.value.activity
                         && (r.value.message.None? <==> '|' !in t[0]))
    ensures r.Some? && r.value.message.Some? ==> (&& '|' !in r.value.message.value
      && t[0][..|r.value.activity| + 1] == r.value.activity + "|"
      && r.value.message.value <= t[0][|r.value.activity| + 1..])
  {
    if !readOk || |t| == 0 then None
    else
      var parts := Split(t[0], "|");
      SplitFirstPiece(t[0], '|');
      SplitHasMore(t[0]);
      if |parts| >= 2 then
        SplitShape(t[0]);
        Some(Loaded("online", parts[0], Some(parts[1])))
      else
        Some(Loaded("online", parts[0], None))
  }

  /** The second piece of a split starts right after the first `|`. */
  lemma SplitShape(s: string)
    requires '|' in s
    ensures var parts := Split(s, "|");
      && |parts| >= 2 && |parts[0]| < |s|
      && s[..|parts[0]| + 1] == parts[0] + "|"
      && parts[1] <= s[|parts[0]| + 1..] && '|' !in parts[1]
  {
    SplitFirstPiece(s, '|');
    var x := Split(s, "|")[0];
    var y := s[|x| + 1..];
    assert s == x + "|" + y;
    SplitAfterPiece(x, "|", y);
    SplitFirstPiece(y, '|');
  }

  /** A split has a second piece exactly when the separator occurs. */
  lemma SplitHasMore(s: string)
    ensures |Split(s, "|")| >= 2 <==> '|' in s
  {
    SplitFirstPiece(s, '|');
    if '|' in s {
      SplitShape(s);
    } else {
      SplitNoSeparator(s, "|");
    }
  }

  /** Reading back what a successful save wrote gives the activity and
      message exactly when neither contains `|`; a `|` inside the message
      loses everything from it on. */
  lemma {:induction false} LoadAfterSave(t: Table, status: string, activity: string, message: string)
    requires '|' !in activity
    ensures var r := Load(Save(t, status, activity, message, Written), true);
      && r.Some? && r.value.status == "online" && r.value.activity == activity
      && r.value.message == Some(Split(message, "|")[0])
      && (r.value.message == Some(message) <==> '|' !in message)
  {
    var s := activity + "|" + message;
    assert s == activity + ['|'] + message;
    SplitAfterPiece(activity, "|", message);
    SplitFirstPiece(message, '|');
  }

  /** Without a `|` in either part, a save reads back unchanged. */
  lemma RoundTripWithoutPipes(t: Table, status: string, activity: string, message: string)
    requires '|' !in activity && '|' !in message
    ensures Load(Save(t, status, activity, message, Written), true) == Some(Loaded("online", activity, Some(message)))
  {
    LoadAfterSave(t, status, activity, message);
  }

  /** A `|` inside the activity cuts the stored activity short. */
  lemma PipeInActivityIsLost(t: Table, status: string, activity: string, message: string)
    requires '|' in activity
    ensures var r := Load(Save(t, status, activity, message, Written), true);
      r.Some? && r.value.activity != activity
  {
    var s := activity + "|" + message;
    SplitFirstPiece(s, '|');
    SplitFirstPiece(activity, '|');
    var first := Split(s, "|")[0];
    assert first <= s && '|' !in first;
    var k :| 0 <= k < |activity| && activity[k] == '|';
    assert s[k] == '|';
    assert first != activity;
  }

  // ---------------------------------------------------------------------------
  // The setstatus command
  // ---------------------------------------------------------------------------

  datatype StatusReply =
    | NotOwner
    | StatusUsage
    | BadActivity
    | NoMessage
    | Updated(status: string, activity: Activity, message: string)
    | UpdateFailed

  /** The configured owner id; an unset or empty one refuses everyone. */
  predicate IsOwner(ownerId: Option<string>, caller: string) {
    ownerId.Some? && ownerId.value != "" && caller == ownerId.value
  }

  /** `!setstatus <status> <activity> <message…>`: owner only; the status
      and activity are lower-cased and checked in that order; the message
      is the remaining arguments joined by single spaces and must not be
      empty. A failed presence update is reported and nothing is saved;
      a failed save is only logged. */
  function SetStatusPrefix(t: Table, ownerId: Option<string>, caller: string, args: seq<string>,
                           presenceOk: bool, save: SaveOutcome): (out: (StatusReply, Table))
    ensures !IsOwner(ownerId, caller) ==> out == (NotOwner, t)
    ensures out.0 == StatusUsage <==> IsOwner(ownerId, caller) && (|args| == 0 || !ValidStatus(LowerStr(args[0])))
    ensures out.0 == BadActivity <==> (IsOwner(ownerId, caller) && |args| >= 1 && ValidStatus(LowerStr(args[0]))
                                       && (|args| < 2 || ActivityOf(LowerStr(args[1])).None?))
    ensures !out.0.Updated? ==> out.1 == t
    ensures (&& IsOwner(ownerId, caller) && |args| >= 2 && ValidStatus(LowerStr(args[0]))
             && ActivityOf(LowerStr(args[1])).Some? && Join(args[2..], " ") != "" && presenceOk)
            ==> out == (Updated(LowerStr(args[0]), ActivityOf(LowerStr(args[1])).value, Join(args[2..], " ")),
                        Save(t, LowerStr(args[0]), LowerStr(args[1]), Join(args[2..], " "), save))
    ensures out.0.Updated? ==> (&& IsOwner(ownerId, caller) && presenceOk && |args| >= 3
      && out.0.status == LowerStr(args[0]) && ValidStatus(out.0.status)
      && ActivityKey(out.0.activity) == LowerStr(args[1])
      && out.0.message == Join(args[2..], " ") && out.0.message != ""
      && out.1 == Save(t, out.0.status, ActivityKey(out.0.activity), out.0.message, save))
  {
    if !IsOwner(ownerId, caller) then (NotOwner, t)
    else if |args| == 0 || !ValidStatus(LowerStr(args[0])) then (StatusUsage, t)
    else if |args| < 2 || ActivityOf(LowerStr(args[1])).None? then (BadActivity, t)
    else
      var status := LowerStr(args[0]);
      var activity := ActivityOf(LowerStr(args[1])).value;
      var message := Join(args[2..], " ");
      if message == "" then (NoMessage, t)
      else if !presenceOk then (UpdateFailed, t)
      else (Updated(status, activity, message), Save(t, status, ActivityKey(activity), message, save))
  }

  /** The slash form: the platform restricts status and activity to the
      listed choices, so only ownership and the presence update matter. */
  function SetStatusSlash(t: Table, ownerId: Option<string>, caller: string, status: string, activity: Activity,
                          message: string, presenceOk: bool, save: SaveOutcome): (out: (StatusReply, Table))
    ensures !IsOwner(ownerId, caller) ==> out == (NotOwner, t)
    ensures IsOwner(ownerId, caller) && !presenceOk ==> out == (UpdateFailed, t)
    ensures IsOwner(ownerId, caller) && presenceOk ==>
      out == (Updated(status, activity, message), Save(t, status, ActivityKey(activity), message, save))
  {
    if !IsOwner(ownerId, caller) then (NotOwner, t)
    else if !presenceOk then (UpdateFailed, t)
    else (Updated(status, activity, message), Save(t, status, ActivityKey(activity), message, save))
  }

  /** A one-word message set through the prefix command comes back on the
      next start exactly as given. */
  lemma PrefixStatusSurvivesRestart(t: Table, owner: string, status: string, activity: Activity, word: string)
    requires owner != "" && ValidStatus(status) && LowerStr(status) == status
    requires word != "" && '|' !in word
    ensures var (reply, t') := SetStatusPrefix(t, Some(owner), owner, [status, ActivityKey(activity), word], true, Written);
      && reply == Updated(status, activity, word)
      && Load(t', true) == Some(Loaded("online", ActivityKey(activity), Some(word)))
  {
    var key := ActivityKey(activity);
    var args := [status, key, word];
    ActivityKeyLower(activity);
    ActivityKeyRoundTrip(activity);
    assert args[2..] == [word];
    assert Join(args[2..], " ") == word;
    assert args[0] == status && args[1] == key;
    var t' := Save(t, status, key, word, Written);
    assert SetStatusPrefix(t, Some(owner), owner, args, true, Written) == (Updated(status, activity, word), t');
    ActivityKeyHasNoPipe(activity);
    RoundTripWithoutPipes(t, status, key, word);
  }
}

=== FILE: button_routing.dfy ===
/** Routing of button presses by custom id, and the error rule for slash
    commands. A button id is matched against fixed prefixes in order, then
    split on `_`; missing or empty fields take defaults. The filters the
    ids carry are unpadded base64, which never contains `_`, so every id
    the commands build splits back into the fields it was built from. */
module ButtonRouting {
  import opened Wrappers
  import opened Text
  import Catalog
  import Utf8
  import Plugins
  import Themes
  import PluginsLegacy
  import Reviews

  const AliucordGuild: string := "811255666990907402"

  // ---------------------------------------------------------------------------
  // Fields of a split id
  // ---------------------------------------------------------------------------

  /** `parts[i]`, with `undefined` read as the empty string. */
  function Field(parts: seq<string>, i: nat): (f: string)
    ensures i < |parts| ==> f == parts[i]
    ensures i >= |parts| ==> f == ""
  {
    if i < |parts| then parts[i] else ""
  }

  /** `parts[i] || d`: a missing or empty field takes the default. */
  function FieldOr(parts: seq<string>, i: nat, d: string): (f: string)
    ensures i < |parts| && parts[i] != "" ==> f == parts[i]
    ensures i >= |parts| || parts[i] == "" ==> f == d
  {
    if Field(parts, i) != "" then parts[i] else d
  }

  /** `parseInt(parts[i]) || 0`: `NaN` is falsy, and so is 0. */
  function IntOr0(parts: seq<string>, i: nat): (n: int)
    ensures i < |parts| && ParseInt(parts[i]).Some? ==> n == ParseInt(parts[i]).value
    ensures i >= |parts| || ParseInt(parts[i]).None? ==> n == 0
  {
    match ParseInt(Field(parts, i))
    case None => 0
    case Some(v) => v
  }

  /** `decodeFilter`: an empty field is no filter; a malformed one becomes
      whatever Node's lenient decoder salvages, `salvage(e)`. */
  function DecodeFilter(e: string, salvage: string -> string): (f: Option<string>)
    ensures f.None? <==> e == ""
  {
    match Utf8.DecodeText(e)
    case NoText => None
    case Text(v) => Some(v)
    case Garbled => Some(salvage(e))
  }

  /** A filter as the handlers see it after the trip: an empty one is no
      filter. */
  function Normal(f: Option<string>): Option<string> {
    if Catalog.Active(f) then f else None
  }

  lemma FilterRoundTrip(f: Option<string>, salvage: string -> string)
    ensures DecodeFilter(Utf8.EncodeText(Catalog.OrEmpty(f)), salvage) == Normal(f)
  {
    Utf8.TextRoundTrip(Catalog.OrEmpty(f));
  }

  // ---------------------------------------------------------------------------
  // Routes
  // ---------------------------------------------------------------------------

  datatype Route =
    | PluginsCopy(copyPage: int, index: int)
    | PluginsNav(action: string, page: string, search: string, author: string)
    | ThemesCopy(copyPage: int, index: int)
    | ThemesNav(action: string, page: string, search: string, author: string)
    | RandomNav(action: string, page: string)
    | ReviewsNav(action: string, page: string, kind: string, identifier: string, sortBy: string)
    | InstallAndroid(aliucord: bool)
    | InstallIos
    | Unrouted

  /** The routed prefixes begin differently, so an id has at most one of
      them. */
  lemma PrefixesExclusive(id: string)
    ensures "plugins_copy_" <= id ==> "plugins_" <= id
    ensures "themes_copy_" <= id ==> "themes_" <= id
    ensures "plugins_" <= id ==> !("themes_" <= id) && !("random_" <= id) && !("reviews_" <= id)
    ensures "themes_" <= id ==> !("random_" <= id) && !("reviews_" <= id)
    ensures "random_" <= id ==> !("reviews_" <= id)
    ensures "plugins_" <= id || "themes_" <= id || "random_" <= id || "reviews_" <= id ==>
      id != "install_android" && id != "install_ios"
  {
    PrefixOfPrefix("plugins_", "plugins_copy_", id);
    PrefixOfPrefix("themes_", "themes_copy_", id);
    Diverge("plugins_", "themes_", id, 0);
    Diverge("plugins_", "random_", id, 0);
    Diverge("plugins_", "reviews_", id, 0);
    Diverge("themes_", "random_", id, 0);
    Diverge("themes_", "reviews_", id, 0);
    Diverge("random_", "reviews_", id, 1);
    var ps := ["plugins_", "themes_", "random_", "reviews_"];
    forall p | p in ps
      ensures p <= id ==> id != "install_android" && id != "install_ios"
    {
      Diverge(p, "install_android", id, 0);
      Diverge(p, "install_ios", id, 0);
    }
  }

  /** A prefix of a prefix of `id` is a prefix of `id`. */
  lemma PrefixOfPrefix(a: string, b: string, id: string)
    requires a <= b
    ensures b <= id ==> a <= id
  {
  }

  /** Two texts that differ at position `k` are not both prefixes of one
      id. */
  lemma Diverge(a: string, b: string, id: string, k: nat)
    requires k < |a| && k < |b| && a[k] != b[k]
    ensures a <= id ==> !(b <= id)
  {
    if a <= id {
      assert id[k] == a[k];
    }
  }

  /** `handleButton` of the newer bot: the prefixes are tried in source
      order, so `plugins_copy_` wins over `plugins_` and `themes_copy_`
      over `themes_`. */
  function RouteOf(id: string, guildId: string): (r: Route)
    ensures "plugins_copy_" <= id ==> r.PluginsCopy?
    ensures "themes_copy_" <= id ==> r.ThemesCopy?
    ensures r.PluginsNav? <==> "plugins_" <= id && !("plugins_copy_" <= id)
    ensures r.ThemesNav? <==> "themes_" <= id && !("themes_copy_" <= id)
    ensures r.RandomNav? <==> "random_" <= id
    ensures r.ReviewsNav? <==> "reviews_" <= id
    ensures r.InstallAndroid? <==> id == "install_android"
    ensures r.InstallAndroid? ==> (r.aliucord <==> guildId == AliucordGuild)
    ensures r.ReviewsNav? ==> r.kind != "" && r.sortBy != ""
  {
    PrefixesExclusive(id);
    var parts := Split(id, "_");
    if "plugins_copy_" <= id then PluginsCopy(IntOr0(parts, 2), IntOr0(parts, 3))
    else if "plugins_" <= id then PluginsNav(Field(parts, 1), FieldOr(parts, 2, "0"), FieldOr(parts, 3, ""), FieldOr(parts, 4, ""))
    else if "themes_copy_" <= id then ThemesCopy(IntOr0(parts, 2), IntOr0(parts, 3))
    else if "themes_" <= id then ThemesNav(Field(parts, 1), FieldOr(parts, 2, "0"), FieldOr(parts, 3, ""), FieldOr(parts, 4, ""))
    else if "random_" <= id then RandomNav(Field(parts, 1), FieldOr(parts, 2, "0"))
    else if "reviews_" <= id then
      ReviewsNav(Field(parts, 1), FieldOr(parts, 2, "0"), FieldOr(parts, 3, "user"), FieldOr(parts, 4, ""), FieldOr(parts, 5, "date"))
    else if id == "install_android" then InstallAndroid(guildId == AliucordGuild)
    else if id == "install_ios" then InstallIos
    else Unrouted
  }

  // ---------------------------------------------------------------------------
  // Ids split back into their fields
  // ---------------------------------------------------------------------------

  lemma NoUnderscoreInNumber(n: nat)
    ensures '_' !in NatToString(n)
  {
    var s := NatToString(n);
    assert forall i :: 0 <= i < |s| ==> s[i] != '_' by {
      assert AllDigits(s);
    }
  }

  /** The first two fields of a join of three or more, with their
      separators, begin it. */
  lemma JoinHead(parts: seq<string>, sep: string)
    requires |parts| >= 3
    ensures parts[0] + sep + parts[1] + sep <= Join(parts, sep)
  {
    assert parts == [parts[0]] + parts[1..];
    JoinCons(parts[0], parts[1..], sep);
    assert parts[1..] == [parts[1]] + parts[2..];
    JoinCons(parts[1], parts[2..], sep);
  }

  lemma Join4(a: string, b: string, c: string, d: string, sep: string)
    ensures Join([a, b, c, d], sep) == a + sep + b + sep + c + sep + d
  {
    assert [a, b, c, d] == [a] + [b, c, d];
    JoinCons(a, [b, c, d], sep);
    assert [b, c, d] == [b] + [c, d];
    JoinCons(b, [c, d], sep);
    assert [c, d] == [c] + [d];
    JoinCons(c, [d], sep);
  }

  predicate IsNavAction(action: string) {
    action == "prev" || action == "next"
  }

  /** The five fields of a Previous or Next id of the plugins or themes
      browser. */
  lemma {:induction false} NavIdSplits(kind: string, action: string, page: nat, search: Option<string>, author: Option<string>)
    requires '_' !in kind && IsNavAction(action)
    ensures Split(Catalog.NavId(kind, action, page, search, author), "_")
      == [kind, action, NatToString(page), Utf8.EncodeText(Catalog.OrEmpty(search)), Utf8.EncodeText(Catalog.OrEmpty(author))]
  {
    var parts := [kind, action, NatToString(page), Utf8.EncodeText(Catalog.OrEmpty(search)), Utf8.EncodeText(Catalog.OrEmpty(author))];
    NoUnderscoreInNumber(page);
    assert forall i :: 0 <= i < |parts| ==> '_' !in parts[i];
    SplitJoin(parts, "_");
  }

  /** The fields a plugins or themes page id is routed with. */
  lemma RoutedNav(id: string, guildId: string)
    requires ("plugins_" <= id && !("plugins_copy_" <= id)) || ("themes_" <= id && !("themes_copy_" <= id))
    ensures var parts := Split(id, "_");
      && RouteOf(id, guildId).action == Field(parts, 1)
      && RouteOf(id, guildId).page == FieldOr(parts, 2, "0")
      && RouteOf(id, guildId).search == FieldOr(parts, 3, "")
      && RouteOf(id, guildId).author == FieldOr(parts, 4, "")
  {
    PrefixesExclusive(id);
  }

  /** An id that starts `{kind}_{action}_` for a Previous or Next action
      carries the `{kind}_` prefix and not the `{kind}_copy_` one. */
  lemma NavHead(kind: string, action: string, id: string)
    requires IsNavAction(action) && kind + "_" + action + "_" <= id
    ensures kind + "_" <= id && !(kind + "_copy_" <= id)
  {
    var head := kind + "_" + action + "_";
    var k := |kind| + 1;
    assert head[k] == action[0];
    assert (kind + "_copy_")[k] == 'c';
    Diverge(head, kind + "_copy_", id, k);
    PrefixOfPrefix(kind + "_", head, id);
  }

  /** A Previous or Next id of a browser starts `{kind}_`, not
      `{kind}_copy_`, and splits into the five fields it was built from. */
  lemma NavIdShape(kind: string, action: string, page: nat, search: Option<string>, author: Option<string>)
    requires '_' !in kind && IsNavAction(action)
    ensures var id := Catalog.NavId(kind, action, page, search, author);
      && kind + "_" <= id && !(kind + "_copy_" <= id)
      && Split(id, "_") == [kind, action, NatToString(page), Utf8.EncodeText(Catalog.OrEmpty(search)), Utf8.EncodeText(Catalog.OrEmpty(author))]
  {
    var id := Catalog.NavId(kind, action, page, search, author);
    var parts := [kind, action, NatToString(page), Utf8.EncodeText(Catalog.OrEmpty(search)), Utf8.EncodeText(Catalog.OrEmpty(author))];
    JoinHead(parts, "_");
    NavHead(kind, action, id);
    NavIdSplits(kind, action, page, search, author);
  }

  /** The fields of a browser id, once split, are the route's fields. */
  lemma NavFields(id: string, guildId: string, kind: string, action: string, page: string, search: string, author: string)
    requires ("plugins_" <= id && !("plugins_copy_" <= id)) || ("themes_" <= id && !("themes_copy_" <= id))
    requires Split(id, "_") == [kind, action, page, search, author] && page != ""
    ensures RouteOf(id, guildId).action == action && RouteOf(id, guildId).page == page
    ensures RouteOf(id, guildId).search == search && RouteOf(id, guildId).author == author
  {
    RoutedNav(id, guildId);
  }

  /** `plugins_{action}_{page}_{search64}_{author64}` is routed to the plugins
      browser with the fields it was built from. */
  lemma PluginsNavRoundTrip(action: string, page: nat, search: Option<string>, author: Option<string>, guildId: string)
    requires IsNavAction(action)
    ensures RouteOf(Catalog.NavId("plugins", action, page, search, author), guildId)
      == PluginsNav(action, NatToString(page), Utf8.EncodeText(Catalog.OrEmpty(search)), Utf8.EncodeText(Catalog.OrEmpty(author)))
  {
    var id := Catalog.NavId("plugins", action, page, search, author);
    NavIdShape("plugins", action, page, search, author);
    NavFields(id, guildId, "plugins", action, NatToString(page),
              Utf8.EncodeText(Catalog.OrEmpty(search)), Utf8.EncodeText(Catalog.OrEmpty(author)));
  }

  /** The same for the themes browser. */
  lemma ThemesNavRoundTrip(action: string, page: nat, search: Option<string>, author: Option<string>, guildId: string)
    requires IsNavAction(action)
    ensures RouteOf(Catalog.NavId("themes", action, page, search, author), guildId)
      == ThemesNav(action, NatToString(page), Utf8.EncodeText(Catalog.OrEmpty(search)), Utf8.EncodeText(Catalog.OrEmpty(author)))
  {
    var id := Catalog.NavId("themes", action, page, search, author);
    NavIdShape("themes", action, page, search, author);
    NavFields(id, guildId, "themes", action, NatToString(page),
              Utf8.EncodeText(Catalog.OrEmpty(search)), Utf8.EncodeText(Catalog.OrEmpty(author)));
  }

  /** A copy id gives back its page and index. */
  lemma CopyRoundTrip(page: nat, index: nat, guildId: string)
    ensures RouteOf(Plugins.CopyId(page, index), guildId) == PluginsCopy(page, index)
  {
    var id := Plugins.CopyId(page, index);
    CopyIdSplits(page, index);
    RoutedCopy(id, guildId);
    ParseIntOfNat(page);
    ParseIntOfNat(index);
  }

  lemma CopyIdSplits(page: nat, index: nat)
    ensures "plugins_copy_" <= Plugins.CopyId(page, index)
    ensures Split(Plugins.CopyId(page, index), "_") == ["plugins", "copy", NatToString(page), NatToString(index)]
  {
    var parts := ["plugins", "copy", NatToString(page), NatToString(index)];
    Join4("plugins", "copy", NatToString(page), NatToString(index), "_");
    var id := Plugins.CopyId(page, index);
    assert id == Join(parts, "_");
    assert id[..13] == "plugins_copy_";
    NoUnderscoreInNumber(page);
    NoUnderscoreInNumber(index);
    assert forall i :: 0 <= i < |parts| ==> '_' !in parts[i];
    SplitJoin(parts, "_");
  }

  lemma RoutedCopy(id: string, guildId: string)
    requires "plugins_copy_" <= id
    ensures var parts := Split(id, "_");
      RouteOf(id, guildId) == PluginsCopy(IntOr0(parts, 2), IntOr0(parts, 3))
  {
  }

  /** A review id gives back its fields, as long as the kind and the sort
      order are non-empty and contain no `_`; the identifier comes back
      encoded. */
  lemma ReviewsNavRoundTrip(action: string, page: nat, kind: string, identifier: string, sortBy: string, guildId: string)
    requires IsNavAction(action)
    requires kind != "" && '_' !in kind && sortBy != "" && '_' !in sortBy
    ensures RouteOf(Reviews.NavId(action, Catalog.Num(page), kind, identifier, sortBy), guildId)
      == ReviewsNav(action, NatToString(page), kind, Reviews.EncodeIdentifier(identifier), sortBy)
  {
    var id := Reviews.NavId(action, Catalog.Num(page), kind, identifier, sortBy);
    ReviewsIdSplits(action, page, kind, identifier, sortBy);
    RoutedReviews(id, guildId);
  }

  lemma ReviewsIdSplits(action: string, page: nat, kind: string, identifier: string, sortBy: string)
    requires IsNavAction(action) && '_' !in kind && '_' !in sortBy
    ensures var id := Reviews.NavId(action, Catalog.Num(page), kind, identifier, sortBy);
      && "reviews_" <= id
      && Split(id, "_") == ["reviews", action, NatToString(page), kind, Reviews.EncodeIdentifier(identifier), sortBy]
  {
    var parts := ["reviews", action, NatToString(page), kind, Reviews.EncodeIdentifier(identifier), sortBy];
    JoinStarts(parts, "_");
    NoUnderscoreInNumber(page);
    assert forall i :: 0 <= i < |parts| ==> '_' !in parts[i];
    SplitJoin(parts, "_");
  }

  lemma RoutedReviews(id: string, guildId: string)
    requires "reviews_" <= id
    ensures var parts := Split(id, "_");
      RouteOf(id, guildId) == ReviewsNav(Field(parts, 1), FieldOr(parts, 2, "0"), FieldOr(parts, 3, "user"),
                                         FieldOr(parts, 4, ""), FieldOr(parts, 5, "date"))
  {
    PrefixesExclusive(id);
  }

  /** The first field of a join of two or more, with its separator, begins
      it. */
  lemma JoinStarts(parts: seq<string>, sep: string)
    requires |parts| >= 2
    ensures parts[0] + sep <= Join(parts, sep)
  {
    assert parts == [parts[0]] + parts[1..];
    JoinCons(parts[0], parts[1..], sep);
  }

  /** The random suggestion's buttons: `random_{action}_{page}_0`. */
  lemma RandomNavRoundTrip(action: string, page: nat, guildId: string)
    requires IsNavAction(action)
    ensures RouteOf("random_" + action + "_" + NatToString(page) + "_0", guildId) == RandomNav(action, NatToString(page))
  {
    var parts := ["random", action, NatToString(page), "0"];
    var id := "random_" + action + "_" + NatToString(page) + "_0";
    Join4("random", action, NatToString(page), "0", "_");
    assert id == Join(parts, "_");
    NoUnderscoreInNumber(page);
    assert forall i :: 0 <= i < |parts| ==> '_' !in parts[i];
    SplitJoin(parts, "_");
    JoinStarts(parts, "_");
    RoutedRandom(id, guildId, parts);
  }

  /** An id with the `random_` prefix is routed with its second and third
      fields. */
  lemma RoutedRandom(id: string, guildId: string, parts: seq<string>)
    requires "random" + "_" <= id && Split(id, "_") == parts && |parts| >= 3 && parts[2] != ""
    ensures RouteOf(id, guildId) == RandomNav(parts[1], parts[2])
  {
    assert "random" + "_" == "random_";
    PrefixesExclusive(id);
  }

  // ---------------------------------------------------------------------------
  // From a press to a page
  // ---------------------------------------------------------------------------

  /** The plugins browser's answer to a routed press. */
  function PressPlugins(all: seq<Plugins.Plugin>, r: Route, salvage: string -> string): (v: Option<Catalog.PageView<Plugins.Plugin>>)
    ensures v.Some? <==> r.PluginsNav?
  {
    if r.PluginsNav? then
      Some(Plugins.HandleButton(all, r.action, r.page, DecodeFilter(r.search, salvage), DecodeFilter(r.author, salvage)))
    else None
  }

  function PressThemes(all: seq<Themes.Theme>, r: Route, salvage: string -> string): (v: Option<Catalog.PageView<Themes.Theme>>)
    ensures v.Some? <==> r.ThemesNav?
  {
    if r.ThemesNav? then
      Some(Themes.HandleButton(all, r.action, r.page, DecodeFilter(r.search, salvage), DecodeFilter(r.author, salvage)))
    else None
  }

  function PressReviews(store: Reviews.Store, r: Route, salvage: string -> string): (v: Option<Reviews.ReviewsPage>)
    ensures v.Some? <==> r.ReviewsNav?
  {
    if r.ReviewsNav? then Some(Reviews.HandleButton(store, r.action, r.page, r.kind, r.identifier, r.sortBy, salvage))
    else None
  }

  lemma PluginsFilterNormal(all: seq<Plugins.Plugin>, search: Option<string>, author: Option<string>)
    ensures Plugins.FilterPlugins(all, Normal(search), Normal(author)) == Plugins.FilterPlugins(all, search, author)
  {
  }

  lemma ThemesFilterNormal(all: seq<Themes.Theme>, search: Option<string>, author: Option<string>)
    ensures Themes.FilterThemes(all, Normal(search), Normal(author)) == Themes.FilterThemes(all, search, author)
  {
  }

  /** Pressing Previous or Next on a plugins page shows the neighbouring
      page of the same filtered list. */
  lemma PluginsButtonMovesOnePage(all: seq<Plugins.Plugin>, action: string, page: nat,
                                  search: Option<string>, author: Option<string>, guildId: string, salvage: string -> string)
    requires IsNavAction(action)
    ensures var target := if action == "next" then page + 1 else page - 1;
      PressPlugins(all, RouteOf(Catalog.NavId("plugins", action, page, search, author), guildId), salvage)
        == Some(Catalog.ViewPage(Plugins.FilterPlugins(all, search, author), Catalog.Num(target)))
  {
    var r := RouteOf(Catalog.NavId("plugins", action, page, search, author), guildId);
    PluginsNavRoundTrip(action, page, search, author, guildId);
    FilterRoundTrip(search, salvage);
    FilterRoundTrip(author, salvage);
    assert PressPlugins(all, r, salvage) == Some(Plugins.HandleButton(all, action, NatToString(page), Normal(search), Normal(author)));
    PluginsFilterNormal(all, search, author);
    StepOfPage(action, page);
  }

  /** The page a Previous or Next button carries, read back and moved. */
  lemma StepOfPage(action: string, page: nat)
    requires IsNavAction(action)
    ensures Catalog.Step(action, Catalog.PageOf(NatToString(page))) == Catalog.Num(if action == "next" then page + 1 else page - 1)
  {
    ParseIntOfNat(page);
  }

  /** The same for the themes browser. */
  lemma ThemesButtonMovesOnePage(all: seq<Themes.Theme>, action: string, page: nat,
                                 search: Option<string>, author: Option<string>, guildId: string, salvage: string -> string)
    requires IsNavAction(action)
    ensures var target := if action == "next" then page + 1 else page - 1;
      PressThemes(all, RouteOf(Catalog.NavId("themes", action, page, search, author), guildId), salvage)
        == Some(Catalog.ViewPage(Themes.FilterThemes(all, search, author), Catalog.Num(target)))
  {
    var r := RouteOf(Catalog.NavId("themes", action, page, search, author), guildId);
    ThemesNavRoundTrip(action, page, search, author, guildId);
    FilterRoundTrip(search, salvage);
    FilterRoundTrip(author, salvage);
    assert DecodeFilter(r.search, salvage) == Normal(search) && DecodeFilter(r.author, salvage) == Normal(author);
    ThemesFilterNormal(all, search, author);
    StepOfPage(action, page);
  }

  /** And for the review browser, through the fields the router extracts. */
  lemma ReviewsButtonMovesOnePage(store: Reviews.Store, action: string, page: nat, kind: string, identifier: string,
                                  sortBy: string, guildId: string, salvage: string -> string)
    requires IsNavAction(action)
    requires kind != "" && '_' !in kind && sortBy != "" && '_' !in sortBy
    ensures var target := if action == "next" then page + 1 else page - 1;
      PressReviews(store, RouteOf(Reviews.NavId(action, Catalog.Num(page), kind, identifier, sortBy), guildId), salvage)
        == Some(Reviews.ShowPage(Reviews.Fetch(store, kind, identifier, sortBy), Catalog.Num(target), kind, identifier, sortBy))
  {
    ReviewsNavRoundTrip(action, page, kind, identifier, sortBy, guildId);
    Reviews.ButtonMovesOnePage(store, action, page, kind, identifier, sortBy, salvage);
  }

  // ---------------------------------------------------------------------------
  // Failures
  // ---------------------------------------------------------------------------

  /** What a failing handler does to the conversation: a copy button
      answers with a private reply, a page button replaces the message with
      the error text and no components. */
  datatype Failure = PrivateReply(text: string) | Replace(text: string, components: seq<Catalog.Button>)

  const CopyError: string := "❌ Error copying link. Please try again."

  function LoadError(what: string): string {
    "❌ Error loading " + what + ". Please try again."
  }

  function OnHandlerError(r: Route): (f: Option<Failure>)
    ensures (r.PluginsCopy? || r.ThemesCopy?) <==> f.Some? && f.value.PrivateReply?
    ensures (r.PluginsNav? || r.ThemesNav? || r.RandomNav? || r.ReviewsNav?) <==> f.Some? && f.value.Replace?
    ensures f.Some? && f.value.Replace? ==> f.value.components == []
  {
    match r
    case PluginsCopy(_, _) => Some(PrivateReply(CopyError))
    case ThemesCopy(_, _) => Some(PrivateReply(CopyError))
    case PluginsNav(_, _, _, _) => Some(Replace(LoadError("plugins"), []))
    case ThemesNav(_, _, _, _) => Some(Replace(LoadError("themes"), []))
    case RandomNav(_, _) => Some(Replace(LoadError("plugin"), []))
    case ReviewsNav(_, _, _, _, _) => Some(Replace(LoadError("reviews"), []))
    case _ => None
  }

  /** The outcome of a slash command. */
  datatype CommandOutcome = LoggedOnly | Completed | ErrorFollowUp | ErrorReply

  /** An unknown command is only logged; a command that throws gets a
      private error message, as a follow-up when the interaction was
      already answered or deferred. */
  function RunCommand(known: bool, threw: bool, replied: bool, deferred: bool): (o: CommandOutcome)
    ensures !known <==> o == LoggedOnly
    ensures known && !threw <==> o == Completed
    ensures o == ErrorFollowUp <==> known && threw && (replied || deferred)
    ensures o == ErrorReply <==> known && threw && !replied && !deferred
  {
    if !known then LoggedOnly
    else if !threw then Completed
    else if replied || deferred then ErrorFollowUp
    else ErrorReply
  }

  // ---------------------------------------------------------------------------
  // The older router
  // ---------------------------------------------------------------------------

  datatype LegacyRoute =
    | LegacyPluginsNav(action: string, page: string, hasSearch: string)
    | LegacyRandomNav(action: string, page: string)
    | LegacyInstallAndroid(aliucord: bool)
    | LegacyInstallIos
    | LegacyUnrouted

  /** The older `handleButton`: plugin ids carry a `hasSearch` flag, which
      defaults to "0". */
  function LegacyRouteOf(id: string, guildId: string): (r: LegacyRoute)
    ensures r.LegacyPluginsNav? <==> "plugins_" <= id
    ensures r.LegacyRandomNav? <==> "random_" <= id
    ensures r.LegacyPluginsNav? ==> r.page != "" && r.hasSearch != ""
    ensures r.LegacyInstallAndroid? <==> id == "install_android"
    ensures r.LegacyInstallAndroid? ==> (r.aliucord <==> guildId == AliucordGuild)
  {
    PrefixesExclusive(id);
    var parts := Split(id, "_");
    if "plugins_" <= id then LegacyPluginsNav(Field(parts, 1), FieldOr(parts, 2, "0"), FieldOr(parts, 3, "0"))
    else if "random_" <= id then LegacyRandomNav(Field(parts, 1), FieldOr(parts, 2, "0"))
    else if id == "install_android" then LegacyInstallAndroid(guildId == AliucordGuild)
    else if id == "install_ios" then LegacyInstallIos
    else LegacyUnrouted
  }

  lemma RoutedLegacyNav(id: string, guildId: string)
    requires "plugins_" <= id
    ensures var parts := Split(id, "_");
      LegacyRouteOf(id, guildId) == LegacyPluginsNav(Field(parts, 1), FieldOr(parts, 2, "0"), FieldOr(parts, 3, "0"))
  {
  }

  lemma LegacyIdIsJoin(action: string, page: nat, hasSearch: bool)
    ensures PluginsLegacy.NavId(action, page, hasSearch)
      == Join(["plugins", action, NatToString(page), if hasSearch then "1" else "0"], "_")
  {
    var flag := if hasSearch then "1" else "0";
    Join4("plugins", action, NatToString(page), flag, "_");
  }

  /** An older plugins id comes back with its action, page and flag. */
  lemma LegacyNavRoundTrip(action: string, page: nat, hasSearch: bool, guildId: string)
    requires IsNavAction(action)
    ensures LegacyRouteOf(PluginsLegacy.NavId(action, page, hasSearch), guildId)
      == LegacyPluginsNav(action, NatToString(page), if hasSearch then "1" else "0")
  {
    var flag := if hasSearch then "1" else "0";
    var parts := ["plugins", action, NatToString(page), flag];
    var id := PluginsLegacy.NavId(action, page, hasSearch);
    LegacyIdIsJoin(action, page, hasSearch);
    JoinStarts(parts, "_");
    NoUnderscoreInNumber(page);
    assert forall i :: 0 <= i < |parts| ==> '_' !in parts[i];
    SplitJoin(parts, "_");
    LegacyFields(id, guildId, parts);
  }

  /** The fields of a legacy browser id, once split, are the route's. */
  lemma LegacyFields(id: string, guildId: string, parts: seq<string>)
    requires "plugins" + "_" <= id && Split(id, "_") == parts && |parts| == 4 && parts[2] != "" && parts[3] != ""
    ensures LegacyRouteOf(id, guildId) == LegacyPluginsNav(parts[1], parts[2], parts[3])
  {
    assert "plugins" + "_" == "plugins_";
    RoutedLegacyNav(id, guildId);
  }

  /** Next on an older page of search results, end to end: the flag is
      set, so the search is read back from the message and the next page
      of the same results is shown. */
  lemma LegacyNextKeepsSearch(all: seq<Plugins.Plugin>, search: string, page: nat, more: string, guildId: string)
    requires search != "" && '"' !in search
    requires page + 1 < Catalog.TotalPages(|PluginsLegacy.FilterPlugins(all, Some(search))|)
    ensures var filtered := PluginsLegacy.FilterPlugins(all, Some(search));
      var content := PluginsLegacy.Header(search, |filtered|) + more;
      var r := LegacyRouteOf(PluginsLegacy.NavId("next", page, true), guildId);
      PluginsLegacy.HandleButton(all, r.action, r.page, r.hasSearch, content)
        == Catalog.Show(Catalog.Num(page + 1), Catalog.PageSlice(filtered, page + 1))
  {
    LegacyNavRoundTrip("next", page, true, guildId);
    PluginsLegacy.NextKeepsSearch(all, search, page, more);
  }
}

=== FILE: catalog.dfy ===
/** What the plugin and theme browsers have in common: pages of five,
    order-preserving filters, the `-a` author flag of the prefix form, and
    the sorted list of distinct authors offered for autocompletion. */
module Catalog {
  import opened Wrappers
  import opened Text
  import Utf8

  // ---------------------------------------------------------------------------
  // Pages
  // ---------------------------------------------------------------------------

  const PerPage: nat := 5

  /** `Math.ceil(n / 5)`. */
  function TotalPages(n: nat): (t: nat)
    ensures t * PerPage >= n && (t == 0 || (t - 1) * PerPage < n)
  {
    (n + PerPage - 1) / PerPage
  }

  /** The items of page `p`: `list.slice(5p, 5p + 5)`. */
  function PageSlice<T>(list: seq<T>, p: nat): (r: seq<T>)
    ensures |r| <= PerPage
    ensures p * PerPage < |list| ==> 1 <= |r| && p * PerPage + |r| <= |list| && r == list[p * PerPage..p * PerPage + |r|]
    ensures p * PerPage >= |list| ==> r == []
    ensures |r| > 0 <==> p < TotalPages(|list|)
  {
    var start := p * PerPage;
    if start >= |list| then []
    else if start + PerPage <= |list| then list[start..start + PerPage]
    else list[start..]
  }

  /** Item `i` of the list is item `i % 5` of page `i / 5`. */
  lemma ItemOnItsPage<T>(list: seq<T>, i: nat)
    requires i < |list|
    ensures var p := i / PerPage;
      && p < TotalPages(|list|)
      && i % PerPage < |PageSlice(list, p)|
      && PageSlice(list, p)[i % PerPage] == list[i]
  {
  }

  /** The pages, in order, are the whole list. */
  lemma {:induction false} PagesCoverList<T>(list: seq<T>)
    ensures Concat(Pages(list, 0)) == list
  {
    PagesFrom(list, 0);
  }

  function Pages<T>(list: seq<T>, p: nat): seq<seq<T>>
    decreases |list| - p * PerPage
  {
    if p * PerPage >= |list| then [] else [PageSlice(list, p)] + Pages(list, p + 1)
  }

  function Concat<T>(xss: seq<seq<T>>): seq<T> {
    if |xss| == 0 then [] else xss[0] + Concat(xss[1..])
  }

  lemma {:induction false} PagesFrom<T>(list: seq<T>, p: nat)
    ensures p * PerPage <= |list| ==> Concat(Pages(list, p)) == list[p * PerPage..]
    decreases |list| - p * PerPage
  {
    if p * PerPage < |list| {
      PagesFrom(list, p + 1);
      var start := p * PerPage;
      if start + PerPage <= |list| {
        assert (p + 1) * PerPage == start + PerPage;
        assert list[start..] == list[start..start + PerPage] + list[start + PerPage..];
      } else {
        assert Pages(list, p + 1) == [];
      }
    }
  }

  lemma {:induction false} ConcatAppend<T>(xss: seq<seq<T>>, ys: seq<T>)
    ensures Concat(xss + [ys]) == Concat(xss) + ys
    decreases |xss|
  {
    if |xss| > 0 {
      assert (xss + [ys])[1..] == xss[1..] + [ys];
      ConcatAppend(xss[1..], ys);
    }
  }

  /** A page number as `parseInt` leaves it: a number, or `NaN`. */
  datatype PageNumber = Num(n: int) | NaN

  /** How far a button's action moves the page: `page++` for Next,
      `page--` for Previous, nothing for any other action. */
  function Offset(action: string): int {
    if action == "next" then 1 else if action == "prev" then -1 else 0
  }

  /** The button's page moved by its action. */
  function Step(action: string, page: PageNumber): PageNumber {
    match page
    case NaN => NaN
    case Num(n) => Num(n + Offset(action))
  }

  /** `${page}` for a page number. */
  function PageText(p: PageNumber): string {
    match p
    case NaN => "NaN"
    case Num(n) => if n >= 0 then NatToString(n) else "-" + NatToString(-n)
  }

  datatype PageView<T> = InvalidPage | Show(page: PageNumber, items: seq<T>)

  /** The page check of the button handlers: a number outside
      `[0, totalPages)` is "Invalid page."; `NaN` fails both comparisons,
      passes, and slices nothing. */
  function ViewPage<T>(list: seq<T>, page: PageNumber): (v: PageView<T>)
    ensures page.Num? ==> (v == InvalidPage <==> page.n < 0 || page.n >= TotalPages(|list|))
    ensures v.Show? && page.Num? ==> 1 <= |v.items| <= PerPage && v.items == PageSlice(list, page.n)
    ensures page.NaN? ==> v == Show(NaN, [])
  {
    match page
    case NaN => Show(NaN, [])
    case Num(n) => if n < 0 || n >= TotalPages(|list|) then InvalidPage else Show(page, PageSlice(list, n))
  }

  /** A page shows items of the list only. */
  lemma ShownFromList<T>(list: seq<T>, page: PageNumber)
    ensures ViewPage(list, page).Show? ==> forall t :: t in ViewPage(list, page).items ==> t in list
  {
    if page.Num? && ViewPage(list, page).Show? {
      var r := PageSlice(list, page.n);
      forall t | t in r ensures t in list {
        var k :| 0 <= k < |r| && r[k] == t;
        assert r[k] == list[page.n * PerPage + k];
      }
    }
  }

  /** `parseInt(page)` on the page field of a button id. */
  function PageOf(text: string): (n: PageNumber)
    ensures n.NaN? <==> ParseInt(text).None?
  {
    match ParseInt(text)
    case None => NaN
    case Some(v) => Num(v)
  }

  /** A filter as the handlers test it: present and non-empty. */
  predicate Active(f: Option<string>) {
    f.Some? && f.value != ""
  }

  /** `x || ''`. */
  function OrEmpty(f: Option<string>): (s: string)
    ensures s == "" <==> !Active(f)
  {
    if f.Some? then f.value else ""
  }

  /** `${kind}_${action}_${page}_${encodeFilter(search || '')}_${encodeFilter(author || '')}`:
      the custom id of a Previous or Next button. */
  function NavId(kind: string, action: string, page: nat, search: Option<string>, author: Option<string>): string {
    Join([kind, action, NatToString(page), Utf8.EncodeText(OrEmpty(search)), Utf8.EncodeText(OrEmpty(author))], "_")
  }

  /** A message button: its custom id, its label and whether it is
      disabled. */
  datatype Button = Button(id: string, caption: string, disabled: bool)

  /** Previous is disabled only on the first page, Next only on the last. */
  datatype NavButtons = NavButtons(prevDisabled: bool, nextDisabled: bool)

  function Nav(page: int, totalPages: int): (b: NavButtons)
    ensures b.prevDisabled <==> page == 0
    ensures b.nextDisabled <==> page == totalPages - 1
  {
    NavButtons(page == 0, page == totalPages - 1)
  }

  /** The Previous and Next buttons of a browser page: both carry the page
      and the two filters in their ids, and are disabled at the ends. The
      plugin and the theme browsers build the same row. */
  function NavRow(kind: string, page: nat, totalPages: nat, search: Option<string>, author: Option<string>): (row: seq<Button>)
    ensures |row| == 2
    ensures row[0].id == NavId(kind, "prev", page, search, author)
    ensures row[1].id == NavId(kind, "next", page, search, author)
    ensures row[0].disabled <==> page == 0
    ensures row[1].disabled <==> page == totalPages - 1
  {
    var nav := Nav(page, totalPages);
    [Button(NavId(kind, "prev", page, search, author), "Previous", nav.prevDisabled),
     Button(NavId(kind, "next", page, search, author), "Next", nav.nextDisabled)]
  }

  /** From any shown page, the enabled buttons lead to pages that are shown
      again; a single page disables both. */
  lemma NavigationStaysInRange<T>(list: seq<T>, p: int)
    requires 0 <= p < TotalPages(|list|)
    ensures var b := Nav(p, TotalPages(|list|));
      && (!b.prevDisabled ==> ViewPage(list, Step("prev", Num(p))).Show?)
      && (!b.nextDisabled ==> ViewPage(list, Step("next", Num(p))).Show?)
      && (TotalPages(|list|) == 1 ==> b.prevDisabled && b.nextDisabled)
  {
  }

  // ---------------------------------------------------------------------------
  // Filters
  // ---------------------------------------------------------------------------

  /** `xs` is `ys` with some elements left out, order kept. */
  predicate IsSubsequence<T(==)>(xs: seq<T>, ys: seq<T>)
    decreases |ys|
  {
    if |xs| == 0 then true
    else if |ys| == 0 then false
    else if xs[0] == ys[0] then IsSubsequence(xs[1..], ys[1..])
    else IsSubsequence(xs, ys[1..])
  }

  lemma {:induction false} SubsequenceTransitive<T>(xs: seq<T>, ys: seq<T>, zs: seq<T>)
    requires IsSubsequence(xs, ys) && IsSubsequence(ys, zs)
    ensures IsSubsequence(xs, zs)
    decreases |zs|
  {
    if |xs| > 0 && |ys| > 0 && |zs| > 0 {
      if ys[0] == zs[0] {
        if xs[0] == ys[0] {
          SubsequenceTransitive(xs[1..], ys[1..], zs[1..]);
        } else {
          SubsequenceTransitive(xs, ys[1..], zs[1..]);
        }
      } else {
        SubsequenceTransitive(xs, ys, zs[1..]);
        if xs[0] == zs[0] {
          SubsequenceDropFirst(xs, zs[1..]);
        }
      }
    }
  }

  lemma {:induction false} SubsequenceRefl<T>(xs: seq<T>)
    ensures IsSubsequence(xs, xs)
    decreases |xs|
  {
    if |xs| > 0 {
      SubsequenceRefl(xs[1..]);
    }
  }

  /** `xs.filter(keep)`: the kept elements, in order. */
  function Filter<T(==,!new)>(xs: seq<T>, keep: T -> bool): (r: seq<T>)
    ensures IsSubsequence(r, xs)
    ensures forall x :: x in r <==> x in xs && keep(x)
    ensures |r| <= |xs|
    ensures forall x :: multiset(r)[x] == if keep(x) then multiset(xs)[x] else 0
    decreases |xs|
  {
    if |xs| == 0 then []
    else
      assert [xs[0]] + xs[1..] == xs;
      var rest := Filter(xs[1..], keep);
      if keep(xs[0]) then [xs[0]] + rest
      else
        SubsequenceCons(rest, xs[0], xs[1..]);
        rest
  }

  /** `filter` looks at the first element, then at the rest. */
  lemma FilterStep<T(!new)>(xs: seq<T>, keep: T -> bool)
    requires |xs| > 0
    ensures Filter(xs, keep) == (if keep(xs[0]) then [xs[0]] else []) + Filter(xs[1..], keep)
  {
  }

  lemma {:induction false} SubsequenceDropFirst<T>(xs: seq<T>, ys: seq<T>)
    requires |xs| > 0 && IsSubsequence(xs, ys)
    ensures IsSubsequence(xs[1..], ys)
    decreases |ys|, 0
  {
    if |xs| > 1 && xs[0] == ys[0] {
      SubsequenceDropFirst(xs[1..], ys[1..]);
      assert xs[1..][1..] == xs[2..];
    } else if xs[0] != ys[0] {
      SubsequenceDropFirst(xs, ys[1..]);
      SubsequenceCons(xs[1..], ys[0], ys[1..]);
      assert [ys[0]] + ys[1..] == ys;
    }
  }

  /** A subsequence stays one when an element is put in front. */
  lemma {:induction false} SubsequenceCons<T>(xs: seq<T>, y: T, ys: seq<T>)
    requires IsSubsequence(xs, ys)
    ensures IsSubsequence(xs, [y] + ys)
    decreases |ys|, 1
  {
    var zs := [y] + ys;
    assert zs[1..] == ys;
    if |xs| > 0 && xs[0] == y {
      SubsequenceDropFirst(xs, ys);
    }
  }

  /** Keeping everything keeps the list. */
  /** Two filters in a row keep what both keep. */
  lemma {:induction false} FilterTwice<T(!new)>(xs: seq<T>, p: T -> bool, q: T -> bool, both: T -> bool)
    requires forall x :: both(x) == (p(x) && q(x))
    ensures Filter(Filter(xs, p), q) == Filter(xs, both)
    decreases |xs|
  {
    if |xs| > 0 {
      FilterTwice(xs[1..], p, q, both);
      if p(xs[0]) {
        assert Filter(xs, p) == [xs[0]] + Filter(xs[1..], p);
        assert Filter(xs, p)[1..] == Filter(xs[1..], p);
      }
    }
  }

  /** Filters that agree on the list keep the same elements. */
  lemma {:induction false} FilterSame<T(!new)>(xs: seq<T>, p: T -> bool, q: T -> bool)
    requires forall x :: x in xs ==> p(x) == q(x)
    ensures Filter(xs, p) == Filter(xs, q)
    decreases |xs|
  {
    if |xs| > 0 {
      FilterSame(xs[1..], p, q);
    }
  }

  lemma {:induction false} FilterAll<T(!new)>(xs: seq<T>, keep: T -> bool)
    requires forall x :: x in xs ==> keep(x)
    ensures Filter(xs, keep) == xs
    decreases |xs|
  {
    if |xs| > 0 {
      FilterAll(xs[1..], keep);
    }
  }

  /** Case-insensitive substring test, as `a.toLowerCase().includes(b.toLowerCase())`. */
  predicate Mentions(text: string, query: string) {
    Contains(LowerStr(text), LowerStr(query))
  }

  // ---------------------------------------------------------------------------
  // The `-a` flag
  // ---------------------------------------------------------------------------

  /** First index of an element, as `indexOf` / `findIndex`. */
  function FindFirst<T>(xs: seq<T>, p: T -> bool): (r: Option<nat>)
    ensures r.Some? ==> r.value < |xs| && p(xs[r.value]) && forall j :: 0 <= j < r.value ==> !p(xs[j])
    ensures r.None? ==> forall j :: 0 <= j < |xs| ==> !p(xs[j])
  {
    if |xs| == 0 then None
    else if p(xs[0]) then Some(0)
    else match FindFirst(xs[1..], p)
      case None => None
      case Some(k) => Some(k + 1)
  }

  /** `xs.join(' ').trim() || null`. */
  function JoinedOrNone(words: seq<string>): (r: Option<string>)
    ensures r.None? <==> Trim(Join(words, " ")) == ""
    ensures r.Some? ==> r.value == Trim(Join(words, " "))
  {
    var t := Trim(Join(words, " "));
    if t == "" then None else Some(t)
  }

  predicate IsFlag(w: string) {
    |w| > 0 && w[0] == '-'
  }

  /** The prefix form's `[search words] [-a author words [-other…]]`: the
      search is everything before the first `-a` token; the author is what
      follows it up to the next token starting with `-`. Without `-a` the
      whole line is the search; an author is only ever read after `-a`.
      `ParseSearchArgsRoundTrip` states how every line splits. */
  function ParseSearchArgs(args: seq<string>): (r: (Option<string>, Option<string>))
    ensures "-a" !in args ==> r == (JoinedOrNone(args), None)
    ensures r.1.Some? ==> "-a" in args
  {
    match FindFirst(args, w => w == "-a")
    case None => (JoinedOrNone(args), None)
    case Some(i) =>
      var after := args[i + 1..];
      (JoinedOrNone(args[..i]), JoinedOrNone(after[..AuthorEnd(after)]))
  }

  /** Where the author words after `-a` stop: at the first word starting
      with `-`, or at the end of the line. */
  function AuthorEnd(after: seq<string>): (n: nat)
    ensures n <= |after|
    ensures forall k :: 0 <= k < n ==> !IsFlag(after[k])
    ensures n == |after| || IsFlag(after[n])
  {
    match FindFirst(after, IsFlag)
    case None => |after|
    case Some(j) => j
  }

  /** The first element passing a test, found after elements that all fail
      it. */
  lemma FindFirstAfter<T>(front: seq<T>, x: T, back: seq<T>, p: T -> bool)
    requires forall k :: 0 <= k < |front| ==> !p(front[k])
    requires p(x)
    ensures FindFirst(front + [x] + back, p) == Some(|front|)
  {
    var xs := front + [x] + back;
    assert xs[|front|] == x;
    assert forall k :: 0 <= k < |front| ==> xs[k] == front[k];
  }

  /** A list of elements that all fail a test has no first passing one. */
  lemma FindFirstNone<T>(xs: seq<T>, p: T -> bool)
    requires forall k :: 0 <= k < |xs| ==> !p(xs[k])
    ensures FindFirst(xs, p) == None
  {
  }

  /** A line typed as search words, `-a`, author words and then either
      nothing or a word starting with `-` reads back as that search and
      that author, whatever follows the second flag. */
  lemma ParseSearchArgsRoundTrip(search: seq<string>, author: seq<string>, rest: seq<string>)
    requires "-a" !in search
    requires forall k :: 0 <= k < |author| ==> !IsFlag(author[k])
    requires rest == [] || IsFlag(rest[0])
    ensures ParseSearchArgs(search + ["-a"] + author + rest) == (JoinedOrNone(search), JoinedOrNone(author))
  {
    var args := search + ["-a"] + author + rest;
    assert args == search + ["-a"] + (author + rest);
    assert forall k :: 0 <= k < |search| ==> search[k] != "-a" by {
      forall k | 0 <= k < |search| ensures search[k] != "-a" {
        assert search[k] in search;
      }
    }
    FindFirstAfter(search, "-a", author + rest, w => w == "-a");
    var i := |search|;
    assert args[..i] == search;
    var after := args[i + 1..];
    assert after == author + rest;
    var n := AuthorEnd(after);
    assert forall k :: 0 <= k < |author| ==> after[k] == author[k];
    assert rest != [] ==> after[|author|] == rest[0];
    assert n == |author|;
    assert after[..n] == author;
  }

  /** What the parse reads: no search word is `-a`, and no author word
      starts with `-`; the author words stop at the end of the line or at
      a word starting with `-`. */
  lemma ParseSearchArgsWords(args: seq<string>)
    ensures var i := FindFirst(args, w => w == "-a");
      && (i.None? ==> "-a" !in args && ParseSearchArgs(args).1.None?)
      && (i.Some? ==>
            var after := args[i.value + 1..];
            var n := AuthorEnd(after);
            && "-a" !in args[..i.value]
            && (forall k :: 0 <= k < n ==> !IsFlag(after[k]))
            && (n == |after| || IsFlag(after[n]))
            && ParseSearchArgs(args) == (JoinedOrNone(args[..i.value]), JoinedOrNone(after[..n])))
  {
  }

  // ---------------------------------------------------------------------------
  // Distinct authors, sorted
  // ---------------------------------------------------------------------------

  /** `Array.prototype.sort`'s default order on strings: code-unit
      lexicographic. */
  predicate StrLess(a: string, b: string)
    decreases |a|
  {
    if |b| == 0 then false
    else if |a| == 0 then true
    else if a[0] != b[0] then a[0] < b[0]
    else StrLess(a[1..], b[1..])
  }

  lemma {:induction false} StrLessIrreflexive(a: string)
    ensures !StrLess(a, a)
    decreases |a|
  {
    if |a| > 0 {
      StrLessIrreflexive(a[1..]);
    }
  }

  lemma {:induction false} StrLessTransitive(a: string, b: string, c: string)
    requires StrLess(a, b) && StrLess(b, c)
    ensures StrLess(a, c)
    decreases |a|
  {
    if |a| > 0 && a[0] == b[0] && b[0] == c[0] {
      StrLessTransitive(a[1..], b[1..], c[1..]);
    }
  }

  lemma {:induction false} StrLessTotal(a: string, b: string)
    requires a != b
    ensures StrLess(a, b) || StrLess(b, a)
    decreases |a|
  {
    if |a| > 0 && |b| > 0 && a[0] == b[0] {
      StrLessTotal(a[1..], b[1..]);
      assert a == [a[0]] + a[1..] && b == [b[0]] + b[1..];
    }
  }

  predicate StrictlySorted(xs: seq<string>) {
    forall i, j :: 0 <= i < j < |xs| ==> StrLess(xs[i], xs[j])
  }

  /** Put `x` in its place in a strictly sorted list, unless it is there. */
  function InsertUnique(x: string, xs: seq<string>): (r: seq<string>)
    requires StrictlySorted(xs)
    ensures StrictlySorted(r)
    ensures forall y :: y in r <==> y == x || y in xs
  {
    if |xs| == 0 then [x]
    else if x == xs[0] then xs
    else if StrLess(x, xs[0]) then
      forall j | 0 <= j < |xs| ensures StrLess(x, xs[j]) {
        if j > 0 {
          StrLessTransitive(x, xs[0], xs[j]);
        }
      }
      [x] + xs
    else
      StrLessTotal(x, xs[0]);
      var rest := InsertUnique(x, xs[1..]);
      assert forall y :: y in rest ==> StrLess(xs[0], y) by {
        forall y | y in rest ensures StrLess(xs[0], y) {
          if y != x {
            var k :| 1 <= k < |xs| && xs[k] == y;
          }
        }
      }
      [xs[0]] + rest
  }

  /** `Array.from(new Set(xs)).sort()`: each distinct string once, in order. */
  function SortedDistinct(xs: seq<string>): (r: seq<string>)
    ensures StrictlySorted(r)
    ensures forall y :: y in r <==> y in xs
    decreases |xs|
  {
    if |xs| == 0 then [] else InsertUnique(xs[|xs| - 1], SortedDistinct(xs[..|xs| - 1]))
  }

  /** A strictly sorted list is determined by its elements, so the result
      does not depend on the order of the authors. */
  lemma {:induction false} SortedUnique(xs: seq<string>, ys: seq<string>)
    requires StrictlySorted(xs) && StrictlySorted(ys)
    requires forall y :: y in xs <==> y in ys
    ensures xs == ys
    decreases |xs|
  {
    if |xs| > 0 && |ys| > 0 {
      assert xs[0] in ys;
      assert ys[0] in xs;
      if xs[0] != ys[0] {
        var i :| 0 <= i < |ys| && ys[i] == xs[0];
        var j :| 0 <= j < |xs| && xs[j] == ys[0];
        StrLessTransitive(xs[0], ys[0], xs[0]);
        StrLessIrreflexive(xs[0]);
      }
      forall y ensures y in xs[1..] <==> y in ys[1..] {
        if y in xs[1..] {
          var k :| 1 <= k < |xs| && xs[k] == y;
          StrLessIrreflexive(y);
          assert y in ys;
        }
        if y in ys[1..] {
          var k :| 1 <= k < |ys| && ys[k] == y;
          StrLessIrreflexive(y);
          assert y in xs;
        }
      }
      SortedUnique(xs[1..], ys[1..]);
      assert xs == [xs[0]] + xs[1..] && ys == [ys[0]] + ys[1..];
    } else {
      NonEmptyHasFirst(xs);
      NonEmptyHasFirst(ys);
    }
  }

  lemma NonEmptyHasFirst(xs: seq<string>)
    ensures |xs| > 0 ==> xs[0] in xs
  {
  }

  /** The distinct authors of a permuted list are the same list. */
  lemma DistinctIgnoresOrder(xs: seq<string>, ys: seq<string>)
    requires multiset(xs) == multiset(ys)
    ensures SortedDistinct(xs) == SortedDistinct(ys)
  {
    forall y ensures y in SortedDistinct(xs) <==> y in SortedDistinct(ys) {
      assert y in xs <==> y in multiset(xs);
      assert y in ys <==> y in multiset(ys);
    }
    SortedUnique(SortedDistinct(xs), SortedDistinct(ys));
  }

  // ---------------------------------------------------------------------------
  // Backslash escaping
  // ---------------------------------------------------------------------------

  /** `text.replace(/[…]/g, '\\$&')`: a backslash before every character of
      `specials`, everything else unchanged. */
  function Escape(s: string, specials: set<char>): (r: string)
    requires '\\' !in specials
    ensures |r| >= |s|
    ensures |r| > 0 ==> r[0] !in specials
    ensures forall i :: 0 <= i < |s| && s[i] !in specials ==> s[i] in r
  {
    if |s| == 0 then ""
    else if s[0] in specials then ['\\', s[0]] + Escape(s[1..], specials)
    else [s[0]] + Escape(s[1..], specials)
  }

  /** Markdown's reading of such escapes: a backslash before one of
      `specials` is dropped. */
  function Unescape(t: string, specials: set<char>): (r: string)
    decreases |t|
  {
    if |t| == 0 then ""
    else if |t| >= 2 && t[0] == '\\' && t[1] in specials then [t[1]] + Unescape(t[2..], specials)
    else [t[0]] + Unescape(t[1..], specials)
  }

  /** Escaping loses nothing: reading the escapes back gives the text. */
  lemma {:induction false} EscapeRoundTrip(s: string, specials: set<char>)
    requires '\\' !in specials
    ensures Unescape(Escape(s, specials), specials) == s
    decreases |s|
  {
    if |s| > 0 {
      EscapeRoundTrip(s[1..], specials);
      var e := Escape(s, specials);
      if s[0] in specials {
        assert e[2..] == Escape(s[1..], specials);
      } else {
        assert e[1..] == Escape(s[1..], specials);
      }
      assert [s[0]] + s[1..] == s;
    }
  }

  /** Every special character of the output is escaped. */
  lemma {:induction false} EscapedSpecials(s: string, specials: set<char>, i: nat)
    requires '\\' !in specials
    requires i < |Escape(s, specials)| && Escape(s, specials)[i] in specials
    ensures i > 0 && Escape(s, specials)[i - 1] == '\\'
    decreases |s|
  {
    var e := Escape(s, specials);
    var rest := Escape(s[1..], specials);
    if s[0] in specials {
      if i >= 2 {
        assert e[i] == rest[i - 2];
        EscapedSpecials(s[1..], specials, i - 2);
      }
    } else {
      assert i >= 1;
      assert e[i] == rest[i - 1];
      EscapedSpecials(s[1..], specials, i - 1);
    }
  }
}

=== FILE: codeberg.dfy ===
/** Codeberg file links: matching the link pattern, binding its capture
    groups to fields, and cutting the requested lines out of a file.

    The pattern is
      https://codeberg.org/OWNER/REPO/src/(branch|commit)/REF/PATH[#Ln[-[L]m]]
    searched anywhere in the text and anchored at its end; OWNER, REPO and
    REF run up to the next `/`, and PATH is the shortest non-empty run of
    characters (no line terminators) after which only a line fragment or
    nothing is left. */
module Codeberg {
  import opened Wrappers
  import opened Text

  const Host: string := "https://codeberg.org/"

  predicate IsLineTerminator(c: char) {
    c == '\n' || c == '\r' || c == '\U{2028}' || c == '\U{2029}'
  }

  /** The capture groups 1 to 6 of a match. */
  datatype Groups = Groups(owner: string, repo: string, ref: string, path: string,
                           start: Option<string>, end: Option<string>)

  // ---------------------------------------------------------------------------
  // The pattern
  // ---------------------------------------------------------------------------

  /** `(?:#L(\d+)(?:-L?(\d+))?)?$` against the whole of `rest`. */
  function MatchFragment(rest: string): (r: Option<(Option<string>, Option<string>)>)
    ensures rest == "" <==> r == Some((None, None))
    ensures r.Some? && rest != "" ==> "#L" <= rest && r.value.0.Some?
    ensures r.Some? && r.value.0.Some? ==> |r.value.0.value| > 0 && AllDigits(r.value.0.value)
    ensures r.Some? && r.value.1.Some? ==> |r.value.1.value| > 0 && AllDigits(r.value.1.value)
  {
    if rest == "" then Some((None, None))
    else if !("#L" <= rest) then None
    else
      var body := rest[2..];
      var k := DigitPrefix(body);
      if k == 0 then None
      else
        var tail := body[k..];
        if tail == "" then Some((Some(body[..k]), None))
        else if tail[0] != '-' then None
        else
          var t := if |tail| >= 2 && tail[1] == 'L' then tail[2..] else tail[1..];
          if |t| > 0 && AllDigits(t) then Some((Some(body[..k]), Some(t))) else None
  }

  /** The first `/` at or after `i`, or the end. */
  function SlashFrom(s: string, i: nat): (j: nat)
    requires i <= |s|
    ensures i <= j <= |s|
    ensures j < |s| ==> s[j] == '/'
    ensures forall k :: i <= k < j ==> s[k] != '/'
    decreases |s| - i
  {
    if i == |s| || s[i] == '/' then i else SlashFrom(s, i + 1)
  }

  /** `([^/]+)\/` at `i`: the segment and the index after its `/`. */
  function Segment(s: string, i: nat): (r: Option<(string, nat)>)
    requires i <= |s|
    ensures r.Some? ==> i < r.value.1 <= |s| && s[r.value.1 - 1] == '/'
    ensures r.Some? ==> r.value.0 == s[i..r.value.1 - 1] && r.value.0 != "" && '/' !in r.value.0
  {
    var j := SlashFrom(s, i);
    if j == i || j == |s| then None else Some((s[i..j], j + 1))
  }

  /** No line terminator in `s[from..end]`: `.` matches all of it. */
  predicate Plain(s: string, from: nat, end: nat)
    requires from <= end <= |s|
  {
    forall j :: from <= j < end ==> !IsLineTerminator(s[j])
  }

  /** No fragment ends the text at any position of `k..end`. */
  predicate NoEndBetween(s: string, k: nat, end: nat)
    requires k <= end <= |s|
  {
    forall j :: k <= j < end ==> MatchFragment(s[j..]).None?
  }

  lemma PlainExtend(s: string, from: nat, end: nat)
    requires from <= end < |s| && Plain(s, from, end) && !IsLineTerminator(s[end])
    ensures Plain(s, from, end + 1)
  {
  }

  lemma NoEndExtend(s: string, k: nat, end: nat)
    requires k < end <= |s| && NoEndBetween(s, k + 1, end) && MatchFragment(s[k..]).None?
    ensures NoEndBetween(s, k, end)
  {
  }

  /** The lazy `(.+?)` followed by the fragment: the first end `k > from`
      whose remainder matches, with no line terminator before it. */
  function LazyPath(s: string, from: nat, k: nat): (r: Option<nat>)
    requires from < k <= |s| && Plain(s, from, k - 1)
    ensures r.Some? ==> k <= r.value <= |s| && MatchFragment(s[r.value..]).Some?
    ensures r.Some? ==> Plain(s, from, r.value) && NoEndBetween(s, k, r.value)
    decreases |s| - k
  {
    if IsLineTerminator(s[k - 1]) then None
    else
      PlainExtend(s, from, k - 1);
      if MatchFragment(s[k..]).Some? then Some(k)
      else if k == |s| then None
      else
        var r := LazyPath(s, from, k + 1);
        if r.Some? then NoEndExtend(s, k, r.value); r else r
  }

  /** `(.+?)(?:#L(\d+)(?:-L?(\d+))?)?$` at `q`: the path and the fragment's
      digit groups. */
  function PathAt(s: string, q: nat): (r: Option<(string, (Option<string>, Option<string>))>)
    requires q <= |s|
    ensures r.Some? ==> r.value.0 != "" && q + |r.value.0| <= |s| && MatchFragment(s[q + |r.value.0|..]) == Some(r.value.1)
  {
    if q == |s| then None
    else
      assert Plain(s, q, q);
      var end := LazyPath(s, q, q + 1);
      if end.None? then None
      else
        var k := end.value;
        var frag := MatchFragment(s[k..]);
        assert q + |s[q..k]| == k;
        Some((s[q..k], frag.value))
  }

  /** `src\/(?:branch|commit)\/([^/]+)\/` and the path, at `p`. */
  function TailAt(s: string, p: nat): (r: Option<(string, string, Option<string>, Option<string>)>)
    requires p <= |s|
    ensures r.Some? ==> Part(r.value.0) && r.value.1 != ""
    ensures r.Some? && r.value.3.Some? ==> r.value.2.Some?
    ensures r.Some? ==> Digits(r.value.2) && Digits(r.value.3)
  {
    if !("src/" <= s[p..]) then None
    else if !("branch/" <= s[p + 4..] || "commit/" <= s[p + 4..]) then None
    else
      match Segment(s, p + 11)
      case None => None
      case Some((ref, q)) =>
        match PathAt(s, q)
        case None => None
        case Some((path, frag)) => Some((ref, path, frag.0, frag.1))
  }

  predicate HostAt(s: string, i: nat)
    requires i <= |s|
  {
    Host <= s[i..]
  }

  /** The pattern tried at position `i`. */
  function MatchAt(s: string, i: nat): (g: Option<Groups>)
    requires i <= |s|
    ensures g.Some? ==> Host <= s[i..]
    ensures g.Some? ==> Captured(g.value)
  {
    if !HostAt(s, i) then None
    else
      var o := Segment(s, i + |Host|);
      if o.None? then None
      else
        var r := Segment(s, o.value.1);
        if r.None? then None
        else
          var t := TailAt(s, r.value.1);
          if t.None? then None
          else Some(Groups(o.value.0, r.value.0, t.value.0, t.value.1, t.value.2, t.value.3))
  }

  /** A captured line number: absent, or a non-empty run of digits. */
  predicate Digits(d: Option<string>) {
    d.Some? ==> |d.value| > 0 && AllDigits(d.value)
  }

  /** What any match captures: three parts, a non-empty path, and line
      numbers of digits, the end only after a start. */
  predicate Captured(g: Groups) {
    && Part(g.owner) && Part(g.repo) && Part(g.ref) && g.path != ""
    && (g.end.Some? ==> g.start.Some?)
    && Digits(g.start) && Digits(g.end)
  }

  /** The pattern matches at no position of `i..e`. */
  predicate NoMatchBetween(s: string, i: nat, e: nat)
    requires i <= e <= |s| + 1
  {
    forall j :: i <= j < e ==> MatchAt(s, j).None?
  }

  lemma NoMatchExtend(s: string, i: nat, e: nat)
    requires i < e <= |s| + 1 && NoMatchBetween(s, i + 1, e) && MatchAt(s, i).None?
    ensures NoMatchBetween(s, i, e)
  {
  }

  /** The leftmost position at or after `i` where the pattern matches. */
  function FirstMatch(s: string, i: nat): (r: Option<nat>)
    requires i <= |s|
    ensures r.Some? ==> i <= r.value <= |s| && MatchAt(s, r.value).Some? && NoMatchBetween(s, i, r.value)
    ensures r.None? ==> NoMatchBetween(s, i, |s| + 1)
    decreases |s| - i
  {
    if MatchAt(s, i).Some? then Some(i)
    else if i == |s| then None
    else
      var r := FirstMatch(s, i + 1);
      NoMatchExtend(s, i, if r.Some? then r.value else |s| + 1);
      r
  }

  /** `url.match(regex)`. */
  function Match(s: string): (g: Option<Groups>)
    ensures g.None? <==> forall j :: 0 <= j <= |s| ==> MatchAt(s, j).None?
    ensures g.Some? ==> exists j :: 0 <= j <= |s| && MatchAt(s, j) == g
    ensures g.Some? ==> Captured(g.value)
  {
    match FirstMatch(s, 0)
    case None => None
    case Some(j) => MatchAt(s, j)
  }

  // ---------------------------------------------------------------------------
  // Binding the groups
  // ---------------------------------------------------------------------------

  datatype FileRef = FileRef(owner: string, repo: string, ref: string, path: string,
                             startLine: Option<int>, endLine: Option<int>)

  /** `x ? parseInt(x) : null` on a captured digit string. */
  function LineOf(d: Option<string>): (n: Option<int>)
    ensures n.Some? ==> d.Some?
    ensures d.Some? && |d.value| > 0 && AllDigits(d.value) ==> n == Some(DigitsValue(d.value))
  {
    if d.Some? && d.value != "" then
      if AllDigits(d.value) then ParseIntOfDigits(d.value); ParseInt(d.value) else ParseInt(d.value)
    else None
  }

  /** `parseCodebergUrl` as written: `const [,, owner, repo, ref, path,
      startLine, endLine] = match` skips the whole match AND group 1, so
      every field takes the next group; `path` is the start-line group (the
      text "undefined" when absent), both line numbers come from the
      end-line group, and `decode` stands for `decodeURIComponent`. */
  function ParseAsWritten(url: string, decode: string -> string): (r: Option<FileRef>)
    ensures r.None? <==> Match(url).None?
    ensures r.Some? ==> r.value.endLine == r.value.startLine
    ensures r.Some? ==> r.value.owner == Match(url).value.repo && r.value.repo == Match(url).value.ref
    ensures r.Some? ==> r.value.ref == Match(url).value.path
  {
    match Match(url)
    case None => None
    case Some(g) =>
      var start := LineOf(g.end);
      Some(FileRef(g.repo, g.ref, g.path, decode(if g.start.Some? then g.start.value else "undefined"), start, start))
  }

  /** The binding the field names call for: group 1 is the owner, and a
      missing end line repeats the start line. */
  function Parse(url: string, decode: string -> string): (r: Option<FileRef>)
    ensures r.None? <==> Match(url).None?
    ensures r.Some? ==> (r.value.endLine.None? <==> r.value.startLine.None?)
    ensures r.Some? ==> var g := Match(url).value;
      && r.value.owner == g.owner && r.value.repo == g.repo && r.value.ref == g.ref && r.value.path == decode(g.path)
  {
    match Match(url)
    case None => None
    case Some(g) => Some(Bind(g, decode))
  }

  /** The fields of one match, bound by name. */
  function Bind(g: Groups, decode: string -> string): (r: FileRef)
    requires Captured(g)
    ensures r.endLine.None? <==> r.startLine.None?
    ensures r.owner == g.owner && r.repo == g.repo && r.ref == g.ref && r.path == decode(g.path)
  {
    var start := LineOf(g.start);
    FileRef(g.owner, g.repo, g.ref, decode(g.path), start, if g.end.Some? then LineOf(g.end) else start)
  }

  // ---------------------------------------------------------------------------
  // Links built from their parts
  // ---------------------------------------------------------------------------

  /** A line fragment: none, `#L{a}`, or `#L{a}-L{b}`. */
  function Fragment(a: Option<nat>, b: Option<nat>): string {
    if a.None? then ""
    else if b.None? then "#L" + NatToString(a.value)
    else "#L" + NatToString(a.value) + "-L" + NatToString(b.value)
  }

  function FileUrl(owner: string, repo: string, ref: string, path: string, a: Option<nat>, b: Option<nat>): string {
    Host + (owner + "/" + (repo + "/" + FileTail(ref, path, Fragment(a, b))))
  }

  function FileTail(ref: string, path: string, frag: string): string {
    "src/branch/" + (ref + "/" + (path + frag))
  }

  /** A well-formed part: non-empty, no `/`. */
  predicate Part(s: string) {
    s != "" && '/' !in s
  }

  /** A path the lazy group gives back whole: no `#` and no line
      terminator. */
  predicate PlainPath(p: string) {
    p != "" && '#' !in p && forall i :: 0 <= i < |p| ==> !IsLineTerminator(p[i])
  }

  /** The longest digit prefix of digits followed by a non-digit is
      exactly those digits. */
  lemma {:induction false} DigitPrefixOf(d: string, rest: string)
    requires AllDigits(d) && (rest == "" || !IsDigit(rest[0]))
    ensures DigitPrefix(d + rest) == |d|
    decreases |d|
  {
    if |d| > 0 {
      assert (d + rest)[1..] == d[1..] + rest;
      DigitPrefixOf(d[1..], rest);
    } else {
      assert d + rest == rest;
    }
  }

  lemma FragmentOneMatches(da: string)
    requires |da| > 0 && AllDigits(da)
    ensures MatchFragment("#L" + da) == Some((Some(da), None))
  {
    var body := ("#L" + da)[2..];
    assert body == da + "";
    DigitPrefixOf(da, "");
    assert body[..|da|] == da;
  }

  lemma FragmentTwoMatches(da: string, db: string)
    requires |da| > 0 && AllDigits(da) && |db| > 0 && AllDigits(db)
    ensures MatchFragment("#L" + da + "-L" + db) == Some((Some(da), Some(db)))
  {
    var body := ("#L" + da + "-L" + db)[2..];
    var tail := "-L" + db;
    assert body == da + tail;
    DigitPrefixOf(da, tail);
    assert body[..|da|] == da;
    assert body[|da|..] == tail;
    assert tail[2..] == db;
  }

  lemma FragmentMatches(a: Option<nat>, b: Option<nat>)
    requires a.None? ==> b.None?
    ensures MatchFragment(Fragment(a, b)) == Some((if a.Some? then Some(NatToString(a.value)) else None,
                                                   if b.Some? then Some(NatToString(b.value)) else None))
  {
    if a.Some? && b.None? {
      FragmentOneMatches(NatToString(a.value));
    } else if a.Some? {
      FragmentTwoMatches(NatToString(a.value), NatToString(b.value));
    }
  }

  lemma SegmentOf(s: string, i: nat, part: string)
    requires Part(part) && i + |part| < |s| && s[i..i + |part|] == part && s[i + |part|] == '/'
    ensures Segment(s, i) == Some((part, i + |part| + 1))
  {
  }

  /** The lazy path stops at the start of the fragment when the path has
      no `#`. */
  lemma {:induction false} LazyPathOf(s: string, from: nat, k: nat, end: nat)
    requires from < k <= end <= |s|
    requires NoHash(s, from, end) && Plain(s, from, end)
    requires MatchFragment(s[end..]).Some?
    ensures LazyPath(s, from, k) == Some(end)
    decreases end - k
  {
    if k < end {
      LazyPathOf(s, from, k + 1, end);
      LazyPathAdvance(s, from, k, end);
    } else {
      LazyPathStops(s, from, k);
    }
  }

  /** One step of the lazy group past a position that starts no fragment. */
  lemma LazyPathAdvance(s: string, from: nat, k: nat, end: nat)
    requires from < k < end <= |s| && NoHash(s, from, end) && Plain(s, from, end)
    requires LazyPath(s, from, k + 1) == Some(end)
    ensures LazyPath(s, from, k) == Some(end)
  {
    PlainShrink(s, from, k, end);
    HashFree(s, from, k, end);
    NotFragment(s[k..]);
    LazyPathStep(s, from, k);
  }

  /** No `#` in `s[from..end]`. */
  predicate NoHash(s: string, from: nat, end: nat)
    requires from <= end <= |s|
  {
    forall j :: from <= j < end ==> s[j] != '#'
  }

  lemma HashFree(s: string, from: nat, k: nat, end: nat)
    requires from <= k < end <= |s| && NoHash(s, from, end)
    ensures s[k..] != "" && s[k..][0] != '#'
  {
  }

  lemma PlainShrink(s: string, from: nat, k: nat, end: nat)
    requires from <= k <= end <= |s| && Plain(s, from, end)
    ensures Plain(s, from, k)
  {
  }

  /** The lazy group stops at the first end whose remainder is a fragment. */
  lemma LazyPathStops(s: string, from: nat, k: nat)
    requires from < k <= |s| && Plain(s, from, k) && MatchFragment(s[k..]).Some?
    ensures LazyPath(s, from, k) == Some(k)
  {
    assert !IsLineTerminator(s[k - 1]);
  }

  /** It goes on past an end whose remainder is not a fragment. */
  lemma LazyPathStep(s: string, from: nat, k: nat)
    requires from < k < |s| && Plain(s, from, k) && MatchFragment(s[k..]).None?
    ensures LazyPath(s, from, k) == LazyPath(s, from, k + 1)
  {
    assert !IsLineTerminator(s[k - 1]);
  }

  /** Text that does not start with `#` is not a fragment. */
  lemma NotFragment(rest: string)
    requires rest != "" && rest[0] != '#'
    ensures MatchFragment(rest).None?
  {
  }

  lemma PathAtOf(s: string, q: nat, path: string, frag: string)
    requires PlainPath(path) && q + |path| + |frag| == |s| && s[q..] == path + frag
    requires MatchFragment(frag).Some?
    ensures PathAt(s, q) == Some((path, MatchFragment(frag).value))
  {
    var end := q + |path|;
    assert s[q..end] == path && s[end..] == frag;
    forall j | q <= j < end ensures !IsLineTerminator(s[j]) && s[j] != '#' {
      assert s[j] == path[j - q];
      assert path[j - q] in path;
    }
    assert Plain(s, q, end) && NoHash(s, q, end);
    LazyPathOf(s, q, q + 1, end);
  }

  lemma TailAtOf(s: string, p: nat, ref: string, q: nat, path: string, f: (Option<string>, Option<string>))
    requires p + 11 <= |s| && "src/" <= s[p..] && "branch/" <= s[p + 4..]
    requires Segment(s, p + 11) == Some((ref, q))
    requires PathAt(s, q) == Some((path, f))
    ensures TailAt(s, p) == Some((ref, path, f.0, f.1))
  {
  }

  lemma SrcBranchAt(s: string, p: nat, rest: string)
    requires p <= |s| && s[p..] == "src/branch/" + rest
    ensures p + 11 <= |s| && "src/" <= s[p..] && "branch/" <= s[p + 4..] && s[p + 11..] == rest
  {
    assert s[p..][..4] == "src/";
    assert s[p + 4..] == s[p..][4..];
    assert s[p..][4..][..7] == "branch/";
  }

  lemma RefPathAt(s: string, i: nat, ref: string, path: string, frag: string)
    requires Part(ref) && PlainPath(path) && MatchFragment(frag).Some?
    requires i <= |s| && s[i..] == ref + "/" + (path + frag)
    ensures Segment(s, i) == Some((ref, i + |ref| + 1))
    ensures PathAt(s, i + |ref| + 1) == Some((path, MatchFragment(frag).value))
  {
    assert s[i..i + |ref|] == s[i..][..|ref|] == ref;
    assert s[i + |ref|] == s[i..][|ref|] == '/';
    SegmentOf(s, i, ref);
    var q := i + |ref| + 1;
    assert s[q..] == s[i..][|ref| + 1..] == path + frag;
    PathAtOf(s, q, path, frag);
  }

  /** The pieces of a link's tail: `src/branch/`, the ref segment and the
      path with its fragment. */
  lemma FileTailParts(s: string, p: nat, ref: string, path: string, frag: string)
    requires Part(ref) && PlainPath(path) && MatchFragment(frag).Some?
    requires p <= |s| && s[p..] == FileTail(ref, path, frag)
    ensures p + 11 <= |s| && "src/" <= s[p..] && "branch/" <= s[p + 4..]
    ensures Segment(s, p + 11) == Some((ref, p + 11 + |ref| + 1))
    ensures PathAt(s, p + 11 + |ref| + 1) == Some((path, MatchFragment(frag).value))
  {
    SrcBranchAt(s, p, ref + "/" + (path + frag));
    RefPathAt(s, p + 11, ref, path, frag);
  }

  /** The tail of a link built from its parts. */
  lemma FileTailAt(s: string, p: nat, ref: string, path: string, frag: string)
    requires Part(ref) && PlainPath(path) && MatchFragment(frag).Some?
    requires p <= |s| && s[p..] == FileTail(ref, path, frag)
    ensures TailAt(s, p) == Some((ref, path, MatchFragment(frag).value.0, MatchFragment(frag).value.1))
  {
    FileTailParts(s, p, ref, path, frag);
    TailAtOf(s, p, ref, p + 11 + |ref| + 1, path, MatchFragment(frag).value);
  }

  lemma HostSegments(s: string, owner: string, repo: string, tail: string, p1: nat, p2: nat)
    requires Part(owner) && Part(repo) && s == Host + (owner + "/" + (repo + "/" + tail))
    requires p1 == |Host| + |owner| + 1 && p2 == p1 + |repo| + 1
    ensures Host <= s[0..]
    ensures Segment(s, |Host|) == Some((owner, p1))
    ensures Segment(s, p1) == Some((repo, p2))
    ensures p2 <= |s| && s[p2..] == tail
  {
    assert s[|Host|..] == owner + "/" + (repo + "/" + tail);
    SegmentOf(s, |Host|, owner);
    assert s[p1..] == repo + "/" + tail;
    SegmentOf(s, p1, repo);
  }

  lemma MatchAtOf(s: string, owner: string, p1: nat, repo: string, p2: nat, t: (string, string, Option<string>, Option<string>))
    requires p2 <= |s|
    requires HostAt(s, 0)
    requires Segment(s, |Host|) == Some((owner, p1))
    requires Segment(s, p1) == Some((repo, p2))
    requires TailAt(s, p2) == Some(t)
    ensures MatchAt(s, 0) == Some(Groups(owner, repo, t.0, t.1, t.2, t.3))
  {
  }

  /** A match at the very start is the leftmost. */
  lemma MatchAtStart(s: string)
    requires MatchAt(s, 0).Some?
    ensures Match(s) == MatchAt(s, 0)
  {
    assert FirstMatch(s, 0) == Some(0);
  }

  lemma MatchAtFileUrl(s: string, owner: string, repo: string, ref: string, path: string, frag: string)
    requires Part(owner) && Part(repo) && Part(ref) && PlainPath(path) && MatchFragment(frag).Some?
    requires s == Host + (owner + "/" + (repo + "/" + FileTail(ref, path, frag)))
    ensures var f := MatchFragment(frag).value;
      MatchAt(s, 0) == Some(Groups(owner, repo, ref, path, f.0, f.1))
  {
    var tail := FileTail(ref, path, frag);
    var p1 := |Host| + |owner| + 1;
    var p2 := p1 + |repo| + 1;
    HostSegments(s, owner, repo, tail, p1, p2);
    FileTailAt(s, p2, ref, path, frag);
    var f := MatchFragment(frag).value;
    MatchAtOf(s, owner, p1, repo, p2, (ref, path, f.0, f.1));
  }

  /** The groups of a link built from its parts. */
  lemma MatchFileUrl(owner: string, repo: string, ref: string, path: string, a: Option<nat>, b: Option<nat>)
    requires Part(owner) && Part(repo) && Part(ref) && PlainPath(path) && (a.None? ==> b.None?)
    ensures Match(FileUrl(owner, repo, ref, path, a, b))
      == Some(Groups(owner, repo, ref, path, if a.Some? then Some(NatToString(a.value)) else None,
                     if b.Some? then Some(NatToString(b.value)) else None))
  {
    var frag := Fragment(a, b);
    var s := FileUrl(owner, repo, ref, path, a, b);
    FragmentMatches(a, b);
    MatchAtFileUrl(s, owner, repo, ref, path, frag);
    MatchAtStart(s);
  }

  /** Parsing a link built from its parts gives the parts back. */
  lemma ParseRoundTrip(owner: string, repo: string, ref: string, path: string, a: Option<nat>, b: Option<nat>,
                       decode: string -> string)
    requires Part(owner) && Part(repo) && Part(ref) && PlainPath(path) && (a.None? ==> b.None?)
    ensures var line := if a.Some? then Some(a.value as int) else None;
      Parse(FileUrl(owner, repo, ref, path, a, b), decode)
        == Some(FileRef(owner, repo, ref, decode(path), line, if b.Some? then Some(b.value as int) else line))
  {
    MatchFileUrl(owner, repo, ref, path, a, b);
    var g := Groups(owner, repo, ref, path, if a.Some? then Some(NatToString(a.value)) else None,
                    if b.Some? then Some(NatToString(b.value)) else None);
    assert Parse(FileUrl(owner, repo, ref, path, a, b), decode) == Some(Bind(g, decode));
    if a.Some? { LineOfNat(a.value); }
    if b.Some? { LineOfNat(b.value); }
  }

  /** A line number written out is read back. */
  lemma LineOfNat(n: nat)
    ensures LineOf(Some(NatToString(n))) == Some(n as int)
  {
    NatToStringRoundTrip(n);
  }

  /** As written, the same link comes back shifted by one field: the repo
      as owner, the ref as repo, the path as ref, the start line's digits
      (or "undefined") as path, and the end line (or nothing) as both
      line numbers. */
  lemma AsWrittenShiftsFields(owner: string, repo: string, ref: string, path: string, a: Option<nat>, b: Option<nat>,
                              decode: string -> string)
    requires Part(owner) && Part(repo) && Part(ref) && PlainPath(path) && (a.None? ==> b.None?)
    ensures var line := if b.Some? then Some(b.value as int) else None;
      ParseAsWritten(FileUrl(owner, repo, ref, path, a, b), decode)
        == Some(FileRef(repo, ref, path, decode(if a.Some? then NatToString(a.value) else "undefined"), line, line))
  {
    MatchFileUrl(owner, repo, ref, path, a, b);
    if b.Some? { LineOfNat(b.value); }
  }

  // ---------------------------------------------------------------------------
  // Lines
  // ---------------------------------------------------------------------------

  /** `lines.slice(begin, end)` for non-negative bounds. */
  function Slice(xs: seq<string>, begin: nat, end: nat): (r: seq<string>)
    ensures begin < end && begin < |xs| ==> r == xs[begin..if end < |xs| then end else |xs|]
    ensures begin >= end || begin >= |xs| ==> r == []
  {
    if begin >= end || begin >= |xs| then [] else xs[begin..if end < |xs| then end else |xs|]
  }

  /** `getLines(text, start, end)`: a falsy start (`null` or 0) gives the
      whole text; otherwise lines `start` to `end`, counted from 1, joined
      by newlines. A `null` end slices nothing. */
  function GetLines(text: string, start: Option<nat>, end: Option<nat>): (r: string)
    ensures start.None? || start.value == 0 ==> r == text
  {
    if start.None? || start.value == 0 then text
    else Join(Slice(Split(text, "\n"), start.value - 1, if end.Some? then end.value else 0), "\n")
  }

  /** The lines asked for come back exactly: splitting the result gives
      lines `start..end` of the text. */
  lemma GetLinesSplits(text: string, start: nat, end: nat)
    requires 1 <= start <= end <= |Split(text, "\n")|
    ensures Split(GetLines(text, Some(start), Some(end)), "\n") == Split(text, "\n")[start - 1..end]
  {
    var lines := Split(text, "\n");
    var want := lines[start - 1..end];
    assert GetLines(text, Some(start), Some(end)) == Join(want, "\n");
    SplitPiecesFree(text, '\n');
    forall i | 0 <= i < |want| ensures '\n' !in want[i] {
      assert want[i] == lines[start - 1 + i];
    }
    SplitJoin(want, "\n");
  }

  /** Asking for every line gives the text back. */
  lemma GetAllLines(text: string)
    ensures GetLines(text, Some(1), Some(|Split(text, "\n")|)) == text
  {
    var lines := Split(text, "\n");
    JoinSplit(text, '\n');
    assert lines[0..|lines|] == lines;
  }

  /** A start past the last line gives the empty string. */
  lemma GetLinesPastEnd(text: string, start: nat, end: Option<nat>)
    requires start > |Split(text, "\n")|
    ensures GetLines(text, Some(start), end) == ""
  {
  }
}

=== FILE: dehoist.dfy ===
/** Dehoisting: a member whose display name starts with punctuation, a
    digit or whitespace (characters that sort a name to the top of the
    member list) gets a nickname with that leading run removed. */
module Dehoist {
  import opened Wrappers
  import opened Text

  /** `[!@#$%^&*()_+\-=[\]{};':"\\|,.<>/?0-9\s]`. The listed punctuation
      and the digits fill exactly the ASCII ranges `!`..`@`, `[`..`_` and
      `{`..`}`; backquote and `~` are not in the class. */
  predicate IsHoist(c: char) {
    '!' <= c <= '@' || '[' <= c <= '_' || '{' <= c <= '}' || IsSpace(c)
  }

  /** The ranges hold exactly the characters the class lists. */
  lemma HoistClass(c: char)
    ensures IsHoist(c) <==> c in "!@#$%^&*()_+-=[]{};':\"\\|,.<>/?" || IsDigit(c) || IsSpace(c)
  {
  }

  const Fallback: string := "Unhoisted User"

  /** The length of the maximal leading run of hoist characters. */
  function HoistRun(s: string): (k: nat)
    ensures k <= |s|
    ensures forall i :: 0 <= i < k ==> IsHoist(s[i])
    ensures k < |s| ==> !IsHoist(s[k])
  {
    if |s| > 0 && IsHoist(s[0]) then 1 + HoistRun(s[1..]) else 0
  }

  /** `HOIST_CHARS.test(name)`. */
  predicate Hoisted(name: string) {
    |name| > 0 && IsHoist(name[0])
  }

  /** `name.replace(HOIST_CHARS, '').trim() || 'Unhoisted User'`. */
  function Cleaned(name: string): (r: string)
    ensures !Hoisted(r) && r != ""
    ensures r == Fallback || IsTrimmed(r)
  {
    var rest := name[HoistRun(name)..];
    var t := Trim(rest);
    TrimOfUnhoisted(rest);
    if t == "" then Fallback else t
  }

  /** Text that does not start with whitespace keeps its first character
      through `trim`. */
  lemma TrimOfUnhoisted(s: string)
    requires |s| == 0 || !IsSpace(s[0])
    ensures Trim(s) <= s
    ensures Trim(s) == "" || Trim(s)[0] == s[0]
  {
    assert TrimStart(s) == s;
    var t := TrimEnd(s);
    assert t == s[..|t|];
  }

  /** The name the member ends up with: unchanged unless it is hoisted. */
  function Dehoisted(name: string): (r: string)
    ensures !Hoisted(name) ==> r == name
    ensures !Hoisted(r)
  {
    if Hoisted(name) then Cleaned(name) else name
  }

  /** A dehoisted name is left alone the next time. */
  lemma DehoistIdempotent(name: string)
    ensures Dehoisted(Dehoisted(name)) == Dehoisted(name)
  {
  }

  /** The new name is the text after the leading run, without its trailing
      whitespace; only when nothing remains is the fallback used. */
  lemma CleanedIsRemainder(name: string)
    requires Hoisted(name)
    ensures var rest := name[HoistRun(name)..];
      Dehoisted(name) == (if AllSpace(rest) then Fallback else TrimEnd(rest))
  {
    var rest := name[HoistRun(name)..];
    assert TrimStart(rest) == rest;
    TrimEmptyIffAllSpace(rest);
  }

  /** A member whose whole name is hoist characters becomes the fallback. */
  lemma AllHoistFallsBack(name: string)
    requires |name| > 0 && forall i :: 0 <= i < |name| ==> IsHoist(name[i])
    ensures Dehoisted(name) == Fallback
  {
    assert name[HoistRun(name)..] == "";
  }

  // ---------------------------------------------------------------------------
  // Member events
  // ---------------------------------------------------------------------------

  datatype Member = Member(displayName: string, manageable: bool)

  /** `dehoistMember`: the nickname set, if any. A failing set is logged
      and changes nothing, so it is the same as none. */
  function OnJoin(m: Member): (nick: Option<string>)
    ensures nick.Some? <==> Hoisted(m.displayName) && m.manageable
    ensures nick.Some? ==> nick.value == Dehoisted(m.displayName) && nick.value != m.displayName
  {
    if Hoisted(m.displayName) && m.manageable then Some(Cleaned(m.displayName)) else None
  }

  /** `guildMemberUpdate`: only a change of display name is looked at. */
  function OnUpdate(before: Member, after: Member): (nick: Option<string>)
    ensures before.displayName == after.displayName ==> nick.None?
    ensures before.displayName != after.displayName ==> nick == OnJoin(after)
  {
    if before.displayName != after.displayName then OnJoin(after) else None
  }

  /** Setting the nickname raises an update whose new name is not hoisted,
      so the bot never renames the same member twice in a row. */
  lemma NoRenameLoop(m: Member, nick: string)
    requires OnJoin(m) == Some(nick)
    ensures OnJoin(Member(nick, m.manageable)).None?
  {
  }
}

=== FILE: install_context.dfy ===
/** The "Install Plugin" message context menu: it reads the markdown links
    of a plugin list message, one per paragraph, and answers with a
    numbered list of them. */
module InstallContext {
  import opened Wrappers
  import opened Text

  datatype Link = Link(name: string, url: string)

  /** `[name](url)`. */
  function Markdown(l: Link): string {
    "[" + l.name + "](" + l.url + ")"
  }

  /** The parts `/\[([^\]]+)\]\(([^)]+)\)/` can capture. */
  predicate WellFormed(l: Link) {
    l.name != "" && ']' !in l.name && l.url != "" && ')' !in l.url
  }

  // ---------------------------------------------------------------------------
  // The link pattern
  // ---------------------------------------------------------------------------

  /** The first `c` at or after `i`, or the end. */
  function Until(s: string, c: char, i: nat): (j: nat)
    requires i <= |s|
    ensures i <= j <= |s|
    ensures j < |s| ==> s[j] == c
    ensures forall k :: i <= k < j ==> s[k] != c
    decreases |s| - i
  {
    if i == |s| || s[i] == c then i else Until(s, c, i + 1)
  }

  /** The pattern anchored at `i`. Each group is a maximal run of characters
      other than its closing bracket, so backtracking cannot find another
      way and the match at `i` is unique. */
  function LinkAt(s: string, i: nat): (r: Option<Link>)
    requires i <= |s|
    ensures r.Some? ==> WellFormed(r.value) && At(s, Markdown(r.value), i)
  {
    if i == |s| || s[i] != '[' then None
    else
      var j := Until(s, ']', i + 1);
      if j == i + 1 || j + 1 >= |s| || s[j + 1] != '(' then None
      else
        var k := Until(s, ')', j + 2);
        if k == j + 2 || k == |s| then None
        else
          ReadLink(s, i, j, k);
          Some(Link(s[i + 1..j], s[j + 2..k]))
  }

  /** Brackets at `i`, `j`, `j + 1` and `k` enclose a written link. */
  lemma ReadLink(s: string, i: nat, j: nat, k: nat)
    requires i < j && j + 2 <= k < |s|
    requires s[i] == '[' && s[j] == ']' && s[j + 1] == '(' && s[k] == ')'
    ensures At(s, Markdown(Link(s[i + 1..j], s[j + 2..k])), i)
  {
    var name := s[i + 1..j];
    var url := s[j + 2..k];
    var m := Markdown(Link(name, url));
    assert |m| == k + 1 - i;
    forall t | 0 <= t < |m| ensures s[i + t] == m[t] {
      if 0 < t < j - i {
        assert m[t] == name[t - 1];
      } else if j - i + 1 < t < k - i {
        assert m[t] == url[t - (j - i) - 2];
      }
    }
    assert s[i..i + |m|] == m;
  }

  lemma {:induction false} UntilOf(s: string, c: char, i: nat, j: nat)
    requires i <= j < |s| && s[j] == c && c !in s[i..j]
    ensures Until(s, c, i) == j
    decreases j - i
  {
    if i < j {
      assert s[i] == s[i..j][0];
      assert s[i + 1..j] == s[i..j][1..];
      UntilOf(s, c, i + 1, j);
    }
  }

  /** Where the brackets and groups of a written link lie. */
  lemma LinkPieces(s: string, i: nat, l: Link)
    requires At(s, Markdown(l), i)
    ensures var j := i + 1 + |l.name|; var k := j + 2 + |l.url|;
      && k < |s| && s[i] == '[' && s[j] == ']' && s[j + 1] == '(' && s[k] == ')'
      && s[i + 1..j] == l.name && s[j + 2..k] == l.url
  {
    var m := Markdown(l);
    var j := i + 1 + |l.name|;
    var k := j + 2 + |l.url|;
    assert forall t :: 0 <= t < |m| ==> s[i + t] == m[t];
    assert forall t :: 0 <= t < |l.name| ==> m[1 + t] == l.name[t];
    assert forall t :: 0 <= t < |l.url| ==> m[3 + |l.name| + t] == l.url[t];
    assert m[0] == '[' && m[1 + |l.name|] == ']' && m[2 + |l.name|] == '(' && m[|m| - 1] == ')';
  }

  /** A well-formed link written at `i` is what the pattern reads there. */
  lemma LinkAtOf(s: string, i: nat, l: Link)
    requires WellFormed(l) && At(s, Markdown(l), i)
    ensures LinkAt(s, i) == Some(l)
  {
    var j := i + 1 + |l.name|;
    var k := j + 2 + |l.url|;
    LinkPieces(s, i, l);
    UntilOf(s, ']', i + 1, j);
    UntilOf(s, ')', j + 2, k);
  }

  /** The pattern matches at no position of `i..e`. */
  predicate NoLink(s: string, i: nat, e: nat)
    requires i <= e <= |s| + 1
  {
    forall p :: i <= p < e ==> LinkAt(s, p).None?
  }

  lemma NoLinkExtend(s: string, i: nat, e: nat)
    requires i < e <= |s| + 1 && NoLink(s, i + 1, e) && LinkAt(s, i).None?
    ensures NoLink(s, i, e)
  {
  }

  /** The leftmost position at or after `i` where the pattern matches. */
  function MatchFrom(s: string, i: nat): (r: Option<nat>)
    requires i <= |s|
    ensures r.Some? ==> i <= r.value <= |s| && LinkAt(s, r.value).Some? && NoLink(s, i, r.value)
    ensures r.None? <==> NoLink(s, i, |s| + 1)
    decreases |s| - i
  {
    if LinkAt(s, i).Some? then Some(i)
    else if i == |s| then None
    else
      var r := MatchFrom(s, i + 1);
      NoLinkExtend(s, i, if r.Some? then r.value else |s| + 1);
      r
  }

  /** `line.match(...)`: the groups of the leftmost match. */
  function FirstLink(s: string): (r: Option<Link>)
    ensures r.Some? ==> WellFormed(r.value)
    ensures r.None? <==> NoLink(s, 0, |s| + 1)
  {
    match MatchFrom(s, 0)
    case None => None
    case Some(p) => LinkAt(s, p)
  }

  /** A chunk that is a well-formed link yields that link. */
  lemma FirstLinkOfChunk(l: Link)
    requires WellFormed(l)
    ensures FirstLink(Markdown(l)) == Some(l)
  {
    var s := Markdown(l);
    assert s[0..|s|] == s;
    LinkAtOf(s, 0, l);
  }

  // ---------------------------------------------------------------------------
  // The message
  // ---------------------------------------------------------------------------

  const Paragraph: string := "\n\n"

  /** The first link of each chunk, in chunk order; chunks without one
      contribute nothing. */
  function Links(chunks: seq<string>): (r: seq<Link>)
    ensures |r| <= |chunks|
    ensures forall k :: 0 <= k < |r| ==> WellFormed(r[k])
  {
    if |chunks| == 0 then []
    else
      var rest := Links(chunks[1..]);
      match FirstLink(chunks[0])
      case None => rest
      case Some(l) => [l] + rest
  }

  /** Every chunk has a link exactly when one link per chunk comes out. */
  lemma {:induction false} LinksOneEach(chunks: seq<string>)
    ensures |Links(chunks)| == |chunks| <==> forall k :: 0 <= k < |chunks| ==> FirstLink(chunks[k]).Some?
    decreases |chunks|
  {
    if |chunks| > 0 {
      LinksOneEach(chunks[1..]);
      assert forall k :: 1 <= k < |chunks| ==> chunks[k] == chunks[1..][k - 1];
    }
  }

  /** A plugin list as the bot writes one: a link per paragraph. */
  function ListMessage(ls: seq<Link>): string {
    Join(Map(ls), Paragraph)
  }

  function Map(ls: seq<Link>): (r: seq<string>)
    ensures |r| == |ls|
    ensures forall k :: 0 <= k < |ls| ==> r[k] == Markdown(ls[k])
  {
    if |ls| == 0 then [] else [Markdown(ls[0])] + Map(ls[1..])
  }

  /** Links without line breaks. */
  predicate OneLine(l: Link) {
    '\n' !in l.name && '\n' !in l.url
  }

  /** Reading a plugin list message gives its links back, in order. */
  lemma {:induction false} ListMessageRoundTrip(ls: seq<Link>)
    requires |ls| >= 1
    requires forall k :: 0 <= k < |ls| ==> WellFormed(ls[k]) && OneLine(ls[k])
    ensures Links(Split(ListMessage(ls), Paragraph)) == ls
  {
    var parts := Map(ls);
    forall k | 0 <= k < |parts| ensures Paragraph[0] !in parts[k] {
      assert parts[k] == "[" + ls[k].name + "](" + ls[k].url + ")";
    }
    SplitJoin(parts, Paragraph);
    LinksOfMarkdown(ls);
  }

  lemma LinksCons(c: string, cs: seq<string>, l: Link)
    requires FirstLink(c) == Some(l)
    ensures Links([c] + cs) == [l] + Links(cs)
  {
    assert ([c] + cs)[1..] == cs;
  }

  lemma {:induction false} LinksOfMarkdown(ls: seq<Link>)
    requires forall k :: 0 <= k < |ls| ==> WellFormed(ls[k])
    ensures Links(Map(ls)) == ls
    decreases |ls|
  {
    if |ls| > 0 {
      LinksOfMarkdown(ls[1..]);
      LinksOfMarkdownStep(ls);
    }
  }

  lemma LinksOfMarkdownStep(ls: seq<Link>)
    requires |ls| > 0 && WellFormed(ls[0]) && Links(Map(ls[1..])) == ls[1..]
    ensures Links(Map(ls)) == ls
  {
    MapCons(ls);
    FirstLinkOfChunk(ls[0]);
    LinksCons(Markdown(ls[0]), Map(ls[1..]), ls[0]);
    assert [ls[0]] + ls[1..] == ls;
  }

  lemma MapCons(ls: seq<Link>)
    requires |ls| > 0
    ensures Map(ls) == [Markdown(ls[0])] + Map(ls[1..])
  {
  }


  // ---------------------------------------------------------------------------
  // The reply
  // ---------------------------------------------------------------------------

  /** `${index + 1}. [name](url)` for each link, numbered from `n`. */
  function Numbered(ls: seq<Link>, n: nat): (r: seq<string>)
    ensures |r| == |ls|
    ensures forall k :: 0 <= k < |ls| ==> r[k] == NatToString(n + k) + ". " + Markdown(ls[k])
  {
    if |ls| == 0 then [] else [NatToString(n) + ". " + Markdown(ls[0])] + Numbered(ls[1..], n + 1)
  }

  /** The lines the loop appends, each ended by a newline. */
  function Lines(ls: seq<Link>, n: nat): string {
    if |ls| == 0 then "" else NatToString(n) + ". " + Markdown(ls[0]) + "\n" + Lines(ls[1..], n + 1)
  }

  /** The list has one line per link, numbered from 1, and nothing else. */
  lemma {:induction false} LinesSplit(ls: seq<Link>, n: nat)
    requires forall k :: 0 <= k < |ls| ==> OneLine(ls[k])
    ensures Split(Lines(ls, n), "\n") == Numbered(ls, n) + [""]
    decreases |ls|
  {
    if |ls| == 0 {
      assert Split("", "\n") == [""];
    } else {
      var line := NatToString(n) + ". " + Markdown(ls[0]);
      assert '\n' !in NatToString(n) by { assert AllDigits(NatToString(n)); }
      assert '\n' !in line;
      LinesSplit(ls[1..], n + 1);
      assert Lines(ls, n) == line + "\n" + Lines(ls[1..], n + 1);
      SplitAfterPiece(line, "\n", Lines(ls[1..], n + 1));
    }
  }

  const Header: string := "**Plugins available:**\n"

  /** The closing line; "plugin" is singular exactly for one plugin. */
  function Total(n: nat): (r: string)
    ensures |r| >= 3 && (r[|r| - 3] == 's' <==> n != 1)
  {
    "\n**Total: " + NatToString(n) + " plugin" + (if n != 1 then "s" else "") + "**"
  }

  datatype Reply =
    | NotAList
    | NoneFound
    | Listed(links: seq<Link>, text: string)

  /** The context menu command on a message's content. */
  function Execute(content: string): (r: Reply)
    ensures r == NotAList <==> !Contains(content, "[") || !Contains(content, "](")
    ensures r.NoneFound? <==> !r.NotAList? && Links(Split(content, Paragraph)) == []
    ensures r.Listed? ==> r.links == Links(Split(content, Paragraph)) && |r.links| >= 1
    ensures r.Listed? ==> r.text == Header + Lines(r.links, 1) + Total(|r.links|)
  {
    if !Contains(content, "[") || !Contains(content, "](") then NotAList
    else
      var links := Links(Split(content, Paragraph));
      if |links| == 0 then NoneFound
      else Listed(links, Header + Lines(links, 1) + Total(|links|))
  }

  /** A plugin list message begins with its first link. */
  lemma ListMessageStarts(ls: seq<Link>)
    requires |ls| >= 1
    ensures Markdown(ls[0]) <= ListMessage(ls)
  {
    if |ls| > 1 {
      JoinCons(Markdown(ls[0]), Map(ls)[1..], Paragraph);
      assert Map(ls) == [Markdown(ls[0])] + Map(ls)[1..];
    }
  }

  /** Text that begins with a link passes the guard. */
  lemma GuardPasses(s: string, l: Link)
    requires WellFormed(l) && Markdown(l) <= s
    ensures Contains(s, "[") && Contains(s, "](")
  {
    var m := Markdown(l);
    var j := 1 + |l.name|;
    assert s[0..1] == m[0..1] == "[";
    assert At(s, "[", 0);
    assert s[j..j + 2] == m[j..j + 2] == "](";
    assert At(s, "](", j);
  }

  /** A plugin list message is listed back link by link. */
  lemma ExecuteOnList(ls: seq<Link>)
    requires |ls| >= 1
    requires forall k :: 0 <= k < |ls| ==> WellFormed(ls[k]) && OneLine(ls[k])
    ensures Execute(ListMessage(ls)) == Listed(ls, Header + Lines(ls, 1) + Total(|ls|))
  {
    ListMessageRoundTrip(ls);
    ListMessageStarts(ls);
    GuardPasses(ListMessage(ls), ls[0]);
  }
}

=== FILE: interval.dfy ===
/** Interval strings such as `30m`, `6h`, `1d`, and the per-channel minky
    schedule that the `minkyinterval` command maintains. Timers, the store
    write and the image post are recorded as effects, not performed. */
module Interval {
  import opened Wrappers
  import opened Text
  import PrefixParser

  datatype Unit = Minute | Hour | Day

  /** The unit letter, in either case. */
  function UnitOf(c: char): (u: Option<Unit>)
    ensures u.Some? <==> c in "mMhHdD"
  {
    if c == 'm' || c == 'M' then Some(Minute)
    else if c == 'h' || c == 'H' then Some(Hour)
    else if c == 'd' || c == 'D' then Some(Day)
    else None
  }

  function UnitMs(u: Unit): int {
    match u
    case Minute => 60 * 1000
    case Hour => 60 * 60 * 1000
    case Day => 24 * 60 * 60 * 1000
  }

  function UnitName(u: Unit): string {
    match u
    case Minute => "minute(s)"
    case Hour => "hour(s)"
    case Day => "day(s)"
  }

  /** The match of `^(\d+)(m|h|d)$` (case-insensitive): the digits as
      written and the unit. */
  function MatchInterval(s: string): (r: Option<(string, Unit)>)
    ensures r.Some? <==> |s| >= 2 && AllDigits(s[..|s| - 1]) && UnitOf(s[|s| - 1]).Some?
    ensures r.Some? ==> s == r.value.0 + [s[|s| - 1]] && UnitOf(s[|s| - 1]) == Some(r.value.1)
  {
    if |s| >= 2 && AllDigits(s[..|s| - 1]) && UnitOf(s[|s| - 1]).Some?
    then Some((s[..|s| - 1], UnitOf(s[|s| - 1]).value))
    else None
  }

  /** `parseInterval`: null unless the whole string matches, else the
      value times the unit's milliseconds. */
  function ParseInterval(s: string): (r: Option<int>)
    ensures r.Some? <==> MatchInterval(s).Some?
    ensures r.Some? ==> r.value >= 0 && r.value % 60000 == 0
    ensures r.Some? ==> r.value == DigitsValue(MatchInterval(s).value.0) * UnitMs(MatchInterval(s).value.1)
  {
    var m := MatchInterval(s);
    if m.None? then None
    else
      WholeMinutes(DigitsValue(m.value.0), m.value.1);
      Some(DigitsValue(m.value.0) * UnitMs(m.value.1))
  }

  /** A count of any unit is a whole number of minutes. */
  lemma WholeMinutes(n: nat, u: Unit)
    ensures n * UnitMs(u) >= 0 && (n * UnitMs(u)) % 60000 == 0
  {
    var minutes := match u case Minute => n case Hour => 60 * n case Day => 1440 * n;
    assert n * UnitMs(u) == 60000 * minutes;
  }

  /** `formatInterval`: the digits exactly as written, a space, and the
      unit's name. On a string that does not match, the source throws
      (it indexes a null match); that is `None` here. */
  function FormatInterval(s: string): (r: Option<string>)
    ensures r.Some? <==> ParseInterval(s).Some?
    ensures r.Some? ==> r.value == s[..|s| - 1] + " " + UnitName(UnitOf(s[|s| - 1]).value)
  {
    match MatchInterval(s)
    case None => None
    case Some((digits, u)) => Some(digits + " " + UnitName(u))
  }

  function UnitLetter(u: Unit, upper: bool): (c: char)
    ensures UnitOf(c) == Some(u)
  {
    match u
    case Minute => if upper then 'M' else 'm'
    case Hour => if upper then 'H' else 'h'
    case Day => if upper then 'D' else 'd'
  }

  /** Writing a count and a unit letter, in either case, and parsing it
      back gives the count times the unit; formatting it shows the count. */
  lemma {:induction false} IntervalRoundTrip(n: nat, u: Unit, upper: bool)
    ensures var s := NatToString(n) + [UnitLetter(u, upper)];
      && ParseInterval(s) == Some(n * UnitMs(u))
      && FormatInterval(s) == Some(NatToString(n) + " " + UnitName(u))
  {
    var d := NatToString(n);
    var s := d + [UnitLetter(u, upper)];
    assert s[..|s| - 1] == d;
    NatToStringRoundTrip(n);
  }

  /** Upper- and lower-case unit letters are the same interval. */
  lemma CaseInsensitiveUnit(digits: string, u: Unit)
    ensures ParseInterval(digits + [UnitLetter(u, true)]) == ParseInterval(digits + [UnitLetter(u, false)])
    ensures FormatInterval(digits + [UnitLetter(u, true)]) == FormatInterval(digits + [UnitLetter(u, false)])
  {
    var a := digits + [UnitLetter(u, true)];
    var b := digits + [UnitLetter(u, false)];
    assert a[..|a| - 1] == digits && b[..|b| - 1] == digits;
  }

  /** "0m" parses to 0, which every caller reads as "invalid format". */
  lemma ZeroMinutes()
    ensures ParseInterval("0m") == Some(0)
  {
    assert "0m"[..1] == "0";
    assert DigitsValue("0") == DigitsValue("") * 10 + DigitValue('0');
  }

  /** An empty count, a unit alone, or trailing text do not match. */
  lemma Rejections(digits: string, u: Unit, tail: char)
    requires AllDigits(digits) && |digits| > 0 && UnitOf(tail).None?
    ensures ParseInterval([UnitLetter(u, false)]) == None
    ensures ParseInterval(digits + [UnitLetter(u, false)] + [tail]) == None
  {
    var s := digits + [UnitLetter(u, false)] + [tail];
    assert s[|s| - 1] == tail;
  }

  // ---------------------------------------------------------------------------
  // The minky schedule
  // ---------------------------------------------------------------------------

  /** The shortest accepted interval: five minutes. */
  const MinimumMs: int := 5 * 60 * 1000

  /** The longest delay Node's timers hold: `setInterval` replaces a
      delay above it, or below 1, by 1 ms. */
  const TimerMaxMs: int := 2147483647

  /** The period a `setInterval(f, delayMs)` timer actually fires at. */
  function TimerPeriod(delayMs: int): (p: int)
    ensures 1 <= p <= TimerMaxMs
    ensures p == delayMs <==> 1 <= delayMs <= TimerMaxMs
  {
    if 1 <= delayMs <= TimerMaxMs then delayMs else 1
  }

  /** One schedule; the running timer is represented by its period. */
  datatype Schedule = Schedule(interval: string, intervalMs: int, channelId: string, guildId: string)

  type Schedules = map<string, Schedule>

  /** The schedule key `${guildId}-${channelId}`. */
  function Key(guildId: string, channelId: string): string {
    guildId + "-" + channelId
  }

  datatype MinkyEffect =
    | ClearTimer(key: string)
    | StartTimer(key: string, periodMs: int)
    | SaveInterval(guildId: string, channelId: string, interval: string, intervalMs: int)
    | ReplyScheduled(channelId: string, display: string)
    | PostMinky(channelId: string)

  datatype MinkyReply =
    | NotAdmin
    | Usage
    | InvalidChannel
    | NotTextChannel
    | InvalidFormat
    | TooShort
    | TooLong
    | Scheduled

  /** The shared tail of both forms: validate the interval (an unparsable
      or zero interval is "invalid format", below five minutes is "too
      short"), then replace whatever ran under the same key. There is no
      upper bound: the timer is started with the parsed milliseconds and
      fires at whatever period Node makes of them. */
  function ApplySchedule(s: Schedules, guildId: string, channelId: string, interval: string): (out: (MinkyReply, Schedules, seq<MinkyEffect>))
    ensures out.0 == InvalidFormat <==> ParseInterval(interval).None? || ParseInterval(interval) == Some(0)
    ensures out.0 == TooShort <==> ParseInterval(interval).Some? && 0 < ParseInterval(interval).value < MinimumMs
    ensures out.0 != Scheduled ==> out.1 == s && out.2 == []
    ensures out.0 == Scheduled ==>
      var key := Key(guildId, channelId);
      var ms := ParseInterval(interval).value;
      && ms >= MinimumMs
      && out.1 == s[key := Schedule(interval, ms, channelId, guildId)]
      && out.2 == (if key in s then [ClearTimer(key)] else [])
                  + [StartTimer(key, TimerPeriod(ms)), SaveInterval(guildId, channelId, interval, ms),
                     ReplyScheduled(channelId, FormatInterval(interval).value), PostMinky(channelId)]
  {
    match ParseInterval(interval)
    case None => (InvalidFormat, s, [])
    case Some(ms) =>
      if ms == 0 then (InvalidFormat, s, [])
      else if ms < MinimumMs then (TooShort, s, [])
      else
        var key := Key(guildId, channelId);
        var clear := if key in s then [ClearTimer(key)] else [];
        (Scheduled, s[key := Schedule(interval, ms, channelId, guildId)],
         clear + [StartTimer(key, TimerPeriod(ms)), SaveInterval(guildId, channelId, interval, ms),
                  ReplyScheduled(channelId, FormatInterval(interval).value), PostMinky(channelId)])
  }

  /** The slash form: administrators only; the channel option is required. */
  function ScheduleSlash(s: Schedules, isAdmin: bool, guildId: string, channelId: string, interval: string): (out: (MinkyReply, Schedules, seq<MinkyEffect>))
    ensures !isAdmin ==> out == (NotAdmin, s, [])
    ensures isAdmin ==> out == ApplySchedule(s, guildId, channelId, interval)
  {
    if !isAdmin then (NotAdmin, s, []) else ApplySchedule(s, guildId, channelId, interval)
  }

  /** The prefix form `<interval> <channel>`: administrators only, at least
      two arguments, and the second must resolve to a text channel — all
      checked before the interval. */
  function SchedulePrefix(s: Schedules, isAdmin: bool, guildId: string, args: seq<string>,
                          channels: seq<PrefixParser.Channel>): (out: (MinkyReply, Schedules, seq<MinkyEffect>))
    ensures !isAdmin ==> out == (NotAdmin, s, [])
    ensures isAdmin && |args| < 2 ==> out == (Usage, s, [])
    ensures isAdmin && |args| >= 2 && PrefixParser.FindChannel(channels, args[1]).None? ==> out == (InvalidChannel, s, [])
    ensures isAdmin && |args| >= 2 && PrefixParser.FindChannel(channels, args[1]).Some? ==>
      var ch := PrefixParser.FindChannel(channels, args[1]).value;
      (!ch.isText ==> out == (NotTextChannel, s, []))
      && (ch.isText ==> out == ApplySchedule(s, guildId, ch.id, args[0]))
  {
    if !isAdmin then (NotAdmin, s, [])
    else if |args| < 2 then (Usage, s, [])
    else match PrefixParser.FindChannel(channels, args[1])
      case None => (InvalidChannel, s, [])
      case Some(ch) =>
        if !ch.isText then (NotTextChannel, s, [])
        else ApplySchedule(s, guildId, ch.id, args[0])
  }

  /** Scheduling never creates a second entry for a key: the key set only
      gains the command's key, and every other entry is untouched. */
  lemma AtMostOnePerKey(s: Schedules, isAdmin: bool, guildId: string, channelId: string, interval: string)
    ensures var s' := ScheduleSlash(s, isAdmin, guildId, channelId, interval).1;
      && s'.Keys <= s.Keys + {Key(guildId, channelId)}
      && |s'.Keys| <= |s.Keys| + 1
      && (forall k :: k in s && k != Key(guildId, channelId) ==> s'[k] == s[k])
  {
    var s' := ScheduleSlash(s, isAdmin, guildId, channelId, interval).1;
    if s' != s {
      assert s'.Keys == s.Keys + {Key(guildId, channelId)};
    }
  }

  /** Re-scheduling a channel stops its old timer before the new one
      starts, and the entry afterwards is the new one. */
  lemma RescheduleReplaces(s: Schedules, guildId: string, channelId: string, interval: string)
    requires Key(guildId, channelId) in s
    requires ParseInterval(interval).Some? && ParseInterval(interval).value >= MinimumMs
    ensures var (reply, s', effects) := ScheduleSlash(s, true, guildId, channelId, interval);
      && reply == Scheduled
      && effects[0] == ClearTimer(Key(guildId, channelId))
      && effects[1] == StartTimer(Key(guildId, channelId), TimerPeriod(ParseInterval(interval).value))
      && s'[Key(guildId, channelId)].interval == interval
  {
  }

  /** `{n}m` is malformed at zero, too short below five and scheduled from
      five on. */
  lemma MinutesVerdict(s: Schedules, guildId: string, channelId: string, n: nat)
    ensures var out := ScheduleSlash(s, true, guildId, channelId, NatToString(n) + "m");
      && (n == 0 ==> out == (InvalidFormat, s, []))
      && (0 < n < 5 ==> out == (TooShort, s, []))
      && (n >= 5 ==> out.0 == Scheduled)
  {
    IntervalRoundTrip(n, Minute, false);
    assert [UnitLetter(Minute, false)] == "m";
  }

  /** Five minutes is accepted; `4m` is refused as too short and `0m`
      as malformed, neither touching the map. */
  lemma MinimumBoundary(s: Schedules, guildId: string, channelId: string)
    ensures ScheduleSlash(s, true, guildId, channelId, "4m") == (TooShort, s, [])
    ensures ScheduleSlash(s, true, guildId, channelId, "5m").0 == Scheduled
    ensures ScheduleSlash(s, true, guildId, channelId, "0m") == (InvalidFormat, s, [])
  {
    MinutesVerdict(s, guildId, channelId, 4);
    MinutesVerdict(s, guildId, channelId, 5);
    MinutesVerdict(s, guildId, channelId, 0);
    assert NatToString(4) + "m" == "4m";
    assert NatToString(5) + "m" == "5m";
    assert NatToString(0) + "m" == "0m";
  }

  // ---------------------------------------------------------------------------
  // Intervals beyond the timer's limit
  // ---------------------------------------------------------------------------

  /** `{n}d` parses to n days. */
  lemma DaysParse(n: nat)
    ensures ParseInterval(NatToString(n) + "d") == Some(n * 86400000)
  {
    IntervalRoundTrip(n, Day, false);
    assert [UnitLetter(Day, false)] == "d";
  }

  /** As written, every interval of 25 days or more passes both checks and
      is stored with its full length, but exceeds the timer's limit, so the
      timer started for it fires every millisecond. */
  lemma AsWrittenLongIntervalFloods(s: Schedules, guildId: string, channelId: string, n: nat)
    requires n >= 25
    ensures var out := ScheduleSlash(s, true, guildId, channelId, NatToString(n) + "d");
      && out.0 == Scheduled
      && out.1[Key(guildId, channelId)].intervalMs == n * 86400000
      && StartTimer(Key(guildId, channelId), 1) in out.2
  {
    DaysParse(n);
    var key := Key(guildId, channelId);
    var out := ScheduleSlash(s, true, guildId, channelId, NatToString(n) + "d");
    assert n * 86400000 >= 25 * 86400000 > TimerMaxMs;
    var clear := if key in s then [ClearTimer(key)] else [];
    assert out.2[|clear|] == StartTimer(key, TimerPeriod(n * 86400000));
  }

  /** The schedule with the evidently intended upper bound: an interval
      the timer cannot hold is refused, like one that is too short, and
      every started timer fires at the requested period, never under five
      minutes. */
  function ApplyScheduleBounded(s: Schedules, guildId: string, channelId: string, interval: string): (out: (MinkyReply, Schedules, seq<MinkyEffect>))
    ensures out.0 == TooLong <==> ParseInterval(interval).Some? && ParseInterval(interval).value > TimerMaxMs
    ensures out.0 == TooLong ==> out.1 == s && out.2 == []
    ensures out.0 != TooLong ==> out == ApplySchedule(s, guildId, channelId, interval)
    ensures out.0 == Scheduled ==>
      var ms := ParseInterval(interval).value;
      && MinimumMs <= ms <= TimerMaxMs
      && out.1[Key(guildId, channelId)].intervalMs == ms
      && StartTimer(Key(guildId, channelId), ms) in out.2
  {
    match ParseInterval(interval)
    case Some(ms) =>
      if ms > TimerMaxMs then (TooLong, s, [])
      else
        var out := ApplySchedule(s, guildId, channelId, interval);
        assert out.0 == Scheduled ==> StartTimer(Key(guildId, channelId), ms) in out.2 by {
          if out.0 == Scheduled {
            var clear := if Key(guildId, channelId) in s then [ClearTimer(Key(guildId, channelId))] else [];
            assert out.2[|clear|] == StartTimer(Key(guildId, channelId), TimerPeriod(ms));
          }
        }
        out
    case None => ApplySchedule(s, guildId, channelId, interval)
  }

  /** With the bound, 25 days or more are refused and 1 to 24 days are
      scheduled at their own period. */
  lemma BoundedDays(s: Schedules, guildId: string, channelId: string, n: nat)
    ensures n >= 25 ==> ApplyScheduleBounded(s, guildId, channelId, NatToString(n) + "d") == (TooLong, s, [])
    ensures 1 <= n <= 24 ==>
      var out := ApplyScheduleBounded(s, guildId, channelId, NatToString(n) + "d");
      out.0 == Scheduled && StartTimer(Key(guildId, channelId), n * 86400000) in out.2
  {
    DaysParse(n);
    if n >= 25 {
      assert n * 86400000 >= 25 * 86400000;
    } else if n >= 1 {
      assert MinimumMs <= n * 86400000 <= 24 * 86400000;
    }
  }
}

=== FILE: message_dispatch.dfy ===
/** The `messageCreate` handler: the order in which an incoming message
    reaches the sticky repost, a prefix command and the autoresponders. */
module MessageDispatch {
  import opened Wrappers
  import StickyCore
  import PrefixParser
  import Responders

  datatype Message = Message(isBot: bool, guildId: Option<string>, channelId: string, content: string)

  /** What the handler does besides the sticky step. */
  datatype Action =
    | Ignore
    | PostMinky
    | RunCommand(name: string, args: seq<string>, rawArgs: string)
    | ReplyWith(response: string)
    | NoReply

  /** The bot's state that a message can touch or read. */
  datatype Bot = Bot(stickies: StickyCore.Registry, responders: Responders.Registry, prefixCommands: set<string>)

  /** The command a message invokes, if it parses and the command has a
      prefix form. */
  function CommandOf(prefixCommands: set<string>, content: string): (r: Option<PrefixParser.Parsed>)
    ensures r.Some? <==> PrefixParser.ParseMessage(content).Some? && PrefixParser.ParseMessage(content).value.commandName in prefixCommands
    ensures r.Some? ==> r == PrefixParser.ParseMessage(content)
  {
    match PrefixParser.ParseMessage(content)
    case None => None
    case Some(p) => if p.commandName in prefixCommands then Some(p) else None
  }

  /** Handle one message. Bots are ignored and DMs only get a minky post;
      every guild message first goes through the sticky step; a known
      prefix command then runs instead of the autoresponders; otherwise
      at most one responder replies. */
  function Dispatch(bot: Bot, m: Message, now: int, p: StickyCore.Platform): (out: (Bot, Action, seq<StickyCore.Effect>))
    ensures m.isBot ==> out == (bot, Ignore, [])
    ensures !m.isBot && m.guildId.None? ==> out == (bot, PostMinky, [])
    ensures out.0.responders == bot.responders && out.0.prefixCommands == bot.prefixCommands
    ensures !m.isBot && m.guildId.Some? ==>
      var (reg', effects) := StickyCore.HandleMessage(StickyCore.Current, bot.stickies, StickyCore.Incoming(true, m.channelId, false), now, p);
      && out.0.stickies == reg'
      && out.2 == effects
      && (CommandOf(bot.prefixCommands, m.content).Some? ==>
            var c := CommandOf(bot.prefixCommands, m.content).value;
            out.1 == RunCommand(c.commandName, c.args, c.rawArgs))
      && (CommandOf(bot.prefixCommands, m.content).None? ==>
            out.1 == ResponderAction(Responders.ListOf(bot.responders, m.guildId.value), m.content, m.channelId))
  {
    if m.isBot then (bot, Ignore, [])
    else if m.guildId.None? then (bot, PostMinky, [])
    else
      var (reg', effects) := StickyCore.HandleMessage(StickyCore.Current, bot.stickies, StickyCore.Incoming(true, m.channelId, false), now, p);
      var action :=
        match CommandOf(bot.prefixCommands, m.content)
        case Some(c) => RunCommand(c.commandName, c.args, c.rawArgs)
        case None => ResponderAction(Responders.ListOf(bot.responders, m.guildId.value), m.content, m.channelId);
      (bot.(stickies := reg'), action, effects)
  }

  /** The reply of the first matching responder, if any. */
  function ResponderAction(list: seq<Responders.Responder>, content: string, channelId: string): (a: Action)
    ensures a.ReplyWith? || a == NoReply
    ensures a == NoReply <==> forall j :: 0 <= j < |list| ==> !Responders.Fires(list[j], content, channelId)
    ensures a.ReplyWith? ==> exists i :: (0 <= i < |list| && Responders.Fires(list[i], content, channelId)
      && a.response == list[i].response
      && forall j :: 0 <= j < i ==> !Responders.Fires(list[j], content, channelId))
  {
    match Responders.MatchResponder(list, content, channelId)
    case None => NoReply
    case Some(i) => ReplyWith(list[i].response)
  }

  /** A prefix command suppresses the autoresponders, even when one of
      their triggers occurs in the message. */
  lemma CommandSuppressesResponders(bot: Bot, m: Message, now: int, p: StickyCore.Platform)
    requires !m.isBot && m.guildId.Some?
    requires CommandOf(bot.prefixCommands, m.content).Some?
    ensures !Dispatch(bot, m, now, p).1.ReplyWith?
  {
  }

  /** The sticky step runs on every non-bot guild message, commands
      included: a configured channel whose cooldown has passed reposts. */
  lemma StickyRunsBeforeCommands(bot: Bot, m: Message, now: int, p: StickyCore.Platform)
    requires !m.isBot && m.guildId.Some?
    requires m.channelId in bot.stickies && StickyCore.ShouldFire(bot.stickies[m.channelId], now)
    ensures StickyCore.Sends(Dispatch(bot, m, now, p).2)
  {
    StickyCore.HandleMessageSpec(StickyCore.Current, bot.stickies, StickyCore.Incoming(true, m.channelId, false), now, p);
  }

  /** With no command in the message, its reply agrees with the
      single-file handler in the repository root. */
  lemma AgreesWithRootHandler(bot: Bot, m: Message, now: int, p: StickyCore.Platform)
    requires CommandOf(bot.prefixCommands, m.content).None?
    ensures var a := Dispatch(bot, m, now, p).1;
      var r := Responders.RootOnMessage(bot.responders, m.isBot, m.guildId, m.channelId, m.content);
      && (a == Ignore <==> r == Responders.Ignore)
      && (a == PostMinky <==> r == Responders.PostMinky)
      && (a == NoReply <==> r == Responders.NoReply)
      && (a.ReplyWith? <==> r.ReplyWith?)
      && (a.ReplyWith? ==> a.response == r.response)
  {
  }
}

=== FILE: migrations.dfy ===
/** The schema migration runner: migrations are tried in list order, those
    already recorded in `_migrations` are skipped, and one is recorded only
    when it and its record both succeed. A failure is logged and the next
    migration still runs. */
module Migrations {
  import opened Wrappers

  const StickyInit: string := "0001_sticky_init"
  const StickyAddColumns: string := "0002_sticky_add_columns"

  /** The migrations in the order they run. */
  const All: seq<string> := [StickyInit, StickyAddColumns]

  /** The applied set read at start: a failed read counts as nothing
      applied. */
  function AppliedAtStart(rows: Option<seq<string>>): (applied: set<string>)
    ensures rows.None? ==> applied == {}
    ensures rows.Some? ==> forall id :: id in applied <==> id in rows.value
  {
    match rows
    case None => {}
    case Some(ids) => set id | id in ids
  }

  /** What the store does with each attempt: whether the migration's own
      statements succeed, and whether its record is then written. */
  datatype Outcomes = Outcomes(runs: string -> bool, records: string -> bool)

  predicate Succeeds(o: Outcomes, id: string) {
    o.runs(id) && o.records(id)
  }

  datatype Report = Report(attempted: seq<string>, recorded: seq<string>)

  /** The loop over the migrations, as a reference definition: the report
      of the earlier migrations, then the last one's attempt. The applied
      set is the one read at start; it is not updated inside the loop. */
  function Run(applied: set<string>, ms: seq<string>, o: Outcomes): (r: Report)
    ensures forall id :: id in r.attempted <==> id in ms && id !in applied
    ensures forall id :: id in r.recorded <==> id in ms && id !in applied && Succeeds(o, id)
    ensures |r.recorded| <= |r.attempted| <= |ms|
  {
    if |ms| == 0 then Report([], [])
    else
      var init := Run(applied, ms[..|ms| - 1], o);
      var m := ms[|ms| - 1];
      assert forall id :: id in ms <==> id == m || id in ms[..|ms| - 1];
      if m in applied then init
      else if Succeeds(o, m) then Report(init.attempted + [m], init.recorded + [m])
      else Report(init.attempted + [m], init.recorded)
  }

  /** `runMigrations`. `created` says whether creating `_migrations`
      succeeded; that statement is outside any `try`, so its failure
      rejects the whole call before anything runs. */
  method RunMigrations(created: bool, rows: Option<seq<string>>, ms: seq<string>, o: Outcomes)
    returns (r: Option<Report>)
    ensures !created <==> r.None?
    ensures r.Some? ==> r.value == Run(AppliedAtStart(rows), ms, o)
  {
    if !created {
      return None;
    }
    var applied := AppliedAtStart(rows);
    var attempted: seq<string> := [];
    var recorded: seq<string> := [];
    var i := 0;
    while i < |ms|
      invariant 0 <= i <= |ms|
      invariant Report(attempted, recorded) == Run(applied, ms[..i], o)
    {
      var m := ms[i];
      assert ms[..i + 1][..i] == ms[..i];
      if m !in applied {
        attempted := attempted + [m];
        if Succeeds(o, m) {
          recorded := recorded + [m];
        }
      }
      i := i + 1;
    }
    assert ms[..|ms|] == ms;
    return Some(Report(attempted, recorded));
  }

  /** After a run the store holds the old records and the new ones. A
      second run then attempts exactly the migrations that failed, and
      with nothing failing it attempts none. */
  lemma RerunRetriesFailures(applied: set<string>, ms: seq<string>, o: Outcomes, o2: Outcomes)
    ensures var after := applied + set id | id in Run(applied, ms, o).recorded;
      forall id :: id in Run(after, ms, o2).attempted <==> id in Run(applied, ms, o).attempted && !Succeeds(o, id)
  {
  }

  /** A migration already recorded is never run again. */
  lemma AppliedNeverRerun(rows: seq<string>, ms: seq<string>, o: Outcomes, id: string)
    requires id in rows
    ensures id !in Run(AppliedAtStart(Some(rows)), ms, o).attempted
  {
  }

  // ---------------------------------------------------------------------------
  // 0002: columns added to an older sticky table
  // ---------------------------------------------------------------------------

  /** The columns 0002 checks, in the order it adds them. */
  const StickyColumns: seq<string> :=
    ["guild_id", "channel_id", "content", "last_message_id", "cooldown_ms", "include_warning"]

  /** The columns of `wanted` missing from `cols`, in order. */
  function Missing(cols: set<string>, wanted: seq<string>): (r: seq<string>)
    ensures forall c :: c in r <==> c in wanted && c !in cols
    ensures |r| <= |wanted|
  {
    if |wanted| == 0 then []
    else
      var rest := Missing(cols, wanted[1..]);
      assert forall c :: c in wanted <==> c == wanted[0] || c in wanted[1..];
      if wanted[0] in cols then rest else [wanted[0]] + rest
  }

  /** The `ALTER TABLE` statements 0002 issues, given which of them
      succeed: the missing columns in order up to and including the first
      failing one. The migration succeeds when none fails. */
  function AddColumns(cols: set<string>, alters: string -> bool): (r: (seq<string>, bool))
    ensures r.0 <= Missing(cols, StickyColumns)
    ensures r.1 <==> forall c :: c in Missing(cols, StickyColumns) ==> alters(c)
    ensures r.1 ==> r.0 == Missing(cols, StickyColumns)
  {
    Alters(Missing(cols, StickyColumns), alters)
  }

  function Alters(todo: seq<string>, alters: string -> bool): (r: (seq<string>, bool))
    ensures r.0 <= todo
    ensures forall k :: 0 <= k < |r.0| - 1 ==> alters(r.0[k])
    ensures r.1 <==> forall c :: c in todo ==> alters(c)
    ensures r.1 ==> r.0 == todo
    ensures !r.1 ==> |r.0| > 0 && !alters(r.0[|r.0| - 1])
  {
    if |todo| == 0 then ([], true)
    else if !alters(todo[0]) then ([todo[0]], false)
    else
      var (rest, ok) := Alters(todo[1..], alters);
      assert forall c :: c in todo <==> c == todo[0] || c in todo[1..];
      ([todo[0]] + rest, ok)
  }

  /** The columns present after 0002: all of them when it succeeds. */
  function ColumnsAfter(cols: set<string>, alters: string -> bool): (r: set<string>)
    ensures cols <= r
    ensures AddColumns(cols, alters).1 ==> forall c :: c in StickyColumns ==> c in r
  {
    var (issued, ok) := AddColumns(cols, alters);
    var r := cols + set k | 0 <= k < |issued| && alters(issued[k]) :: issued[k];
    assert ok ==> forall c :: c in StickyColumns ==> c in r by {
      if ok {
        forall c | c in StickyColumns ensures c in r {
          if c !in cols {
            assert c in issued;
            var k :| 0 <= k < |issued| && issued[k] == c;
          }
        }
      }
    }
    r
  }

  /** Nothing is missing when every wanted column is present. */
  lemma {:induction false} NoneMissing(cols: set<string>, wanted: seq<string>)
    requires forall c :: c in wanted ==> c in cols
    ensures Missing(cols, wanted) == []
    decreases |wanted|
  {
    if |wanted| > 0 {
      assert wanted[0] in wanted;
      assert forall c :: c in wanted[1..] ==> c in wanted;
      NoneMissing(cols, wanted[1..]);
    }
  }

  /** On a complete table 0002 adds nothing and succeeds. */
  lemma CompleteTableUntouched(cols: set<string>, alters: string -> bool)
    requires forall c :: c in StickyColumns ==> c in cols
    ensures AddColumns(cols, alters) == ([], true)
  {
    NoneMissing(cols, StickyColumns);
  }

  /** After a successful 0002, running it again adds nothing. */
  lemma AddColumnsIdempotent(cols: set<string>, alters: string -> bool, alters2: string -> bool)
    requires AddColumns(cols, alters).1
    ensures AddColumns(ColumnsAfter(cols, alters), alters2) == ([], true)
  {
    CompleteTableUntouched(ColumnsAfter(cols, alters), alters2);
  }
}

=== FILE: plugin_copy.dfy ===
/** The Kettu copy-link buttons and `handleCopyButton`. The buttons are
    numbered by their position on the page, while the handler looks the
    number up in the whole, unfiltered plugin list; `CorrectedRows` numbers
    them by position in the whole list instead, which is what the handler
    needs. */
module PluginCopy {
  import opened Wrappers
  import Catalog
  import opened Plugins

  datatype CopyReply = NotFound | CopyUrl(url: string)

  /** `handleCopyButton`: the page is not used; the index is checked
      against, and looked up in, the list of all plugins. */
  function HandleCopy(all: seq<Plugin>, page: int, index: int): (r: CopyReply)
    ensures r == NotFound <==> index < 0 || index >= |all|
    ensures r.CopyUrl? ==> 0 <= index < |all| && r.url == all[index].url
  {
    if index < 0 || index >= |all| then NotFound else CopyUrl(all[index].url)
  }

  /** As written: on the second page of an unfiltered list, the first copy
      button is numbered 0 and copies the first plugin of the first page. */
  lemma AsWrittenCopiesWrongPlugin(all: seq<Plugin>)
    requires |all| > Catalog.PerPage && all[0].url != all[5].url && !IsZip(all[5].url)
    ensures var shown := Catalog.PageSlice(FilterPlugins(all, None, None), 1);
      && |shown| >= 1 && shown[0] == all[5]
      && Catalog.Button(CopyId(1, 0), CopyLabel(all[5].name), false) in CopyButtons(1, Enumerate(shown))
      && HandleCopy(all, 1, 0) == CopyUrl(all[0].url)
      && HandleCopy(all, 1, 0) != CopyUrl(shown[0].url)
  {
    var shown := Catalog.PageSlice(all, 1);
    assert (0, shown[0]) in Enumerate(shown);
  }

  // ---------------------------------------------------------------------------
  // Numbering by position in the whole list
  // ---------------------------------------------------------------------------

  /** The plugins of `all[k..]` that `keep` keeps, each with its index in
      `all`. */
  function TargetsFrom(all: seq<Plugin>, k: nat, keep: Plugin -> bool): (ts: seq<(nat, Plugin)>)
    requires k <= |all|
    ensures forall j :: 0 <= j < |ts| ==> k <= ts[j].0 < |all| && all[ts[j].0] == ts[j].1
    decreases |all| - k
  {
    if k == |all| then []
    else if keep(all[k]) then [(k, all[k])] + TargetsFrom(all, k + 1, keep)
    else TargetsFrom(all, k + 1, keep)
  }

  /** The plugins of numbered targets, without their numbers. */
  function PluginsOf(ts: seq<(nat, Plugin)>): (ps: seq<Plugin>)
    ensures |ps| == |ts| && forall j :: 0 <= j < |ts| ==> ps[j] == ts[j].1
  {
    seq(|ts|, j requires 0 <= j < |ts| => ts[j].1)
  }

  /** The plugins of the targets are the filtered list, in order. */
  lemma {:induction false} TargetsAreFiltered(all: seq<Plugin>, k: nat, keep: Plugin -> bool)
    requires k <= |all|
    ensures PluginsOf(TargetsFrom(all, k, keep)) == Catalog.Filter(all[k..], keep)
    decreases |all| - k
  {
    if k < |all| {
      TargetsAreFiltered(all, k + 1, keep);
      var xs := all[k..];
      assert xs[0] == all[k] && xs[1..] == all[k + 1..];
      Catalog.FilterStep(xs, keep);
      var tail := TargetsFrom(all, k + 1, keep);
      if keep(all[k]) {
        assert TargetsFrom(all, k, keep) == [(k, all[k])] + tail;
        PluginsOfCons((k, all[k]), tail);
      } else {
        assert TargetsFrom(all, k, keep) == tail;
      }
    }
  }

  lemma PluginsOfCons(t: (nat, Plugin), ts: seq<(nat, Plugin)>)
    ensures PluginsOf([t] + ts) == [t.1] + PluginsOf(ts)
  {
    assert forall j :: 0 < j <= |ts| ==> ([t] + ts)[j] == ts[j - 1];
  }

  /** Each plugin the filters keep, with its index in `all`. */
  function Targets(all: seq<Plugin>, search: Option<string>, author: Option<string>): (ts: seq<(nat, Plugin)>)
    ensures |ts| == |FilterPlugins(all, search, author)|
    ensures forall j :: 0 <= j < |ts| ==>
      ts[j].0 < |all| && all[ts[j].0] == ts[j].1 && ts[j].1 == FilterPlugins(all, search, author)[j]
  {
    TargetsAreFiltered(all, 0, Kept(search, author));
    FilterPluginsIsKept(all, search, author);
    assert all[0..] == all;
    TargetsFrom(all, 0, Kept(search, author))
  }

  /** Corrected `buildPaginationRow`: the copy buttons carry the index in
      the whole list of the plugin they stand for. */
  method CorrectedRows(all: seq<Plugin>, search: Option<string>, author: Option<string>, page: nat, isKettu: bool)
    returns (rows: seq<seq<Catalog.Button>>)
    ensures var filtered := FilterPlugins(all, search, author);
      && |rows| >= 1 && rows[0] == Catalog.NavRow("plugins", page, Catalog.TotalPages(|filtered|), search, author)
      && (isKettu && |Catalog.PageSlice(filtered, page)| > 0 ==>
            Catalog.Concat(rows[1..]) == CopyButtons(page, Catalog.PageSlice(Targets(all, search, author), page)))
      && (!isKettu || |Catalog.PageSlice(filtered, page)| == 0 ==> |rows| == 1)
    ensures forall i :: 1 <= i < |rows| ==> 1 <= |rows[i]| <= Catalog.PerPage
  {
    var filtered := FilterPlugins(all, search, author);
    var nav := Catalog.NavRow("plugins", page, Catalog.TotalPages(|filtered|), search, author);
    if isKettu && |Catalog.PageSlice(filtered, page)| > 0 {
      var copies := CopyRows(CopyButtons(page, Catalog.PageSlice(Targets(all, search, author), page)));
      rows := [nav] + copies;
      assert rows[1..] == copies;
    } else {
      rows := [nav];
    }
  }

  /** Position `k` of a page is element `5·page + k` of the list. */
  lemma PageSliceAt<T>(xs: seq<T>, page: nat, k: nat)
    requires k < |Catalog.PageSlice(xs, page)|
    ensures page * Catalog.PerPage + k < |xs| && Catalog.PageSlice(xs, page)[k] == xs[page * Catalog.PerPage + k]
  {
  }

  /** Position `k` of a page of targets stands for position `k` of the same
      page of the filtered list. */
  lemma TargetPageAligned(all: seq<Plugin>, search: Option<string>, author: Option<string>, page: nat, k: nat)
    requires k < |Catalog.PageSlice(FilterPlugins(all, search, author), page)|
    ensures var shown := Catalog.PageSlice(FilterPlugins(all, search, author), page);
      var ts := Catalog.PageSlice(Targets(all, search, author), page);
      && k < |ts| && ts[k].1 == shown[k] && ts[k].0 < |all| && all[ts[k].0] == shown[k]
  {
    AlignedAt(all, FilterPlugins(all, search, author), Targets(all, search, author), page, k);
  }

  /** The same for any list and its numbered targets. */
  lemma AlignedAt(all: seq<Plugin>, filtered: seq<Plugin>, targets: seq<(nat, Plugin)>, page: nat, k: nat)
    requires |targets| == |filtered|
    requires forall j :: 0 <= j < |targets| ==>
      targets[j].0 < |all| && all[targets[j].0] == targets[j].1 && targets[j].1 == filtered[j]
    requires k < |Catalog.PageSlice(filtered, page)|
    ensures var shown := Catalog.PageSlice(filtered, page);
      var ts := Catalog.PageSlice(targets, page);
      && k < |ts| && ts[k].1 == shown[k] && ts[k].0 < |all| && all[ts[k].0] == shown[k]
  {
    PageSliceAt(filtered, page, k);
    PageSliceAt(targets, page, k);
  }

  /** With the corrected numbering, the copy button of every plugin on a
      page copies that plugin's URL, whatever the page and the filters. */
  lemma CorrectedCopiesShownPlugin(all: seq<Plugin>, search: Option<string>, author: Option<string>, page: nat, k: nat)
    requires k < |Catalog.PageSlice(FilterPlugins(all, search, author), page)|
    ensures var shown := Catalog.PageSlice(FilterPlugins(all, search, author), page);
      var ts := Catalog.PageSlice(Targets(all, search, author), page);
      && k < |ts| && ts[k].1 == shown[k]
      && (!IsZip(shown[k].url) ==> Catalog.Button(CopyId(page, ts[k].0), CopyLabel(shown[k].name), false) in CopyButtons(page, ts))
      && HandleCopy(all, page, ts[k].0) == CopyUrl(shown[k].url)
  {
    TargetPageAligned(all, search, author, page, k);
    var ts := Catalog.PageSlice(Targets(all, search, author), page);
    assert ts[k] in ts;
  }
}

=== FILE: plugin_stats.dfy ===
/** Plugin statistics: totals, distinct authors, plugins per author and the
    five most prolific authors, in both versions of the command. */
module PluginStats {
  import opened Wrappers
  import opened Text
  import Catalog
  import Plugins
  import Stars

  predicate Known(p: Plugins.Plugin) {
    Plugins.KnownAuthors(p)
  }

  // ---------------------------------------------------------------------------
  // Counting
  // ---------------------------------------------------------------------------

  /** Plugins with a known authors field. */
  function KnownCount(ps: seq<Plugins.Plugin>): nat {
    if |ps| == 0 then 0 else KnownCount(ps[..|ps| - 1]) + (if Known(ps[|ps| - 1]) then 1 else 0)
  }

  /** Plugins whose known authors field is exactly `a`. */
  function CountBy(ps: seq<Plugins.Plugin>, a: string): nat {
    if |ps| == 0 then 0
    else CountBy(ps[..|ps| - 1], a) + (if Known(ps[|ps| - 1]) && ps[|ps| - 1].authors == a then 1 else 0)
  }

  /** The `authorCounts` object: author and count, in the order the
      authors were first seen. */
  type Tally = seq<(string, nat)>

  function Keys(t: Tally): (ks: seq<string>)
    ensures |ks| == |t| && forall i :: 0 <= i < |t| ==> ks[i] == t[i].0
  {
    if |t| == 0 then [] else [t[0].0] + Keys(t[1..])
  }

  predicate DistinctKeys(t: Tally) {
    forall i, j :: 0 <= i < j < |t| ==> t[i].0 != t[j].0
  }

  function Sum(t: Tally): nat {
    if |t| == 0 then 0 else t[0].1 + Sum(t[1..])
  }

  /** The count stored for `a`, 0 when absent (`authorCounts[a] || 0`). */
  function Lookup(t: Tally, a: string): nat {
    if |t| == 0 then 0 else if t[0].0 == a then t[0].1 else Lookup(t[1..], a)
  }

  /** `authorCounts[a] = (authorCounts[a] || 0) + 1`: the first entry for
      `a` goes up by one, or `(a, 1)` is appended. */
  function Bump(t: Tally, a: string): (r: Tally)
    ensures |r| == if a in Keys(t) then |t| else |t| + 1
    ensures forall i :: 0 <= i < |t| ==> r[i].0 == t[i].0
    ensures |r| > |t| ==> r[|t|] == (a, 1)
  {
    if |t| == 0 then [(a, 1)]
    else if t[0].0 == a then [(a, t[0].1 + 1)] + t[1..]
    else
      assert Keys(t) == [t[0].0] + Keys(t[1..]);
      var rest := Bump(t[1..], a);
      var r := [t[0]] + rest;
      assert forall i :: 1 <= i < |r| ==> r[i] == rest[i - 1];
      r
  }

  lemma {:induction false} BumpSum(t: Tally, a: string)
    ensures Sum(Bump(t, a)) == Sum(t) + 1
    decreases |t|
  {
    if |t| > 0 && t[0].0 != a {
      BumpSum(t[1..], a);
      assert Bump(t, a)[1..] == Bump(t[1..], a);
    }
  }

  lemma {:induction false} BumpLookup(t: Tally, a: string, k: string)
    ensures Lookup(Bump(t, a), k) == Lookup(t, k) + (if k == a then 1 else 0)
    decreases |t|
  {
    if |t| > 0 && t[0].0 != a {
      BumpLookup(t[1..], a, k);
      assert Bump(t, a)[1..] == Bump(t[1..], a);
    }
  }

  lemma BumpKeys(t: Tally, a: string)
    ensures forall k :: k in Keys(Bump(t, a)) <==> k in Keys(t) || k == a
  {
    if a in Keys(t) {
      BumpKnownKey(t, a);
    } else {
      BumpNewKey(t, a);
    }
  }

  lemma BumpKnownKey(t: Tally, a: string)
    requires a in Keys(t)
    ensures Keys(Bump(t, a)) == Keys(t)
  {
  }

  lemma BumpNewKey(t: Tally, a: string)
    requires a !in Keys(t)
    ensures Keys(Bump(t, a)) == Keys(t) + [a]
  {
  }

  lemma BumpDistinct(t: Tally, a: string)
    requires DistinctKeys(t)
    ensures DistinctKeys(Bump(t, a))
  {
    var r := Bump(t, a);
    if |r| > |t| {
      forall i | 0 <= i < |t| ensures r[i].0 != a {
        assert Keys(t)[i] == t[i].0;
      }
    }
  }

  /** The tally `forEach` builds, one plugin at a time. */
  function TallyOf(ps: seq<Plugins.Plugin>): (t: Tally)
    ensures DistinctKeys(t)
    ensures Sum(t) == KnownCount(ps)
    ensures forall a :: Lookup(t, a) == CountBy(ps, a)
    ensures forall a :: a in Keys(t) <==> exists p :: p in ps && Known(p) && p.authors == a
  {
    if |ps| == 0 then []
    else
      var init := ps[..|ps| - 1];
      var last := ps[|ps| - 1];
      var t := TallyOf(init);
      assert ps == init + [last];
      TallyStep(init, last, t);
      if Known(last) then Bump(t, last.authors) else t
  }

  /** Counting one more plugin keeps the tally's four properties. */
  lemma TallyStep(init: seq<Plugins.Plugin>, last: Plugins.Plugin, t: Tally)
    requires DistinctKeys(t) && Sum(t) == KnownCount(init)
    requires forall a :: Lookup(t, a) == CountBy(init, a)
    requires forall a :: a in Keys(t) <==> exists p :: p in init && Known(p) && p.authors == a
    ensures var ps := init + [last];
      var t' := if Known(last) then Bump(t, last.authors) else t;
      && DistinctKeys(t') && Sum(t') == KnownCount(ps)
      && (forall a :: Lookup(t', a) == CountBy(ps, a))
      && (forall a :: a in Keys(t') <==> exists p :: p in ps && Known(p) && p.authors == a)
  {
    var ps := init + [last];
    var t' := if Known(last) then Bump(t, last.authors) else t;
    if Known(last) {
      BumpDistinct(t, last.authors);
      BumpSum(t, last.authors);
    }
    StepCounts(init, last, ps);
    StepLookup(init, last, t, ps, t');
    StepKeys(init, last, t, ps, t');
  }

  lemma StepCounts(init: seq<Plugins.Plugin>, last: Plugins.Plugin, ps: seq<Plugins.Plugin>)
    requires ps == init + [last]
    ensures KnownCount(ps) == KnownCount(init) + (if Known(last) then 1 else 0)
    ensures forall a :: CountBy(ps, a) == CountBy(init, a) + (if Known(last) && last.authors == a then 1 else 0)
  {
    assert ps[..|ps| - 1] == init && ps[|ps| - 1] == last;
  }

  lemma StepLookup(init: seq<Plugins.Plugin>, last: Plugins.Plugin, t: Tally, ps: seq<Plugins.Plugin>, t': Tally)
    requires forall a :: Lookup(t, a) == CountBy(init, a)
    requires forall a :: CountBy(ps, a) == CountBy(init, a) + (if Known(last) && last.authors == a then 1 else 0)
    requires t' == if Known(last) then Bump(t, last.authors) else t
    ensures forall a :: Lookup(t', a) == CountBy(ps, a)
  {
    forall a ensures Lookup(t', a) == CountBy(ps, a) {
      if Known(last) {
        BumpLookup(t, last.authors, a);
      }
    }
  }

  lemma StepKeys(init: seq<Plugins.Plugin>, last: Plugins.Plugin, t: Tally, ps: seq<Plugins.Plugin>, t': Tally)
    requires forall a :: a in Keys(t) <==> exists p :: p in init && Known(p) && p.authors == a
    requires ps == init + [last]
    requires t' == if Known(last) then Bump(t, last.authors) else t
    ensures forall a :: a in Keys(t') <==> exists p :: p in ps && Known(p) && p.authors == a
  {
    assert forall p :: p in ps <==> p in init || p == last;
    if Known(last) {
      BumpKeys(t, last.authors);
    }
  }

  /** Every entry's count is the number of plugins by that author. */
  lemma {:induction false} LookupEntry(t: Tally, i: nat)
    requires DistinctKeys(t) && i < |t|
    ensures Lookup(t, t[i].0) == t[i].1
    decreases |t|
  {
    if i > 0 {
      assert t[0].0 != t[i].0;
      LookupEntry(t[1..], i - 1);
    }
  }

  lemma TallyCounts(ps: seq<Plugins.Plugin>)
    ensures forall i :: 0 <= i < |TallyOf(ps)| ==> TallyOf(ps)[i].1 == CountBy(ps, TallyOf(ps)[i].0)
  {
    var t := TallyOf(ps);
    forall i | 0 <= i < |t| ensures t[i].1 == CountBy(ps, t[i].0) {
      LookupEntry(t, i);
    }
  }

  // ---------------------------------------------------------------------------
  // Distinct authors
  // ---------------------------------------------------------------------------

  /** `new Set(plugins.map(p => p.authors).filter(a => a && a !== 'Unknown'))`. */
  function AuthorSet(ps: seq<Plugins.Plugin>): set<string> {
    set p | p in ps && Known(p) :: p.authors
  }

  lemma {:induction false} DistinctCard(ks: seq<string>)
    requires forall i, j :: 0 <= i < j < |ks| ==> ks[i] != ks[j]
    ensures |set k | k in ks| == |ks|
    decreases |ks|
  {
    if |ks| > 0 {
      DistinctCard(ks[1..]);
      assert (set k | k in ks) == {ks[0]} + (set k | k in ks[1..]);
      assert ks[0] !in ks[1..];
    }
  }

  /** The number of distinct known authors is the number of tally entries. */
  lemma UniqueAuthorsIsTallySize(ps: seq<Plugins.Plugin>)
    ensures |AuthorSet(ps)| == |TallyOf(ps)|
  {
    var t := TallyOf(ps);
    var ks := Keys(t);
    assert AuthorSet(ps) == set k | k in ks by {
      forall a ensures a in AuthorSet(ps) <==> a in ks {
        if a in AuthorSet(ps) {
          var p :| p in ps && Known(p) && p.authors == a;
        }
      }
    }
    DistinctCard(ks);
  }

  // ---------------------------------------------------------------------------
  // Top authors
  // ---------------------------------------------------------------------------

  predicate NonIncreasing(t: Tally) {
    forall i, j :: 0 <= i < j < |t| ==> t[i].1 >= t[j].1
  }

  /** An entry no smaller than the head of a non-increasing tally may go
      in front of it. */
  lemma {:induction false} ConsNonIncreasing(a: (string, nat), t: Tally)
    requires NonIncreasing(t) && (|t| == 0 || a.1 >= t[0].1)
    ensures NonIncreasing([a] + t)
  {
    var r := [a] + t;
    forall i, j | 0 <= i < j < |r| ensures r[i].1 >= r[j].1 {
      if i == 0 {
        assert r[j] == t[j - 1];
        assert t[0].1 >= t[j - 1].1 || j == 1;
      } else {
        assert r[i] == t[i - 1] && r[j] == t[j - 1];
      }
    }
  }

  /** Places `x` after every entry with a larger count and before the rest,
      so that equal counts keep their order, as the stable `sort` does. */
  function Insert(x: (string, nat), s: Tally): (r: Tally)
    requires NonIncreasing(s)
    ensures NonIncreasing(r)
    ensures |r| == |s| + 1
    ensures r[0] == x || (|s| > 0 && r[0] == s[0])
  {
    if |s| == 0 || x.1 >= s[0].1 then
      ConsNonIncreasing(x, s);
      [x] + s
    else
      var rest := Insert(x, s[1..]);
      assert s == [s[0]] + s[1..];
      ConsNonIncreasing(s[0], rest);
      [s[0]] + rest
  }

  /** Inserting adds exactly `x` to the entries. */
  lemma {:induction false} InsertPermutes(x: (string, nat), s: Tally)
    requires NonIncreasing(s)
    ensures multiset(Insert(x, s)) == multiset(s) + multiset{x}
    decreases |s|
  {
    if |s| > 0 && x.1 < s[0].1 {
      InsertPermutes(x, s[1..]);
      assert s == [s[0]] + s[1..];
    }
  }

  /** The entries of `t` with count `c`, in their order in `t`. A sort is
      stable exactly when it keeps each of these runs as it was. */
  function WithCount(t: Tally, c: nat): (r: Tally)
    ensures forall e :: e in r <==> e in t && e.1 == c
  {
    if |t| == 0 then []
    else
      assert t == [t[0]] + t[1..];
      (if t[0].1 == c then [t[0]] else []) + WithCount(t[1..], c)
  }

  /** The runs of a tally with one more entry in front. */
  lemma WithCountCons(e: (string, nat), t: Tally, c: nat)
    ensures WithCount([e] + t, c) == (if e.1 == c then [e] else []) + WithCount(t, c)
  {
    var r := [e] + t;
    assert r[0] == e && r[1..] == t;
  }

  /** Inserting puts `x` in front of every entry that ties with it. */
  lemma {:induction false} InsertWithCount(x: (string, nat), s: Tally, c: nat)
    requires NonIncreasing(s)
    ensures WithCount(Insert(x, s), c) == (if x.1 == c then [x] else []) + WithCount(s, c)
    decreases |s|
  {
    var hx := if x.1 == c then [x] else [];
    if |s| > 0 && x.1 < s[0].1 {
      TailNonIncreasing(s);
      var rest := Insert(x, s[1..]);
      InsertWithCount(x, s[1..], c);
      assert Insert(x, s) == [s[0]] + rest;
      WithCountCons(s[0], rest, c);
      assert s == [s[0]] + s[1..];
      WithCountCons(s[0], s[1..], c);
      var h := if s[0].1 == c then [s[0]] else [];
      var w1, wr := WithCount(s[1..], c), WithCount(rest, c);
      assert wr == hx + w1;
      if x.1 == c {
        assert h == [] && h + wr == wr && h + w1 == w1;
      } else {
        assert hx == [] && hx + w1 == w1 && hx + (h + w1) == h + w1;
      }
    } else {
      assert Insert(x, s) == [x] + s;
      WithCountCons(x, s, c);
    }
  }

  /** `Object.entries(authorCounts).sort((a, b) => b[1] - a[1])`:
      `Array.prototype.sort` is stable, so authors with equal counts stay in
      the order the tally first met them. */
  function SortByCount(t: Tally): (r: Tally)
    ensures NonIncreasing(r)
    ensures multiset(r) == multiset(t)
    ensures |r| == |t|
    ensures forall c :: WithCount(r, c) == WithCount(t, c)
  {
    if |t| == 0 then []
    else
      assert t == [t[0]] + t[1..];
      var rest := SortByCount(t[1..]);
      InsertPermutes(t[0], rest);
      forall c ensures WithCount(Insert(t[0], rest), c) == WithCount(t, c) {
        InsertWithCount(t[0], rest, c);
      }
      Insert(t[0], rest)
  }

  /** Dropping the head keeps a tally non-increasing. */
  lemma TailNonIncreasing(t: Tally)
    requires NonIncreasing(t) && |t| > 0
    ensures NonIncreasing(t[1..])
  {
    forall i, j | 0 <= i < j < |t[1..]| ensures t[1..][i].1 >= t[1..][j].1 {
      assert t[1..][i] == t[i + 1] && t[1..][j] == t[j + 1];
    }
  }

  /** The head of a non-increasing tally carries its largest count. */
  lemma HeadIsLargest(t: Tally, e: (string, nat))
    requires NonIncreasing(t) && e in t
    ensures |t| > 0 && t[0].1 >= e.1
  {
    var k :| 0 <= k < |t| && t[k] == e;
    assert k == 0 || t[0].1 >= t[k].1;
  }

  /** The run of the head's count starts with the head. */
  lemma RunStartsWithHead(t: Tally)
    requires |t| > 0
    ensures |WithCount(t, t[0].1)| > 0 && WithCount(t, t[0].1)[0] == t[0]
  {
  }

  /** Two non-increasing tallies with the same runs start alike. */
  lemma {:induction false} SameRunsSameHead(a: Tally, b: Tally)
    requires NonIncreasing(a) && NonIncreasing(b) && |a| > 0
    requires forall c :: WithCount(a, c) == WithCount(b, c)
    ensures |b| > 0 && a[0] == b[0]
  {
    var ca := a[0].1;
    RunStartsWithHead(a);
    var wa := WithCount(a, ca);
    assert wa == WithCount(b, ca);
    assert a[0] in wa;
    HeadIsLargest(b, a[0]);
    var cb := b[0].1;
    RunStartsWithHead(b);
    var wb := WithCount(b, cb);
    assert wb == WithCount(a, cb);
    assert b[0] in wb;
    HeadIsLargest(a, b[0]);
    assert ca == cb;
  }

  /** A non-increasing tally is pinned down by its runs of equal counts:
      there is only one stable sort. */
  lemma {:induction false} SortedByRunsUnique(a: Tally, b: Tally)
    requires NonIncreasing(a) && NonIncreasing(b)
    requires forall c :: WithCount(a, c) == WithCount(b, c)
    ensures a == b
    decreases |a|
  {
    assert |b| > 0 ==> b[0] in WithCount(b, b[0].1);
    if |a| > 0 {
      SameRunsSameHead(a, b);
      assert a == [a[0]] + a[1..] && b == [b[0]] + b[1..];
      forall c ensures WithCount(a[1..], c) == WithCount(b[1..], c) {
        var p := if a[0].1 == c then [a[0]] else [];
        assert WithCount(a, c) == p + WithCount(a[1..], c);
        assert WithCount(b, c) == p + WithCount(b[1..], c);
        assert WithCount(a, c) == WithCount(b, c);
        assert WithCount(a[1..], c) == (p + WithCount(a[1..], c))[|p|..];
        assert WithCount(b[1..], c) == (p + WithCount(b[1..], c))[|p|..];
      }
      TailNonIncreasing(a);
      TailNonIncreasing(b);
      SortedByRunsUnique(a[1..], b[1..]);
    }
  }

  /** Any non-increasing ordering of the tally that keeps tied authors in
      their tally order is the one the sort produces, so the fifth place of
      the ranking is decided by who was counted first. */
  lemma StableSortIsSortByCount(t: Tally, r: Tally)
    requires NonIncreasing(r)
    requires forall c :: WithCount(r, c) == WithCount(t, c)
    ensures r == SortByCount(t)
  {
    var s := SortByCount(t);
    SortedByRunsUnique(r, s);
  }

  /** The first five of the sorted tally. */
  function TopAuthors(t: Tally): (top: Tally)
    ensures |top| == if |t| < 5 then |t| else 5
    ensures top == SortByCount(t)[..|top|]
    ensures NonIncreasing(top)
    ensures forall e :: e in top ==> e in t
  {
    var s := SortByCount(t);
    var top := if |s| <= 5 then s else s[..5];
    forall e | e in top ensures e in t {
      assert e in multiset(s);
    }
    top
  }

  /** Nobody left out of the top five has more plugins than anyone in it. */
  lemma TopAuthorsAreTop(t: Tally)
    ensures forall e, f :: e in t && f in TopAuthors(t) && e !in TopAuthors(t) ==> e.1 <= f.1
  {
    var s := SortByCount(t);
    var top := TopAuthors(t);
    forall e, f | e in t && f in top && e !in top ensures e.1 <= f.1 {
      assert e in multiset(s);
      var i :| 0 <= i < |s| && s[i] == e;
      var j :| 0 <= j < |top| && top[j] == f;
      assert top == s[..|top|];
      assert i >= |top|;
      assert s[j] == f;
    }
  }

  /** `.map(line).join('\n') || 'No data'`. */
  function TopText(top: Tally): (r: string)
    ensures |top| == 0 <==> r == "No data"
  {
    if |top| == 0 then "No data"
    else
      var lines := seq(|top|, i requires 0 <= i < |top| =>
        "\U{2022} " + top[i].0 + " - **" + NatToString(top[i].1) + "** plugins");
      JoinStartsWithFirst(lines, "\n");
      assert Join(lines, "\n")[0] == '\U{2022}';
      Join(lines, "\n")
  }

  lemma JoinStartsWithFirst(parts: seq<string>, sep: string)
    requires |parts| > 0
    ensures parts[0] <= Join(parts, sep)
  {
  }

  // ---------------------------------------------------------------------------
  // The two commands
  // ---------------------------------------------------------------------------

  predicate Described(p: Plugins.Plugin) {
    p.description != "" && p.description != "No description"
  }

  datatype Stats = Stats(total: nat, uniqueAuthors: nat, described: nat, top: Tally)

  /** The figures both versions compute, `None` for an empty manifest
      ("No plugin data available."). */
  function Compute(ps: seq<Plugins.Plugin>): (s: Option<Stats>)
    ensures ps == [] <==> s.None?
    ensures s.Some? ==> s.value.total == |ps| && s.value.uniqueAuthors == |AuthorSet(ps)|
    ensures s.Some? ==> s.value.uniqueAuthors == |TallyOf(ps)|
    ensures s.Some? ==> s.value.described == |Catalog.Filter(ps, Described)|
    ensures s.Some? ==> s.value.top == TopAuthors(TallyOf(ps))
  {
    if |ps| == 0 then None
    else
      UniqueAuthorsIsTallySize(ps);
      Some(Stats(|ps|, |AuthorSet(ps)|, |Catalog.Filter(ps, Described)|, TopAuthors(TallyOf(ps))))
  }

  /** The older version also lists the first five plugins of the manifest. */
  function Latest(ps: seq<Plugins.Plugin>): (names: seq<string>)
    ensures |names| == if |ps| < 5 then |ps| else 5
    ensures forall i :: 0 <= i < |names| ==> names[i] == ps[i].name
  {
    var first := if |ps| <= 5 then ps else ps[..5];
    seq(|first|, i requires 0 <= i < |first| => first[i].name)
  }

  /** The newer version lists the most reviewed plugins with their rounded
      average as stars. */
  function ReviewedStars(top: seq<(string, real, nat)>): (r: seq<(string, Option<string>, nat)>)
    ensures |r| == |top|
    ensures forall i :: 0 <= i < |r| ==> r[i].0 == top[i].0 && r[i].2 == top[i].2
    ensures forall i :: 0 <= i < |r| ==> (r[i].1.Some? <==> -0.5 <= top[i].1 < 5.5)
  {
    seq(|top|, i requires 0 <= i < |top| => (top[i].0, Stars.AverageStars(top[i].1), top[i].2))
  }
}

=== FILE: plugin_urls.dfy ===
/** `normalizePluginUrl`: four rewrite rules that bring jsDelivr and
    GitHub branch URLs of a plugin to one GitHub `/raw/<branch>/` form.
    The older and newer plugin commands share the same rules. */
module PluginUrls {
  import opened Text

  const JsDelivrGh := "cdn.jsdelivr.net/gh/"
  const RefsHeadsAt := "@refs/heads/"
  const RawRefsHeads := "/raw/refs/heads/"
  const RefsHeads := "/refs/heads/"

  /** The regular expression `@([^/]+)\/` matches at `i`: an `@`, at least
      one character other than `/`, then a `/`. */
  predicate RefAt(s: string, i: int) {
    0 <= i && i + 1 < |s| && s[i] == '@' && s[i + 1] != '/' && '/' in s[i + 2..]
  }

  function FirstRefFrom(s: string, k: nat): (r: int)
    decreases |s| - k
    ensures r == -1 || (k <= r && RefAt(s, r))
    ensures r == -1 ==> forall i :: k <= i < |s| ==> !RefAt(s, i)
    ensures r >= 0 ==> forall i :: k <= i < r ==> !RefAt(s, i)
  {
    if k >= |s| then -1
    else if RefAt(s, k) then k
    else FirstRefFrom(s, k + 1)
  }

  /** `s.replace(/@([^/]+)\//, "/raw/$1/")`: the group and the slash are
      put back, so only the `@` at the first match becomes `/raw/`. */
  function ReplaceRef(s: string): (r: string)
    ensures (forall i :: 0 <= i < |s| ==> !RefAt(s, i)) ==> r == s
  {
    var i := FirstRefFrom(s, 0);
    if i < 0 then s else s[..i] + "/raw/" + s[i + 1..]
  }

  /** The test of rule `k`: 1 a jsDelivr `@refs/heads/` URL, 2 any other
      jsDelivr GitHub URL, 3 a GitHub `/raw/refs/heads/` URL, 4 a raw
      GitHub URL with `/refs/heads/`. */
  predicate RuleFits(url: string, k: nat) {
    if k == 1 then Contains(url, "cdn.jsdelivr.net") && Contains(url, RefsHeadsAt)
    else if k == 2 then Contains(url, JsDelivrGh)
    else if k == 3 then Contains(url, RawRefsHeads)
    else if k == 4 then Contains(url, "raw.githubusercontent.com") && Contains(url, RefsHeads)
    else false
  }

  /** Which rule applies, tried in the source's order; 0 for none. */
  function RuleOf(url: string): (n: nat)
    ensures n <= 4
    ensures n == 0 <==> forall k :: 1 <= k <= 4 ==> !RuleFits(url, k)
    ensures n > 0 ==> RuleFits(url, n) && forall k :: 1 <= k < n ==> !RuleFits(url, k)
  {
    if RuleFits(url, 1) then 1
    else if RuleFits(url, 2) then 2
    else if RuleFits(url, 3) then 3
    else if RuleFits(url, 4) then 4
    else
      assert forall k :: 1 <= k <= 4 ==> !RuleFits(url, k) by {
        forall k | 1 <= k <= 4 ensures !RuleFits(url, k) {
          assert k == 1 || k == 2 || k == 3 || k == 4;
        }
      }
      0
  }

  /** The rule's rewrite; each `replace` hits the first occurrence only. */
  function NormalizeUrl(url: string): (r: string)
    ensures RuleOf(url) == 0 ==> r == url
    ensures url != "" ==> r != ""
  {
    match RuleOf(url)
    case 1 => ReplaceFirst(ReplaceFirst(url, JsDelivrGh, "github.com/"), RefsHeadsAt, "/raw/")
    case 2 => ReplaceRef(ReplaceFirst(url, JsDelivrGh, "github.com/"))
    case 3 => ReplaceFirst(url, RawRefsHeads, "/raw/")
    case 4 => ReplaceFirst(url, RefsHeads, "/")
    case _ => url
  }

  /** `x + pat + y` has its first `pat` right after `x` when `x` does not
      contain the pattern's first character. */
  lemma ReplaceAfter(x: string, pat: string, y: string, rep: string)
    requires |pat| > 0 && pat[0] !in x
    ensures Contains(x + pat + y, pat)
    ensures ReplaceFirst(x + pat + y, pat, rep) == x + rep + y
  {
    var s := x + pat + y;
    assert s[|x|..|x| + |pat|] == pat;
    assert At(s, pat, |x|);
    forall i | 0 <= i < |x| ensures !At(s, pat, i) {
      assert s[i] == x[i];
    }
    assert s[..|x|] == x && s[|x| + |pat|..] == y;
  }

  /** Names that may appear in the parts of a jsDelivr URL. */
  predicate Plain(part: string) {
    '@' !in part
  }

  /** The jsDelivr form of a URL, with `sep` between repository and branch. */
  function JsDelivr(owner: string, repo: string, sep: string, branch: string, file: string): string {
    "https://" + JsDelivrGh + owner + "/" + repo + sep + branch + "/" + file
  }

  /** The same path on GitHub. */
  function GitHubForm(owner: string, repo: string, sep: string, branch: string, file: string): string {
    "https://github.com/" + owner + "/" + repo + sep + branch + "/" + file
  }

  /** The canonical URL every form of the same file is brought to. */
  function GitHubRaw(owner: string, repo: string, branch: string, file: string): string {
    GitHubForm(owner, repo, "/raw/", branch, file)
  }

  lemma GitHubFormSplits(owner: string, repo: string, sep: string, branch: string, file: string)
    ensures GitHubForm(owner, repo, sep, branch, file)
         == "https://" + "github.com/" + (owner + "/" + repo + sep + branch + "/" + file)
    ensures GitHubForm(owner, repo, sep, branch, file)
         == ("https://github.com/" + owner + "/" + repo) + sep + (branch + "/" + file)
  {
    assert "https://" + "github.com/" == "https://github.com/";
  }

  lemma JsDelivrSplits(owner: string, repo: string, sep: string, branch: string, file: string)
    ensures JsDelivr(owner, repo, sep, branch, file)
         == "https://" + JsDelivrGh + (owner + "/" + repo + sep + branch + "/" + file)
    ensures JsDelivr(owner, repo, sep, branch, file)
         == "https://" + "cdn.jsdelivr.net" + ("/gh/" + owner + "/" + repo + sep + branch + "/" + file)
    ensures JsDelivr(owner, repo, sep, branch, file)
         == ("https://" + JsDelivrGh + owner + "/" + repo) + sep + (branch + "/" + file)
  {
    assert JsDelivrGh == "cdn.jsdelivr.net" + "/gh/";
  }

  lemma NoAtInPrefixes(owner: string, repo: string)
    requires Plain(owner) && Plain(repo)
    ensures '@' !in "https://" + JsDelivrGh + owner + "/" + repo
    ensures '@' !in "https://github.com/" + owner + "/" + repo
  {
  }

  /** The first rewrite shared by rules 1 and 2 turns the host part into
      GitHub's. */
  lemma HostRewrite(owner: string, repo: string, sep: string, branch: string, file: string)
    ensures ReplaceFirst(JsDelivr(owner, repo, sep, branch, file), JsDelivrGh, "github.com/")
         == GitHubForm(owner, repo, sep, branch, file)
  {
    var tail := owner + "/" + repo + sep + branch + "/" + file;
    JsDelivrSplits(owner, repo, sep, branch, file);
    GitHubFormSplits(owner, repo, sep, branch, file);
    ReplaceAfter("https://", JsDelivrGh, tail, "github.com/");
  }

  /** A jsDelivr URL names the jsDelivr host and its GitHub path. */
  lemma HostPresent(owner: string, repo: string, sep: string, branch: string, file: string)
    ensures Contains(JsDelivr(owner, repo, sep, branch, file), "cdn.jsdelivr.net")
    ensures Contains(JsDelivr(owner, repo, sep, branch, file), JsDelivrGh)
  {
    JsDelivrSplits(owner, repo, sep, branch, file);
    HasAfterScheme("cdn.jsdelivr.net", "/gh/" + owner + "/" + repo + sep + branch + "/" + file);
    HasAfterScheme(JsDelivrGh, owner + "/" + repo + sep + branch + "/" + file);
  }

  lemma HasAfterScheme(pat: string, rest: string)
    requires |pat| > 0 && pat[0] == 'c'
    ensures Contains("https://" + pat + rest, pat)
  {
    ReplaceAfter("https://", pat, rest, "");
  }

  /** Rule 1: jsDelivr with `@refs/heads/<branch>`. */
  lemma JsDelivrRefsHeads(owner: string, repo: string, branch: string, file: string)
    requires Plain(owner) && Plain(repo)
    ensures var url := JsDelivr(owner, repo, RefsHeadsAt, branch, file);
      RuleOf(url) == 1 && NormalizeUrl(url) == GitHubRaw(owner, repo, branch, file)
  {
    HostRewrite(owner, repo, RefsHeadsAt, branch, file);
    HostPresent(owner, repo, RefsHeadsAt, branch, file);
    JsDelivrSplits(owner, repo, RefsHeadsAt, branch, file);
    GitHubFormSplits(owner, repo, RefsHeadsAt, branch, file);
    GitHubFormSplits(owner, repo, "/raw/", branch, file);
    NoAtInPrefixes(owner, repo);
    var y := branch + "/" + file;
    ReplaceAfter("https://" + JsDelivrGh + owner + "/" + repo, RefsHeadsAt, y, "/raw/");
    ReplaceAfter("https://github.com/" + owner + "/" + repo, RefsHeadsAt, y, "/raw/");
  }

  /** In a string with one `@`, every occurrence of a pattern starting with
      `@` starts there. */
  lemma OnlyAt(x: string, y: string, pat: string, i: int)
    requires '@' !in x && '@' !in y && |pat| > 0 && pat[0] == '@'
    ensures At(x + "@" + y, pat, i) ==> i == |x|
  {
    var s := x + "@" + y;
    if At(s, pat, i) {
      assert s[i] == pat[0];
    }
  }

  /** What follows the `@` never spells `refs/heads/`. */
  lemma RefsPrefix(branch: string, file: string)
    requires branch != "" && '/' !in branch && branch != "refs"
    ensures var y := branch + "/" + file; |y| < 11 || y[..11] != "refs/heads/"
  {
    var y := branch + "/" + file;
    var n := |branch|;
    var w := "refs/heads/";
    if 11 <= |y| {
      if n >= 5 {
        assert y[4] == branch[4] && y[4] != w[4];
      } else if n < 4 {
        assert y[n] == '/' && y[n] != w[n];
      } else {
        assert y[..4] == branch;
        assert w[..4] == "refs";
        assert y[..11][..4] != w[..4];
      }
    }
  }

  /** The branch of a jsDelivr `@<branch>/` URL is not the start of
      `refs/heads/`, so rule 1 does not fit it. */
  lemma NoRefsHeads(x: string, branch: string, file: string)
    requires '@' !in x && Plain(branch) && Plain(file)
    requires branch != "" && '/' !in branch && branch != "refs"
    ensures !Contains(x + "@" + (branch + "/" + file), RefsHeadsAt)
  {
    var y := branch + "/" + file;
    var s := x + "@" + y;
    RefsPrefix(branch, file);
    forall i | 0 <= i <= |s| ensures !At(s, RefsHeadsAt, i) {
      OnlyAt(x, y, RefsHeadsAt, i);
      if i == |x| && |x| + 12 <= |s| {
        assert s[|x|..|x| + 12][1..] == y[..11];
        assert RefsHeadsAt[1..] == "refs/heads/";
      }
    }
  }

  /** The only `@` is where the regular expression matches. */
  lemma FirstRef(x: string, branch: string, file: string)
    requires '@' !in x && branch != "" && '/' !in branch
    ensures FirstRefFrom(x + "@" + (branch + "/" + file), 0) == |x|
  {
    var y := branch + "/" + file;
    var v := x + "@" + y;
    var k := |x|;
    assert v[k] == '@' && v[k + 1] == branch[0];
    assert v[k + 1 + |branch|] == '/';
    assert RefAt(v, k);
    forall i | 0 <= i < k ensures !RefAt(v, i) {
      assert v[i] == x[i];
    }
  }

  /** Rule 2: jsDelivr with `@<branch>`. */
  lemma JsDelivrBranch(owner: string, repo: string, branch: string, file: string)
    requires Plain(owner) && Plain(repo) && Plain(branch) && Plain(file)
    requires branch != "" && '/' !in branch && branch != "refs"
    ensures var url := JsDelivr(owner, repo, "@", branch, file);
      RuleOf(url) == 2 && NormalizeUrl(url) == GitHubRaw(owner, repo, branch, file)
  {
    var y := branch + "/" + file;
    var x0 := "https://" + JsDelivrGh + owner + "/" + repo;
    var x := "https://github.com/" + owner + "/" + repo;
    HostRewrite(owner, repo, "@", branch, file);
    HostPresent(owner, repo, "@", branch, file);
    JsDelivrSplits(owner, repo, "@", branch, file);
    GitHubFormSplits(owner, repo, "@", branch, file);
    GitHubFormSplits(owner, repo, "/raw/", branch, file);
    NoAtInPrefixes(owner, repo);
    NoRefsHeads(x0, branch, file);
    FirstRef(x, branch, file);
    Around(x, y);
  }

  lemma Around(x: string, y: string)
    ensures (x + "@" + y)[..|x|] == x && (x + "@" + y)[|x| + 1..] == y
  {
  }

  /** Both jsDelivr forms of a file reach the same GitHub URL. */
  lemma JsDelivrFormsAgree(owner: string, repo: string, branch: string, file: string)
    requires Plain(owner) && Plain(repo) && Plain(branch) && Plain(file)
    requires branch != "" && '/' !in branch && branch != "refs"
    ensures NormalizeUrl(JsDelivr(owner, repo, RefsHeadsAt, branch, file))
         == NormalizeUrl(JsDelivr(owner, repo, "@", branch, file))
  {
    JsDelivrRefsHeads(owner, repo, branch, file);
    JsDelivrBranch(owner, repo, branch, file);
  }

  // ---------------------------------------------------------------------------
  // GitHub-hosted forms
  // ---------------------------------------------------------------------------

  /** When the pattern does not occur in `x` followed by all but its last
      character, its first occurrence in `x + pat + y` is right after `x`. */
  lemma FirstAfterPrefix(x: string, pat: string, y: string, rep: string)
    requires |pat| > 0 && !Contains(x + pat[..|pat| - 1], pat)
    ensures Contains(x + pat + y, pat)
    ensures ReplaceFirst(x + pat + y, pat, rep) == x + rep + y
  {
    var s := x + pat + y;
    var t := x + pat[..|pat| - 1];
    assert s[|x|..|x| + |pat|] == pat;
    assert At(s, pat, |x|);
    forall i | 0 <= i < |x| ensures At(s, pat, i) ==> At(t, pat, i) {
      assert forall k :: 0 <= k < |t| ==> s[k] == t[k];
      if At(s, pat, i) {
        assert s[i..i + |pat|] == t[i..i + |pat|];
      }
    }
    assert s[..|x|] == x && s[|x| + |pat|..] == y;
  }

  /** Text without `@` holds no pattern starting with `@`. */
  lemma NeedsAt(s: string, pat: string)
    requires '@' !in s && |pat| > 0 && pat[0] == '@'
    ensures !Contains(s, pat)
  {
    forall i | 0 <= i < |s| ensures !At(s, pat, i) {
      assert s[i] in s;
      if i + |pat| <= |s| {
        assert s[i..i + |pat|][0] == s[i];
      }
    }
  }

  /** The same path on `raw.githubusercontent.com`. */
  function RawForm(owner: string, repo: string, sep: string, branch: string, file: string): string {
    "https://raw.githubusercontent.com/" + owner + "/" + repo + sep + branch + "/" + file
  }

  /** Rule 3: GitHub's `/raw/refs/heads/<branch>`. The owner and the
      repository must not themselves spell the pattern, and the URL must not
      mention jsDelivr. */
  lemma GitHubRefsHeads(owner: string, repo: string, branch: string, file: string)
    requires Plain(owner) && Plain(repo) && Plain(branch) && Plain(file)
    requires !Contains(GitHubForm(owner, repo, RawRefsHeads, branch, file), JsDelivrGh)
    requires !Contains("https://github.com/" + owner + "/" + repo + RawRefsHeads[..15], RawRefsHeads)
    ensures var url := GitHubForm(owner, repo, RawRefsHeads, branch, file);
      RuleOf(url) == 3 && NormalizeUrl(url) == GitHubRaw(owner, repo, branch, file)
  {
    var x := "https://github.com/" + owner + "/" + repo;
    var y := branch + "/" + file;
    GitHubFormSplits(owner, repo, RawRefsHeads, branch, file);
    GitHubFormSplits(owner, repo, "/raw/", branch, file);
    NoAtInPrefixes(owner, repo);
    FirstAfterPrefix(x, RawRefsHeads, y, "/raw/");
    NeedsAt(x + RawRefsHeads + y, RefsHeadsAt);
  }

  lemma RawFormSplits(owner: string, repo: string, sep: string, branch: string, file: string)
    ensures RawForm(owner, repo, sep, branch, file)
         == ("https://raw.githubusercontent.com/" + owner + "/" + repo) + sep + (branch + "/" + file)
    ensures RawForm(owner, repo, sep, branch, file)
         == "https://" + "raw.githubusercontent.com" + ("/" + owner + "/" + repo + sep + branch + "/" + file)
  {
    assert "https://raw.githubusercontent.com/" == "https://" + "raw.githubusercontent.com" + "/";
  }

  /** The conditions under which rule 4 is the one that fits. */
  predicate RawRefsHeadsShape(owner: string, repo: string, branch: string, file: string) {
    && Plain(owner) && Plain(repo) && Plain(branch) && Plain(file)
    && !Contains(RawForm(owner, repo, RefsHeads, branch, file), JsDelivrGh)
    && !Contains(RawForm(owner, repo, RefsHeads, branch, file), RawRefsHeads)
    && !Contains("https://raw.githubusercontent.com/" + owner + "/" + repo + RefsHeads[..11], RefsHeads)
  }

  lemma RawRefsHeadsSelected(owner: string, repo: string, branch: string, file: string)
    requires RawRefsHeadsShape(owner, repo, branch, file)
    ensures RuleOf(RawForm(owner, repo, RefsHeads, branch, file)) == 4
  {
    var url := RawForm(owner, repo, RefsHeads, branch, file);
    var x := "https://raw.githubusercontent.com/" + owner + "/" + repo;
    RawFormSplits(owner, repo, RefsHeads, branch, file);
    FirstAfterPrefix(x, RefsHeads, branch + "/" + file, "/");
    assert Contains(url, RefsHeads);
    NoAtInRawPrefix(owner, repo);
    NoAtAfter(x, RefsHeads, branch, file);
    NeedsAt(url, RefsHeadsAt);
    ReplaceAfter("https://", "raw.githubusercontent.com", "/" + owner + "/" + repo + RefsHeads + branch + "/" + file, "");
    assert Contains(url, "raw.githubusercontent.com");
    RuleFour(url);
  }

  lemma NoAtInRawPrefix(owner: string, repo: string)
    requires Plain(owner) && Plain(repo)
    ensures '@' !in "https://raw.githubusercontent.com/" + owner + "/" + repo
  {
  }

  lemma NoAtAfter(x: string, sep: string, branch: string, file: string)
    requires '@' !in x && '@' !in sep && Plain(branch) && Plain(file)
    ensures '@' !in x + sep + (branch + "/" + file)
  {
  }

  lemma RuleFour(url: string)
    requires !Contains(url, RefsHeadsAt) && !Contains(url, JsDelivrGh) && !Contains(url, RawRefsHeads)
    requires Contains(url, "raw.githubusercontent.com") && Contains(url, RefsHeads)
    ensures RuleOf(url) == 4
  {
  }

  /** Rule 4: `raw.githubusercontent.com` with `/refs/heads/<branch>`. The
      URL must not fit an earlier rule, and the owner and the repository must
      not spell the pattern. */
  lemma RawRefsHeadsRule(owner: string, repo: string, branch: string, file: string)
    requires RawRefsHeadsShape(owner, repo, branch, file)
    ensures var url := RawForm(owner, repo, RefsHeads, branch, file);
      RuleOf(url) == 4 && NormalizeUrl(url) == RawForm(owner, repo, "/", branch, file)
  {
    RawRefsHeadsSelected(owner, repo, branch, file);
    RawFormSplits(owner, repo, RefsHeads, branch, file);
    RawFormSplits(owner, repo, "/", branch, file);
    FirstAfterPrefix("https://raw.githubusercontent.com/" + owner + "/" + repo, RefsHeads, branch + "/" + file, "/");
  }

  /** A GitHub `/raw/refs/heads/` URL and the jsDelivr `@<branch>` URL of
      the same file normalise to the same URL. */
  lemma GitHubAndJsDelivrAgree(owner: string, repo: string, branch: string, file: string)
    requires Plain(owner) && Plain(repo) && Plain(branch) && Plain(file)
    requires branch != "" && '/' !in branch && branch != "refs"
    requires !Contains(GitHubForm(owner, repo, RawRefsHeads, branch, file), JsDelivrGh)
    requires !Contains("https://github.com/" + owner + "/" + repo + RawRefsHeads[..15], RawRefsHeads)
    ensures NormalizeUrl(GitHubForm(owner, repo, RawRefsHeads, branch, file))
         == NormalizeUrl(JsDelivr(owner, repo, "@", branch, file))
  {
    GitHubRefsHeads(owner, repo, branch, file);
    JsDelivrBranch(owner, repo, branch, file);
  }
}

=== FILE: plugins.dfy ===
/** The newer plugin browser: the manifest's plugins, filtered by author
    and search text, shown five per page with Previous/Next buttons and,
    on the Kettu server, one copy-link button per plugin. */
module Plugins {
  import opened Wrappers
  import opened Text
  import Catalog
  import PluginUrls

  // ---------------------------------------------------------------------------
  // Manifest entries
  // ---------------------------------------------------------------------------

  /** One element of the manifest array; a missing or non-string field is
      `None`, and `authors` is `None` unless it is an array. */
  datatype ManifestEntry = ManifestEntry(
    name: Option<string>, url: Option<string>, description: Option<string>,
    version: Option<string>, authors: Option<seq<string>>, changelog: Option<string>)

  datatype Plugin = Plugin(name: string, description: string, url: string, version: string,
                           authors: string, changelog: string)

  /** `x || d` on an optional string. */
  function Or(x: Option<string>, d: string): (r: string)
    ensures Catalog.Active(x) ==> r == x.value
    ensures !Catalog.Active(x) ==> r == d
  {
    if Catalog.Active(x) then x.value else d
  }

  predicate Listed(e: ManifestEntry) {
    Catalog.Active(e.name) && Catalog.Active(e.url)
  }

  function ToPlugin(e: ManifestEntry): (p: Plugin)
    requires Listed(e)
    ensures p.name == e.name.value && p.url == PluginUrls.NormalizeUrl(e.url.value)
    ensures p.name != "" && p.url != "" && p.description != ""
    ensures e.authors.None? ==> p.authors == "Unknown"
    ensures e.authors.Some? ==> p.authors == Join(e.authors.value, ", ")
  {
    Plugin(e.name.value, Or(e.description, "No description"), PluginUrls.NormalizeUrl(e.url.value),
           Or(e.version, ""), if e.authors.Some? then Join(e.authors.value, ", ") else "Unknown",
           Or(e.changelog, ""))
  }

  /** The plugin list built from the manifest: entries lacking a name or a
      URL are dropped, the rest are converted in order. */
  function FromManifest(entries: seq<ManifestEntry>): (ps: seq<Plugin>)
    ensures |ps| == |Catalog.Filter(entries, Listed)|
    ensures forall i :: 0 <= i < |ps| ==> ps[i] == ToPlugin(Catalog.Filter(entries, Listed)[i])
    decreases |entries|
  {
    if |entries| == 0 then []
    else if Listed(entries[0]) then [ToPlugin(entries[0])] + FromManifest(entries[1..])
    else FromManifest(entries[1..])
  }

  /** Every listed plugin has a name, a URL and a description. */
  lemma ManifestFieldsPresent(entries: seq<ManifestEntry>)
    ensures forall p :: p in FromManifest(entries) ==> p.name != "" && p.url != "" && p.description != ""
  {
    var ps := FromManifest(entries);
    forall p | p in ps ensures p.name != "" && p.url != "" && p.description != "" {
      var i :| 0 <= i < |ps| && ps[i] == p;
      var e := Catalog.Filter(entries, Listed)[i];
      assert e in Catalog.Filter(entries, Listed);
    }
  }

  // ---------------------------------------------------------------------------
  // Filters
  // ---------------------------------------------------------------------------

  predicate AuthorOk(p: Plugin, author: Option<string>) {
    !Catalog.Active(author) || Catalog.Mentions(p.authors, author.value)
  }

  predicate SearchOk(p: Plugin, search: Option<string>) {
    !Catalog.Active(search) || Catalog.Mentions(p.name, search.value) || Catalog.Mentions(p.description, search.value)
  }

  /** The test a plugin passes to stay in the filtered list. */
  function Kept(search: Option<string>, author: Option<string>): Plugin -> bool {
    p => AuthorOk(p, author) && SearchOk(p, search)
  }

  /** `filterPlugins`: first by author, then by search text. */
  function FilterPlugins(ps: seq<Plugin>, search: Option<string>, author: Option<string>): (r: seq<Plugin>)
    ensures Catalog.IsSubsequence(r, ps)
    ensures forall p :: p in r <==> p in ps && AuthorOk(p, author) && SearchOk(p, search)
    ensures forall p :: multiset(r)[p] == if AuthorOk(p, author) && SearchOk(p, search) then multiset(ps)[p] else 0
    ensures !Catalog.Active(search) && !Catalog.Active(author) ==> r == ps
  {
    var byAuthor := if Catalog.Active(author) then Catalog.Filter(ps, p => AuthorOk(p, author)) else ps;
    Catalog.SubsequenceRefl(ps);
    var r := if Catalog.Active(search) then Catalog.Filter(byAuthor, p => SearchOk(p, search)) else byAuthor;
    Catalog.SubsequenceRefl(byAuthor);
    Catalog.SubsequenceTransitive(r, byAuthor, ps);
    assert forall p :: multiset(byAuthor)[p] == if AuthorOk(p, author) then multiset(ps)[p] else 0;
    assert forall p :: multiset(r)[p] == if SearchOk(p, search) then multiset(byAuthor)[p] else 0;
    r
  }

  /** The two stages are one filter by `Kept`. */
  lemma {:induction false} FilterPluginsIsKept(ps: seq<Plugin>, search: Option<string>, author: Option<string>)
    ensures FilterPlugins(ps, search, author) == Catalog.Filter(ps, Kept(search, author))
  {
    var a: Plugin -> bool := p => AuthorOk(p, author);
    var s: Plugin -> bool := p => SearchOk(p, search);
    var k := Kept(search, author);
    if Catalog.Active(author) && Catalog.Active(search) {
      Catalog.FilterTwice(ps, a, s, k);
    } else if Catalog.Active(author) {
      Catalog.FilterSame(ps, a, k);
    } else if Catalog.Active(search) {
      Catalog.FilterSame(ps, s, k);
    } else {
      Catalog.FilterAll(ps, k);
    }
  }

  // ---------------------------------------------------------------------------
  // Markdown escaping
  // ---------------------------------------------------------------------------

  const MarkdownSpecials: set<char> := {'*', '_', '~', '`', '[', ']', '(', ')'}

  /** `escapeMarkdown`. */
  function EscapeMarkdown(s: string): (r: string)
    ensures Catalog.Unescape(r, MarkdownSpecials) == s
    ensures forall i :: 0 <= i < |r| && r[i] in MarkdownSpecials ==> i > 0 && r[i - 1] == '\\'
  {
    Catalog.EscapeRoundTrip(s, MarkdownSpecials);
    forall i | 0 <= i < |Catalog.Escape(s, MarkdownSpecials)| && Catalog.Escape(s, MarkdownSpecials)[i] in MarkdownSpecials
      ensures i > 0 && Catalog.Escape(s, MarkdownSpecials)[i - 1] == '\\'
    {
      Catalog.EscapedSpecials(s, MarkdownSpecials, i);
    }
    Catalog.Escape(s, MarkdownSpecials)
  }

  // ---------------------------------------------------------------------------
  // Buttons
  // ---------------------------------------------------------------------------

  predicate IsZip(url: string) {
    var u := LowerStr(url);
    |u| >= 4 && u[|u| - 4..] == ".zip"
  }

  /** `Copy ${name.substring(0, 12)}${name.length > 12 ? '...' : ''}`:
      length and cut count UTF-16 code units. */
  function CopyLabel(name: string): (l: string)
    ensures Utf16Length(name) <= 12 ==> l == "Copy " + name
    ensures Utf16Length(name) > 12 ==>
      var k := Utf16Cut(name, 12);
      k < |name| && l == "Copy " + name[..k] + "..."
        && Utf16Length(name[..k]) <= 12 && Utf16Length(name[..k + 1]) > 12
  {
    if Utf16Length(name) > 12 then
      var k := Utf16Cut(name, 12);
      "Copy " + name[..k] + "..."
    else "Copy " + name
  }

  /** A name without characters above U+FFFF is cut after twelve of them. */
  lemma CopyLabelOfBmp(name: string)
    requires forall i :: 0 <= i < |name| ==> name[i] as int < 0x10000
    ensures |name| <= 12 ==> CopyLabel(name) == "Copy " + name
    ensures |name| > 12 ==> CopyLabel(name) == "Copy " + name[..12] + "..."
  {
    Utf16CutOfBmp(name, 12);
  }

  function CopyId(page: nat, index: nat): string {
    "plugins_copy_" + NatToString(page) + "_" + NatToString(index)
  }

  /** One copy button per plugin whose URL does not end in `.zip`; each
      carries the number paired with its plugin. */
  function CopyButtons(page: nat, targets: seq<(nat, Plugin)>): (bs: seq<Catalog.Button>)
    ensures |bs| <= |targets|
    ensures forall b :: b in bs ==> !b.disabled
    ensures forall t :: t in targets && !IsZip(t.1.url) ==> Catalog.Button(CopyId(page, t.0), CopyLabel(t.1.name), false) in bs
    ensures forall b :: b in bs ==> exists t :: t in targets && !IsZip(t.1.url) && b == Catalog.Button(CopyId(page, t.0), CopyLabel(t.1.name), false)
    decreases |targets|
  {
    if |targets| == 0 then []
    else
      var rest := CopyButtons(page, targets[1..]);
      assert forall t :: t in targets[1..] ==> t in targets;
      if IsZip(targets[0].1.url) then rest
      else [Catalog.Button(CopyId(page, targets[0].0), CopyLabel(targets[0].1.name), false)] + rest
  }

  /** The source's row filling: a row takes buttons until it holds five,
      then a new row starts; an empty last row is not added. */
  method CopyRows(buttons: seq<Catalog.Button>) returns (rows: seq<seq<Catalog.Button>>)
    ensures Catalog.Concat(rows) == buttons
    ensures forall i :: 0 <= i < |rows| ==> 1 <= |rows[i]| <= Catalog.PerPage
    ensures forall i :: 0 <= i < |rows| - 1 ==> |rows[i]| == Catalog.PerPage
    ensures |buttons| == 0 <==> |rows| == 0
  {
    rows := [];
    var current: seq<Catalog.Button> := [];
    var k := 0;
    while k < |buttons|
      invariant 0 <= k <= |buttons|
      invariant Catalog.Concat(rows) + current == buttons[..k]
      invariant forall i :: 0 <= i < |rows| ==> |rows[i]| == Catalog.PerPage
      invariant |current| <= Catalog.PerPage
      invariant k > 0 ==> |current| >= 1
    {
      if |current| < Catalog.PerPage {
        current := current + [buttons[k]];
      } else {
        Catalog.ConcatAppend(rows, current);
        rows := rows + [current];
        current := [buttons[k]];
      }
      assert buttons[..k + 1] == buttons[..k] + [buttons[k]];
      k := k + 1;
    }
    assert buttons[..k] == buttons;
    if |current| > 0 {
      Catalog.ConcatAppend(rows, current);
      rows := rows + [current];
    }
  }

  /** Each plugin of a page paired with its position on the page. */
  function Enumerate(ps: seq<Plugin>): (ts: seq<(nat, Plugin)>)
    ensures |ts| == |ps|
    ensures forall i :: 0 <= i < |ts| ==> ts[i] == (i, ps[i])
  {
    seq(|ps|, i requires 0 <= i < |ps| => (i, ps[i]))
  }

  /** `buildPaginationRow` as written: the navigation row, then on Kettu
      the copy buttons numbered by their position on the page. */
  method PaginationRows(page: nat, totalPages: nat, search: Option<string>, author: Option<string>,
                        pagePlugins: seq<Plugin>, isKettu: bool) returns (rows: seq<seq<Catalog.Button>>)
    ensures |rows| >= 1 && rows[0] == Catalog.NavRow("plugins", page, totalPages, search, author)
    ensures !isKettu || |pagePlugins| == 0 ==> rows == [rows[0]]
    ensures isKettu && |pagePlugins| > 0 ==> Catalog.Concat(rows[1..]) == CopyButtons(page, Enumerate(pagePlugins))
    ensures forall i :: 1 <= i < |rows| ==> 1 <= |rows[i]| <= Catalog.PerPage
  {
    var nav := Catalog.NavRow("plugins", page, totalPages, search, author);
    if isKettu && |pagePlugins| > 0 {
      var copies := CopyRows(CopyButtons(page, Enumerate(pagePlugins)));
      rows := [nav] + copies;
      assert rows[1..] == copies;
    } else {
      rows := [nav];
    }
  }

  // ---------------------------------------------------------------------------
  // Paging
  // ---------------------------------------------------------------------------

  /** `handleButton` after the filters are decoded: the page field is
      read with `parseInt`, moved by the action, checked and sliced. A
      field `parseInt` cannot read passes the check and shows nothing. */
  function HandleButton(all: seq<Plugin>, action: string, pageField: string,
                        search: Option<string>, author: Option<string>): (v: Catalog.PageView<Plugin>)
    ensures ParseInt(pageField).None? ==> v == Catalog.Show(Catalog.NaN, [])
    ensures ParseInt(pageField).Some? ==>
      var filtered := FilterPlugins(all, search, author);
      var n := ParseInt(pageField).value + Catalog.Offset(action);
      && (v == Catalog.InvalidPage <==> n < 0 || n >= Catalog.TotalPages(|filtered|))
      && (v.Show? ==> v.page == Catalog.Num(n) && v.items == Catalog.PageSlice(filtered, n))
    ensures v.Show? && v.page.Num? ==> 1 <= |v.items| <= Catalog.PerPage
    ensures v.Show? ==> forall p :: p in v.items ==> p in all && AuthorOk(p, author) && SearchOk(p, search)
  {
    var filtered := FilterPlugins(all, search, author);
    var page := Catalog.Step(action, Catalog.PageOf(pageField));
    Catalog.ShownFromList(filtered, page);
    Catalog.ViewPage(filtered, page)
  }

  // ---------------------------------------------------------------------------
  // Authors
  // ---------------------------------------------------------------------------

  predicate KnownAuthors(p: Plugin) {
    p.authors != "" && p.authors != "Unknown"
  }

  /** `n` is one of the trimmed `, `-separated names of a known authors
      field of `p`. */
  predicate NamedIn(n: string, p: Plugin) {
    KnownAuthors(p) && n in TrimAll(Split(p.authors, ", "))
  }

  /** The names of every known authors field, in list order. */
  function AuthorNames(ps: seq<Plugin>): (ns: seq<string>)
    ensures forall n :: n in ns <==> exists p :: p in ps && NamedIn(n, p)
    decreases |ps|
  {
    if |ps| == 0 then []
    else
      var here := if KnownAuthors(ps[0]) then TrimAll(Split(ps[0].authors, ", ")) else [];
      var rest := AuthorNames(ps[1..]);
      NamesCons(ps, here, rest);
      here + rest
  }

  /** The names of the first plugin followed by those of the rest are the
      names of all of them. */
  lemma NamesCons(ps: seq<Plugin>, here: seq<string>, rest: seq<string>)
    requires |ps| > 0
    requires forall n :: n in here <==> NamedIn(n, ps[0])
    requires forall n :: n in rest <==> exists p :: p in ps[1..] && NamedIn(n, p)
    ensures forall n :: n in here + rest <==> exists p :: p in ps && NamedIn(n, p)
  {
    forall n ensures n in here + rest <==> exists p :: p in ps && NamedIn(n, p) {
      if n in here {
        assert ps[0] in ps && NamedIn(n, ps[0]);
      } else if n in rest {
        var p :| p in ps[1..] && NamedIn(n, p);
        assert p in ps;
      }
    }
  }

  /** `getUniqueAuthors`: each name once, sorted. */
  function UniqueAuthors(ps: seq<Plugin>): (r: seq<string>)
    ensures Catalog.StrictlySorted(r)
    ensures forall n :: n in r <==> exists p :: p in ps && NamedIn(n, p)
  {
    Catalog.SortedDistinct(AuthorNames(ps))
  }

  /** Reordering the plugins does not change the author list. */
  lemma UniqueAuthorsIgnoreOrder(ps: seq<Plugin>, qs: seq<Plugin>)
    requires multiset(ps) == multiset(qs)
    ensures UniqueAuthors(ps) == UniqueAuthors(qs)
  {
    assert forall p :: p in ps <==> p in qs by {
      forall p ensures p in ps <==> p in qs {
        assert p in ps <==> p in multiset(ps);
        assert p in qs <==> p in multiset(qs);
      }
    }
    Catalog.SortedUnique(UniqueAuthors(ps), UniqueAuthors(qs));
  }
}

=== FILE: plugins_legacy.dfy ===
/** The older plugin browser: one search text matched against name,
    description and authors; the buttons carry only a `hasSearch` flag and
    the search text is read back from the header of the message itself. */
module PluginsLegacy {
  import opened Wrappers
  import opened Text
  import Catalog
  import opened Plugins

  predicate MatchesAny(p: Plugin, search: string) {
    Catalog.Mentions(p.name, search) || Catalog.Mentions(p.description, search) || Catalog.Mentions(p.authors, search)
  }

  /** `filterPlugins(plugins, search)`. */
  function FilterPlugins(ps: seq<Plugin>, search: Option<string>): (r: seq<Plugin>)
    ensures Catalog.IsSubsequence(r, ps)
    ensures !Catalog.Active(search) ==> r == ps
    ensures Catalog.Active(search) ==> forall p :: p in r <==> p in ps && MatchesAny(p, search.value)
    ensures Catalog.Active(search) ==> forall p :: multiset(r)[p] == if MatchesAny(p, search.value) then multiset(ps)[p] else 0
  {
    Catalog.SubsequenceRefl(ps);
    if !Catalog.Active(search) then ps else Catalog.Filter(ps, p => MatchesAny(p, search.value))
  }

  /** A search the newer command can express finds a subset of what the
      older one finds for the same text. */
  lemma NewerSearchIsNarrower(ps: seq<Plugin>, search: string)
    requires search != ""
    ensures forall p :: p in Plugins.FilterPlugins(ps, Some(search), None) ==> p in FilterPlugins(ps, Some(search))
  {
  }

  /** `plugins_${action}_${page}` followed by `_1` or `_0`. */
  function NavId(action: string, page: nat, hasSearch: bool): (id: string)
    ensures |id| >= 2 && (id[|id| - 2..] == "_1" <==> hasSearch)
    ensures id[|id| - 2..] == "_1" || id[|id| - 2..] == "_0"
  {
    "plugins_" + action + "_" + NatToString(page) + (if hasSearch then "_1" else "_0")
  }

  /** Previous and Next, with disabled flags as in the newer command. */
  function NavRow(page: nat, totalPages: nat, hasSearch: bool): (row: seq<Catalog.Button>)
    ensures |row| == 2
    ensures row[0].disabled <==> page == 0
    ensures row[1].disabled <==> page == totalPages - 1
  {
    var nav := Catalog.Nav(page, totalPages);
    [Catalog.Button(NavId("prev", page, hasSearch), "Previous", nav.prevDisabled),
     Catalog.Button(NavId("next", page, hasSearch), "Next", nav.nextDisabled)]
  }

  // ---------------------------------------------------------------------------
  // The search text in the header
  // ---------------------------------------------------------------------------

  const Lead := "Search results for: \""

  /** The header of a page of search results. */
  function Header(search: string, found: nat): string {
    "**" + Lead + search + "\"** (" + NatToString(found) + " found)\n\n"
  }

  /** `/Search results for: "([^"]+)"/` matches at `i`. */
  predicate MatchAt(s: string, i: int) {
    var j := i + |Lead|;
    At(s, Lead, i) && j < |s| && s[j] != '"' && '"' in s[j + 1..]
  }

  function FirstMatchFrom(s: string, k: nat): (r: int)
    decreases |s| - k
    ensures r == -1 || (k <= r && MatchAt(s, r))
    ensures r == -1 ==> forall i :: k <= i < |s| ==> !MatchAt(s, i)
    ensures r >= 0 ==> forall i :: k <= i < r ==> !MatchAt(s, i)
  {
    if k >= |s| then -1
    else if MatchAt(s, k) then k
    else FirstMatchFrom(s, k + 1)
  }

  /** Length of the text before the first `"`. */
  function UntilQuote(s: string): (n: nat)
    ensures n <= |s| && '"' !in s[..n]
    ensures n < |s| ==> s[n] == '"'
  {
    if |s| == 0 || s[0] == '"' then 0
    else
      var n := 1 + UntilQuote(s[1..]);
      assert s[..n] == [s[0]] + s[1..][..n - 1];
      n
  }

  /** `content.match(…)?.[1]`: the group of the first match. */
  function SearchFromContent(content: string): (r: Option<string>)
    ensures r.Some? ==> r.value != "" && '"' !in r.value
  {
    var i := FirstMatchFrom(content, 0);
    if i < 0 then None
    else
      var rest := content[i + |Lead|..];
      var n := UntilQuote(rest);
      Some(rest[..n])
  }

  lemma UntilQuoteAppend(search: string, tail: string)
    requires '"' !in search
    ensures UntilQuote(search + "\"" + tail) == |search|
    decreases |search|
  {
    if |search| > 0 {
      assert (search + "\"" + tail)[1..] == search[1..] + "\"" + tail;
      UntilQuoteAppend(search[1..], tail);
    }
  }

  /** A header splits into its fixed lead, the search and the rest. */
  lemma HeaderShape(search: string, found: nat, more: string)
    ensures Header(search, found) + more
         == "**" + Lead + (search + "\"" + ("** (" + NatToString(found) + " found)\n\n" + more))
  {
  }

  /** The first match in a header is right after its `**`. */
  lemma HeaderMatch(c: string, search: string, rest: string)
    requires search != "" && '"' !in search
    requires |rest| > |search| && rest[..|search|] == search && rest[|search|] == '"'
    requires c == "**" + Lead + rest
    ensures FirstMatchFrom(c, 0) == 2
    ensures c[2 + |Lead|..] == rest
  {
    assert c[2..2 + |Lead|] == Lead;
    assert c[2 + |Lead|..] == rest;
    assert rest[0] == search[0] && search[0] in search;
    assert rest[|search|] in rest[1..];
    assert MatchAt(c, 2);
    assert !MatchAt(c, 0) && !MatchAt(c, 1) by {
      assert c[0] == '*' && c[1] == '*';
    }
  }

  /** A search without `"` is read back from its header. */
  lemma HeaderRoundTrip(search: string, found: nat, more: string)
    requires search != "" && '"' !in search
    ensures SearchFromContent(Header(search, found) + more) == Some(search)
  {
    var tail := "** (" + NatToString(found) + " found)\n\n" + more;
    var c := Header(search, found) + more;
    HeaderShape(search, found, more);
    var rest := search + "\"" + tail;
    assert rest[..|search|] == search;
    HeaderMatch(c, search, rest);
    UntilQuoteAppend(search, tail);
  }

  // ---------------------------------------------------------------------------
  // Paging
  // ---------------------------------------------------------------------------

  /** `handleButton(interaction, action, page, hasSearch)`. */
  function HandleButton(all: seq<Plugin>, action: string, pageField: string, hasSearch: string, content: string)
    : (v: Catalog.PageView<Plugin>)
    ensures hasSearch != "1" ==> v == Catalog.ViewPage(all, Catalog.Step(action, Catalog.PageOf(pageField)))
    ensures hasSearch == "1" ==>
      v == Catalog.ViewPage(FilterPlugins(all, SearchFromContent(content)), Catalog.Step(action, Catalog.PageOf(pageField)))
  {
    var search := if hasSearch == "1" then SearchFromContent(content) else None;
    var filtered := if Catalog.Active(search) then FilterPlugins(all, search) else all;
    Catalog.ViewPage(filtered, Catalog.Step(action, Catalog.PageOf(pageField)))
  }

  /** Next on a page of search results shows the next page of the same
      results, as long as the search has no `"`. */
  lemma NextKeepsSearch(all: seq<Plugin>, search: string, page: nat, more: string)
    requires search != "" && '"' !in search
    requires page + 1 < Catalog.TotalPages(|FilterPlugins(all, Some(search))|)
    ensures var filtered := FilterPlugins(all, Some(search));
      var content := Header(search, |filtered|) + more;
      HandleButton(all, "next", NatToString(page), "1", content)
        == Catalog.Show(Catalog.Num(page + 1), Catalog.PageSlice(filtered, page + 1))
  {
    var filtered := FilterPlugins(all, Some(search));
    HeaderRoundTrip(search, |filtered|, more);
    NextPage(filtered, page);
  }

  lemma NextPage(list: seq<Plugin>, page: nat)
    requires page + 1 < Catalog.TotalPages(|list|)
    ensures Catalog.ViewPage(list, Catalog.Step("next", Catalog.PageOf(NatToString(page))))
         == Catalog.Show(Catalog.Num(page + 1), Catalog.PageSlice(list, page + 1))
  {
    ParseIntOfNat(page);
  }
}

=== FILE: prefix_parser.dfy ===
/** The `!`-prefix command parser and the channel lookup that prefix
    commands use to turn an argument into a channel. */
module PrefixParser {
  import opened Wrappers
  import opened Text

  const Prefix: char := '!'

  /** A parsed prefix command: the lower-cased command name, the remaining
      whitespace-separated tokens, and the text after the name, trimmed. */
  datatype Parsed = Parsed(commandName: string, args: seq<string>, rawArgs: string)

  /** `parseMessage`. The content is trimmed and must start with `!`
      (lower-casing cannot create or remove a `!`, so the comparison is made
      on the character itself). */
  function ParseMessage(content: string): (r: Option<Parsed>)
    ensures r.Some? ==> |Trim(content)| > 0 && Trim(content)[0] == Prefix
    ensures r.Some? ==> var body := Trim(Trim(content)[1..]);
      && r.value.commandName != ""
      && r.value.commandName == LowerStr(SplitWs(body)[0])
      && r.value.args == SplitWs(body)[1..]
      && |r.value.commandName| <= |body|
      && r.value.rawArgs == Trim(body[|r.value.commandName|..])
    ensures r.None? <==> |Trim(content)| == 0 || Trim(content)[0] != Prefix || Trim(Trim(content)[1..]) == ""
  {
    var c := Trim(content);
    if |c| == 0 || c[0] != Prefix then None
    else
      var body := Trim(c[1..]);
      var tokens := SplitWs(body);
      var name := LowerStr(tokens[0]);
      assert |name| == |tokens[0]| <= |body|;
      assert body != "" ==> !IsSpace(body[0]) && name != "";
      if name == "" then None
      else Some(Parsed(name, tokens[1..], Trim(body[|name|..])))
  }

  /** The command name has no whitespace, and `rawArgs` is what follows the
      first token: splitting a message body at its first whitespace run
      gives the command and its argument text. */
  lemma ParsedShape(content: string)
    requires ParseMessage(content).Some?
    ensures var p := ParseMessage(content).value;
      var body := Trim(Trim(content)[1..]);
      && (forall j :: 0 <= j < |p.commandName| ==> !IsSpace(p.commandName[j]))
      && LowerStr(body[..|p.commandName|]) == p.commandName
      && (|p.commandName| < |body| ==> IsSpace(body[|p.commandName|]))
  {
    FirstTokenShape(Trim(Trim(content)[1..]));
  }

  /** The lower-cased first token of any text is a lower-cased prefix of
      it, free of whitespace and followed by whitespace or the end. */
  lemma FirstTokenShape(body: string)
    ensures var name := LowerStr(SplitWs(body)[0]);
      && (forall j :: 0 <= j < |name| ==> !IsSpace(name[j]))
      && |name| <= |body| && LowerStr(body[..|name|]) == name
      && (|name| < |body| ==> IsSpace(body[|name|]))
  {
    var token := SplitWs(body)[0];
    assert body[..|token|] == token;
  }

  /** `parseChannelMention`: `<#digits>` exactly, giving the digits. */
  function ParseChannelMention(arg: string): (r: Option<string>)
    ensures r.Some? ==> arg == "<#" + r.value + ">" && |r.value| > 0 && AllDigits(r.value)
  {
    if |arg| >= 4 && arg[0] == '<' && arg[1] == '#' && arg[|arg| - 1] == '>' && AllDigits(arg[2..|arg| - 1])
    then Some(arg[2..|arg| - 1])
    else None
  }

  /** Every mention the platform renders is recognised and yields its id. */
  lemma MentionRoundTrip(id: string)
    requires |id| > 0 && AllDigits(id)
    ensures ParseChannelMention("<#" + id + ">") == Some(id)
  {
    var m := "<#" + id + ">";
    assert m[2..|m| - 1] == id;
  }

  datatype Channel = Channel(id: string, name: string, isText: bool)

  /** Index of the first channel satisfying the lookup, in cache order. */
  function FirstWithId(channels: seq<Channel>, id: string): (r: Option<nat>)
    ensures r.Some? ==> r.value < |channels| && channels[r.value].id == id
    ensures r.Some? ==> forall i :: 0 <= i < r.value ==> channels[i].id != id
    ensures r.None? ==> forall i :: 0 <= i < |channels| ==> channels[i].id != id
  {
    if |channels| == 0 then None
    else if channels[0].id == id then Some(0)
    else match FirstWithId(channels[1..], id)
      case None => None
      case Some(k) => Some(k + 1)
  }

  function FirstWithName(channels: seq<Channel>, name: string): (r: Option<nat>)
    ensures r.Some? ==> r.value < |channels| && LowerStr(channels[r.value].name) == LowerStr(name)
    ensures r.Some? ==> forall i :: 0 <= i < r.value ==> LowerStr(channels[i].name) != LowerStr(name)
    ensures r.None? ==> forall i :: 0 <= i < |channels| ==> LowerStr(channels[i].name) != LowerStr(name)
  {
    if |channels| == 0 then None
    else if LowerStr(channels[0].name) == LowerStr(name) then Some(0)
    else match FirstWithName(channels[1..], name)
      case None => None
      case Some(k) => Some(k + 1)
  }

  /** `findChannel`: nothing for an empty argument; a mention is looked up
      by id only (an unknown id does not fall back to names); any other
      argument matches the first channel whose name equals it ignoring case. */
  function FindChannel(channels: seq<Channel>, arg: string): (r: Option<Channel>)
    ensures arg == "" ==> r.None?
    ensures r.Some? ==> r.value in channels
    ensures arg != "" && ParseChannelMention(arg).Some? ==>
      (r.Some? ==> r.value.id == ParseChannelMention(arg).value)
      && (r.None? <==> forall i :: 0 <= i < |channels| ==> channels[i].id != ParseChannelMention(arg).value)
    ensures arg != "" && ParseChannelMention(arg).None? ==>
      (r.Some? ==> LowerStr(r.value.name) == LowerStr(arg))
      && (r.None? <==> forall i :: 0 <= i < |channels| ==> LowerStr(channels[i].name) != LowerStr(arg))
  {
    if arg == "" then None
    else match ParseChannelMention(arg)
      case Some(id) =>
        (match FirstWithId(channels, id) case Some(i) => Some(channels[i]) case None => None)
      case None =>
        (match FirstWithName(channels, arg) case Some(i) => Some(channels[i]) case None => None)
  }

  /** A channel named by its own mention is found, whatever its name. */
  lemma FindByMention(channels: seq<Channel>, i: nat)
    requires i < |channels| && |channels[i].id| > 0 && AllDigits(channels[i].id)
    requires forall j :: 0 <= j < |channels| && j != i ==> channels[j].id != channels[i].id
    ensures FindChannel(channels, "<#" + channels[i].id + ">") == Some(channels[i])
  {
    MentionRoundTrip(channels[i].id);
    var r := FirstWithId(channels, channels[i].id);
    assert r.Some?;
  }
}

=== FILE: random_plugin.dfy ===
/** The random plugin suggestion: a per-user cooldown of twenty seconds,
    recorded before the plugin list is fetched. */
module RandomPlugin {
  import opened Wrappers
  import opened Text
  import Catalog
  import Plugins

  const CooldownMs: int := 20000

  /** Channels with hold-to-install support. */
  const SupportedChannels: seq<string> := ["811261298997460992", "847566769258233926", "875213883776847873"]

  /** Last use per user id, in milliseconds. */
  type Cooldowns = map<string, int>

  /** `userLastUsed && now - userLastUsed < COOLDOWN_MS`: a recorded time of
      0 is falsy and does not hold the user back. */
  predicate OnCooldown(cd: Cooldowns, userId: string, now: int) {
    userId in cd && cd[userId] != 0 && now - cd[userId] < CooldownMs
  }

  /** `Math.ceil(ms / 1000)` for a whole number of milliseconds. */
  function CeilSeconds(ms: int): (s: int)
    ensures (s - 1) * 1000 < ms <= s * 1000
  {
    (ms + 999) / 1000
  }

  /** The seconds the cooldown reply names. */
  function RemainingSeconds(cd: Cooldowns, userId: string, now: int): int
    requires userId in cd
  {
    CeilSeconds(CooldownMs - (now - cd[userId]))
  }

  /** On a clock that does not run backwards, the reply says 1 to 20
      seconds. */
  lemma RemainingInRange(cd: Cooldowns, userId: string, now: int)
    requires OnCooldown(cd, userId, now) && now >= cd[userId]
    ensures 1 <= RemainingSeconds(cd, userId, now) <= 20
  {
    var ms := CooldownMs - (now - cd[userId]);
    assert 0 < ms <= 20000;
    var s := CeilSeconds(ms);
    assert (s - 1) * 1000 < 20000;
  }

  datatype Suggestion = Suggestion(plugin: Plugins.Plugin, supported: bool, row: seq<Catalog.Button>)

  datatype Reply =
    | CooldownReply(seconds: int)
    | NoPlugins
    | FetchFailed
    | Suggest(s: Suggestion)

  /** `buildPaginationRow(page, totalPages)` of this command. */
  function NavRow(page: Catalog.PageNumber, pageText: string, totalPages: int): (row: seq<Catalog.Button>)
    ensures |row| == 2
    ensures row[0].disabled <==> page == Catalog.Num(0)
    ensures row[1].disabled <==> page == Catalog.Num(totalPages - 1)
  {
    [Catalog.Button("random_prev_" + pageText + "_0", "Previous", page == Catalog.Num(0)),
     Catalog.Button("random_next_" + pageText + "_0", "Next", page == Catalog.Num(totalPages - 1))]
  }

  /** The first suggestion is page 0 of 1, so both buttons are disabled. */
  lemma FirstRowDisabled()
    ensures forall b :: b in NavRow(Catalog.Num(0), "0", 1) ==> b.disabled
  {
  }

  /** A suggestion: `pick` is the index `Math.random` chose. */
  function Suggestion0(all: seq<Plugins.Plugin>, pick: nat, channelId: string): (s: Suggestion)
    requires pick < |all|
    ensures s.plugin in all
    ensures s.supported <==> channelId in SupportedChannels
  {
    Suggestion(all[pick], channelId in SupportedChannels, NavRow(Catalog.Num(0), "0", 1))
  }

  /** Both command forms: refuse during the cooldown, otherwise record
      `now` first and then answer from the fetch (`None` when it throws). */
  function Request(cd: Cooldowns, userId: string, now: int, fetched: Option<seq<Plugins.Plugin>>,
                   pick: nat, channelId: string): (out: (Reply, Cooldowns))
    requires fetched.Some? && |fetched.value| > 0 ==> pick < |fetched.value|
    ensures OnCooldown(cd, userId, now) <==> out.0.CooldownReply?
    ensures OnCooldown(cd, userId, now) ==> out.1 == cd && out.0.seconds == RemainingSeconds(cd, userId, now)
    ensures !OnCooldown(cd, userId, now) ==> out.1 == cd[userId := now]
    ensures out.0 == FetchFailed <==> !OnCooldown(cd, userId, now) && fetched.None?
    ensures out.0 == NoPlugins <==> !OnCooldown(cd, userId, now) && fetched == Some([])
    ensures out.0.Suggest? ==> fetched.Some? && out.0.s.plugin in fetched.value
  {
    if OnCooldown(cd, userId, now) then (CooldownReply(RemainingSeconds(cd, userId, now)), cd)
    else
      var cd' := cd[userId := now];
      match fetched
      case None => (FetchFailed, cd')
      case Some(all) =>
        if |all| == 0 then (NoPlugins, cd')
        else (Suggest(Suggestion0(all, pick, channelId)), cd')
  }

  /** A failed fetch still uses up the cooldown: a second request within
      twenty seconds is refused. */
  lemma FailedFetchConsumesCooldown(cd: Cooldowns, userId: string, now: int, later: int, pick: nat, channelId: string)
    requires !OnCooldown(cd, userId, now) && now != 0 && now <= later < now + CooldownMs
    ensures var (_, cd') := Request(cd, userId, now, None, pick, channelId);
      Request(cd', userId, later, None, pick, channelId).0 == CooldownReply(CeilSeconds(CooldownMs - (later - now)))
  {
  }

  /** Twenty seconds after an accepted request the user may ask again, and
      other users are never held back by it. */
  lemma CooldownExpires(cd: Cooldowns, userId: string, other: string, now: int, later: int,
                        fetched: Option<seq<Plugins.Plugin>>, pick: nat, channelId: string)
    requires fetched.Some? && |fetched.value| > 0 ==> pick < |fetched.value|
    requires !OnCooldown(cd, userId, now) && later >= now + CooldownMs && other != userId
    ensures var (_, cd') := Request(cd, userId, now, fetched, pick, channelId);
      && !OnCooldown(cd', userId, later)
      && (OnCooldown(cd', other, later) <==> OnCooldown(cd, other, later))
  {
  }

  /** `handleRandomButton`: a new pick shown as page `parseInt(page)` of 1.
      With no plugins the format step throws and nothing is updated. */
  function PressButton(all: seq<Plugins.Plugin>, pick: nat, pageField: string, channelId: string): (r: Option<Suggestion>)
    requires |all| > 0 ==> pick < |all|
    ensures r.None? <==> |all| == 0
    ensures r.Some? ==> r.value.plugin in all && (r.value.supported <==> channelId in SupportedChannels)
    ensures r.Some? ==> |r.value.row| == 2 && (r.value.row[0].disabled <==> Catalog.PageOf(pageField) == Catalog.Num(0))
  {
    if |all| == 0 then None
    else
      var page := Catalog.PageOf(pageField);
      Some(Suggestion(all[pick], channelId in SupportedChannels, NavRow(page, Catalog.PageText(page), 1)))
  }
}

=== FILE: rating.dfy ===
/** Rating a plugin and removing a review. The review store is a map from
    review id to review; its writes are outcomes given by the caller. */
module Rating {
  import opened Wrappers
  import opened Text
  import Catalog
  import Stars
  import Plugins
  import Reviews

  // ---------------------------------------------------------------------------
  // rate-plugin
  // ---------------------------------------------------------------------------

  /** `review${count !== 1 ? 's' : ''}`. */
  function ReviewWord(count: int): (w: string)
    ensures w == "review" <==> count == 1
    ensures w == "review" || w == "reviews"
  {
    if count != 1 then "reviews" else "review"
  }

  datatype RateArgs = RateUsage | BadRating | RateArgs(name: string, rating: int, text: Option<string>)

  predicate ValidRating(r: Option<int>) {
    r.Some? && 1 <= r.value <= 5
  }

  /** The prefix form `<plugin-name> <rating> [review…]`, split on single
      spaces: at least two parts, a rating that `parseInt` reads as 1..5,
      and the rest joined back as the review, `null` when blank. */
  function ParseRateArgs(rawArgs: string): (r: RateArgs)
    ensures var parts := Split(rawArgs, " ");
      && (|parts| < 2 <==> r == RateUsage)
      && (|parts| >= 2 && !ValidRating(ParseInt(parts[1])) <==> r == BadRating)
      && (r.RateArgs? ==> r.name == parts[0] && r.rating == ParseInt(parts[1]).value
                          && r.text == Catalog.JoinedOrNone(parts[2..]))
    ensures r.RateArgs? ==> Stars.FormatStars(r.rating).Some?
  {
    var parts := Split(rawArgs, " ");
    if |parts| < 2 then RateUsage
    else
      var rating := ParseInt(parts[1]);
      if !ValidRating(rating) then BadRating
      else RateArgs(parts[0], rating.value, Catalog.JoinedOrNone(parts[2..]))
  }

  /** A name without spaces, a rating 1..5 and review words come back from
      the line they were typed as. */
  lemma RateArgsRoundTrip(name: string, rating: nat, words: seq<string>)
    requires ' ' !in name && 1 <= rating <= 5
    requires forall i :: 0 <= i < |words| ==> ' ' !in words[i]
    ensures ParseRateArgs(Join([name, NatToString(rating)] + words, " "))
         == RateArgs(name, rating, Catalog.JoinedOrNone(words))
  {
    var parts := [name, NatToString(rating)] + words;
    RateLineSplits(name, rating, words);
    ParseIntOfNat(rating);
    RateArgsOfParts(Join(parts, " "), parts, rating);
    assert parts[2..] == words;
  }

  /** The typed line splits back into its words. */
  lemma RateLineSplits(name: string, rating: nat, words: seq<string>)
    requires ' ' !in name
    requires forall i :: 0 <= i < |words| ==> ' ' !in words[i]
    ensures var parts := [name, NatToString(rating)] + words;
      Split(Join(parts, " "), " ") == parts
  {
    var parts := [name, NatToString(rating)] + words;
    assert ' ' !in NatToString(rating) by {
      assert forall i :: 0 <= i < |NatToString(rating)| ==> IsDigit(NatToString(rating)[i]);
    }
    forall i | 0 <= i < |parts| ensures ' ' !in parts[i] {
      if i >= 2 {
        assert parts[i] == words[i - 2];
      }
    }
    SplitJoin(parts, " ");
  }

  /** A line whose second word reads as a rating 1..5 gives its fields. */
  lemma RateArgsOfParts(line: string, parts: seq<string>, rating: int)
    requires Split(line, " ") == parts && |parts| >= 2
    requires ParseInt(parts[1]) == Some(rating) && 1 <= rating <= 5
    ensures ParseRateArgs(line) == RateArgs(parts[0], rating, Catalog.JoinedOrNone(parts[2..]))
  {
  }

  datatype RateReply =
    | Usage
    | RatingOutOfRange
    | PluginNotFound(name: string)
    | SaveFailed
    | Saved(plugin: string, rating: int, stars: Option<string>, text: Option<string>, countWord: string)

  /** The store's answer after saving: whether the save worked, and the
      review count it then reports. */
  datatype SaveOutcome = SaveOutcome(ok: bool, reviewCount: int)

  /** The reply after the plugin was found: the save either failed, or the
      confirmation shows the stars and the pluralised review count. */
  function Confirm(plugin: string, rating: int, text: Option<string>, o: SaveOutcome): (r: RateReply)
    ensures !o.ok <==> r == SaveFailed
    ensures r.Saved? ==> r.plugin == plugin && r.rating == rating && r.text == text
    ensures r.Saved? ==> r.stars == Stars.FormatStars(rating) && (r.countWord == "review" <==> o.reviewCount == 1)
  {
    if !o.ok then SaveFailed else Saved(plugin, rating, Stars.FormatStars(rating), text, ReviewWord(o.reviewCount))
  }

  /** The prefix command: the rating is checked before the plugin list is
      looked at. */
  function RatePrefix(all: seq<Plugins.Plugin>, rawArgs: string, o: SaveOutcome): (r: RateReply)
    ensures ParseRateArgs(rawArgs) == RateUsage <==> r == Usage
    ensures ParseRateArgs(rawArgs) == BadRating <==> r == RatingOutOfRange
    ensures r.Saved? ==> 1 <= r.rating <= 5 && r.stars.Some?
    ensures r.PluginNotFound? <==>
      ParseRateArgs(rawArgs).RateArgs? && Reviews.FindPlugin(all, ParseRateArgs(rawArgs).name).None?
  {
    match ParseRateArgs(rawArgs)
    case RateUsage => Usage
    case BadRating => RatingOutOfRange
    case RateArgs(name, rating, text) =>
      match Reviews.FindPlugin(all, name)
      case None => PluginNotFound(name)
      case Some(i) => Confirm(all[i].name, rating, text, o)
  }

  /** A bad rating is refused whatever the plugin list and the store. */
  lemma ValidationBeforeLookup(all: seq<Plugins.Plugin>, other: seq<Plugins.Plugin>, rawArgs: string,
                               o: SaveOutcome, o': SaveOutcome)
    ensures RatePrefix(all, rawArgs, o) == RatingOutOfRange ==> RatePrefix(other, rawArgs, o') == RatingOutOfRange
  {
  }

  /** The slash command: its rating comes from the 1..5 choices. */
  function RateSlash(all: seq<Plugins.Plugin>, name: string, rating: int, text: Option<string>, o: SaveOutcome)
    : (r: RateReply)
    ensures Reviews.FindPlugin(all, name).None? <==> r.PluginNotFound?
    ensures Reviews.FindPlugin(all, name).Some? ==> r == Confirm(all[Reviews.FindPlugin(all, name).value].name, rating, text, o)
  {
    match Reviews.FindPlugin(all, name)
    case None => PluginNotFound(name)
    case Some(i) => Confirm(all[i].name, rating, text, o)
  }

  // ---------------------------------------------------------------------------
  // remove-review
  // ---------------------------------------------------------------------------

  type ReviewStore = map<int, Reviews.Review>

  datatype RemoveReply =
    | RemoveUsage
    | BadId
    | NotFound(id: int)
    | NotAllowed
    | DeleteFailed
    | Removed(review: Reviews.Review, stars: Option<string>)

  /** Admins may remove any review; everybody else only their own. */
  predicate MayRemove(r: Reviews.Review, userId: string, isAdmin: bool) {
    isAdmin || r.userId == userId
  }

  /** The shared part of both forms: look up, authorise, delete. */
  function Remove(store: ReviewStore, id: int, userId: string, isAdmin: bool, deleteOk: bool)
    : (out: (RemoveReply, ReviewStore))
    ensures id !in store <==> out.0 == NotFound(id)
    ensures id in store && !MayRemove(store[id], userId, isAdmin) <==> out.0 == NotAllowed
    ensures out.0.Removed? <==> id in store && MayRemove(store[id], userId, isAdmin) && deleteOk
    ensures out.0.Removed? ==> out.0.review == store[id] && out.0.stars == Stars.FormatStars(store[id].rating)
    ensures out.0.Removed? ==> out.1 == store - {id}
    ensures !out.0.Removed? ==> out.1 == store
  {
    if id !in store then (NotFound(id), store)
    else
      var r := store[id];
      if !MayRemove(r, userId, isAdmin) then (NotAllowed, store)
      else if !deleteOk then (DeleteFailed, store)
      else (Removed(r, Stars.FormatStars(r.rating)), store - {id})
  }

  /** A removal only ever takes away the one review asked for, and only on
      behalf of its author or an admin. */
  lemma RemoveTakesOnlyOwnOrAdmin(store: ReviewStore, id: int, userId: string, isAdmin: bool, deleteOk: bool)
    ensures var (reply, after) := Remove(store, id, userId, isAdmin, deleteOk);
      && (forall k :: k in after <==> k in store && (k != id || !reply.Removed?))
      && (forall k :: k in after ==> after[k] == store[k])
      && (id in store && id !in after ==> isAdmin || store[id].userId == userId)
  {
  }

  /** The prefix form `<review-id>`: the id must parse as a number. */
  function RemovePrefix(store: ReviewStore, args: seq<string>, userId: string, isAdmin: bool, deleteOk: bool)
    : (out: (RemoveReply, ReviewStore))
    ensures |args| == 0 <==> out.0 == RemoveUsage
    ensures |args| > 0 && ParseInt(args[0]).None? <==> out.0 == BadId
    ensures |args| > 0 && ParseInt(args[0]).Some? ==> out == Remove(store, ParseInt(args[0]).value, userId, isAdmin, deleteOk)
    ensures out.0 == RemoveUsage || out.0 == BadId ==> out.1 == store
  {
    if |args| < 1 then (RemoveUsage, store)
    else match ParseInt(args[0])
      case None => (BadId, store)
      case Some(id) => Remove(store, id, userId, isAdmin, deleteOk)
  }
}

=== FILE: responders.dfy ===
/** Autoresponders: per-guild lists of (trigger, response, optional
    channel), with the add / delete / match rules, the `!addresponder`
    and `!deleteresponder` argument grammars, and start-up loading. */
module Responders {
  import opened Wrappers
  import opened Text

  datatype Responder = Responder(trigger: string, response: string, channelId: Option<string>)

  /** Guild id to that guild's responders, in insertion order. */
  type Registry = map<string, seq<Responder>>

  function ListOf(rs: Registry, g: string): seq<Responder> {
    if g in rs then rs[g] else []
  }

  // ---------------------------------------------------------------------------
  // Adding
  // ---------------------------------------------------------------------------

  predicate IsDuplicate(list: seq<Responder>, trigger: string, channelId: Option<string>) {
    exists i :: 0 <= i < |list| && list[i].trigger == trigger && list[i].channelId == channelId
  }

  datatype AddReply = NotAdmin | AddUsage | MissingPart | Duplicate | Added(entry: Responder)

  /** The shared add step: a (trigger, channel) pair already present is
      refused and nothing changes; otherwise the entry is appended. */
  function AddEntry(rs: Registry, g: string, trigger: string, response: string, channelId: Option<string>): (out: (AddReply, Registry))
    ensures out.0 == Duplicate <==> IsDuplicate(ListOf(rs, g), trigger, channelId)
    ensures out.0 == Duplicate ==> out.1 == rs
    ensures out.0 != Duplicate ==>
      && out.0 == Added(Responder(trigger, response, channelId))
      && out.1 == rs[g := ListOf(rs, g) + [Responder(trigger, response, channelId)]]
  {
    var list := ListOf(rs, g);
    if IsDuplicate(list, trigger, channelId) then (Duplicate, rs)
    else
      var e := Responder(trigger, response, channelId);
      (Added(e), rs[g := list + [e]])
  }

  /** `/addresponder`: administrators only; the trigger is lower-cased. */
  function SlashAdd(rs: Registry, isAdmin: bool, g: string, trigger: string, response: string, channelId: Option<string>): (out: (AddReply, Registry))
    ensures !isAdmin ==> out == (NotAdmin, rs)
    ensures isAdmin ==> out == AddEntry(rs, g, LowerStr(trigger), response, channelId)
  {
    if !isAdmin then (NotAdmin, rs) else AddEntry(rs, g, LowerStr(trigger), response, channelId)
  }

  /** Length of the longest run of digits at the end of `s`. */
  function TrailingDigits(s: string): (k: nat)
    ensures k <= |s|
    ensures forall j :: |s| - k <= j < |s| ==> IsDigit(s[j])
    ensures k < |s| ==> !IsDigit(s[|s| - k - 1])
  {
    if |s| == 0 || !IsDigit(s[|s| - 1]) then 0
    else TrailingDigits(s[..|s| - 1]) + 1
  }

  /** The match of `<#(\d+)>\s*$` on already-trimmed text: the channel id
      and the position of its `<#`. */
  function TrailingMention(t: string): (r: Option<(string, nat)>)
    ensures r.Some? ==> var (id, p) := r.value;
      && |id| > 0 && AllDigits(id)
      && p + |id| + 3 == |t|
      && t[p..] == "<#" + id + ">"
  {
    if |t| >= 4 && t[|t| - 1] == '>' then
      var body := t[..|t| - 1];
      var k := TrailingDigits(body);
      if k >= 1 && |body| - k >= 2 && body[|body| - k - 2] == '<' && body[|body| - k - 1] == '#' then
        var p := |body| - k - 2;
        var id := body[|body| - k..];
        assert AllDigits(id) by {
          forall j | 0 <= j < |id| ensures IsDigit(id[j]) {
            assert id[j] == body[|body| - k + j];
          }
        }
        assert t[p..] == "<#" + id + ">";
        Some((id, p))
      else None
    else None
  }

  /** A run of digits after a non-digit is counted exactly. */
  lemma {:induction false} TrailingDigitsOf(prefix: string, digits: string)
    requires AllDigits(digits)
    requires |prefix| > 0 && !IsDigit(prefix[|prefix| - 1])
    ensures TrailingDigits(prefix + digits) == |digits|
    decreases |digits|
  {
    var s := prefix + digits;
    if |digits| == 0 {
      assert s == prefix;
    } else {
      assert s[..|s| - 1] == prefix + digits[..|digits| - 1];
      TrailingDigitsOf(prefix, digits[..|digits| - 1]);
    }
  }

  /** Any text ending in a channel mention yields that mention's id and
      the position where it starts. */
  lemma MentionAtEnd(prefix: string, id: string)
    requires |id| > 0 && AllDigits(id)
    ensures TrailingMention(prefix + "<#" + id + ">") == Some((id, |prefix|))
  {
    var t := prefix + "<#" + id + ">";
    var body := t[..|t| - 1];
    assert body == (prefix + "<#") + id;
    TrailingDigitsOf(prefix + "<#", id);
    assert body[|body| - |id|..] == id;
  }

  datatype AddArgs = NoPipe | Parsed(trigger: string, response: string, mentionId: Option<string>)

  /** The `!addresponder <trigger> | <response> [<#channel>]` grammar: the
      trigger is before the first `|`, trimmed and lower-cased; a trailing
      channel mention is cut off the response. */
  function ParseAddArgs(rawArgs: string): (r: AddArgs)
    ensures r.NoPipe? <==> !Contains(rawArgs, "|")
    ensures r.Parsed? ==> var pipe := IndexOf(rawArgs, "|");
      && r.trigger == LowerStr(Trim(rawArgs[..pipe]))
      && var after := Trim(rawArgs[pipe + 1..]);
         && (r.mentionId.None? ==> r.response == after)
         && (r.mentionId.Some? ==> exists p :: (0 <= p <= |after| && after[p..] == "<#" + r.mentionId.value + ">"
                                               && r.response == Trim(after[..p])))
  {
    var pipe := IndexOf(rawArgs, "|");
    if pipe == -1 then NoPipe
    else
      var trigger := LowerStr(Trim(rawArgs[..pipe]));
      var after := Trim(rawArgs[pipe + 1..]);
      match TrailingMention(after)
      case None => Parsed(trigger, after, None)
      case Some((id, p)) => Parsed(trigger, Trim(after[..p]), Some(id))
  }

  predicate LacksPart(a: AddArgs) {
    a.Parsed? && (a.trigger == "" || a.response == "")
  }

  /** The add step for parsed `!addresponder` arguments: a missing `|` is
      a usage error, an empty trigger or response is refused, and a
      mention of an unknown channel is still cut from the response but
      leaves the responder unrestricted. */
  function AddFromArgs(rs: Registry, g: string, a: AddArgs, knownChannelIds: set<string>): (out: (AddReply, Registry))
    ensures a.NoPipe? ==> out == (AddUsage, rs)
    ensures out.0 == MissingPart <==> LacksPart(a)
    ensures LacksPart(a) ==> out.1 == rs
    ensures a.Parsed? && !LacksPart(a) ==>
      var ch := if a.mentionId.Some? && a.mentionId.value in knownChannelIds then a.mentionId else None;
      out == AddEntry(rs, g, a.trigger, a.response, ch)
    ensures out.0.Added? ==> (&& out.0.entry.trigger != "" && out.0.entry.response != ""
                              && (out.0.entry.channelId.Some? ==> out.0.entry.channelId.value in knownChannelIds))
  {
    match a
    case NoPipe => (AddUsage, rs)
    case Parsed(trigger, response, mention) =>
      if trigger == "" || response == "" then (MissingPart, rs)
      else
        var ch := if mention.Some? && mention.value in knownChannelIds then mention else None;
        AddEntry(rs, g, trigger, response, ch)
  }

  /** `!addresponder <trigger> | <response> [<#channel>]`, administrators only. */
  function PrefixAdd(rs: Registry, isAdmin: bool, g: string, rawArgs: string, knownChannelIds: set<string>): (out: (AddReply, Registry))
    ensures !isAdmin ==> out == (NotAdmin, rs)
    ensures isAdmin ==> out == AddFromArgs(rs, g, ParseAddArgs(rawArgs), knownChannelIds)
  {
    if !isAdmin then (NotAdmin, rs) else AddFromArgs(rs, g, ParseAddArgs(rawArgs), knownChannelIds)
  }

  /** The first `|` of `trigger|response` is the one after the trigger
      when the trigger holds none. */
  lemma {:induction false} FirstPipeAfter(trigger: string, response: string)
    requires '|' !in trigger
    ensures var raw := trigger + "|" + response;
      && IndexOf(raw, "|") == |trigger|
      && raw[..|trigger|] == trigger
      && raw[|trigger| + 1..] == response
  {
    var raw := trigger + "|" + response;
    assert At(raw, "|", |trigger|);
    forall i | 0 <= i < |trigger| ensures !At(raw, "|", i) {
      assert raw[i] == trigger[i];
    }
    assert raw[..|trigger|] == trigger;
    assert raw[|trigger| + 1..] == response;
  }

  /** `hello|Hello there!` adds trigger `hello` with that response and no
      channel. */
  lemma AddArgsRoundTrip(trigger: string, response: string)
    requires |trigger| > 0 && !IsSpace(trigger[0]) && !IsSpace(trigger[|trigger| - 1]) && '|' !in trigger
    requires LowerStr(trigger) == trigger
    requires |response| > 0 && !IsSpace(response[0]) && !IsSpace(response[|response| - 1]) && response[|response| - 1] != '>'
    ensures ParseAddArgs(trigger + "|" + response) == Parsed(trigger, response, None)
  {
    var raw := trigger + "|" + response;
    FirstPipeAfter(trigger, response);
    TrimOfTrimmed(trigger);
    TrimOfTrimmed(response);
    assert LowerStr(Trim(raw[..|trigger|])) == trigger;
    assert Trim(raw[|trigger| + 1..]) == response;
    assert TrailingMention(response) == None;
  }

  // ---------------------------------------------------------------------------
  // Deleting
  // ---------------------------------------------------------------------------

  /** Index of the first responder with this trigger, whatever its channel. */
  function FirstWithTrigger(list: seq<Responder>, trigger: string): (r: Option<nat>)
    ensures r.Some? ==> r.value < |list| && list[r.value].trigger == trigger
    ensures r.Some? ==> forall j :: 0 <= j < r.value ==> list[j].trigger != trigger
    ensures r.None? ==> forall j :: 0 <= j < |list| ==> list[j].trigger != trigger
  {
    if |list| == 0 then None
    else if list[0].trigger == trigger then Some(0)
    else match FirstWithTrigger(list[1..], trigger)
      case None => None
      case Some(k) => Some(k + 1)
  }

  datatype DeleteReply = DelNotAdmin | DelUsage | NoneExist | NotFound | Deleted(entry: Responder)

  /** The shared delete step: a missing or empty list and an unknown
      trigger are errors that change nothing; otherwise exactly the first
      entry with the trigger is removed and the rest keep their order. */
  function DeleteEntry(rs: Registry, g: string, trigger: string): (out: (DeleteReply, Registry))
    ensures out.0 == NoneExist <==> |ListOf(rs, g)| == 0
    ensures out.0 == NotFound <==> |ListOf(rs, g)| > 0 && FirstWithTrigger(rs[g], trigger).None?
    ensures !out.0.Deleted? ==> out.1 == rs
    ensures out.0.Deleted? ==> g in rs && exists i :: (0 <= i < |rs[g]|
      && FirstWithTrigger(rs[g], trigger) == Some(i)
      && out.0.entry == rs[g][i]
      && out.1 == rs[g := rs[g][..i] + rs[g][i + 1..]])
  {
    if g !in rs || |rs[g]| == 0 then (NoneExist, rs)
    else match FirstWithTrigger(rs[g], trigger)
      case None => (NotFound, rs)
      case Some(i) => (Deleted(rs[g][i]), rs[g := rs[g][..i] + rs[g][i + 1..]])
  }

  function SlashDelete(rs: Registry, isAdmin: bool, g: string, trigger: string): (out: (DeleteReply, Registry))
    ensures !isAdmin ==> out == (DelNotAdmin, rs)
    ensures isAdmin ==> out == DeleteEntry(rs, g, LowerStr(trigger))
  {
    if !isAdmin then (DelNotAdmin, rs) else DeleteEntry(rs, g, LowerStr(trigger))
  }

  /** `!deleteresponder <trigger>`: the trigger is all of the argument
      text, trimmed and lower-cased; an empty one is a usage error. */
  function PrefixDelete(rs: Registry, isAdmin: bool, g: string, rawArgs: string): (out: (DeleteReply, Registry))
    ensures !isAdmin ==> out == (DelNotAdmin, rs)
    ensures isAdmin && Trim(rawArgs) == "" ==> out == (DelUsage, rs)
    ensures isAdmin && Trim(rawArgs) != "" ==> out == DeleteEntry(rs, g, LowerStr(Trim(rawArgs)))
  {
    if !isAdmin then (DelNotAdmin, rs)
    else
      var trigger := LowerStr(Trim(rawArgs));
      if trigger == "" then (DelUsage, rs) else DeleteEntry(rs, g, trigger)
  }

  /** Deleting removes one entry and keeps every other one. */
  lemma DeleteKeepsOthers(rs: Registry, g: string, trigger: string)
    requires DeleteEntry(rs, g, trigger).0.Deleted?
    ensures var (reply, rs') := DeleteEntry(rs, g, trigger);
      && multiset(rs'[g]) + multiset{reply.entry} == multiset(rs[g])
      && |rs'[g]| == |rs[g]| - 1
      && (forall h :: h in rs && h != g ==> rs'[h] == rs[h])
  {
    var (reply, rs') := DeleteEntry(rs, g, trigger);
    var i := FirstWithTrigger(rs[g], trigger).value;
    assert rs[g] == rs[g][..i] + [rs[g][i]] + rs[g][i + 1..];
  }

  /** Adding a responder whose trigger the guild does not use yet and then
      deleting that trigger gives the guild its old list back. */
  lemma AddThenDelete(rs: Registry, g: string, trigger: string, response: string, ch: Option<string>)
    requires forall j :: 0 <= j < |ListOf(rs, g)| ==> ListOf(rs, g)[j].trigger != trigger
    ensures var rs1 := AddEntry(rs, g, trigger, response, ch).1;
      var (reply, rs2) := DeleteEntry(rs1, g, trigger);
      && reply == Deleted(Responder(trigger, response, ch))
      && rs2 == rs[g := ListOf(rs, g)]
  {
    var list := ListOf(rs, g);
    var e := Responder(trigger, response, ch);
    var rs1 := AddEntry(rs, g, trigger, response, ch).1;
    assert rs1[g] == list + [e];
    assert rs1[g][|list|].trigger == trigger;
    assert forall j :: 0 <= j < |list| ==> rs1[g][j] == list[j];
    assert FirstWithTrigger(rs1[g], trigger) == Some(|list|);
    assert (list + [e])[..|list|] + (list + [e])[|list| + 1..] == list;
  }

  // ---------------------------------------------------------------------------
  // Matching
  // ---------------------------------------------------------------------------

  /** `!r.channelId || channel == r.channelId`: an unset (or empty)
      channel matches everywhere. */
  predicate ChannelMatches(r: Responder, channelId: string) {
    r.channelId.None? || r.channelId.value == "" || r.channelId.value == channelId
  }

  predicate Fires(r: Responder, content: string, channelId: string) {
    Contains(LowerStr(content), r.trigger) && ChannelMatches(r, channelId)
  }

  /** The responder that answers a guild message: the first, in list
      order, whose trigger occurs in the lower-cased content and whose
      channel fits. At most one answers. */
  function MatchResponder(list: seq<Responder>, content: string, channelId: string): (r: Option<nat>)
    ensures r.Some? ==> r.value < |list| && Fires(list[r.value], content, channelId)
    ensures r.Some? ==> forall j :: 0 <= j < r.value ==> !Fires(list[j], content, channelId)
    ensures r.None? <==> forall j :: 0 <= j < |list| ==> !Fires(list[j], content, channelId)
  {
    if |list| == 0 then None
    else if Fires(list[0], content, channelId) then Some(0)
    else match MatchResponder(list[1..], content, channelId)
      case None => None
      case Some(k) => Some(k + 1)
  }

  /** What the bot does with an incoming message in the single-file
      variant: bots are ignored, DMs get a minky post, guild messages get
      at most one responder reply. */
  datatype RootAction = Ignore | PostMinky | ReplyWith(response: string) | NoReply

  function RootOnMessage(rs: Registry, isBot: bool, guildId: Option<string>, channelId: string, content: string): (a: RootAction)
    ensures isBot ==> a == Ignore
    ensures !isBot && guildId.None? ==> a == PostMinky
    ensures a.ReplyWith? ==> guildId.Some? && exists j :: (0 <= j < |ListOf(rs, guildId.value)|
      && Fires(ListOf(rs, guildId.value)[j], content, channelId) && a.response == ListOf(rs, guildId.value)[j].response)
    ensures !isBot && guildId.Some? ==> (a == NoReply <==> MatchResponder(ListOf(rs, guildId.value), content, channelId).None?)
  {
    if isBot then Ignore
    else if guildId.None? then PostMinky
    else
      var list := ListOf(rs, guildId.value);
      match MatchResponder(list, content, channelId)
      case None => NoReply
      case Some(i) => ReplyWith(list[i].response)
  }

  // ---------------------------------------------------------------------------
  // Loading
  // ---------------------------------------------------------------------------

  datatype Row = Row(guildId: string, trigger: string, response: string, channelId: Option<string>)

  function ToResponder(r: Row): Responder {
    Responder(r.trigger, r.response, r.channelId)
  }

  /** The row that stores responder `x` of guild `g`. */
  function ToRow(g: string, x: Responder): Row {
    Row(g, x.trigger, x.response, x.channelId)
  }

  /** The responders the rows give one guild, in row order. */
  function RowsFor(rows: seq<Row>, g: string): (r: seq<Responder>)
    ensures |r| <= |rows|
    ensures forall x :: x in r <==> ToRow(g, x) in rows
  {
    if |rows| == 0 then []
    else if rows[|rows| - 1].guildId == g then RowsFor(rows[..|rows| - 1], g) + [ToResponder(rows[|rows| - 1])]
    else RowsFor(rows[..|rows| - 1], g)
  }

  function LoadRows(rs: Registry, rows: seq<Row>): Registry
    decreases |rows|
  {
    if |rows| == 0 then rs
    else
      var last := rows[|rows| - 1];
      var rs' := LoadRows(rs, rows[..|rows| - 1]);
      rs'[last.guildId := ListOf(rs', last.guildId) + [ToResponder(last)]]
  }

  /** `loadAutoresponders`: `None` is a failed read, which is only logged. */
  function Load(rs: Registry, rows: Option<seq<Row>>): Registry {
    match rows
    case None => rs
    case Some(r) => LoadRows(rs, r)
  }

  /** Loading appends each guild's rows, in row order, to whatever that
      guild already had, and creates lists only for guilds that have rows. */
  lemma {:induction false} LoadGroupsByGuild(rs: Registry, rows: seq<Row>, g: string)
    ensures ListOf(LoadRows(rs, rows), g) == ListOf(rs, g) + RowsFor(rows, g)
    ensures g in LoadRows(rs, rows) <==> g in rs || exists i :: 0 <= i < |rows| && rows[i].guildId == g
    decreases |rows|
  {
    if |rows| > 0 {
      var init := rows[..|rows| - 1];
      LoadGroupsByGuild(rs, init, g);
      var last := rows[|rows| - 1];
      if last.guildId == g {
        assert ListOf(rs, g) + RowsFor(init, g) + [ToResponder(last)] == ListOf(rs, g) + (RowsFor(init, g) + [ToResponder(last)]);
      }
      if g !in rs && (exists i :: 0 <= i < |rows| && rows[i].guildId == g) && last.guildId != g {
        var i :| 0 <= i < |rows| && rows[i].guildId == g;
        assert init[i].guildId == g;
      }
    }
  }

  // ---------------------------------------------------------------------------
  // Saving and deleting rows
  // ---------------------------------------------------------------------------

  /** Rows clash on the table's key (guild, trigger, channel). */
  predicate SameKey(x: Row, y: Row) {
    x.guildId == y.guildId && x.trigger == y.trigger && x.channelId == y.channelId
  }

  /** The rows whose key differs from `r`'s, in order. */
  function WithoutKey(rows: seq<Row>, r: Row): (out: seq<Row>)
    ensures forall x :: x in out <==> x in rows && !SameKey(x, r)
  {
    if |rows| == 0 then []
    else
      assert rows == [rows[0]] + rows[1..];
      (if SameKey(rows[0], r) then [] else [rows[0]]) + WithoutKey(rows[1..], r)
  }

  /** `INSERT ... ON CONFLICT (guild_id, trigger_phrase, channel_id) DO
      UPDATE SET response` on a table that takes every key, a missing
      channel included: the key ends up holding exactly the new row. */
  function SaveRow(rows: seq<Row>, r: Row): (out: seq<Row>)
    ensures r in out
    ensures forall x :: x in out && SameKey(x, r) ==> x == r
    ensures forall x :: x in out && !SameKey(x, r) <==> x in rows && !SameKey(x, r)
  {
    WithoutKey(rows, r) + [r]
  }

  /** `saveAutoresponder` (the `pg` one of index.js) against the table as
      created: `channel_id` is part of the primary key, which makes it NOT
      NULL in PostgreSQL, so saving a responder for every channel is refused
      and the error only logged. */
  function SaveRowAsWritten(rows: seq<Row>, r: Row): (out: seq<Row>)
    ensures r.channelId.None? ==> out == rows
    ensures r.channelId.Some? ==> r in out && forall x :: x in out && SameKey(x, r) ==> x == r
  {
    if r.channelId.None? then rows else SaveRow(rows, r)
  }

  /** `deleteAutoresponderFromDb`: `channel_id = $3`, or `IS NULL` when the
      responder has no channel, removes the rows of that key. */
  function DeleteRow(rows: seq<Row>, key: Row): (out: seq<Row>)
    ensures forall x :: x in out <==> x in rows && !SameKey(x, key)
  {
    WithoutKey(rows, key)
  }

  /** A responder for every channel, added and saved as written, is gone
      once the bot restarts and loads the table again. */
  lemma AsWrittenGlobalResponderLost(rows: seq<Row>, g: string, trigger: string, response: string)
    requires ToRow(g, Responder(trigger, response, None)) !in rows
    ensures Responder(trigger, response, None) !in
      ListOf(Load(map[], Some(SaveRowAsWritten(rows, Row(g, trigger, response, None)))), g)
  {
    var saved := SaveRowAsWritten(rows, Row(g, trigger, response, None));
    LoadGroupsByGuild(map[], saved, g);
  }

  /** With a table that accepts a missing channel, every saved responder,
      for one channel or for all, comes back when the table is loaded. */
  lemma SavedResponderReloads(rows: seq<Row>, g: string, x: Responder)
    ensures x in ListOf(Load(map[], Some(SaveRow(rows, ToRow(g, x)))), g)
  {
  }

  /** Deleting a saved responder's key removes it from what a later load
      gives its guild, and keeps every row of another key. */
  lemma SaveThenDeleteRow(rows: seq<Row>, g: string, x: Responder)
    ensures x !in ListOf(Load(map[], Some(DeleteRow(SaveRow(rows, ToRow(g, x)), ToRow(g, x)))), g)
    ensures forall y :: y in rows && !SameKey(y, ToRow(g, x)) ==> y in DeleteRow(SaveRow(rows, ToRow(g, x)), ToRow(g, x))
  {
    var left := DeleteRow(SaveRow(rows, ToRow(g, x)), ToRow(g, x));
    LoadGroupsByGuild(map[], left, g);
  }
}

=== FILE: reviews.dfy ===
/** The review browser: the reviews of a plugin or of a user, five per page,
    with Previous and Next buttons that carry the kind, the identifier
    (base64 without padding) and the sort order. */
module Reviews {
  import opened Wrappers
  import opened Text
  import Catalog
  import Utf8
  import Plugins

  const PerPage: nat := 5

  datatype Review = Review(id: int, userId: string, pluginName: string, rating: int,
                           text: Option<string>, createdAt: string)

  /** What the review store answers: a plugin's reviews in a sort order,
      and a user's reviews. */
  datatype Store = Store(forPlugin: (string, string) -> seq<Review>, forUser: string -> seq<Review>)

  // ---------------------------------------------------------------------------
  // Identifiers
  // ---------------------------------------------------------------------------

  /** `encodeIdentifier`: base64 of the UTF-8 bytes, padding removed. */
  function EncodeIdentifier(s: string): (e: string)
    ensures '_' !in e && '=' !in e
    ensures e == "" <==> s == ""
  {
    Utf8.EncodeText(s)
  }

  /** `decodeIdentifier`. Text Node's lenient decoder salvages from a
      malformed id is `salvage(e)`. */
  function DecodeIdentifier(e: string, salvage: string -> string): (s: string)
    ensures e == "" ==> s == ""
  {
    match Utf8.DecodeText(e)
    case NoText => ""
    case Text(v) => v
    case Garbled => salvage(e)
  }

  /** Every identifier, the empty one included, survives the button id. */
  lemma IdentifierRoundTrip(s: string, salvage: string -> string)
    ensures DecodeIdentifier(EncodeIdentifier(s), salvage) == s
  {
    Utf8.TextRoundTrip(s);
  }

  // ---------------------------------------------------------------------------
  // Pages
  // ---------------------------------------------------------------------------

  /** `Math.max(1, Math.ceil(n / 5))`: an empty list still has one page. */
  function TotalPages(n: nat): (t: nat)
    ensures t >= 1
    ensures n <= t * PerPage
    ensures t == 1 || (t - 1) * PerPage < n
  {
    if n == 0 then 1 else Catalog.TotalPages(n)
  }

  /** Apart from the empty list, the page count is the catalog's. */
  lemma TotalPagesAgree(n: nat)
    ensures n > 0 ==> TotalPages(n) == Catalog.TotalPages(n)
    ensures n == 0 ==> TotalPages(n) == Catalog.TotalPages(n) + 1
  {
  }

  /** `reviews_${action}_${page}_${type}_${encodedId}_${sortBy}`. */
  function NavId(action: string, page: Catalog.PageNumber, kind: string, identifier: string, sortBy: string): string {
    Join(["reviews", action, Catalog.PageText(page), kind, EncodeIdentifier(identifier), sortBy], "_")
  }

  /** `buildPaginationRow`. */
  function NavRow(page: Catalog.PageNumber, totalPages: nat, kind: string, identifier: string, sortBy: string)
    : (row: seq<Catalog.Button>)
    ensures |row| == 2
    ensures row[0].id == NavId("prev", page, kind, identifier, sortBy)
    ensures row[1].id == NavId("next", page, kind, identifier, sortBy)
    ensures row[0].disabled <==> page == Catalog.Num(0)
    ensures row[1].disabled <==> page == Catalog.Num(totalPages - 1)
  {
    [Catalog.Button(NavId("prev", page, kind, identifier, sortBy), "Previous", page == Catalog.Num(0)),
     Catalog.Button(NavId("next", page, kind, identifier, sortBy), "Next", page == Catalog.Num(totalPages - 1))]
  }

  datatype ReviewsPage =
    | InvalidPage
    | Page(page: Catalog.PageNumber, totalPages: nat, items: seq<Review>, row: Option<seq<Catalog.Button>>)

  /** The page check and slice shared by the command and its buttons. A
      `NaN` page fails both comparisons and slices nothing. */
  function ShowPage(reviews: seq<Review>, page: Catalog.PageNumber, kind: string, identifier: string, sortBy: string)
    : (v: ReviewsPage)
    ensures page.Num? ==> (v == InvalidPage <==> page.n < 0 || page.n >= TotalPages(|reviews|))
    ensures v.Page? ==> v.page == page && v.totalPages == TotalPages(|reviews|) && |v.items| <= PerPage
    ensures v.Page? && page.Num? ==> v.items == Catalog.PageSlice(reviews, page.n)
    ensures v.Page? && page.NaN? ==> v.items == []
    ensures v.Page? ==> (v.row.Some? <==> v.totalPages > 1)
    ensures v.Page? && v.row.Some? ==> v.row.value == NavRow(page, v.totalPages, kind, identifier, sortBy)
  {
    var total := TotalPages(|reviews|);
    var row := if total > 1 then Some(NavRow(page, total, kind, identifier, sortBy)) else None;
    match page
    case NaN => Page(page, total, [], row)
    case Num(n) => if n < 0 || n >= total then InvalidPage else Page(page, total, Catalog.PageSlice(reviews, n), row)
  }

  /** Page 0 always exists, even with no reviews. */
  lemma FirstPageExists(reviews: seq<Review>, kind: string, identifier: string, sortBy: string)
    ensures ShowPage(reviews, Catalog.Num(0), kind, identifier, sortBy).Page?
    ensures |reviews| == 0 ==> ShowPage(reviews, Catalog.Num(0), kind, identifier, sortBy).items == []
  {
  }

  /** The reviews the handler lists: a plugin's in the requested order,
      otherwise the user's. */
  function Fetch(store: Store, kind: string, identifier: string, sortBy: string): seq<Review> {
    if kind == "plugin" then store.forPlugin(identifier, sortBy) else store.forUser(identifier)
  }

  /** `handleButton(interaction, action, page, type, encodedIdentifier, sortBy)`:
      the identifier is decoded, the reviews fetched again, and the page
      field read with `parseInt` and moved by the action. A field
      `parseInt` cannot read passes the check and lists nothing. */
  function HandleButton(store: Store, action: string, pageField: string, kind: string, encodedId: string,
                        sortBy: string, salvage: string -> string): (v: ReviewsPage)
    ensures ParseInt(pageField).None? ==> v.Page? && v.page == Catalog.NaN && v.items == []
    ensures ParseInt(pageField).Some? ==>
      var identifier := DecodeIdentifier(encodedId, salvage);
      var reviews := Fetch(store, kind, identifier, sortBy);
      var n := ParseInt(pageField).value + Catalog.Offset(action);
      && (v == InvalidPage <==> n < 0 || n >= TotalPages(|reviews|))
      && (v.Page? ==> v.page == Catalog.Num(n) && v.items == Catalog.PageSlice(reviews, n))
    ensures v.Page? ==>
      var identifier := DecodeIdentifier(encodedId, salvage);
      && (v.row.Some? <==> v.totalPages > 1)
      && (v.row.Some? ==> v.row.value == NavRow(v.page, v.totalPages, kind, identifier, sortBy))
      && forall r :: r in v.items ==> r in Fetch(store, kind, identifier, sortBy)
  {
    var identifier := DecodeIdentifier(encodedId, salvage);
    var reviews := Fetch(store, kind, identifier, sortBy);
    var page := Catalog.Step(action, Catalog.PageOf(pageField));
    ShownFromReviews(reviews, page, kind, identifier, sortBy);
    ShowPage(reviews, page, kind, identifier, sortBy)
  }

  /** A page lists reviews of the list it pages through only. */
  lemma ShownFromReviews(reviews: seq<Review>, page: Catalog.PageNumber, kind: string, identifier: string, sortBy: string)
    ensures var v := ShowPage(reviews, page, kind, identifier, sortBy);
      v.Page? ==> forall r :: r in v.items ==> r in reviews
  {
    var v := ShowPage(reviews, page, kind, identifier, sortBy);
    if v.Page? && page.Num? {
      forall r | r in v.items ensures r in reviews {
        var k :| 0 <= k < |v.items| && v.items[k] == r;
        assert v.items[k] == reviews[page.n * PerPage + k];
      }
    }
  }

  /** The fields a Next or Previous button carries bring back the same
      list, moved by one page. */
  lemma ButtonMovesOnePage(store: Store, action: string, page: nat, kind: string, identifier: string,
                           sortBy: string, salvage: string -> string)
    requires action == "next" || action == "prev"
    ensures var target := if action == "next" then page + 1 else page - 1;
      HandleButton(store, action, NatToString(page), kind, EncodeIdentifier(identifier), sortBy, salvage)
        == ShowPage(Fetch(store, kind, identifier, sortBy), Catalog.Num(target), kind, identifier, sortBy)
  {
    IdentifierRoundTrip(identifier, salvage);
    ParseIntOfNat(page);
  }

  // ---------------------------------------------------------------------------
  // Finding the plugin
  // ---------------------------------------------------------------------------

  predicate SameName(p: Plugins.Plugin, name: string) {
    LowerStr(p.name) == LowerStr(name)
  }

  /** `allPlugins.find(p => p.name.toLowerCase() === name.toLowerCase())`. */
  function FindPlugin(all: seq<Plugins.Plugin>, name: string): (r: Option<nat>)
    ensures r.Some? ==> r.value < |all| && SameName(all[r.value], name)
    ensures r.Some? ==> forall j :: 0 <= j < r.value ==> !SameName(all[j], name)
    ensures r.None? <==> forall j :: 0 <= j < |all| ==> !SameName(all[j], name)
  {
    Catalog.FindFirst(all, p => SameName(p, name))
  }

  /** The lookup does not depend on how the name is capitalised. */
  lemma FindPluginIgnoresCase(all: seq<Plugins.Plugin>, name: string)
    ensures FindPlugin(all, LowerStr(name)) == FindPlugin(all, name)
  {
    LowerStrIdempotent(name);
    assert forall p :: SameName(p, LowerStr(name)) == SameName(p, name);
    FindFirstSame(all, p => SameName(p, LowerStr(name)), p => SameName(p, name));
  }

  lemma {:induction false} FindFirstSame<T>(xs: seq<T>, p: T -> bool, q: T -> bool)
    requires forall x :: p(x) == q(x)
    ensures Catalog.FindFirst(xs, p) == Catalog.FindFirst(xs, q)
    decreases |xs|
  {
    if |xs| > 0 {
      FindFirstSame(xs[1..], p, q);
    }
  }

  // ---------------------------------------------------------------------------
  // The command
  // ---------------------------------------------------------------------------

  datatype Opened =
    | PluginNotFound(name: string)
    | Opened(kind: string, identifier: string, sortBy: string, view: ReviewsPage)

  /** The slash command: a named plugin's reviews (in the chosen order,
      by date unless chosen), or the caller's own; always page 0. */
  function Execute(store: Store, all: seq<Plugins.Plugin>, pluginName: Option<string>, userId: string,
                   sort: Option<string>): (r: Opened)
    ensures Catalog.Active(pluginName) && FindPlugin(all, pluginName.value).None? <==> r.PluginNotFound?
    ensures r.Opened? ==> r.view.Page? && r.view.page == Catalog.Num(0)
    ensures r.Opened? ==> r.sortBy == (if Catalog.Active(sort) then sort.value else "date")
    ensures r.Opened? && Catalog.Active(pluginName) ==>
      r.kind == "plugin" && r.identifier == all[FindPlugin(all, pluginName.value).value].name
    ensures !Catalog.Active(pluginName) ==> r.Opened? && r.kind == "user" && r.identifier == userId
    ensures r.Opened? ==>
      r.view == ShowPage(Fetch(store, r.kind, r.identifier, r.sortBy), Catalog.Num(0), r.kind, r.identifier, r.sortBy)
  {
    var sortBy := if Catalog.Active(sort) then sort.value else "date";
    if Catalog.Active(pluginName) then
      match FindPlugin(all, pluginName.value)
      case None => PluginNotFound(pluginName.value)
      case Some(i) =>
        var name := all[i].name;
        Opened("plugin", name, sortBy, ShowPage(store.forPlugin(name, sortBy), Catalog.Num(0), "plugin", name, sortBy))
    else
      Opened("user", userId, sortBy, ShowPage(store.forUser(userId), Catalog.Num(0), "user", userId, sortBy))
  }

  datatype Listing =
    | ListingNotFound(name: string)
    | Listing(kind: string, shown: seq<Review>, more: nat)

  /** The prefix form: no pages; the first five reviews and, when there are
      more, how many more. */
  function ListFirst(reviews: seq<Review>): (r: (seq<Review>, nat))
    ensures |r.0| == if |reviews| < PerPage then |reviews| else PerPage
    ensures r.0 == reviews[..|r.0|]
    ensures r.1 > 0 <==> |reviews| > PerPage
    ensures |r.0| + r.1 == |reviews|
  {
    if |reviews| <= PerPage then (reviews, 0) else (reviews[..PerPage], |reviews| - PerPage)
  }

  function ExecutePrefix(store: Store, all: seq<Plugins.Plugin>, args: seq<string>, userId: string): (r: Listing)
    ensures var name := Catalog.JoinedOrNone(args);
      && (name.Some? && FindPlugin(all, name.value).None? <==> r.ListingNotFound?)
      && (name.None? ==> r == Listing("user", ListFirst(store.forUser(userId)).0, ListFirst(store.forUser(userId)).1))
      && (name.Some? && FindPlugin(all, name.value).Some? ==>
            var reviews := store.forPlugin(all[FindPlugin(all, name.value).value].name, "date");
            r == Listing("plugin", ListFirst(reviews).0, ListFirst(reviews).1))
  {
    match Catalog.JoinedOrNone(args)
    case None =>
      var (shown, more) := ListFirst(store.forUser(userId));
      Listing("user", shown, more)
    case Some(name) =>
      match FindPlugin(all, name)
      case None => ListingNotFound(name)
      case Some(i) =>
        var (shown, more) := ListFirst(store.forPlugin(all[i].name, "date"));
        Listing("plugin", shown, more)
  }
}

=== FILE: server_config.dfy ===
/** The servers the bot serves and where each one's plugin and theme
    lists live. */
module ServerConfig {
  import opened Wrappers

  datatype Source = Source(url: string, isJsonArray: bool)

  datatype Config = Config(name: string, guildId: string, plugins: Source, themes: Source,
                           themesChannelId: Option<string>)

  const Aliucord: Config := Config(
    "ALIUCORD", "811255666990907402",
    Source("https://plugins.aliucord.com/manifest.json", true),
    Source("https://rautobot.github.io/themes-repo/data.json", true),
    Some("824357609778708580"))

  /** Kettu has no channel of theme previews. */
  const Kettu: Config := Config(
    "KETTU", "1368145952266911755",
    Source("https://raw.githubusercontent.com/Purple-EyeZ/Plugins-List/refs/heads/main/src/plugins-data.json", true),
    Source("https://raw.githubusercontent.com/kmmiio99o/theme-marketplace/refs/heads/main/themes.json", true),
    None)

  /** `Object.values(SERVER_CONFIGS)`, in declaration order. */
  const Configs: seq<Config> := [Aliucord, Kettu]

  /** No two servers share a guild id or a name. */
  lemma ConfigsDistinct()
    ensures forall i, j :: 0 <= i < j < |Configs| ==> Configs[i].guildId != Configs[j].guildId
    ensures forall i, j :: 0 <= i < j < |Configs| ==> Configs[i].name != Configs[j].name
  {
  }

  /** The index of the first configuration with that guild id. */
  function IndexOfGuild(cs: seq<Config>, guildId: string): (r: Option<nat>)
    ensures r.Some? ==> r.value < |cs| && cs[r.value].guildId == guildId
    ensures r.Some? ==> forall k :: 0 <= k < r.value ==> cs[k].guildId != guildId
    ensures r.None? <==> forall k :: 0 <= k < |cs| ==> cs[k].guildId != guildId
  {
    if |cs| == 0 then None
    else if cs[0].guildId == guildId then Some(0)
    else
      match IndexOfGuild(cs[1..], guildId)
      case None => None
      case Some(k) => Some(k + 1)
  }

  /** `getConfigByGuildId`: the server with that guild id, defaulting to
      Aliucord. */
  function ByGuildId(guildId: string): (c: Config)
    ensures c in Configs
    ensures c.guildId == guildId || (c == Aliucord && forall k :: 0 <= k < |Configs| ==> Configs[k].guildId != guildId)
  {
    match IndexOfGuild(Configs, guildId)
    case None => Aliucord
    case Some(k) => Configs[k]
  }

  /** `getConfigByName`: `SERVER_CONFIGS[name] || SERVER_CONFIGS.ALIUCORD`. */
  function ByName(name: string): (c: Config)
    ensures c in Configs
    ensures c.name == name || (c == Aliucord && forall k :: 0 <= k < |Configs| ==> Configs[k].name != name)
  {
    if name == Kettu.name then Kettu else Aliucord
  }

  /** Every server is found by its own guild id and by its own name. */
  lemma LookupsFindEachServer(k: nat)
    requires k < |Configs|
    ensures ByGuildId(Configs[k].guildId) == Configs[k]
    ensures ByName(Configs[k].name) == Configs[k]
  {
    ConfigsDistinct();
  }

  /** An unknown guild, such as a direct message's, is served as
      Aliucord. */
  lemma UnknownGuildIsAliucord(guildId: string)
    requires guildId != Aliucord.guildId && guildId != Kettu.guildId
    ensures ByGuildId(guildId) == Aliucord
    ensures ByGuildId(guildId).themesChannelId.Some?
  {
  }
}

=== FILE: stars.dfy ===
/** Star strings: `'★'.repeat(r) + '☆'.repeat(5 - r)`, shared by the
    review, rating and statistics commands. */
module Stars {
  import opened Wrappers

  const Filled: char := '\U{2605}'
  const Hollow: char := '\U{2606}'

  /** `c.repeat(n)` for a non-negative count. */
  function Repeat(c: char, n: nat): (r: string)
    ensures |r| == n
    ensures forall i :: 0 <= i < n ==> r[i] == c
  {
    if n == 0 then "" else [c] + Repeat(c, n - 1)
  }

  /** The star string of a rating. `repeat` throws a RangeError on a
      negative count, so a rating outside 0..5 has no star string. */
  function FormatStars(rating: int): (r: Option<string>)
    ensures r.Some? <==> 0 <= rating <= 5
    ensures r.Some? ==> |r.value| == 5
    ensures r.Some? ==> forall i :: 0 <= i < 5 ==> (r.value[i] == Filled <==> i < rating)
    ensures r.Some? ==> forall i :: 0 <= i < 5 ==> r.value[i] == Filled || r.value[i] == Hollow
  {
    if 0 <= rating <= 5 then Some(Repeat(Filled, rating) + Repeat(Hollow, 5 - rating)) else None
  }

  /** Number of leading filled stars. */
  function FilledCount(s: string): (n: nat)
    ensures n <= |s|
  {
    if |s| > 0 && s[0] == Filled then 1 + FilledCount(s[1..]) else 0
  }

  lemma {:induction false} FilledPrefix(s: string, k: nat)
    requires k <= |s|
    requires forall i :: 0 <= i < |s| ==> (s[i] == Filled <==> i < k)
    ensures FilledCount(s) == k
    decreases |s|
  {
    if |s| > 0 && k > 0 {
      FilledPrefix(s[1..], k - 1);
    } else if |s| > 0 {
      assert s[0] != Filled;
    }
  }

  /** A reader counting the filled stars gets the rating back. */
  lemma StarsRoundTrip(rating: int)
    requires 0 <= rating <= 5
    ensures FilledCount(FormatStars(rating).value) == rating
  {
    FilledPrefix(FormatStars(rating).value, rating);
  }

  /** `Math.round`: the nearest integer, halves rounded up. */
  function Round(x: real): (n: int)
    ensures n as real - 0.5 <= x < n as real + 0.5
  {
    (x + 0.5).Floor
  }

  /** `formatStars(Math.round(x))` for an average rating `x`. */
  function AverageStars(x: real): (r: Option<string>)
    ensures r.Some? <==> -0.5 <= x < 5.5
    ensures r.Some? ==> FilledCount(r.value) == Round(x)
  {
    var n := Round(x);
    if 0 <= n <= 5 then StarsRoundTrip(n); FormatStars(n) else None
  }
}

=== FILE: sticky_command.dfy ===
/** The `sticky` moderation command, slash and `!sticky` forms, wired to
    the legacy sticky manager. Replies are modelled by kind; the outcome of
    the store write is an input. */
module StickyCommand {
  import opened Wrappers
  import opened Text
  import opened StickyCore
  import opened PrefixParser
  import LegacyStickyManager

  /** The four permissions any one of which makes a member a moderator. */
  datatype Perms = Perms(manageMessages: bool, manageGuild: bool, banMembers: bool, kickMembers: bool)

  predicate HasModPerms(p: Perms) {
    p.manageMessages || p.manageGuild || p.banMembers || p.kickMembers
  }

  /** What a manager's `setSticky` hands back: the legacy manager returns a
      plain boolean, the current one an `{ ok, error }` record. */
  datatype SetReturn = Bool(b: bool) | Record(ok: bool, error: Option<string>)

  datatype Reply =
    | NoPermission
    | Usage
    | AddUsage
    | EmptySticky
    | SetFailed(error: string)
    | SetDone(channel: ChannelId, cooldownSeconds: int)
    | RemoveFailed
    | Removed(channel: ChannelId)

  /** `res?.error || 'unknown error'`. */
  function ErrorText(res: SetReturn): string {
    if res.Record? && res.error.Some? && res.error.value != "" then res.error.value else "unknown error"
  }

  /** The command as written tests `res?.ok`; a boolean has no `ok`
      property, so only a record can ever read as success. */
  function SetReplyAsWritten(res: SetReturn, ch: ChannelId, cooldown: int): (r: Reply)
    ensures r.SetDone? <==> res.Record? && res.ok
  {
    if !(res.Record? && res.ok) then SetFailed(ErrorText(res)) else SetDone(ch, cooldown)
  }

  /** Whether `setSticky` reported success, in either return shape. */
  predicate Succeeded(res: SetReturn) {
    (res.Bool? && res.b) || (res.Record? && res.ok)
  }

  /** The reply the command evidently intends: success exactly when the
      manager reported success. */
  function SetReply(res: SetReturn, ch: ChannelId, cooldown: int): (r: Reply)
    ensures r.SetDone? <==> Succeeded(res)
    ensures r.SetDone? ==> r == SetDone(ch, cooldown)
    ensures !r.SetDone? ==> r == SetFailed(ErrorText(res))
  {
    if Succeeded(res) then SetDone(ch, cooldown) else SetFailed(ErrorText(res))
  }

  /** With the legacy manager the as-written reply reports a failure with
      "unknown error" even when the sticky was stored and activated. */
  lemma AsWrittenReportsFailureOnSuccess(st: LegacyStickyManager.State, g: GuildId, ch: ChannelId, text: string, cooldown: int)
    ensures var (ok, st') := LegacyStickyManager.SetSticky(st, g, ch, text, Finite(cooldown as real), true, true);
      && ok
      && ch in st'.reg && st'.reg[ch].content == text
      && SetReplyAsWritten(Bool(ok), ch, cooldown) == SetFailed("unknown error")
      && SetReply(Bool(ok), ch, cooldown) == SetDone(ch, cooldown)
  {
  }

  /** The corrected reply agrees with the as-written one on records, so it
      changes nothing for a manager that returns `{ ok, error }`. */
  lemma SetReplyAgreesOnRecords(ok: bool, err: Option<string>, ch: ChannelId, cooldown: int)
    ensures SetReply(Record(ok, err), ch, cooldown) == SetReplyAsWritten(Record(ok, err), ch, cooldown)
  {
  }

  // ---------------------------------------------------------------------------
  // Slash form
  // ---------------------------------------------------------------------------

  datatype SlashSub =
    | SlashAdd(message: string, cooldown: Option<int>, warning: Option<bool>, channel: Option<ChannelId>)
    | SlashRemove(channel: Option<ChannelId>)

  /** The slash command: permission check, the channel option or the
      current channel, the cooldown defaulting to 120 seconds and the
      warning to on. The reply is the one written in the command, so an
      add answers with a failure even when the sticky was stored. */
  function Slash(st: LegacyStickyManager.State, perms: Perms, guildId: GuildId, current: ChannelId,
                 sub: SlashSub, writeOk: bool): (out: (Reply, LegacyStickyManager.State, seq<Effect>))
    ensures !HasModPerms(perms) ==> out == (NoPermission, st, [])
    ensures HasModPerms(perms) && sub.SlashAdd? ==>
      var ch := sub.channel.GetOr(current);
      var cd := sub.cooldown.GetOr(120);
      && out.2 == []
      && out.0 == SetFailed("unknown error")
      && (writeOk ==> ch in out.1.reg
                      && out.1.reg[ch].content == sub.message
                      && out.1.reg[ch].includeWarning == sub.warning.GetOr(true)
                      && (cd >= 0 ==> out.1.reg[ch].cooldownMs == cd * 1000))
      && (!writeOk ==> out.1 == st)
    ensures HasModPerms(perms) && sub.SlashRemove? ==>
      var ch := sub.channel.GetOr(current);
      && (out.0 == Removed(ch) <==> writeOk)
      && (!writeOk ==> out == (RemoveFailed, st, []))
      && (writeOk ==> ch !in out.1.reg)
  {
    if !HasModPerms(perms) then (NoPermission, st, [])
    else match sub
      case SlashAdd(message, cooldown, warning, channel) =>
        var ch := channel.GetOr(current);
        var cd := cooldown.GetOr(120);
        var (ok, st') := LegacyStickyManager.SetSticky(st, guildId, ch, message, Finite(cd as real), warning.GetOr(true), writeOk);
        (SetReplyAsWritten(Bool(ok), ch, cd), st', [])
      case SlashRemove(channel) =>
        var ch := channel.GetOr(current);
        var (ok, st', effects) := LegacyStickyManager.DisableSticky(st, guildId, ch, writeOk);
        (if ok then Removed(ch) else RemoveFailed, st', effects)
  }

  // ---------------------------------------------------------------------------
  // Prefix form
  // ---------------------------------------------------------------------------

  datatype Plan =
    | BadSub
    | NoPipe
    | NoText
    | PlanSet(channel: ChannelId, text: Option<string>, cooldown: int, warning: bool)
    | PlanRemove(channel: ChannelId)

  predicate IsSetSub(sub: string) { sub == "add" || sub == "set" }
  predicate IsRemoveSub(sub: string) { sub == "remove" || sub == "disable" }

  /** The first token of the argument text: a channel mention `<#digits>`
      if the text starts with one, otherwise the leading non-space run. */
  function FirstToken(rest: string): (r: Option<string>)
    ensures r.Some? ==> |r.value| > 0 && r.value <= rest
  {
    var k := if |rest| >= 2 then DigitPrefix(rest[2..]) else 0;
    if |rest| >= 2 && rest[0] == '<' && rest[1] == '#' && k > 0 && 2 + k < |rest| && rest[2 + k] == '>'
    then Some(rest[..k + 3])
    else if |rest| > 0 && !IsSpace(rest[0]) then Some(SplitWs(rest)[0])
    else None
  }

  /** The channel a name or mention resolves to, else the fallback. */
  function ResolveChannel(channels: seq<Channel>, arg: string, fallback: ChannelId): (ch: ChannelId)
    ensures ch == fallback || exists i :: 0 <= i < |channels| && channels[i].id == ch
  {
    match FindChannel(channels, arg)
    case Some(c) => c.id
    case None => fallback
  }

  /** One `key=value` option. Only `cooldown` (a non-negative decimal) and
      `warning` (`true`/`false`, any case) are understood; anything else,
      including a malformed value, leaves the settings as they were. */
  /** The key of `key=value`, trimmed and lower-cased. */
  function OptionKey(part: string): string {
    LowerStr(Trim(Split(part, "=")[0]))
  }

  /** The trimmed text between the first and second `=`, if there is one. */
  function OptionValue(part: string): Option<string> {
    var pieces := Split(part, "=");
    if |pieces| > 1 then Some(Trim(pieces[1])) else None
  }

  /** `parseInt(v, 10)`, accepted only when it is a number >= 0. */
  function CooldownSetting(value: Option<string>): (r: Option<int>)
    ensures r.Some? ==> r.value >= 0 && value.Some? && ParseInt10(value.value) == r
  {
    if value.None? then None
    else match ParseInt10(value.value)
      case Some(n) => if n >= 0 then Some(n) else None
      case None => None
  }

  /** `true` or `false` in any case; anything else is ignored. */
  function WarningSetting(value: Option<string>): (r: Option<bool>)
    ensures r.Some? ==> LowerStr(value.GetOr("")) == (if r.value then "true" else "false")
  {
    var v := LowerStr(value.GetOr(""));
    if v == "true" then Some(true) else if v == "false" then Some(false) else None
  }

  /** One `key=value` option. Only `cooldown` (a non-negative decimal) and
      `warning` (`true`/`false`, any case) are understood; anything else,
      including an empty key or a malformed value, leaves the settings as
      they were. */
  function ApplyOption(part: string, cooldown: int, warning: bool): (r: (int, bool))
    ensures cooldown >= 0 ==> r.0 >= 0
    ensures r.0 != cooldown ==> OptionKey(part) == "cooldown" && CooldownSetting(OptionValue(part)) == Some(r.0)
    ensures r.1 != warning ==> OptionKey(part) == "warning" && WarningSetting(OptionValue(part)) == Some(r.1)
  {
    var key := OptionKey(part);
    if key == "cooldown" then
      match CooldownSetting(OptionValue(part))
      case Some(n) => (n, warning)
      case None => (cooldown, warning)
    else if key == "warning" then
      match WarningSetting(OptionValue(part))
      case Some(b) => (cooldown, b)
      case None => (cooldown, warning)
    else (cooldown, warning)
  }

  function ApplyOptions(parts: seq<string>, cooldown: int, warning: bool): (r: (int, bool))
    ensures cooldown >= 0 ==> r.0 >= 0
    decreases |parts|
  {
    if |parts| == 0 then (cooldown, warning)
    else
      var (c, w) := ApplyOption(parts[0], cooldown, warning);
      ApplyOptions(parts[1..], c, w)
  }

  /** `remainder.split('|').map(p => p.trim()).filter(Boolean)`. */
  function RemainderParts(remainder: string): (parts: seq<string>)
    ensures forall i :: 0 <= i < |parts| ==> parts[i] != ""
  {
    NonEmpty(TrimAll(Split(remainder, "|")))
  }

  /** The text after the first `|`: pipe-separated, trimmed, empties
      dropped; the first piece is the sticky text, the rest are options
      over the defaults of 120 seconds and warning on. */
  function ParseRemainder(remainder: string): (r: (Option<string>, int, bool))
    ensures r.1 >= 0
  {
    var parts := RemainderParts(remainder);
    var text := if |parts| > 0 then Some(parts[0]) else None;
    var (c, w) := ApplyOptions(if |parts| > 0 then parts[1..] else [], 120, true);
    (text, c, w)
  }

  /** The `!sticky` grammar. For add/set an optional channel sits before the
      first `|`; for remove/disable the first token may name a channel. */
  function PlanPrefix(args: seq<string>, rawArgs: string, current: ChannelId, channels: seq<Channel>): (p: Plan)
    ensures var sub := LowerStr(if |args| > 0 then args[0] else "");
      && (p.BadSub? <==> !IsSetSub(sub) && !IsRemoveSub(sub))
      && (p.NoPipe? || p.NoText? || p.PlanSet? ==> IsSetSub(sub))
      && (p.PlanRemove? ==> IsRemoveSub(sub))
      && (IsSetSub(sub) ==> (p.NoPipe? <==> !Contains(Trim(SliceFrom(rawArgs, |sub|)), "|")))
    ensures p.PlanSet? ==> p.cooldown >= 0
    ensures p.PlanSet? || p.PlanRemove? ==>
      p.channel == current || exists i :: 0 <= i < |channels| && channels[i].id == p.channel
  {
    var sub := LowerStr(if |args| > 0 then args[0] else "");
    if !IsSetSub(sub) && !IsRemoveSub(sub) then BadSub
    else
      var rest := Trim(SliceFrom(rawArgs, |sub|));
      if IsSetSub(sub) then
        var pipe := IndexOf(rest, "|");
        if pipe == -1 then NoPipe
        else
          var ch := ResolveChannel(channels, Trim(rest[..pipe]), current);
          var remainder := Trim(rest[pipe + 1..]);
          if remainder == "" then NoText
          else
            var (text, c, w) := ParseRemainder(remainder);
            PlanSet(ch, text, c, w)
      else
        var tok := FirstToken(rest);
        PlanRemove(if tok.Some? then ResolveChannel(channels, tok.value, current) else current)
  }

  /** Carries out a parsed `!sticky` plan. When the options leave no
      sticky text the model stores the empty string. As in the slash form,
      a set plan is answered with a failure whether or not it was stored. */
  function RunPlan(st: LegacyStickyManager.State, guildId: GuildId, plan: Plan, writeOk: bool): (out: (Reply, LegacyStickyManager.State, seq<Effect>))
    ensures out.0.Removed? ==> writeOk
    ensures !writeOk ==> out.1 == st
    ensures plan.PlanSet? ==> out.0 == SetFailed("unknown error")
    ensures plan.BadSub? ==> out == (Usage, st, [])
    ensures plan.NoPipe? ==> out == (AddUsage, st, [])
    ensures plan.NoText? ==> out == (EmptySticky, st, [])
    ensures plan.PlanSet? && writeOk ==> (
      && plan.channel in out.1.reg
      && out.1.reg[plan.channel].content == plan.text.GetOr("")
      && (plan.cooldown >= 0 ==> out.1.reg[plan.channel].cooldownMs == plan.cooldown * 1000)
      && out.1.reg[plan.channel].includeWarning == plan.warning)
    ensures plan.PlanRemove? && writeOk ==> out.0 == Removed(plan.channel) && plan.channel !in out.1.reg
  {
    match plan
    case BadSub => (Usage, st, [])
    case NoPipe => (AddUsage, st, [])
    case NoText => (EmptySticky, st, [])
    case PlanSet(ch, text, cd, w) =>
      var (ok, st') := LegacyStickyManager.SetSticky(st, guildId, ch, text.GetOr(""), Finite(cd as real), w, writeOk);
      (SetReplyAsWritten(Bool(ok), ch, cd), st', [])
    case PlanRemove(ch) =>
      var (ok, st', effects) := LegacyStickyManager.DisableSticky(st, guildId, ch, writeOk);
      (if ok then Removed(ch) else RemoveFailed, st', effects)
  }

  /** The prefix command: the permission check comes before any parsing. */
  function Prefix(st: LegacyStickyManager.State, perms: Perms, guildId: GuildId, args: seq<string>, rawArgs: string,
                  current: ChannelId, channels: seq<Channel>, writeOk: bool): (out: (Reply, LegacyStickyManager.State, seq<Effect>))
    ensures !HasModPerms(perms) ==> out == (NoPermission, st, [])
    ensures HasModPerms(perms) ==> out == RunPlan(st, guildId, PlanPrefix(args, rawArgs, current, channels), writeOk)
  {
    if !HasModPerms(perms) then (NoPermission, st, [])
    else RunPlan(st, guildId, PlanPrefix(args, rawArgs, current, channels), writeOk)
  }

  // ---------------------------------------------------------------------------
  // Option round trips
  // ---------------------------------------------------------------------------

  lemma TrimmedWord(s: string)
    requires |s| > 0 && !IsSpace(s[0]) && !IsSpace(s[|s| - 1])
    ensures Trim(s) == s
  {
    TrimOfTrimmed(s);
  }

  /** `key=value` with an `=`-free lower-case key and an `=`-free value,
      both without surrounding whitespace, reads back as that key and
      value. */
  lemma KeyValueParts(key: string, value: string)
    requires '=' !in key && '=' !in value && IsTrimmed(key) && IsTrimmed(value)
    requires forall i :: 0 <= i < |key| ==> !IsUpper(key[i])
    ensures OptionKey(key + "=" + value) == key
    ensures OptionValue(key + "=" + value) == Some(value)
  {
    OptionKeyOf(key, value);
    OptionValueOf(key, value);
  }

  lemma OptionKeyOf(key: string, value: string)
    requires '=' !in key && '=' !in value && IsTrimmed(key)
    requires forall i :: 0 <= i < |key| ==> !IsUpper(key[i])
    ensures OptionKey(key + "=" + value) == key
  {
    SplitPair(key, value);
    TrimOfTrimmed(key);
    LowerOfLowercase(key);
  }

  lemma OptionValueOf(key: string, value: string)
    requires '=' !in key && '=' !in value && IsTrimmed(value)
    ensures OptionValue(key + "=" + value) == Some(value)
  {
    SplitPair(key, value);
    TrimOfTrimmed(value);
  }

  lemma SplitPair(key: string, value: string)
    requires '=' !in key && '=' !in value
    ensures Split(key + "=" + value, "=") == [key, value]
  {
    SplitAfterPiece(key, "=", value);
    SplitNoSeparator(value, "=");
  }

  /** `cooldown=<n>` sets the cooldown to n. */
  lemma CooldownOptionRoundTrip(n: nat, cooldown: int, warning: bool)
    ensures ApplyOption("cooldown" + "=" + NatToString(n), cooldown, warning) == (n, warning)
  {
    var d := NatToString(n);
    assert '=' !in d && IsTrimmed(d) by {
      assert forall i :: 0 <= i < |d| ==> IsDigit(d[i]);
    }
    LowerWord("cooldown");
    KeyValueParts("cooldown", d);
    ParseIntOfNat(n);
    ApplyCooldown("cooldown" + "=" + d, n, cooldown, warning);
  }

  lemma ApplyCooldown(part: string, n: nat, cooldown: int, warning: bool)
    requires OptionKey(part) == "cooldown" && OptionValue(part).Some? && ParseInt10(OptionValue(part).value) == Some(n)
    ensures ApplyOption(part, cooldown, warning) == (n, warning)
  {
  }

  /** A word of lower-case letters, such as the option keys and values the
      commands understand, has no `=` and no surrounding whitespace, and is
      its own lower-case form. */
  lemma LowerWord(w: string)
    requires forall i :: 0 <= i < |w| ==> 'a' <= w[i] <= 'z'
    ensures forall i :: 0 <= i < |w| ==> !IsUpper(w[i])
    ensures IsTrimmed(w) && '=' !in w && LowerStr(w) == w
  {
    LowerOfLowercase(w);
  }

  /** `warning=false` turns the warning off, `warning=true` on. */
  lemma WarningOptionRoundTrip(v: string, cooldown: int, warning: bool)
    requires v == "true" || v == "false"
    ensures ApplyOption("warning" + "=" + v, cooldown, warning) == (cooldown, v == "true")
  {
    BoolWord(v);
    LowerWord(v);
    WarningKey(v);
    ApplyWarning("warning" + "=" + v, v, cooldown, warning);
  }

  /** `warning=<v>` names the warning option and carries `v`. */
  lemma WarningKey(v: string)
    requires '=' !in v && IsTrimmed(v)
    ensures OptionKey("warning" + "=" + v) == "warning" && OptionValue("warning" + "=" + v) == Some(v)
  {
    LowerWord("warning");
    KeyValueParts("warning", v);
  }

  lemma BoolWord(v: string)
    requires v == "true" || v == "false"
    ensures forall i :: 0 <= i < |v| ==> 'a' <= v[i] <= 'z'
  {
  }

  lemma ApplyWarning(part: string, v: string, cooldown: int, warning: bool)
    requires OptionKey(part) == "warning" && OptionValue(part) == Some(v)
    requires LowerStr(v) == "true" || LowerStr(v) == "false"
    ensures ApplyOption(part, cooldown, warning) == (cooldown, LowerStr(v) == "true")
  {
  }

  /** `<text>|cooldown=<n>` reads back as that text and cooldown, with the
      warning left on. */
  lemma {:induction false} RemainderRoundTrip(text: string, n: nat)
    requires |text| > 0 && !IsSpace(text[0]) && !IsSpace(text[|text| - 1]) && '|' !in text
    ensures ParseRemainder(text + "|" + ("cooldown" + "=" + NatToString(n))) == (Some(text), n, true)
  {
    var d := NatToString(n);
    var opt := "cooldown" + "=" + d;
    assert '|' !in opt by {
      forall i | 0 <= i < |opt| ensures opt[i] != '|' {
        if i >= 9 { assert opt[i] == d[i - 9] && IsDigit(d[i - 9]); }
      }
    }
    assert opt[0] == 'c' && opt[|opt| - 1] == d[|d| - 1] && IsDigit(d[|d| - 1]);
    TwoPieces(text, opt);
    CooldownOptionRoundTrip(n, 120, true);
    assert ApplyOptions([opt], 120, true) == (n, true);
  }

  /** Text, `|` and one option read back as the text and that option. */
  lemma TwoPieces(text: string, opt: string)
    requires |text| > 0 && !IsSpace(text[0]) && !IsSpace(text[|text| - 1]) && '|' !in text
    requires |opt| > 0 && !IsSpace(opt[0]) && !IsSpace(opt[|opt| - 1]) && '|' !in opt
    ensures RemainderParts(text + "|" + opt) == [text, opt]
    ensures ParseRemainder(text + "|" + opt) == (Some(text), ApplyOptions([opt], 120, true).0, ApplyOptions([opt], 120, true).1)
  {
    SplitAfterPiece(text, "|", opt);
    SplitNoSeparator(opt, "|");
    TrimmedWord(text);
    TrimmedWord(opt);
    assert TrimAll([text, opt]) == [text, opt];
  }

}

=== FILE: sticky_core.dfy ===
/** The part of the sticky-message subsystem that both manager variants
    share word for word: the in-memory config record, loading the registry
    from store rows, the cooldown gate, and the delete-old / send-new /
    remember-id / persist-id repost cycle run from the message hook.

    The registry is a map from channel id to config. Platform calls and store
    writes are not performed here: their outcomes are inputs, and the calls
    the subsystem makes are returned as a list of `Effect`s in call order. */
module StickyCore {
  import opened Wrappers
  import Text

  type ChannelId = string
  type GuildId = string
  type MessageId = string

  /** Cooldown used when a stored row has none or a non-numeric one. */
  const DefaultCooldownMs: int := 120000

  /** One channel's sticky configuration as the registry holds it.
      `lastSentMs` is in memory only; 0 means "never sent". */
  datatype Sticky = Sticky(
    guildId: GuildId,
    content: string,
    cooldownMs: int,
    includeWarning: bool,
    lastMessageId: Option<MessageId>,
    lastSentMs: int)

  type Registry = map<ChannelId, Sticky>

  /** A store column after JavaScript's `Number(...)`: SQL NULL, a number,
      or NaN (text that is not a number). */
  datatype Cell = Null | Num(n: int) | NotANumber

  /** One `sticky_messages` row as read at start-up. */
  datatype Row = Row(
    guildId: GuildId,
    channelId: ChannelId,
    content: string,
    lastMessageId: Option<MessageId>,
    cooldownMs: Cell,
    includeWarning: Cell)

  /** The two variants differ in how the warning wraps the content. */
  datatype Variant = Current | Legacy

  /** How a persisted message id is addressed: by guild and channel when the
      config knows its guild, otherwise by channel alone. */
  datatype StoreKey = ByGuildAndChannel(guildId: GuildId, channelId: ChannelId) | ByChannel(channelId: ChannelId)

  /** Calls made to the platform and the store, in order. */
  datatype Effect =
    | DeleteMessage(channelId: ChannelId, messageId: MessageId)      // fetch + delete, errors swallowed
    | Send(channelId: ChannelId, body: string, suppressMentions: bool)
    | PersistLastId(key: StoreKey, messageId: MessageId)              // failure only logged

  /** What the platform answers during one repost: the id of the sent
      message, or None when `send` threw; and whether the id write worked. */
  datatype Platform = Platform(sent: Option<MessageId>, persistOk: bool)

  // ---------------------------------------------------------------------------
  // Loading
  // ---------------------------------------------------------------------------

  /** `id || null`: an empty id counts as absent. */
  function Truthy(id: Option<MessageId>): (r: Option<MessageId>)
    ensures r.Some? <==> id.Some? && id.value != ""
    ensures r.Some? ==> r == id
  {
    if id.Some? && id.value != "" then id else None
  }

  /** `Number(row.cooldown_ms ?? 120000)`, with NaN replaced by the default. */
  function CooldownOf(c: Cell): int
  {
    match c
    case Null => DefaultCooldownMs
    case Num(n) => n
    case NotANumber => DefaultCooldownMs
  }

  /** `include_warning == null ? true : Number(include_warning) !== 0`;
      NaN is not 0, so it reads as true. */
  function WarningOf(c: Cell): bool
  {
    match c
    case Null => true
    case Num(n) => n != 0
    case NotANumber => true
  }

  /** The registry entry built from one row. */
  function FromRow(r: Row): (s: Sticky)
    ensures s.guildId == r.guildId && s.content == r.content
    ensures s.cooldownMs == (if r.cooldownMs.Num? then r.cooldownMs.n else DefaultCooldownMs)
    ensures s.includeWarning <==> !(r.includeWarning.Num? && r.includeWarning.n == 0)
    ensures s.lastMessageId == Truthy(r.lastMessageId)
    ensures s.lastSentMs == 0
  {
    Sticky(r.guildId, r.content, CooldownOf(r.cooldownMs), WarningOf(r.includeWarning),
           Truthy(r.lastMessageId), 0)
  }

  /** Rows are stored in order, each overwriting any earlier entry for the
      same channel. */
  function LoadRows(reg: Registry, rows: seq<Row>): Registry
    decreases |rows|
  {
    if |rows| == 0 then reg
    else LoadRows(reg[rows[0].channelId := FromRow(rows[0])], rows[1..])
  }

  /** The last row in `rows` for channel `c`, if any. */
  function LastRowFor(rows: seq<Row>, c: ChannelId): (r: Option<Row>)
    ensures r.Some? ==> r.value in rows && r.value.channelId == c
    ensures r.None? <==> forall i :: 0 <= i < |rows| ==> rows[i].channelId != c
    decreases |rows|
  {
    if |rows| == 0 then None
    else if rows[|rows| - 1].channelId == c then Some(rows[|rows| - 1])
    else LastRowFor(rows[..|rows| - 1], c)
  }

  /** Start-up load. `rows` is None when reading the store threw; the
      registry then stays empty and the process carries on. */
  function Initialize(rows: Option<seq<Row>>): Registry
  {
    match rows
    case None => map[]
    case Some(rs) => LoadRows(map[], rs)
  }

  /** After loading, a channel is configured iff it was before or some row
      names it, and its entry is built from the last such row. */
  lemma {:induction false} LoadRowsEntry(reg: Registry, rows: seq<Row>, c: ChannelId)
    ensures c in LoadRows(reg, rows) <==> c in reg || LastRowFor(rows, c).Some?
    ensures LastRowFor(rows, c).Some? ==> LoadRows(reg, rows)[c] == FromRow(LastRowFor(rows, c).value)
    ensures LastRowFor(rows, c).None? && c in reg ==> LoadRows(reg, rows)[c] == reg[c]
    decreases |rows|
  {
    if |rows| > 0 {
      var n := |rows| - 1;
      var init := rows[..n];
      LoadRowsSnoc(reg, init, rows[n]);
      assert init + [rows[n]] == rows;
      LoadRowsEntry(reg, init, c);
    }
  }

  lemma {:induction false} LoadRowsSnoc(reg: Registry, rows: seq<Row>, last: Row)
    ensures LoadRows(reg, rows + [last]) == LoadRows(reg, rows)[last.channelId := FromRow(last)]
    decreases |rows|
  {
    if |rows| > 0 {
      assert (rows + [last])[1..] == rows[1..] + [last];
      LoadRowsSnoc(reg[rows[0].channelId := FromRow(rows[0])], rows[1..], last);
    }
  }

  /** Every entry after a successful start-up load carries the load defaults:
      never sent, so the first qualifying message decides by `now` alone. */
  lemma InitializeEntries(rows: Option<seq<Row>>, c: ChannelId)
    ensures rows.None? ==> Initialize(rows) == map[]
    ensures rows.Some? ==> (c in Initialize(rows) <==> exists i :: 0 <= i < |rows.value| && rows.value[i].channelId == c)
    ensures c in Initialize(rows) ==> Initialize(rows)[c].lastSentMs == 0
  {
    if rows.Some? {
      LoadRowsEntry(map[], rows.value, c);
    }
  }

  // ---------------------------------------------------------------------------
  // Cooldown conversion
  // ---------------------------------------------------------------------------

  /** A JavaScript number as `Number(cooldownSeconds)` produces it. */
  datatype JsNumber = Finite(x: real) | NaN

  /** `Math.max(0, Math.floor(Number(seconds) || 0) * 1000)`: whole seconds
      in milliseconds, never negative; NaN counts as 0. */
  function CooldownMsOf(seconds: JsNumber): (ms: int)
    ensures ms >= 0 && ms % 1000 == 0
    ensures seconds.Finite? && seconds.x >= 0.0 ==>
      (ms as real) <= seconds.x * 1000.0 < (ms + 1000) as real
    ensures seconds.NaN? || seconds.x < 1.0 ==> ms == 0
  {
    var x := if seconds.NaN? then 0.0 else seconds.x;
    var whole := x.Floor * 1000;
    if whole < 0 then 0 else whole
  }

  // ---------------------------------------------------------------------------
  // Cooldown gate
  // ---------------------------------------------------------------------------

  /** `elapsed < cooldownMs` suppresses the repost. */
  predicate ShouldFire(cfg: Sticky, now: int) {
    !(now - cfg.lastSentMs < cfg.cooldownMs)
  }

  /** Inside the cooldown window the gate stays shut; at its end (inclusive)
      and after, it opens. */
  lemma GateWindow(cfg: Sticky, now: int)
    requires cfg.cooldownMs >= 0
    ensures cfg.lastSentMs <= now < cfg.lastSentMs + cfg.cooldownMs ==> !ShouldFire(cfg, now)
    ensures now >= cfg.lastSentMs + cfg.cooldownMs ==> ShouldFire(cfg, now)
  {
  }

  /** With a zero cooldown every qualifying message reposts. */
  lemma ZeroCooldownAlwaysFires(cfg: Sticky, now: int)
    requires cfg.cooldownMs == 0 && now >= cfg.lastSentMs
    ensures ShouldFire(cfg, now)
  {
  }

  // ---------------------------------------------------------------------------
  // Repost cycle
  // ---------------------------------------------------------------------------

  const CurrentFooter: string := "\n\n*This is an automated stickied message.*"
  const LegacyHeader: string := "**__Stickied message:__**\n"

  /** The body sent to the channel: the content, with the automated-message
      footer (current) or header (legacy) exactly when the warning is on. */
  function Compose(v: Variant, cfg: Sticky): (body: string)
    ensures !cfg.includeWarning ==> body == cfg.content
    ensures cfg.includeWarning ==> |body| == |cfg.content| + (if v == Current then |CurrentFooter| else |LegacyHeader|)
    ensures cfg.includeWarning && v == Current ==> body[..|cfg.content|] == cfg.content && body[|cfg.content|..] == CurrentFooter
    ensures cfg.includeWarning && v == Legacy ==> body[..|LegacyHeader|] == LegacyHeader && body[|LegacyHeader|..] == cfg.content
  {
    if !cfg.includeWarning then cfg.content
    else if v == Current then cfg.content + CurrentFooter
    else LegacyHeader + cfg.content
  }

  function KeyFor(channelId: ChannelId, cfg: Sticky): (k: StoreKey)
    ensures k.ByGuildAndChannel? <==> cfg.guildId != ""
    ensures k.channelId == channelId
  {
    if cfg.guildId != "" then ByGuildAndChannel(cfg.guildId, channelId) else ByChannel(channelId)
  }

  datatype RepostResult = RepostResult(cfg: Sticky, effects: seq<Effect>, threw: bool)

  /** `repostSticky`: best-effort delete of the previous post, send the
      composed body with mentions suppressed, then remember and persist the
      new id. Only a failed send makes the cycle throw. */
  function Repost(v: Variant, channelId: ChannelId, cfg: Sticky, p: Platform): RepostResult
  {
    var prev := Truthy(cfg.lastMessageId);
    var deletes := if prev.Some? then [DeleteMessage(channelId, prev.value)] else [];
    var send := Send(channelId, Compose(v, cfg), true);
    match p.sent
    case None => RepostResult(cfg, deletes + [send], true)
    case Some(id) =>
      RepostResult(cfg.(lastMessageId := Some(id)),
                   deletes + [send, PersistLastId(KeyFor(channelId, cfg), id)], false)
  }

  /** An incoming chat message as the sticky hook sees it. */
  datatype Incoming = Incoming(inGuild: bool, channelId: ChannelId, authorIsBot: bool)

  /** `handleMessage`: ignore messages outside guilds, in unconfigured
      channels or from bots; otherwise run the gate, and on firing run the
      repost cycle, stamping `lastSentMs := now` only if it did not throw. */
  function HandleMessage(v: Variant, reg: Registry, m: Incoming, now: int, p: Platform): (Registry, seq<Effect>)
  {
    if !m.inGuild || m.channelId !in reg || m.authorIsBot then (reg, [])
    else
      var cfg := reg[m.channelId];
      if !ShouldFire(cfg, now) then (reg, [])
      else
        var out := Repost(v, m.channelId, cfg, p);
        if out.threw then (reg[m.channelId := out.cfg], out.effects)
        else (reg[m.channelId := out.cfg.(lastSentMs := now)], out.effects)
  }

  /** Does the effect list contain a send? */
  predicate Sends(effects: seq<Effect>) {
    exists i :: 0 <= i < |effects| && effects[i].Send?
  }

  /** The message hook, end to end: which messages are ignored, when the
      cycle fires, what it sends, and how each outcome changes the entry. */
  lemma HandleMessageSpec(v: Variant, reg: Registry, m: Incoming, now: int, p: Platform)
    ensures var (reg', effects) := HandleMessage(v, reg, m, now, p);
      && reg'.Keys == reg.Keys
      && (forall c :: c in reg && c != m.channelId ==> reg'[c] == reg[c])
      // ignored messages change nothing and call nothing
      && (!m.inGuild || m.channelId !in reg || m.authorIsBot ==> reg' == reg && effects == [])
      // otherwise the cycle runs exactly when the gate opens
      && (m.inGuild && m.channelId in reg && !m.authorIsBot ==>
            var cfg := reg[m.channelId];
            && (Sends(effects) <==> ShouldFire(cfg, now))
            && (!ShouldFire(cfg, now) ==> reg' == reg)
            // a failed send leaves the entry untouched
            && (ShouldFire(cfg, now) && p.sent.None? ==> reg' == reg)
            // a successful send records the new id and the time, nothing else
            && (ShouldFire(cfg, now) && p.sent.Some? ==>
                  reg'[m.channelId] == cfg.(lastMessageId := p.sent, lastSentMs := now)))
  {
    var (reg', effects) := HandleMessage(v, reg, m, now, p);
    if m.inGuild && m.channelId in reg && !m.authorIsBot {
      var cfg := reg[m.channelId];
      if ShouldFire(cfg, now) {
        var out := Repost(v, m.channelId, cfg, p);
        var prev := Truthy(cfg.lastMessageId);
        var k := if prev.Some? then 1 else 0;
        assert effects[k].Send?;
        if p.sent.None? {
          assert reg[m.channelId := cfg] == reg;
        }
      }
    }
  }

  /** The calls of one fired cycle, in order: delete the previous post if
      there is one, send the composed body with mentions suppressed, and
      persist the new id under the config's key only after a good send. */
  lemma RepostEffects(v: Variant, channelId: ChannelId, cfg: Sticky, p: Platform)
    ensures var out := Repost(v, channelId, cfg, p);
      var prev := Truthy(cfg.lastMessageId);
      var pre := if prev.Some? then [DeleteMessage(channelId, prev.value)] else [];
      && (out.threw <==> p.sent.None?)
      && (p.sent.None? ==> out.effects == pre + [Send(channelId, Compose(v, cfg), true)] && out.cfg == cfg)
      && (p.sent.Some? ==> out.effects == pre + [Send(channelId, Compose(v, cfg), true),
                                                 PersistLastId(KeyFor(channelId, cfg), p.sent.value)])
  {
  }

  /** Whether the new id reached the store never changes the in-memory
      result: its failure is only logged. */
  lemma PersistFailureIsInvisible(v: Variant, reg: Registry, m: Incoming, now: int, sent: Option<MessageId>)
    ensures HandleMessage(v, reg, m, now, Platform(sent, true)) == HandleMessage(v, reg, m, now, Platform(sent, false))
  {
  }

  /** Cooldown 120000 and a post at time
      `t0`: a message 60000 later does not repost, one 120000 later does. */
  lemma CooldownScenario(v: Variant, reg: Registry, c: ChannelId, t0: int, id: MessageId)
    requires c in reg && reg[c].cooldownMs == 120000 && t0 - reg[c].lastSentMs >= 120000
    ensures var m := Incoming(true, c, false);
      var (r1, e1) := HandleMessage(v, reg, m, t0, Platform(Some(id), true));
      var (r2, e2) := HandleMessage(v, r1, m, t0 + 60000, Platform(Some(id), true));
      var (r3, e3) := HandleMessage(v, r2, m, t0 + 120000, Platform(Some(id), true));
      Sends(e1) && !Sends(e2) && Sends(e3) && r1[c].lastSentMs == t0 && r3[c].lastSentMs == t0 + 120000
  {
    var m := Incoming(true, c, false);
    HandleMessageSpec(v, reg, m, t0, Platform(Some(id), true));
    var (r1, e1) := HandleMessage(v, reg, m, t0, Platform(Some(id), true));
    HandleMessageSpec(v, r1, m, t0 + 60000, Platform(Some(id), true));
    var (r2, e2) := HandleMessage(v, r1, m, t0 + 60000, Platform(Some(id), true));
    HandleMessageSpec(v, r2, m, t0 + 120000, Platform(Some(id), true));
  }

  /** With cooldown 0 the second qualifying
      message first deletes the post the first one made. */
  lemma SecondCycleDeletesFirstPost(v: Variant, reg: Registry, c: ChannelId, now: int, id1: MessageId, id2: MessageId)
    requires c in reg && reg[c].cooldownMs == 0 && now >= reg[c].lastSentMs && id1 != ""
    ensures var m := Incoming(true, c, false);
      var (r1, e1) := HandleMessage(v, reg, m, now, Platform(Some(id1), true));
      var (r2, e2) := HandleMessage(v, r1, m, now, Platform(Some(id2), true));
      |e2| >= 1 && e2[0] == DeleteMessage(c, id1) && r2[c].lastMessageId == Some(id2)
  {
    var m := Incoming(true, c, false);
    HandleMessageSpec(v, reg, m, now, Platform(Some(id1), true));
    var (r1, e1) := HandleMessage(v, reg, m, now, Platform(Some(id1), true));
    HandleMessageSpec(v, r1, m, now, Platform(Some(id2), true));
  }
}

=== FILE: sticky_manager.dfy ===
/** The current sticky manager: `setSticky` / `disableSticky` on top of the
    shared registry. Its store functions live in a database module that is
    not part of this model, so each store call is an input outcome. */
module StickyManager {
  import opened Wrappers
  import opened StickyCore

  /** What `saveStickyMessage` did: reported success, reported failure
      (a falsy result), or threw with a message. */
  datatype SaveOutcome = Saved | NotSaved | SaveThrew(message: string)

  /** `{ ok: true }` or `{ ok: false, error }`. */
  datatype SetResult = SetOk | SetErr(error: string)

  const WriteFailedPrefix: string := "DB_WRITE_FAILED: "

  /** The seconds argument; `None` is an omitted argument, which defaults to
      120. */
  function SecondsOrDefault(seconds: Option<JsNumber>): JsNumber {
    seconds.GetOr(Finite(120.0))
  }

  /** `setSticky`: persist first; only a reported save updates memory, and
      the previous post id survives so the next repost can delete it. */
  function SetSticky(reg: Registry, guildId: GuildId, channelId: ChannelId, content: string,
                     seconds: Option<JsNumber>, includeWarning: bool, save: SaveOutcome): (out: (SetResult, Registry))
    ensures save != Saved ==> out.1 == reg && out.0.SetErr?
    ensures save.NotSaved? ==> out.0.error == WriteFailedPrefix + "see server logs"
    ensures save.SaveThrew? ==> out.0.error == WriteFailedPrefix + save.message
    ensures save == Saved ==> (
      && out.0 == SetOk
      && out.1.Keys == reg.Keys + {channelId}
      && (forall c :: c in reg && c != channelId ==> out.1[c] == reg[c])
      && out.1[channelId].guildId == guildId
      && out.1[channelId].content == content
      && out.1[channelId].cooldownMs == CooldownMsOf(SecondsOrDefault(seconds))
      && out.1[channelId].includeWarning == includeWarning
      && out.1[channelId].lastMessageId == (if channelId in reg then Truthy(reg[channelId].lastMessageId) else None)
      && out.1[channelId].lastSentMs == 0)
  {
    var ms := CooldownMsOf(SecondsOrDefault(seconds));
    match save
    case NotSaved => (SetErr(WriteFailedPrefix + "see server logs"), reg)
    case SaveThrew(m) => (SetErr(WriteFailedPrefix + m), reg)
    case Saved =>
      var prev := if channelId in reg then Truthy(reg[channelId].lastMessageId) else None;
      (SetOk, reg[channelId := Sticky(guildId, content, ms, includeWarning, prev, 0)])
  }

  /** What `deleteStickyMessage` did: returned (truthy or falsy), or threw. */
  datatype DeleteOutcome = DeleteReturned(deleted: bool) | DeleteThrew

  /** `disableSticky`: a falsy store result is only logged; unless the store
      call throws, the last post is deleted best-effort and the entry goes. */
  function DisableSticky(reg: Registry, guildId: GuildId, channelId: ChannelId, del: DeleteOutcome): (out: (bool, Registry, seq<Effect>))
    ensures out.0 <==> del.DeleteReturned?
    ensures !out.0 ==> out.1 == reg && out.2 == []
    ensures out.0 ==> out.1 == reg - {channelId}
    ensures out.0 && channelId in reg && Truthy(reg[channelId].lastMessageId).Some? ==>
      out.2 == [DeleteMessage(channelId, reg[channelId].lastMessageId.value)]
    ensures channelId !in reg || Truthy(reg[channelId].lastMessageId).None? ==> out.2 == []
  {
    match del
    case DeleteThrew => (false, reg, [])
    case DeleteReturned(_) =>
      var prev := if channelId in reg then Truthy(reg[channelId].lastMessageId) else None;
      var effects := if prev.Some? then [DeleteMessage(channelId, prev.value)] else [];
      (true, reg - {channelId}, effects)
  }

  /** Re-configuring a channel keeps its previous post: the first message
      past the new cooldown deletes that post before sending the new body. */
  lemma ResetKeepsPreviousPost(reg: Registry, guildId: GuildId, c: ChannelId, content: string,
                               seconds: Option<JsNumber>, w: bool, now: int, p: Platform)
    requires c in reg && Truthy(reg[c].lastMessageId).Some?
    requires now >= CooldownMsOf(SecondsOrDefault(seconds))
    ensures var (_, reg1) := SetSticky(reg, guildId, c, content, seconds, w, Saved);
      var (reg2, effects) := HandleMessage(Current, reg1, Incoming(true, c, false), now, p);
      |effects| >= 2
      && effects[0] == DeleteMessage(c, reg[c].lastMessageId.value)
      && effects[1] == Send(c, Compose(Current, reg1[c]), true)
      && reg1[c].content == content
  {
  }

  /** Disabling then messaging the channel does nothing: the channel is no
      longer configured. */
  lemma DisableStopsReposts(reg: Registry, guildId: GuildId, c: ChannelId, del: DeleteOutcome, now: int, p: Platform)
    requires del.DeleteReturned?
    ensures var (_, reg1, _) := DisableSticky(reg, guildId, c, del);
      HandleMessage(Current, reg1, Incoming(true, c, false), now, p) == (reg1, [])
  {
  }
}

/** The legacy sticky manager, which talks SQL to a `sticky_messages`
    table keyed by (guild_id, channel_id). The table is modelled as a map,
    so "one row per key" holds by construction. */
module LegacyStickyManager {
  import opened Wrappers
  import opened StickyCore

  datatype StoredRow = StoredRow(content: string, lastMessageId: Option<MessageId>, cooldownMs: int, includeWarning: int)

  type Table = map<(GuildId, ChannelId), StoredRow>

  datatype State = State(reg: Registry, table: Table)

  /** The upsert: a new key gets a row whose last id is NULL; an existing
      row has content, cooldown and warning replaced and keeps its last id. */
  function Upsert(t: Table, g: GuildId, c: ChannelId, content: string, ms: int, w: bool): (t': Table)
    ensures t'.Keys == t.Keys + {(g, c)}
    ensures forall k :: k in t && k != (g, c) ==> t'[k] == t[k]
    ensures t'[(g, c)].content == content && t'[(g, c)].cooldownMs == ms
    ensures t'[(g, c)].includeWarning == (if w then 1 else 0)
    ensures t'[(g, c)].lastMessageId == (if (g, c) in t then t[(g, c)].lastMessageId else None)
  {
    var flag := if w then 1 else 0;
    if (g, c) in t then t[(g, c) := t[(g, c)].(content := content, cooldownMs := ms, includeWarning := flag)]
    else t[(g, c) := StoredRow(content, None, ms, flag)]
  }

  /** `setSticky`: the upsert runs first; if it throws the result is false
      and nothing changes, otherwise memory is updated as in the current
      manager and the result is true. */
  function SetSticky(st: State, g: GuildId, c: ChannelId, content: string,
                     seconds: JsNumber, w: bool, writeOk: bool): (out: (bool, State))
    ensures out.0 == writeOk
    ensures !writeOk ==> out.1 == st
    ensures writeOk ==> (
      && out.1.table == Upsert(st.table, g, c, content, CooldownMsOf(seconds), w)
      && out.1.reg.Keys == st.reg.Keys + {c}
      && (forall k :: k in st.reg && k != c ==> out.1.reg[k] == st.reg[k])
      && out.1.reg[c] == Sticky(g, content, CooldownMsOf(seconds), w,
                                if c in st.reg then Truthy(st.reg[c].lastMessageId) else None, 0))
  {
    if !writeOk then (false, st)
    else
      var ms := CooldownMsOf(seconds);
      var prev := if c in st.reg then Truthy(st.reg[c].lastMessageId) else None;
      (true, State(st.reg[c := Sticky(g, content, ms, w, prev, 0)], Upsert(st.table, g, c, content, ms, w)))
  }

  /** `disableSticky`: the DELETE runs first; if it throws the result is
      false and neither the entry nor the platform is touched. */
  function DisableSticky(st: State, g: GuildId, c: ChannelId, writeOk: bool): (out: (bool, State, seq<Effect>))
    ensures out.0 == writeOk
    ensures !writeOk ==> out.1 == st && out.2 == []
    ensures writeOk ==> out.1.reg == st.reg - {c} && out.1.table == st.table - {(g, c)}
    ensures writeOk && c in st.reg && Truthy(st.reg[c].lastMessageId).Some? ==>
      out.2 == [DeleteMessage(c, st.reg[c].lastMessageId.value)]
    ensures c !in st.reg || Truthy(st.reg[c].lastMessageId).None? ==> out.2 == []
  {
    if !writeOk then (false, st, [])
    else
      var prev := if c in st.reg then Truthy(st.reg[c].lastMessageId) else None;
      var effects := if prev.Some? then [DeleteMessage(c, prev.value)] else [];
      (true, State(st.reg - {c}, st.table - {(g, c)}), effects)
  }

  /** The `UPDATE ... SET last_message_id` statement: by key, or every row
      of the channel when the config has no guild. */
  function ApplyPersist(t: Table, key: StoreKey, id: MessageId): (t': Table)
    ensures t'.Keys == t.Keys
    ensures forall k :: k in t ==>
      t'[k] == (if k.1 == key.channelId && (key.ByChannel? || k.0 == key.guildId)
                then t[k].(lastMessageId := Some(id)) else t[k])
  {
    map k | k in t :: if k.1 == key.channelId && (key.ByChannel? || k.0 == key.guildId)
                      then t[k].(lastMessageId := Some(id)) else t[k]
  }

  /** `handleMessage` with the id write applied to the table when it works. */
  function HandleMessage(st: State, m: Incoming, now: int, p: Platform): (out: (State, seq<Effect>))
    ensures out.0.reg == StickyCore.HandleMessage(Legacy, st.reg, m, now, p).0
    ensures out.1 == StickyCore.HandleMessage(Legacy, st.reg, m, now, p).1
    ensures out.0.table.Keys == st.table.Keys
  {
    var (reg', effects) := StickyCore.HandleMessage(Legacy, st.reg, m, now, p);
    var table' := if p.persistOk && |effects| > 0 && effects[|effects| - 1].PersistLastId?
                  then ApplyPersist(st.table, effects[|effects| - 1].key, effects[|effects| - 1].messageId)
                  else st.table;
    (State(reg', table'), effects)
  }

  /** Memory agrees with the table: every configured channel has its row,
      with the same content, cooldown and warning flag. */
  ghost predicate Consistent(st: State) {
    forall c :: c in st.reg ==>
      var k := (st.reg[c].guildId, c);
      && k in st.table
      && st.table[k].content == st.reg[c].content
      && st.table[k].cooldownMs == st.reg[c].cooldownMs
      && st.table[k].includeWarning == (if st.reg[c].includeWarning then 1 else 0)
  }

  /** Every operation keeps memory and table in agreement. */
  lemma SetPreservesConsistent(st: State, g: GuildId, c: ChannelId, content: string, seconds: JsNumber, w: bool, writeOk: bool)
    requires Consistent(st)
    ensures Consistent(SetSticky(st, g, c, content, seconds, w, writeOk).1)
  {
    var st' := SetSticky(st, g, c, content, seconds, w, writeOk).1;
    forall c' | c' in st'.reg
      ensures (st'.reg[c'].guildId, c') in st'.table
    {
      if c' != c {
        assert (st.reg[c'].guildId, c') in st.table;
      }
    }
  }

  lemma DisablePreservesConsistent(st: State, g: GuildId, c: ChannelId, writeOk: bool)
    requires Consistent(st)
    ensures Consistent(DisableSticky(st, g, c, writeOk).1)
  {
  }

  lemma HandleMessagePreservesConsistent(st: State, m: Incoming, now: int, p: Platform)
    requires Consistent(st)
    ensures Consistent(HandleMessage(st, m, now, p).0)
  {
    HandleMessageSpec(Legacy, st.reg, m, now, p);
    var st' := HandleMessage(st, m, now, p).0;
    forall c | c in st'.reg
      ensures (st'.reg[c].guildId, c) in st'.table
    {
      assert st'.reg[c].guildId == st.reg[c].guildId;
    }
  }

  /** Setting twice for the same key leaves one row holding the second
      content and the last id the first row had. */
  lemma SetTwiceSecondWins(st: State, g: GuildId, c: ChannelId, a: string, b: string, s: JsNumber, w: bool)
    ensures var st1 := SetSticky(st, g, c, a, s, w, true).1;
      var st2 := SetSticky(st1, g, c, b, s, w, true).1;
      && st2.table.Keys == st.table.Keys + {(g, c)}
      && st2.table[(g, c)].content == b
      && st2.table[(g, c)].lastMessageId == (if (g, c) in st.table then st.table[(g, c)].lastMessageId else None)
      && st2.reg[c].content == b
  {
  }

  /** A successful repost with a working store records the new id in the
      configured channel's row. */
  lemma RepostPersistsId(st: State, m: Incoming, now: int, id: MessageId)
    requires Consistent(st)
    requires m.inGuild && m.channelId in st.reg && !m.authorIsBot && ShouldFire(st.reg[m.channelId], now)
    ensures var (st', _) := HandleMessage(st, m, now, Platform(Some(id), true));
      var k := (st.reg[m.channelId].guildId, m.channelId);
      k in st'.table && st'.table[k].lastMessageId == Some(id) && st'.reg[m.channelId].lastMessageId == Some(id)
  {
    var cfg := st.reg[m.channelId];
    var p := Platform(Some(id), true);
    HandleMessageSpec(Legacy, st.reg, m, now, p);
    RepostEffects(Legacy, m.channelId, cfg, p);
    var (reg', effects) := StickyCore.HandleMessage(Legacy, st.reg, m, now, p);
    assert effects[|effects| - 1] == PersistLastId(KeyFor(m.channelId, cfg), id);
  }
}

=== FILE: text.dfy ===
/** String primitives with the meaning JavaScript gives them on ASCII text:
    `trim`, `toLowerCase`, `includes`, `indexOf`, `split`, `join`, `replace`
    with a string pattern, `parseInt` and number-to-string conversion. */
module Text {
  import opened Wrappers

  // ---------------------------------------------------------------------------
  // Characters
  // ---------------------------------------------------------------------------

  /** ASCII whitespace as matched by `\s` and removed by `trim`. */
  predicate IsSpace(c: char) {
    c == ' ' || c == '\t' || c == '\n' || c == '\r' || c == 11 as char || c == 12 as char
  }

  predicate IsDigit(c: char) {
    '0' <= c <= '9'
  }

  predicate IsUpper(c: char) {
    'A' <= c <= 'Z'
  }

  /** `toLowerCase` on one ASCII character. */
  function Lower(c: char): (r: char)
    ensures !IsUpper(r)
    ensures IsUpper(c) ==> r as int == c as int + 32
    ensures !IsUpper(c) ==> r == c
  {
    if IsUpper(c) then (c as int + 32) as char else c
  }

  function LowerStr(s: string): (r: string)
    ensures |r| == |s|
    ensures forall i :: 0 <= i < |s| ==> r[i] == Lower(s[i])
  {
    if |s| == 0 then "" else [Lower(s[0])] + LowerStr(s[1..])
  }

  lemma LowerStrIdempotent(s: string)
    ensures LowerStr(LowerStr(s)) == LowerStr(s)
  {
  }

  /** Text without upper-case letters is its own lower-case form. */
  lemma LowerOfLowercase(s: string)
    requires forall i :: 0 <= i < |s| ==> !IsUpper(s[i])
    ensures LowerStr(s) == s
  {
  }

  // ---------------------------------------------------------------------------
  // Trimming
  // ---------------------------------------------------------------------------

  predicate AllSpace(s: string) {
    forall i :: 0 <= i < |s| ==> IsSpace(s[i])
  }

  /** Drops the maximal whitespace prefix. */
  function TrimStart(s: string): (r: string)
    ensures |r| <= |s| && r == s[|s| - |r|..]
    ensures AllSpace(s[..|s| - |r|])
    ensures |r| == 0 || !IsSpace(r[0])
  {
    if |s| > 0 && IsSpace(s[0]) then TrimStart(s[1..]) else s
  }

  /** Drops the maximal whitespace suffix. */
  function TrimEnd(s: string): (r: string)
    ensures |r| <= |s| && r == s[..|r|]
    ensures AllSpace(s[|r|..])
    ensures |r| == 0 || !IsSpace(r[|r| - 1])
  {
    if |s| > 0 && IsSpace(s[|s| - 1]) then
      var init := s[..|s| - 1];
      var r := TrimEnd(init);
      assert init[..|r|] == s[..|r|];
      assert forall i :: |r| <= i < |s| - 1 ==> s[i] == init[i];
      r
    else s
  }

  /** `String.prototype.trim`. */
  function Trim(s: string): (r: string)
    ensures |r| <= |s|
    ensures |r| == 0 || (!IsSpace(r[0]) && !IsSpace(r[|r| - 1]))
  {
    TrimEnd(TrimStart(s))
  }

  predicate IsTrimmed(s: string) {
    |s| == 0 || (!IsSpace(s[0]) && !IsSpace(s[|s| - 1]))
  }

  lemma TrimOfTrimmed(s: string)
    requires IsTrimmed(s)
    ensures Trim(s) == s
  {
  }

  lemma TrimEmptyIffAllSpace(s: string)
    ensures Trim(s) == "" <==> AllSpace(s)
  {
    var t := TrimStart(s);
    assert s == s[..|s| - |t|] + t;
    if Trim(s) == "" {
      assert AllSpace(t[|TrimEnd(t)|..]);
      assert t[|TrimEnd(t)|..] == t;
    }
  }

  // ---------------------------------------------------------------------------
  // Searching
  // ---------------------------------------------------------------------------

  /** `p` occurs in `s` at index `i`. */
  predicate At(s: string, p: string, i: int) {
    0 <= i && i + |p| <= |s| && s[i..i + |p|] == p
  }

  /** `String.prototype.includes`. */
  predicate Contains(s: string, p: string) {
    exists i :: 0 <= i <= |s| && At(s, p, i)
  }

  function IndexFrom(s: string, p: string, k: nat): (r: int)
    decreases |s| - k
    ensures r == -1 || (k <= r && At(s, p, r))
    ensures r == -1 ==> forall i :: k <= i ==> !At(s, p, i)
    ensures r >= 0 ==> forall i :: k <= i < r ==> !At(s, p, i)
  {
    if k + |p| > |s| then -1
    else if s[k..k + |p|] == p then k
    else IndexFrom(s, p, k + 1)
  }

  /** `String.prototype.indexOf`: the first occurrence, or -1. */
  function IndexOf(s: string, p: string): (r: int)
    ensures r == -1 <==> !Contains(s, p)
    ensures r >= 0 ==> At(s, p, r) && forall i :: 0 <= i < r ==> !At(s, p, i)
  {
    IndexFrom(s, p, 0)
  }

  /** `String.prototype.replace` with a string pattern: only the first
      occurrence is replaced; without one the string is unchanged. */
  function ReplaceFirst(s: string, pat: string, rep: string): (r: string)
    ensures !Contains(s, pat) ==> r == s
    ensures Contains(s, pat) ==>
      exists i :: At(s, pat, i) && (forall j :: 0 <= j < i ==> !At(s, pat, j)) &&
                  r == s[..i] + rep + s[i + |pat|..]
  {
    var i := IndexOf(s, pat);
    if i < 0 then s else s[..i] + rep + s[i + |pat|..]
  }

  // ---------------------------------------------------------------------------
  // Splitting and joining
  // ---------------------------------------------------------------------------

  /** `String.prototype.split` with a non-empty string separator. */
  function Split(s: string, sep: string): (r: seq<string>)
    requires |sep| > 0
    ensures |r| >= 1
    decreases |s|
  {
    if sep <= s then [""] + Split(s[|sep|..], sep)
    else if |s| == 0 then [""]
    else
      var rest := Split(s[1..], sep);
      [[s[0]] + rest[0]] + rest[1..]
  }

  /** `s.slice(n)` for a non-negative start: past the end gives "". */
  function SliceFrom(s: string, n: nat): (r: string)
    ensures n <= |s| ==> r == s[n..]
    ensures n >= |s| ==> r == ""
  {
    if n <= |s| then s[n..] else ""
  }

  /** JavaScript strings are sequences of UTF-16 code units: a character
      above U+FFFF takes two of them (a surrogate pair). */
  function Units(c: char): nat {
    if c as int >= 0x10000 then 2 else 1
  }

  /** `s.length` in JavaScript. */
  function Utf16Length(s: string): (n: nat)
    ensures n >= |s|
  {
    if |s| == 0 then 0 else Utf16Length(s[..|s| - 1]) + Units(s[|s| - 1])
  }

  /** Without characters above U+FFFF every character is one code unit. */
  lemma {:induction false} Utf16LengthOfBmp(s: string)
    requires forall i :: 0 <= i < |s| ==> s[i] as int < 0x10000
    ensures Utf16Length(s) == |s|
    decreases |s|
  {
    if |s| > 0 {
      var init := s[..|s| - 1];
      assert forall i :: 0 <= i < |init| ==> init[i] == s[i];
      Utf16LengthOfBmp(init);
    }
  }

  /** A prefix has no more code units than the whole. */
  lemma {:induction false} Utf16LengthPrefix(s: string, k: nat)
    requires k <= |s|
    ensures Utf16Length(s[..k]) <= Utf16Length(s)
    decreases |s|
  {
    if k < |s| {
      var t := s[..|s| - 1];
      assert t[..k] == s[..k];
      Utf16LengthPrefix(t, k);
    } else {
      assert s[..k] == s;
    }
  }

  /** The most characters of `s`, from index `k` on, whose code units fit
      in `n`. */
  function CutFrom(s: string, n: nat, k: nat): (m: nat)
    requires k <= |s| && Utf16Length(s[..k]) <= n
    ensures k <= m <= |s|
    ensures Utf16Length(s[..m]) <= n
    ensures m < |s| ==> Utf16Length(s[..m + 1]) > n
    decreases |s| - k
  {
    if k == |s| || Utf16Length(s[..k + 1]) > n then k else CutFrom(s, n, k + 1)
  }

  /** How many characters `s.substring(0, n)` keeps: all whose code units
      fit in the first `n`. A cut that would split a surrogate pair stops
      before the pair. */
  function Utf16Cut(s: string, n: nat): (m: nat)
    ensures m <= |s|
    ensures Utf16Length(s[..m]) <= n
    ensures m < |s| ==> Utf16Length(s[..m + 1]) > n
    ensures Utf16Length(s) <= n <==> m == |s|
  {
    assert s[..|s|] == s;
    var m := CutFrom(s, n, 0);
    assert m < |s| ==> Utf16Length(s[..m + 1]) <= Utf16Length(s) by {
      if m < |s| {
        Utf16LengthPrefix(s, m + 1);
      }
    }
    m
  }

  /** For text without characters above U+FFFF the cut is a plain prefix. */
  lemma {:induction false} Utf16CutOfBmp(s: string, n: nat)
    requires forall i :: 0 <= i < |s| ==> s[i] as int < 0x10000
    ensures Utf16Cut(s, n) == if |s| <= n then |s| else n
  {
    var m := Utf16Cut(s, n);
    assert forall i :: 0 <= i < |s[..m]| ==> s[..m][i] == s[i];
    Utf16LengthOfBmp(s[..m]);
    Utf16LengthOfBmp(s);
    if m < |s| {
      assert forall i :: 0 <= i < |s[..m + 1]| ==> s[..m + 1][i] == s[i];
      Utf16LengthOfBmp(s[..m + 1]);
    }
  }

  /** `parts.map(p => p.trim())`. */
  function TrimAll(parts: seq<string>): (r: seq<string>)
    ensures |r| == |parts|
    ensures forall i :: 0 <= i < |r| ==> r[i] == Trim(parts[i])
  {
    if |parts| == 0 then [] else [Trim(parts[0])] + TrimAll(parts[1..])
  }

  /** `parts.filter(Boolean)`: drops the empty strings, keeping order. */
  function NonEmpty(parts: seq<string>): (r: seq<string>)
    ensures |r| <= |parts|
    ensures forall i :: 0 <= i < |r| ==> r[i] != ""
    ensures forall x :: x in r <==> x in parts && x != ""
    ensures (forall i :: 0 <= i < |parts| ==> parts[i] != "") ==> r == parts
  {
    if |parts| == 0 then []
    else if parts[0] == "" then NonEmpty(parts[1..])
    else [parts[0]] + NonEmpty(parts[1..])
  }

  /** `Array.prototype.join` with a separator. */
  function Join(parts: seq<string>, sep: string): string
  {
    if |parts| == 0 then ""
    else if |parts| == 1 then parts[0]
    else parts[0] + sep + Join(parts[1..], sep)
  }

  /** Text that does not hold the separator's first character is one
      piece. */
  lemma {:induction false} SplitNoSeparator(s: string, sep: string)
    requires |sep| > 0 && sep[0] !in s
    ensures Split(s, sep) == [s]
    decreases |s|
  {
    if |s| > 0 {
      assert s[0] != sep[0];
      SplitNoSeparator(s[1..], sep);
      assert [s[0]] + s[1..] == s;
    }
  }

  lemma {:induction false} SplitAfterPiece(x: string, sep: string, y: string)
    requires |sep| > 0 && sep[0] !in x
    ensures Split(x + sep + y, sep) == [x] + Split(y, sep)
    decreases |x|
  {
    var s := x + sep + y;
    if |x| == 0 {
      assert s == sep + y;
      assert s[|sep|..] == y;
    } else {
      assert s[0] == x[0] && s[0] != sep[0];
      assert !(sep <= s);
      assert s[1..] == x[1..] + sep + y;
      SplitAfterPiece(x[1..], sep, y);
      var rest := Split(s[1..], sep);
      assert rest[0] == x[1..] && rest[1..] == Split(y, sep);
      assert Split(s, sep) == [[s[0]] + rest[0]] + rest[1..];
      assert [x[0]] + x[1..] == x;
    }
  }

  /** Splitting a join gives the parts back when no part holds the
      separator's first character. */
  lemma {:induction false} SplitJoin(parts: seq<string>, sep: string)
    requires |parts| >= 1 && |sep| > 0
    requires forall i :: 0 <= i < |parts| ==> sep[0] !in parts[i]
    ensures Split(Join(parts, sep), sep) == parts
    decreases |parts|
  {
    if |parts| == 1 {
      SplitNoSeparator(parts[0], sep);
    } else {
      SplitJoin(parts[1..], sep);
      SplitAfterPiece(parts[0], sep, Join(parts[1..], sep));
      assert [parts[0]] + parts[1..] == parts;
    }
  }

  lemma JoinCons(p: string, rest: seq<string>, sep: string)
    requires |rest| >= 1
    ensures Join([p] + rest, sep) == p + sep + Join(rest, sep)
  {
    assert ([p] + rest)[1..] == rest;
  }

  /** Joining the pieces of a split with the same separator gives the text
      back. */
  lemma {:induction false} JoinSplit(s: string, d: char)
    ensures Join(Split(s, [d]), [d]) == s
    decreases |s|
  {
    if [d] <= s {
      JoinSplit(s[1..], d);
      JoinCons("", Split(s[1..], [d]), [d]);
      assert s == [d] + s[1..];
    } else if |s| > 0 {
      var rest := Split(s[1..], [d]);
      JoinSplit(s[1..], d);
      assert s == [s[0]] + s[1..];
      if |rest| > 1 {
        assert rest == [rest[0]] + rest[1..];
        JoinCons(rest[0], rest[1..], [d]);
        JoinCons([s[0]] + rest[0], rest[1..], [d]);
      }
    }
  }

  /** No piece of a split holds the separator. */
  lemma {:induction false} SplitPiecesFree(s: string, d: char)
    ensures forall i :: 0 <= i < |Split(s, [d])| ==> d !in Split(s, [d])[i]
    decreases |s|
  {
    var r := Split(s, [d]);
    if [d] <= s {
      SplitPiecesFree(s[1..], d);
      assert forall i :: 1 <= i < |r| ==> r[i] == Split(s[1..], [d])[i - 1];
    } else if |s| > 0 {
      var rest := Split(s[1..], [d]);
      SplitPiecesFree(s[1..], d);
      assert s[0] != d;
      assert forall i :: 1 <= i < |r| ==> r[i] == rest[i];
    }
  }

  /** The first piece of a split is the text before the first separator:
      the whole string exactly when the separator does not occur. */
  lemma {:induction false} SplitFirstPiece(s: string, d: char)
    ensures Split(s, [d])[0] <= s && d !in Split(s, [d])[0]
    ensures d in s ==> |Split(s, [d])[0]| < |s| && s[|Split(s, [d])[0]|] == d
    ensures d !in s ==> Split(s, [d])[0] == s
    decreases |s|
  {
    if [d] <= s {
    } else if |s| > 0 {
      SplitFirstPiece(s[1..], d);
      assert s == [s[0]] + s[1..];
    }
  }

  /** `s.split(/\s+/)`: pieces between maximal whitespace runs. A leading or
      trailing run yields an empty first or last piece, and "" yields [""]. */
  function SplitWs(s: string): (r: seq<string>)
    ensures |r| >= 1
    ensures forall i :: 0 <= i < |r| ==> forall j :: 0 <= j < |r[i]| ==> !IsSpace(r[i][j])
    ensures r[0] <= s
    ensures |r[0]| < |s| ==> IsSpace(s[|r[0]|])
    decreases |s|
  {
    if |s| == 0 then [""]
    else if IsSpace(s[0]) then [""] + SplitWs(TrimStart(s))
    else
      var rest := SplitWs(s[1..]);
      [[s[0]] + rest[0]] + rest[1..]
  }

  // ---------------------------------------------------------------------------
  // Numbers
  // ---------------------------------------------------------------------------

  predicate AllDigits(s: string) {
    forall i :: 0 <= i < |s| ==> IsDigit(s[i])
  }

  function DigitValue(c: char): nat
    requires IsDigit(c)
  {
    c as int - '0' as int
  }

  function DigitChar(d: nat): (c: char)
    requires d < 10
    ensures IsDigit(c) && DigitValue(c) == d
  {
    ('0' as int + d) as char
  }

  /** Decimal value of a digit string ("" is 0). */
  function DigitsValue(s: string): nat
    requires AllDigits(s)
  {
    if |s| == 0 then 0 else DigitsValue(s[..|s| - 1]) * 10 + DigitValue(s[|s| - 1])
  }

  /** `String(n)` for a non-negative integer: shortest decimal, no sign. */
  function NatToString(n: nat): (r: string)
    ensures |r| >= 1 && AllDigits(r)
    ensures |r| > 1 ==> r[0] != '0'
  {
    if n < 10 then [DigitChar(n)] else NatToString(n / 10) + [DigitChar(n % 10)]
  }

  lemma {:induction false} NatToStringRoundTrip(n: nat)
    ensures DigitsValue(NatToString(n)) == n
  {
    if n >= 10 {
      NatToStringRoundTrip(n / 10);
      var s := NatToString(n);
      assert s[..|s| - 1] == NatToString(n / 10);
    }
  }

  /** Length of the maximal prefix of decimal digits. */
  function DigitPrefix(s: string): (k: nat)
    ensures k <= |s| && AllDigits(s[..k])
    ensures k < |s| ==> !IsDigit(s[k])
  {
    if |s| > 0 && IsDigit(s[0]) then
      var k := 1 + DigitPrefix(s[1..]);
      assert s[..k] == [s[0]] + s[1..][..k - 1];
      k
    else 0
  }

  predicate IsHexDigit(c: char) {
    IsDigit(c) || 'a' <= c <= 'f' || 'A' <= c <= 'F'
  }

  function HexDigitValue(c: char): nat
    requires IsHexDigit(c)
  {
    if IsDigit(c) then DigitValue(c)
    else if 'a' <= c <= 'f' then c as int - 'a' as int + 10
    else c as int - 'A' as int + 10
  }

  function HexPrefix(s: string): (k: nat)
    ensures k <= |s|
    ensures forall i :: 0 <= i < k ==> IsHexDigit(s[i])
  {
    if |s| > 0 && IsHexDigit(s[0]) then 1 + HexPrefix(s[1..]) else 0
  }

  function HexValue(s: string): nat
    requires forall i :: 0 <= i < |s| ==> IsHexDigit(s[i])
  {
    if |s| == 0 then 0 else HexValue(s[..|s| - 1]) * 16 + HexDigitValue(s[|s| - 1])
  }

  /** Splits an optional leading sign off (after leading whitespace). */
  function SignAndBody(s: string): (bool, string)
  {
    var t := TrimStart(s);
    if |t| > 0 && t[0] == '-' then (true, t[1..])
    else if |t| > 0 && t[0] == '+' then (false, t[1..])
    else (false, t)
  }

  /** `parseInt(s, 10)`: leading whitespace, an optional sign, then the
      longest run of decimal digits; None (NaN) when there is no digit. */
  function ParseInt10(s: string): Option<int>
  {
    var (neg, body) := SignAndBody(s);
    var k := DigitPrefix(body);
    if k == 0 then None
    else
      var v: int := DigitsValue(body[..k]);
      Some(if neg then -v else v)
  }

  /** `parseInt(s)` without a radix: as `ParseInt10`, except that a body
      starting with "0x" or "0X" is read in hexadecimal. */
  function ParseInt(s: string): Option<int>
  {
    var (neg, body) := SignAndBody(s);
    if |body| >= 2 && body[0] == '0' && (body[1] == 'x' || body[1] == 'X') then
      var hex := body[2..];
      var k := HexPrefix(hex);
      if k == 0 then None
      else
        var v: int := HexValue(hex[..k]);
        Some(if neg then -v else v)
    else ParseInt10(s)
  }

  /** A non-empty digit string parses to its decimal value, in both
      `parseInt` forms, as long as it is not a "0x" prefix. */
  lemma ParseIntOfDigits(s: string)
    requires |s| > 0 && AllDigits(s)
    ensures ParseInt10(s) == Some(DigitsValue(s))
    ensures ParseInt(s) == Some(DigitsValue(s))
  {
    assert !IsSpace(s[0]) && s[0] != '-' && s[0] != '+';
    assert TrimStart(s) == s;
    assert SignAndBody(s) == (false, s);
    var k := DigitPrefix(s);
    assert s[..k] == s;
    assert !(|s| >= 2 && s[0] == '0' && (s[1] == 'x' || s[1] == 'X'));
  }

  /** `parseInt(String(n)) == n` for every non-negative integer. */
  lemma ParseIntOfNat(n: nat)
    ensures ParseInt(NatToString(n)) == Some(n)
    ensures ParseInt10(NatToString(n)) == Some(n)
  {
    NatToStringRoundTrip(n);
    ParseIntOfDigits(NatToString(n));
  }
}

=== FILE: themes.dfy ===
/** The theme browser: themes filtered by author and name, five per page,
    link names escaped, and theme URLs compared after lower-casing and
    dropping the scheme and a trailing slash. */
module Themes {
  import opened Wrappers
  import opened Text
  import Catalog

  datatype Theme = Theme(name: string, version: string, author: string, url: string)

  /** One entry of the theme list as fetched; a missing field is `None`. */
  datatype ThemeEntry = ThemeEntry(name: Option<string>, url: Option<string>,
                                   version: Option<string>, author: Option<string>)

  predicate Listed(e: ThemeEntry) {
    Catalog.Active(e.name) && Catalog.Active(e.url)
  }

  /** The fetched entry as a theme: the version defaults to empty and the
      author to "Unknown", so every theme has an author to filter on. */
  function ToTheme(e: ThemeEntry): (t: Theme)
    requires Listed(e)
    ensures t.name == e.name.value && t.url == e.url.value
    ensures t.author != ""
    ensures Catalog.Active(e.author) ==> t.author == e.author.value
    ensures !Catalog.Active(e.author) ==> t.author == "Unknown"
  {
    Theme(e.name.value, Catalog.OrEmpty(e.version),
          if Catalog.Active(e.author) then e.author.value else "Unknown", e.url.value)
  }

  /** Entries without a name or a URL are skipped; the rest keep their order. */
  function FromEntries(es: seq<ThemeEntry>): (ts: seq<Theme>)
    ensures |ts| == |Catalog.Filter(es, Listed)|
    ensures forall i :: 0 <= i < |ts| ==> Listed(Catalog.Filter(es, Listed)[i]) && ts[i] == ToTheme(Catalog.Filter(es, Listed)[i])
  {
    var kept := Catalog.Filter(es, Listed);
    seq(|kept|, i requires 0 <= i < |kept| => ToTheme(kept[i]))
  }

  // ---------------------------------------------------------------------------
  // Filters
  // ---------------------------------------------------------------------------

  predicate AuthorOk(t: Theme, author: Option<string>) {
    !Catalog.Active(author) || Catalog.Mentions(t.author, author.value)
  }

  predicate NameOk(t: Theme, search: Option<string>) {
    !Catalog.Active(search) || Catalog.Mentions(t.name, search.value)
  }

  /** `filterThemes`: first by author, then by name. */
  function FilterThemes(ts: seq<Theme>, search: Option<string>, author: Option<string>): (r: seq<Theme>)
    ensures Catalog.IsSubsequence(r, ts)
    ensures forall t :: t in r <==> t in ts && AuthorOk(t, author) && NameOk(t, search)
    ensures forall t :: multiset(r)[t] == if AuthorOk(t, author) && NameOk(t, search) then multiset(ts)[t] else 0
    ensures !Catalog.Active(search) && !Catalog.Active(author) ==> r == ts
  {
    var byAuthor := if Catalog.Active(author) then Catalog.Filter(ts, t => AuthorOk(t, author)) else ts;
    Catalog.SubsequenceRefl(ts);
    var r := if Catalog.Active(search) then Catalog.Filter(byAuthor, t => NameOk(t, search)) else byAuthor;
    Catalog.SubsequenceRefl(byAuthor);
    Catalog.SubsequenceTransitive(r, byAuthor, ts);
    assert forall t :: multiset(byAuthor)[t] == if AuthorOk(t, author) then multiset(ts)[t] else 0;
    assert forall t :: multiset(r)[t] == if NameOk(t, search) then multiset(byAuthor)[t] else 0;
    r
  }

  /** Adding an author filter never shows more themes. */
  lemma AuthorNarrows(ts: seq<Theme>, search: Option<string>, author: string)
    ensures forall t :: t in FilterThemes(ts, search, Some(author)) ==> t in FilterThemes(ts, search, None)
  {
  }

  // ---------------------------------------------------------------------------
  // Link escaping
  // ---------------------------------------------------------------------------

  /** `text.replace(/c/g, '\\c')` for one character. */
  function EscapeChar(s: string, c: char): (r: string)
    ensures |r| >= |s|
  {
    if |s| == 0 then ""
    else if s[0] == c then ['\\', c] + EscapeChar(s[1..], c)
    else [s[0]] + EscapeChar(s[1..], c)
  }

  lemma {:induction false} EscapeCharAppend(a: string, b: string, c: char)
    ensures EscapeChar(a + b, c) == EscapeChar(a, c) + EscapeChar(b, c)
    decreases |a|
  {
    if |a| > 0 {
      assert (a + b)[1..] == a[1..] + b;
      EscapeCharAppend(a[1..], b, c);
    } else {
      assert a + b == b;
    }
  }

  const LinkSpecials: set<char> := {'[', ']'}

  /** `escapeMarkdownLink`: all `[` are escaped, then all `]`. */
  function EscapeMarkdownLink(s: string): (r: string)
    ensures Catalog.Unescape(r, LinkSpecials) == s
  {
    LinkEscapeIsEscape(s);
    Catalog.EscapeRoundTrip(s, LinkSpecials);
    EscapeChar(EscapeChar(s, '['), ']')
  }

  /** The two passes escape exactly the brackets and nothing else. */
  lemma {:induction false} LinkEscapeIsEscape(s: string)
    ensures EscapeChar(EscapeChar(s, '['), ']') == Catalog.Escape(s, LinkSpecials)
    decreases |s|
  {
    if |s| > 0 {
      LinkEscapeIsEscape(s[1..]);
      var head := if s[0] == '[' then ['\\', '['] else [s[0]];
      assert EscapeChar(s, '[') == head + EscapeChar(s[1..], '[');
      EscapeCharAppend(head, EscapeChar(s[1..], '['), ']');
      if s[0] == '[' {
        assert EscapeChar(head, ']') == ['\\'] + EscapeChar(['['], ']');
        assert EscapeChar(['['], ']') == ['['];
      } else if s[0] == ']' {
        assert EscapeChar(head, ']') == ['\\', ']'];
      } else {
        assert EscapeChar(head, ']') == head;
      }
    }
  }

  // ---------------------------------------------------------------------------
  // URL matching
  // ---------------------------------------------------------------------------

  predicate StartsWith(s: string, p: string) {
    p <= s
  }

  /** `.replace(/^https?:\/\//, '')`. */
  function StripScheme(s: string): (r: string)
    ensures StartsWith(s, "https://") ==> r == s[8..]
    ensures StartsWith(s, "http://") ==> r == s[7..]
    ensures !StartsWith(s, "https://") && !StartsWith(s, "http://") ==> r == s
  {
    if StartsWith(s, "https://") then
      assert s[4] == 's';
      assert !StartsWith(s, "http://") by { assert "http://"[4] == ':'; }
      s[8..]
    else if StartsWith(s, "http://") then s[7..]
    else s
  }

  /** `.replace(/\/$/, '')`: one trailing slash at most. */
  function StripSlash(s: string): (r: string)
    ensures |s| > 0 && s[|s| - 1] == '/' ==> r == s[..|s| - 1]
    ensures !(|s| > 0 && s[|s| - 1] == '/') ==> r == s
  {
    if |s| > 0 && s[|s| - 1] == '/' then s[..|s| - 1] else s
  }

  /** The case and scheme step of `normalizeUrlForMatching`. */
  function MatchKey(url: string): (k: string)
    ensures forall i :: 0 <= i < |k| ==> !IsUpper(k[i])
  {
    var r := StripSlash(StripScheme(LowerStr(url)));
    assert forall i :: 0 <= i < |r| ==> r[i] in LowerStr(url);
    r
  }

  /** Upper- and lower-case spellings of a URL match. */
  lemma MatchKeyIgnoresCase(url: string)
    ensures MatchKey(LowerStr(url)) == MatchKey(url)
  {
    LowerStrIdempotent(url);
  }

  lemma LowerAppend(a: string, b: string)
    ensures LowerStr(a + b) == LowerStr(a) + LowerStr(b)
  {
    assert forall i :: 0 <= i < |a + b| ==> LowerStr(a + b)[i] == (LowerStr(a) + LowerStr(b))[i];
  }

  lemma HttpsStripped(rest: string)
    ensures StripScheme(LowerStr("https://" + rest)) == LowerStr(rest)
  {
    LowerAppend("https://", rest);
    LowerOfLowercase("https://");
    SchemeOff("https://" + LowerStr(rest), LowerStr(rest));
  }

  lemma SchemeOff(s: string, rest: string)
    requires s == "https://" + rest
    ensures StripScheme(s) == rest
  {
    assert s[..8] == "https://";
    assert s[8..] == rest;
  }

  lemma HttpStripped(rest: string)
    ensures StripScheme(LowerStr("http://" + rest)) == LowerStr(rest)
  {
    LowerAppend("http://", rest);
    LowerOfLowercase("http://");
    var s := "http://" + LowerStr(rest);
    assert s[..7] == "http://";
    assert s[4] == ':';
    assert s[7..] == LowerStr(rest);
  }

  /** The same address behind `http://` and `https://` matches. */
  lemma MatchKeyIgnoresScheme(rest: string)
    ensures MatchKey("https://" + rest) == MatchKey("http://" + rest)
  {
    HttpsStripped(rest);
    HttpStripped(rest);
  }

  /** One trailing slash after the address does not matter. */
  lemma MatchKeyIgnoresTrailingSlash(rest: string)
    requires |rest| == 0 || rest[|rest| - 1] != '/'
    ensures MatchKey("https://" + rest + "/") == MatchKey("https://" + rest)
  {
    assert "https://" + rest + "/" == "https://" + (rest + "/");
    HttpsKey(rest + "/");
    HttpsKey(rest);
    LowerSlash(rest);
    SlashStripped(LowerStr(rest));
  }

  lemma HttpsKey(rest: string)
    ensures MatchKey("https://" + rest) == StripSlash(LowerStr(rest))
  {
    HttpsStripped(rest);
  }

  /** Lowering keeps a trailing slash and does not make one. */
  lemma LowerSlash(rest: string)
    requires |rest| == 0 || rest[|rest| - 1] != '/'
    ensures LowerStr(rest + "/") == LowerStr(rest) + "/"
    ensures |LowerStr(rest)| == 0 || LowerStr(rest)[|LowerStr(rest)| - 1] != '/'
  {
    LowerAppend(rest, "/");
    LowerOfLowercase("/");
  }

  lemma SlashStripped(t: string)
    requires |t| == 0 || t[|t| - 1] != '/'
    ensures StripSlash(t + "/") == t && StripSlash(t) == t
  {
    assert (t + "/")[..|t|] == t;
  }

  // ---------------------------------------------------------------------------
  // Buttons and paging
  // ---------------------------------------------------------------------------

  /** `handleButton` after the filters are decoded. */
  function HandleButton(all: seq<Theme>, action: string, pageField: string,
                        search: Option<string>, author: Option<string>): (v: Catalog.PageView<Theme>)
    ensures v == Catalog.ViewPage(FilterThemes(all, search, author), Catalog.Step(action, Catalog.PageOf(pageField)))
    ensures v.Show? && v.page.Num? ==> 1 <= |v.items| <= Catalog.PerPage
    ensures v.Show? && v.page.Num? ==> forall t :: t in v.items ==> t in all && AuthorOk(t, author) && NameOk(t, search)
  {
    var filtered := FilterThemes(all, search, author);
    var page := Catalog.Step(action, Catalog.PageOf(pageField));
    Catalog.ShownFromList(filtered, page);
    Catalog.ViewPage(filtered, page)
  }

  // ---------------------------------------------------------------------------
  // Authors
  // ---------------------------------------------------------------------------

  predicate KnownAuthor(t: Theme) {
    t.author != "" && t.author != "Unknown"
  }

  function KnownAuthorNames(ts: seq<Theme>): (ns: seq<string>)
    ensures forall n :: n in ns <==> exists t :: t in ts && KnownAuthor(t) && n == Trim(t.author)
    decreases |ts|
  {
    if |ts| == 0 then []
    else
      var rest := KnownAuthorNames(ts[1..]);
      forall n ensures n in rest <==> exists t :: t in ts[1..] && KnownAuthor(t) && n == Trim(t.author) {
      }
      assert forall t :: t in ts <==> t == ts[0] || t in ts[1..];
      (if KnownAuthor(ts[0]) then [Trim(ts[0].author)] else []) + rest
  }

  /** `getUniqueAuthors`: the trimmed known authors, each once, sorted. */
  function UniqueAuthors(ts: seq<Theme>): (r: seq<string>)
    ensures Catalog.StrictlySorted(r)
    ensures forall n :: n in r <==> exists t :: t in ts && KnownAuthor(t) && n == Trim(t.author)
  {
    Catalog.SortedDistinct(KnownAuthorNames(ts))
  }
}

=== FILE: utf8.dfy ===
/** UTF-8, as `Buffer.from(str)` produces it and `toString('utf8')` reads
    it back, for the Unicode scalar values that make up a string. */
module Utf8 {
  import opened Wrappers
  import Base64

  type byte = Base64.byte

  /** The bytes of one character. */
  function EncodeChar(c: char): (r: seq<byte>)
    ensures 1 <= |r| <= 4
  {
    var n := c as int;
    if n < 0x80 then [n]
    else if n < 0x800 then [0xC0 + n / 64, 0x80 + n % 64]
    else if n < 0x10000 then [0xE0 + n / 4096, 0x80 + (n / 64) % 64, 0x80 + n % 64]
    else [0xF0 + n / 262144, 0x80 + (n / 4096) % 64, 0x80 + (n / 64) % 64, 0x80 + n % 64]
  }

  function Encode(s: string): (r: seq<byte>)
    ensures |r| == 0 <==> |s| == 0
  {
    if |s| == 0 then [] else EncodeChar(s[0]) + Encode(s[1..])
  }

  predicate IsScalar(n: int) {
    (0 <= n < 0xD800) || (0xE000 <= n < 0x11_0000)
  }

  predicate IsContinuation(b: byte) {
    0x80 <= b < 0xC0
  }

  /** The number of bytes a lead byte announces, if it is a lead byte. */
  function SequenceLength(b: byte): Option<nat> {
    if b < 0x80 then Some(1)
    else if 0xC0 <= b < 0xE0 then Some(2)
    else if 0xE0 <= b < 0xF0 then Some(3)
    else if 0xF0 <= b < 0xF8 then Some(4)
    else None
  }

  /** The six value bits of a continuation byte. */
  function Payload(b: byte): int {
    b as int - 0x80
  }

  /** The value a well-formed sequence of `k` bytes encodes. */
  function SequenceValue(b: seq<byte>, k: nat): int
    requires 1 <= k <= 4 && k <= |b|
  {
    var lead := b[0] as int;
    if k == 1 then lead
    else if k == 2 then (lead - 0xC0) * 64 + Payload(b[1])
    else if k == 3 then (lead - 0xE0) * 4096 + Payload(b[1]) * 64 + Payload(b[2])
    else (lead - 0xF0) * 262144 + Payload(b[1]) * 4096 + Payload(b[2]) * 64 + Payload(b[3])
  }

  /** The smallest value a sequence of `k` bytes may carry: anything less
      has a shorter form, and the longer "overlong" one is not UTF-8. */
  function MinValue(k: nat): int {
    if k <= 1 then 0 else if k == 2 then 0x80 else if k == 3 then 0x800 else 0x10000
  }

  /** Decoding well-formed input; `None` marks bytes that are not the
      shortest UTF-8 form of scalar values. */
  function Decode(b: seq<byte>): (r: Option<string>)
    decreases |b|
  {
    if |b| == 0 then Some("")
    else match SequenceLength(b[0])
      case None => None
      case Some(k) =>
        if k > |b| || exists j :: 1 <= j < k && !IsContinuation(b[j]) then None
        else
          var n := SequenceValue(b, k);
          if !IsScalar(n) || n < MinValue(k) then None
          else match Decode(b[k..])
            case None => None
            case Some(rest) => Some([n as char] + rest)
  }

  /** `e` is a well-formed sequence, whatever follows it, encoding `n`. */
  predicate ReadsBack(e: seq<byte>, rest: seq<byte>, n: int)
    requires 1 <= |e| <= 4
  {
    && SequenceLength(e[0]) == Some(|e|)
    && (forall j :: 1 <= j < |e| ==> IsContinuation(e[j]))
    && SequenceValue(e + rest, |e|) == n
  }

  lemma DecodeTwo(c: char, rest: seq<byte>)
    requires 0x80 <= c as int < 0x800
    ensures ReadsBack(EncodeChar(c), rest, c as int)
  {
    var n := c as int;
    var b := EncodeChar(c) + rest;
    assert b[0] == 0xC0 + n / 64 && b[1] == 0x80 + n % 64;
    assert (n / 64) * 64 + n % 64 == n;
  }

  lemma DecodeThree(c: char, rest: seq<byte>)
    requires 0x800 <= c as int < 0x10000
    ensures ReadsBack(EncodeChar(c), rest, c as int)
  {
    var n := c as int;
    var b := EncodeChar(c) + rest;
    assert b[0] == 0xE0 + n / 4096 && b[1] == 0x80 + (n / 64) % 64 && b[2] == 0x80 + n % 64;
    assert (n / 4096) * 4096 + ((n / 64) % 64) * 64 + n % 64 == n by {
      assert (n / 64) == (n / 4096) * 64 + (n / 64) % 64;
      assert n == (n / 64) * 64 + n % 64;
    }
  }

  lemma DecodeFour(c: char, rest: seq<byte>)
    requires 0x10000 <= c as int
    ensures ReadsBack(EncodeChar(c), rest, c as int)
  {
    var n := c as int;
    var b := EncodeChar(c) + rest;
    assert b[0] == 0xF0 + n / 262144 && b[1] == 0x80 + (n / 4096) % 64;
    assert b[2] == 0x80 + (n / 64) % 64 && b[3] == 0x80 + n % 64;
    assert (n / 262144) * 262144 + ((n / 4096) % 64) * 4096 + ((n / 64) % 64) * 64 + n % 64 == n by {
      assert (n / 4096) == (n / 262144) * 64 + (n / 4096) % 64;
      assert (n / 64) == (n / 4096) * 64 + (n / 64) % 64;
      assert n == (n / 64) * 64 + n % 64;
    }
  }

  /** One character's bytes decode back to it, whatever follows. */
  lemma DecodeChar(c: char, rest: seq<byte>)
    ensures var e := EncodeChar(c);
      && SequenceLength(e[0]) == Some(|e|)
      && (forall j :: 1 <= j < |e| ==> IsContinuation(e[j]))
      && SequenceValue(e + rest, |e|) == c as int
  {
    var n := c as int;
    if n < 0x80 {
    } else if n < 0x800 {
      DecodeTwo(c, rest);
    } else if n < 0x10000 {
      DecodeThree(c, rest);
    } else {
      DecodeFour(c, rest);
    }
  }

  /** Decoding inverts encoding for every string. */
  lemma {:induction false} DecodeEncode(s: string)
    ensures Decode(Encode(s)) == Some(s)
    decreases |s|
  {
    if |s| > 0 {
      var e := EncodeChar(s[0]);
      var rest := Encode(s[1..]);
      DecodeChar(s[0], rest);
      DecodeEncode(s[1..]);
      var b := e + rest;
      assert Encode(s) == b;
      assert b[0] == e[0];
      assert forall j :: 1 <= j < |e| ==> b[j] == e[j];
      assert b[|e|..] == rest;
      assert IsScalar(s[0] as int) && s[0] as int >= MinValue(|e|);
      assert [s[0]] + s[1..] == s;
    }
  }

  lemma EncodeTwoBytes(b: seq<byte>)
    requires 2 <= |b| && 0xC0 <= b[0] < 0xE0 && IsContinuation(b[1])
    requires SequenceValue(b, 2) >= 0x80
    ensures EncodeChar(SequenceValue(b, 2) as char) == b[..2]
  {
    var n := SequenceValue(b, 2);
    var q, r := b[0] as int - 0xC0, Payload(b[1]);
    assert n == q * 64 + r && 0 <= r < 64;
    assert n / 64 == q && n % 64 == r;
  }

  lemma EncodeThreeBytes(b: seq<byte>)
    requires 3 <= |b| && 0xE0 <= b[0] < 0xF0 && IsContinuation(b[1]) && IsContinuation(b[2])
    requires IsScalar(SequenceValue(b, 3)) && SequenceValue(b, 3) >= 0x800
    ensures EncodeChar(SequenceValue(b, 3) as char) == b[..3]
  {
    var n := SequenceValue(b, 3);
    var q, r1, r0 := b[0] as int - 0xE0, Payload(b[1]), Payload(b[2]);
    var m := q * 64 + r1;
    assert n == m * 64 + r0 && 0 <= r0 < 64;
    assert n / 64 == m && n % 64 == r0;
    assert m / 64 == q && m % 64 == r1;
    assert n / 4096 == q;
  }

  lemma EncodeFourBytes(b: seq<byte>)
    requires 4 <= |b| && 0xF0 <= b[0] < 0xF8
    requires IsContinuation(b[1]) && IsContinuation(b[2]) && IsContinuation(b[3])
    requires IsScalar(SequenceValue(b, 4)) && SequenceValue(b, 4) >= 0x10000
    ensures EncodeChar(SequenceValue(b, 4) as char) == b[..4]
  {
    var n := SequenceValue(b, 4);
    var q, r2, r1, r0 := b[0] as int - 0xF0, Payload(b[1]), Payload(b[2]), Payload(b[3]);
    var m1 := q * 64 + r2;
    var m0 := m1 * 64 + r1;
    assert n == m0 * 64 + r0 && 0 <= r0 < 64;
    assert n / 64 == m0 && n % 64 == r0;
    assert m0 / 64 == m1 && m0 % 64 == r1;
    assert m1 / 64 == q && m1 % 64 == r2;
    assert n / 4096 == m1 by {
      assert n == m1 * 4096 + (r1 * 64 + r0);
    }
    assert n / 262144 == q by {
      assert n == q * 262144 + (r2 * 4096 + r1 * 64 + r0);
    }
  }

  /** A well-formed shortest sequence is what encoding its value gives. */
  lemma EncodeSequence(b: seq<byte>, k: nat)
    requires 1 <= k <= |b| && SequenceLength(b[0]) == Some(k)
    requires forall j :: 1 <= j < k ==> IsContinuation(b[j])
    requires IsScalar(SequenceValue(b, k)) && SequenceValue(b, k) >= MinValue(k)
    ensures EncodeChar(SequenceValue(b, k) as char) == b[..k]
  {
    if k == 2 {
      EncodeTwoBytes(b);
    } else if k == 3 {
      EncodeThreeBytes(b);
    } else if k == 4 {
      EncodeFourBytes(b);
    }
  }

  /** What a successful decode of non-empty bytes is made of. */
  lemma DecodeSome(b: seq<byte>)
    requires |b| > 0 && Decode(b).Some?
    ensures SequenceLength(b[0]).Some?
    ensures var k := SequenceLength(b[0]).value;
      && 1 <= k <= |b|
      && (forall j :: 1 <= j < k ==> IsContinuation(b[j]))
      && IsScalar(SequenceValue(b, k)) && SequenceValue(b, k) >= MinValue(k)
      && Decode(b[k..]).Some?
      && Decode(b).value == [SequenceValue(b, k) as char] + Decode(b[k..]).value
  {
  }

  /** Decoding only accepts what encoding produces: the bytes that decode
      to `s` are exactly `Encode(s)`. */
  lemma {:induction false} EncodeDecode(b: seq<byte>)
    ensures Decode(b).Some? ==> Encode(Decode(b).value) == b
    decreases |b|
  {
    if |b| > 0 && Decode(b).Some? {
      DecodeSome(b);
      var k := SequenceLength(b[0]).value;
      var n := SequenceValue(b, k);
      EncodeSequence(b, k);
      EncodeDecode(b[k..]);
      var s := Decode(b).value;
      var tail := Decode(b[k..]).value;
      assert s[0] == n as char && s[1..] == tail;
      assert Encode(s) == EncodeChar(n as char) + Encode(tail);
      assert b == b[..k] + b[k..];
    }
  }

  /** An overlong form is refused: `C0 AF` would otherwise read as `/`. */
  lemma OverlongRefused()
    ensures Decode([0xC0, 0xAF]) == None
    ensures Decode([0xE0, 0x80, 0xAF]) == None
  {
  }

  // ---------------------------------------------------------------------------
  // Text filters in custom ids
  // ---------------------------------------------------------------------------

  /** A filter as the button handlers read it back. */
  datatype TextFilter = NoText | Text(value: string) | Garbled

  /** `encodeFilter(str || '')` on text. */
  function EncodeText(s: string): (e: string)
    ensures e == "" <==> s == ""
    ensures '_' !in e && '=' !in e
  {
    Base64.EncodeFilter(Encode(s))
  }

  /** `decodeFilter` on text. */
  function DecodeText(e: string): (r: TextFilter)
    ensures r == NoText <==> e == ""
  {
    match Base64.DecodeFilter(e)
    case NoFilter => NoText
    case Undecodable => Garbled
    case Filter(b) => (match Decode(b) case Some(s) => Text(s) case None => Garbled)
  }

  /** Every search or author text survives the trip through a button id;
      the empty one comes back as no filter. */
  lemma TextRoundTrip(s: string)
    ensures DecodeText(EncodeText(s)) == (if s == "" then NoText else Text(s))
  {
    Base64.FilterRoundTrip(Encode(s));
    DecodeEncode(s);
  }
}

=== FILE: wrappers.dfy ===
/** Failure-compatible wrappers used across the model: `Option` stands for a
    JavaScript value that may be `null`/`undefined`. */
module Wrappers {

  datatype Option<+T> = None | Some(value: T) {

    /** Returns the value in Some, or `default` when None (JavaScript's `??`). */
    function GetOr(default: T): T {
      match this
      case Some(v) => v
      case None => default
    }
  }
}
